=== FILE: README.md ===
# GameNewt core, modelled in Dafny

GameNewt is a C# rollback-netcode framework. A server collects every client's input for each
frame. It broadcasts the authoritative input and lets every client predict ahead and roll back.
Beneath the sockets, tasks and timers lies a large body of sequential, deterministic code.
This project models that code as pure Dafny functions over immutable data and proves what the
code promises:

- **Binary encoding and buffers.** `Bits` provides the little-endian `int`/`long` encodings and
  their flag-prefixed nullable forms. `PooledBufferWriter` is a growable write buffer, and its
  extension methods append encoded integers.
- **Frame-indexed queues.**
  - Both revisions of `IndexedQueue`, and `LocalInputQueue`.
  - `ClientInputQueue`, which builds the authoritative input frame on each server tick.
  - `UpdateInputQueue`, which hands out server inputs without skipping a frame.
  - `PacketAggregator`, which packs recent inputs redundantly into each packet.
  - The prototype `PredictQueue`.
- **Wire framing of the default dispatcher protocol.**
  - The server's message handling and its input-record parser.
  - The header layouts of the server's messages.
  - Both revisions of the client dispatcher's message handling and input framing.
- **Rollback bookkeeping.** `ReplacementCoordinator`, `ReplacementReceiver` (two revisions each),
  `UpdateInputPredictor` (two revisions) and `StateHolder`.
- **Integer numerics.**
  - `Fixed`: 32.32 fixed point over a wrapping 64-bit raw value.
  - `Vec2`.
  - The xoshiro256** `Random`, with Lemire's bounded sampling, `Shuffle` and `GetItems`.
  - `MinimumWindowed`, `MovingAverage`, `Result` and `Pool`.
- **Pure predicates.** The tester's sequence checks, and the file and directory filters of
  `size.py`.
- **Game rules.** The `Update` functions of the example games:
  - Basic and Advanced flag placing;
  - Game of Life, and the console game on the same kind of grid;
  - the top-down shooter, with its position history and hit test;
  - the four input-logging tester games.

Every C# class becomes an immutable datatype. Every method becomes a function that returns the
new state, or an `Outcome` when the method can throw. Integer widths are explicit where they
matter. `Wrap32` and `Wrap64` give the value an unchecked C# operation produces.

The project is one module per source component. All `.dfy` files verify together:

    dafny verify *.dfy

## Model

| member | source | states |
|---|---|---|
| Bits.Encode | src/Useful/Bits.cs:21-22 | the n bytes of a write; byte i is `(v >> 8i) & 0xFF`, and there are exactly n of them |
| Bits.LeValue | src/Useful/Bits.cs:106-111 | the OR of `b[i] << 8i` over the bytes read; it lies below 256^n |
| Bits.WriteLe | src/Useful/Bits.cs:16-38 | Write(int)/Write(long) throw ArgumentException exactly when the span is shorter than the width; otherwise only the first n bytes change |
| Bits.ReadLe | src/Useful/Bits.cs:101-135 | ReadInt/ReadLong throw ArgumentException exactly when the span is too short; otherwise the result is a signed n-byte value |
| Bits.ReadInt | src/Useful/Bits.cs:101-112 | the value read is an `int` |
| Bits.ReadLong | src/Useful/Bits.cs:124-135 | the value read is a `long` |
| Bits.WriteNullableLong | src/Useful/Bits.cs:80-90 | throws exactly on spans shorter than NullableLongSize = 9; the flag byte is 0 iff the value is null; null clears exactly 9 bytes, and bytes past the ninth are unchanged |
| Bits.WriteNullableInt | src/Useful/Bits.cs:43-64 | as written: null needs NullableIntSize = 9 bytes while a value needs 5; the flag byte is 0 iff null |
| Bits.WriteNullableIntCorrected | src/Useful/Bits.cs:48-64 | with the documented 5-byte size: throws exactly on spans shorter than 5, and bytes past the fifth are unchanged |
| Bits.ReadNullableInt | src/Useful/Bits.cs:147-156 | throws exactly on spans shorter than 5; null iff the flag byte is 0; otherwise an `int` |
| Bits.ReadNullableLong | src/Useful/Bits.cs:168-177 | throws exactly on spans shorter than 9; null iff the flag byte is 0; otherwise a `long` |
| Bits.EncodeTail | src/Useful/Bits.cs:21-22 | byte 0 is `v mod 256`, and the remaining bytes encode `v >> 8` |
| Bits.LeValueEncode | src/Useful/Bits.cs:21-111 | reading n encoded bytes gives `v mod 256^n` |
| Bits.EncodeLeValue | src/Useful/Bits.cs:21-111 | encoding the value of n bytes gives the same bytes back |
| Bits.EncodePeriodic | src/Useful/Bits.cs:21-22 | an n-byte encoding depends only on `v mod 256^n` |
| Bits.ReadLeWriteLe | src/Useful/Bits.cs:16-135 | reading back a written signed n-byte value returns it |
| Bits.WriteLeReadLe | src/Useful/Bits.cs:16-135 | writing back the value read leaves the span unchanged |
| Bits.ReadIntWriteInt | src/Useful/Bits.cs:16-112 | ReadInt(Write(int v)) == v on every span of at least 4 bytes, whatever its extra bytes hold |
| Bits.WriteIntReadInt | src/Useful/Bits.cs:16-112 | Write(ReadInt(s)) reproduces s |
| Bits.ReadLongWriteLong | src/Useful/Bits.cs:31-135 | ReadLong(Write(long v)) == v on every span of at least 8 bytes |
| Bits.WriteLongReadLong | src/Useful/Bits.cs:31-135 | Write(ReadLong(s)) reproduces s |
| Bits.ReadNullableLongWrite | src/Useful/Bits.cs:80-177 | ReadNullableLong inverts Write(long?), null included |
| Bits.ReadNullableIntWrite | src/Useful/Bits.cs:54-156 | ReadNullableInt inverts Write(int?) on every span the as-written null write accepts |
| Bits.NullableIntNullWriteTooWide | src/Useful/Bits.cs:43-58 | on a 5-byte span, ReadNullableInt and a non-null write succeed, but a null write throws |
| Bits.ReadNullableIntWriteCorrected | src/Useful/Bits.cs:137-156 | with the 5-byte size, ReadNullableInt inverts Write(int?) on every span of at least 5 bytes |
| BufferWriter.Rent | src/Useful/PooledBufferWriter.cs:20-136 | a rented array has at least the requested length; a negative length throws |
| BufferWriter.RoundUpFrom | src/Useful/PooledBufferWriter.cs:109-110 | the search for a power of two ends at one that is at least x and below 2x |
| BufferWriter.RoundUpToPowerOf2 | src/Useful/PooledBufferWriter.cs:109-110 | RoundUpToPowerOf2(x) is a power of two with x <= r < 2x |
| BufferWriter.New | src/Useful/PooledBufferWriter.cs:18-21 | a new writer has written nothing and holds at least the initial capacity; a negative capacity throws |
| BufferWriter.Reset | src/Useful/PooledBufferWriter.cs:36-39 | the written length becomes 0 and the array (so the capacity) is kept |
| BufferWriter.Extract | src/Useful/PooledBufferWriter.cs:26-34 | returns exactly the written prefix and leaves an empty writer on a zero-length array |
| BufferWriter.ExtractAndReplace | src/Useful/PooledBufferWriter.cs:41-49 | returns exactly the written prefix and leaves an empty writer whose capacity is at least the old length + 1 |
| BufferWriter.Empty | src/Useful/PooledBufferWriter.cs:51-59 | the array becomes empty and the index is kept |
| BufferWriter.Advance | src/Useful/PooledBufferWriter.cs:61-72 | throws ArgumentOutOfRangeException for a negative count and ArgumentException past the free space; otherwise the written length grows by exactly count and the array is kept |
| BufferWriter.Resize | src/Useful/PooledBufferWriter.cs:115-144 | the new array has at least the requested size and starts with min(old length, new size) of the old elements |
| BufferWriter.ResizeTarget | src/Useful/PooledBufferWriter.cs:100-113 | the requested size covers index + hint, and equals it up to the 1024*1024 threshold; a sum past int.MaxValue wraps to a negative size |
| BufferWriter.EnsureCapacity | src/Useful/PooledBufferWriter.cs:86-113 | a negative hint throws; with enough room the writer is unchanged; a resize whose size wraps past int.MaxValue throws ArgumentOutOfRangeException; otherwise the free space is at least max(hint, 1), the index is kept and the written prefix is preserved |
| BufferWriter.GetSpan | src/Useful/PooledBufferWriter.cs:74-84 | the returned span is the free tail of the buffer, of length at least max(hint, 1); it throws exactly when EnsureCapacity does, so for a negative hint; the written prefix is preserved |
| BufferWriter.FillSpan | src/Useful/PooledBufferWriter.cs:80-84 | writing into the span changes only the free tail |
| BufferWriter.WriteThenAdvanceAppends | src/Useful/PooledBufferWriter.cs:61-84 | filling the span and advancing by count appends exactly the first count bytes of the span |
| BufferWriter.ResizeKeepsWritten | src/Useful/PooledBufferWriter.cs:100-144 | growing the buffer preserves every written element |
| WriterExtensions.WriteInt | src/Core/Utility/PooledBufferWriterExtensions.cs:22-28 | appends exactly the 4 bytes of Bits' Write(int) and keeps the earlier bytes; the appended bytes read back as the value; growth past int.MaxValue throws |
| WriterExtensions.WriteLong | src/Core/Utility/PooledBufferWriterExtensions.cs:30-36 | appends exactly 8 bytes that ReadLong decodes back to the value, keeping the earlier bytes; growth past int.MaxValue throws |
| WriterExtensions.WriteNullableLong | src/Core/Utility/PooledBufferWriterExtensions.cs:38-44 | appends exactly NullableLongSize bytes that ReadNullableLong decodes back to the value, keeping the earlier bytes; growth past int.MaxValue throws |
| WriterExtensions.ReadNullableLongHead | src/Useful/Bits.cs:168-177 | ReadNullableLong only looks at the first 9 bytes |
| WriterExtensions.Ignore | src/Core/Utility/PooledBufferWriterExtensions.cs:46-50 | a negative amount throws, and so does growth past int.MaxValue; otherwise the written length grows by exactly the amount and earlier bytes are kept |
| IndexedQueue.Queue.IsEmpty | src/GameNewt/DataStructures/IndexedQueue.cs:17-99 | Empty (first > last) holds iff no index is contained |
| IndexedQueue.Queue.Create | src/GameNewt/DataStructures/IndexedQueue.cs:14-99 | a fresh queue has first = 0 and last = -1, is empty, and its NextIndex is 0 |
| IndexedQueue.Get | src/GameNewt/DataStructures/IndexedQueue.cs:17-33 | the indexer succeeds iff first <= i <= last and then returns the stored element; otherwise it throws IndexOutOfRangeException |
| IndexedQueue.TryGet | src/GameNewt/DataStructures/IndexedQueue.cs:41-51 | TryGet succeeds exactly when the indexer does, with the same element |
| IndexedQueue.GetOrNull | src/Core/DataStructures/IndexedQueue.cs:22-30 | the earlier revision's indexer returns the stored element iff first <= i <= last, and null otherwise |
| IndexedQueue.Add | src/GameNewt/DataStructures/IndexedQueue.cs:57-94 | returns the previous NextIndex, which becomes last; the element is readable there unless that index was already popped; nothing else changes |
| IndexedQueue.Set | src/GameNewt/DataStructures/IndexedQueue.cs:71-76 | the queue is empty with first = frame, so the next Add returns frame |
| IndexedQueue.Pop | src/GameNewt/DataStructures/IndexedQueue.cs:82-89 | first becomes max(first, frame + 1); indices up to frame read null and larger ones keep their elements |
| IndexedQueue.First | src/GameNewt/DataStructures/IndexedQueue.cs:111-114 | First throws exactly on an empty queue, although it is documented as null |
| IndexedQueue.Last | src/GameNewt/DataStructures/IndexedQueue.cs:116-119 | Last throws exactly on an empty queue, although it is documented as null |
| IndexedQueue.FirstOrNull | src/Core/DataStructures/IndexedQueue.cs:75-78 | the earlier revision's First is null exactly on an empty queue |
| IndexedQueue.LastOrNull | src/Core/DataStructures/IndexedQueue.cs:80-83 | the earlier revision's Last is null exactly on an empty queue |
| IndexedQueue.AddAllAfterSet | src/Core/DataStructures/IndexedQueue.cs:36-55 | after Set(s), the k-th added element is readable at s + k and nothing outside [s, s + count) is readable |
| IndexedQueue.AddAllKeeps | src/Core/DataStructures/IndexedQueue.cs:36-44 | adding never changes an index up to the current last |
| IndexedQueue.AddAllAfterSetFrom | src/Core/DataStructures/IndexedQueue.cs:36-44 | adds onto a queue that is contiguous from s go to consecutive indices from NextIndex on |
| LocalInputQueue.Queue.Create | src/Core/DataStructures/LocalInputQueue.cs:48-49 | a new queue has firstFrame = 0 and lastFrame = -1 |
| LocalInputQueue.Get | src/Core/DataStructures/LocalInputQueue.cs:52-65 | the indexer returns the stored input iff firstFrame <= frame <= lastFrame, and null otherwise |
| LocalInputQueue.Add | src/Core/DataStructures/LocalInputQueue.cs:68-82 | a frame up to lastFrame is ignored; anything but lastFrame + 1 throws ArgumentOutOfRangeException; the next frame is stored and becomes lastFrame, and every other frame reads as before |
| LocalInputQueue.Pop | src/Core/DataStructures/LocalInputQueue.cs:97-107 | firstFrame moves past the frame; every stored frame up to it is removed and every other entry is kept |
| LocalInputQueue.Set | src/Core/DataStructures/LocalInputQueue.cs:85-95 | pops up to the frame; afterwards lastFrame >= frame, so frames up to it read null |
| LocalInputQueue.SetSkipsEarlierFrames | src/Core/DataStructures/LocalInputQueue.cs:26-95 | after Set(f), adding any frame up to f changes nothing |
| LocalInputQueue.SetThenAddNext | src/Core/DataStructures/LocalInputQueue.cs:68-95 | after Set(f), adding frame f + 1 succeeds and the input reads back |
| ClientInputQueue.Queue.Create | src/Core/DataStructures/ClientInputQueue.cs:68-83 | a new queue has Frame = -1, no clients and no removed clients |
| ClientInputQueue.Without | src/Core/DataStructures/ClientInputQueue.cs:108 | removing an id from the enumeration order keeps every other id, in order |
| ClientInputQueue.WithoutKeepsDistinct | src/Core/DataStructures/ClientInputQueue.cs:108 | the remaining ids are still listed once each |
| ClientInputQueue.AddClient | src/Core/DataStructures/ClientInputQueue.cs:88-100 | throws ArgumentException iff the id is present; otherwise the id gets an empty input dictionary and nothing else changes |
| ClientInputQueue.RemoveClient | src/Core/DataStructures/ClientInputQueue.cs:103-118 | throws ArgumentException iff the id is absent; otherwise its inputs are dropped and it is appended to the removed list |
| ClientInputQueue.AddInput | src/Core/DataStructures/ClientInputQueue.cs:121-145 | late frames (frame <= Frame), unknown ids and repeated (id, frame) pairs leave the queue unchanged; otherwise the input is stored for that id and frame |
| ClientInputQueue.ActiveEntries | src/Core/DataStructures/ClientInputQueue.cs:59-166 | entry k carries client k's id, its stored input for the frame or the default input, and Terminated = false |
| ClientInputQueue.RemovedEntriesAsWritten | src/Core/DataStructures/ClientInputQueue.cs:168-169 | as written the removed-clients loop writes every removed client to one slot: the first slot holds the last removed client, terminated with the default input, and the remaining slots are never written |
| ClientInputQueue.RemovedEntries | src/Core/DataStructures/ClientInputQueue.cs:168-169 | with the index advanced, removed client j gets its own terminated entry carrying the default input |
| ClientInputQueue.Advanced | src/Core/DataStructures/ClientInputQueue.cs:63-172 | after construction Frame is one higher, the removed list is empty, and every client loses exactly its input for the new frame |
| ClientInputQueue.ConstructAuthoritativeFrameAsWritten | src/Core/DataStructures/ClientInputQueue.cs:148-178 | as written: the same state as the corrected construction and the same entries for connected clients, but after them only the last removed client appears, and the slots of the others are never written |
| ClientInputQueue.AsWrittenAgreesIffOneRemoval | src/Core/DataStructures/ClientInputQueue.cs:148-178 | the as-written frame equals the corrected one exactly when at most one client was removed since the previous frame |
| ClientInputQueue.ConstructAuthoritativeFrame | src/Core/DataStructures/ClientInputQueue.cs:148-178 | corrected: the frame has length active + removed; each connected client gets its input for Frame + 1 (then deleted) or the default; each removed client appears once with Terminated = true; Frame grows by one and the removed list is cleared |
| ClientInputQueue.SecondRemovedClientOverwritesFirst | src/Core/DataStructures/ClientInputQueue.cs:160-169 | with clients 5 and 6 removed in one tick, the as-written frame reports only 6 and leaves the other slot unwritten |
| ClientInputQueue.AddedInputReachesFrame | src/Core/DataStructures/ClientInputQueue.cs:121-166 | an input added for the next frame of a connected client is exactly what that client's entry carries |
| ClientInputQueue.LateInputIgnored | src/Core/DataStructures/ClientInputQueue.cs:125-129 | an input for a frame already constructed changes nothing |
| UpdateInputQueue.MinOf | src/Core/DataStructures/UpdateInputQueue.cs:53-138 | the frame a priority-queue peek finds is the smallest held frame |
| UpdateInputQueue.PeekIsCurrent | src/Core/DataStructures/UpdateInputQueue.cs:80-138 | since nothing below the current frame is held, the peek finds the current frame exactly when its input is held |
| UpdateInputQueue.Queue.Create | src/Core/DataStructures/UpdateInputQueue.cs:51-61 | CurrentFrame starts at 0 with nothing held, not stopped and not waiting |
| UpdateInputQueue.Wake | src/Core/DataStructures/UpdateInputQueue.cs:87-110 | TrySetResult only completes a wait that is in progress |
| UpdateInputQueue.Discard | src/Core/DataStructures/UpdateInputQueue.cs:80-84 | exactly the held frames below the value are dropped |
| UpdateInputQueue.SetCurrentFrameAsWritten | src/Core/DataStructures/UpdateInputQueue.cs:73-89 | as written, setting CurrentFrame drops every held input below the new value and keeps the rest unchanged; a pending wait is woken when the input for the new frame is held, and also when the new value is 0 and no input at or after frame 0 is held |
| UpdateInputQueue.SettersDifferOnlyOnEmptyZero | src/Core/DataStructures/UpdateInputQueue.cs:73-89 | the as-written and intended setters differ exactly when a wait is pending, the new value is 0 and no input at or after frame 0 is held |
| UpdateInputQueue.SetCurrentFrame | src/Core/DataStructures/UpdateInputQueue.cs:19-89 | the new value becomes CurrentFrame, every held input below it is dropped and the rest are kept; a pending wait is woken exactly when the input for the new frame is held |
| UpdateInputQueue.AddInput | src/Core/DataStructures/UpdateInputQueue.cs:27-112 | ignored after Stop and for frames below CurrentFrame; a frame already held keeps its first input; a waiter is woken only by the input for the current frame |
| UpdateInputQueue.Stop | src/Core/DataStructures/UpdateInputQueue.cs:115-122 | the queue is stopped and the held inputs and CurrentFrame are kept |
| UpdateInputQueue.TryTake | src/Core/DataStructures/UpdateInputQueue.cs:125-147 | after Stop it throws OperationCanceledException and during a wait InvalidOperationException; it yields the input at exactly CurrentFrame, removes it and increments CurrentFrame; otherwise it starts waiting |
| UpdateInputQueue.Resume | src/Core/DataStructures/UpdateInputQueue.cs:149-161 | a woken wait throws after Stop; otherwise it takes the input for CurrentFrame and increments it; from an empty queue the dequeue throws InvalidOperationException |
| UpdateInputQueue.SetCurrentFrameZeroWakesOnEmptyQueue | src/Core/DataStructures/UpdateInputQueue.cs:78-160 | a wait on an empty queue woken by setting CurrentFrame = 0 dequeues from an empty priority queue and throws |
| UpdateInputQueue.SetCurrentFrameWakeFindsInput | src/Core/DataStructures/UpdateInputQueue.cs:73-161 | with the intended wake-up, a wait woken by the setter receives the input for the new frame, and CurrentFrame moves past it |
| UpdateInputQueue.AddInputWakeDeliversInput | src/Core/DataStructures/UpdateInputQueue.cs:93-161 | a wait woken by adding the current frame's input receives that input |
| UpdateInputQueue.TakesAreConsecutive | src/Core/DataStructures/UpdateInputQueue.cs:7-143 | two takes yield the inputs of CurrentFrame and CurrentFrame + 1, so no index is skipped |
| PacketAggregator.Concat | src/IPTransportLayer/Dispatcher/PacketAggregator.cs:44-48 | the queued packets laid end to end, oldest first; the length is their total length |
| PacketAggregator.TotalLengthAppend | src/IPTransportLayer/Dispatcher/PacketAggregator.cs:58-59 | enqueuing a packet adds its length to the total and its bytes to the end of the concatenation |
| PacketAggregator.Create | src/IPTransportLayer/Dispatcher/PacketAggregator.cs:21-26 | a new aggregator is empty with sum_ = 0 and oldestFrame_ = long.MinValue |
| PacketAggregator.Add | src/IPTransportLayer/Dispatcher/PacketAggregator.cs:53-60 | the packet is enqueued and sum_ stays the total length; the first packet of an empty aggregator fixes the oldest frame |
| PacketAggregator.Dequeue | src/IPTransportLayer/Dispatcher/PacketAggregator.cs:82-90 | the oldest packet goes, sum_ drops by its length and the oldest frame advances by one |
| PacketAggregator.Pop | src/IPTransportLayer/Dispatcher/PacketAggregator.cs:96-100 | drops a prefix of the packets, advancing the oldest frame by one per dropped packet, until the queue is empty or the oldest frame is past the argument; nothing changes if it already is |
| PacketAggregator.Trim | src/IPTransportLayer/Dispatcher/PacketAggregator.cs:33-39 | drops the oldest packets while header + sum_ exceeds maxSize and more than one packet is queued; the newest always stays |
| PacketAggregator.Build | src/IPTransportLayer/Dispatcher/PacketAggregator.cs:41-48 | the aggregate has length header + sum_ and, after the header, the queued packets concatenated oldest first |
| PacketAggregator.ConstructAggregate | src/IPTransportLayer/Dispatcher/PacketAggregator.cs:28-51 | a negative header throws ArgumentOutOfRangeException; otherwise a prefix of old packets is dropped, the result is header + sum_ long, fits maxSize unless only one packet is left, and carries the kept packets oldest first |
| PacketAggregator.AddAndConstruct | src/IPTransportLayer/Dispatcher/PacketAggregator.cs:28-80 | the new packet is always kept (so maxSize may be exceeded); the result is header + sum_ long with the kept packets after the header; nothing is dropped when everything fits; the kept packets are a suffix of the old ones plus the new one |
| PacketAggregator.SuffixEndsWith | src/IPTransportLayer/Dispatcher/PacketAggregator.cs:74 | a kept suffix ends with the newest packet |
| PacketAggregator.Payload | src/DefaultTransportTests/PacketAggregatorTests.cs:39 | the test's packet for frame i is 8 bytes long |
| PacketAggregator.Window | src/DefaultTransportTests/PacketAggregatorTests.cs:41-45 | the packets of frames lo..hi, one per frame |
| PacketAggregator.TotalLengthBound | src/IPTransportLayer/Dispatcher/PacketAggregator.cs:59 | packets of equal size add up to size times count |
| PacketAggregator.WindowTail | src/DefaultTransportTests/PacketAggregatorTests.cs:41-45 | dropping the oldest packet of a window leaves the window from the next frame |
| PacketAggregator.WindowSnoc | src/DefaultTransportTests/PacketAggregatorTests.cs:41-45 | appending the next frame's packet extends the window by one frame |
| PacketAggregator.PopWindow | src/IPTransportLayer/Dispatcher/PacketAggregator.cs:82-100 | popping up to a frame a window whose oldest frame is lo leaves the window from max(lo, frame + 1) |
| PacketAggregator.WindowLength | src/DefaultTransportTests/PacketAggregatorTests.cs:41-45 | a window carries 8 bytes per frame |
| PacketAggregator.AddAndConstructFits | src/IPTransportLayer/Dispatcher/PacketAggregator.cs:33-80 | with no header and room for the new packet, nothing is dropped and every queued packet is sent |
| PacketAggregator.PopBeforeRound | src/DefaultTransportTests/PacketAggregatorTests.cs:38 | before round i, popping up to i - offset leaves frames max(i + 1 - offset, 0)..i - 1 |
| PacketAggregator.AddToWindow | src/DefaultTransportTests/PacketAggregatorTests.cs:39 | adding frame i to the window lo..i - 1 sends the window lo..i |
| PacketAggregator.SendRound | src/DefaultTransportTests/PacketAggregatorTests.cs:38-45 | one round of the test's loop keeps the window invariant and sends frames max(i + 1 - offset, 0)..i |
| PacketAggregator.SendRounds | src/DefaultTransportTests/PacketAggregatorTests.cs:32-47 | over the whole loop, round i sends exactly the payloads of frames max(i - offset + 1, 0)..i, in order |
| PredictQueue.Create | experiments/MemoryPackTest/MemoryPackTest/Client/PredictQueue.cs:9 | a new queue holds no prediction |
| PredictQueue.AddPredict | experiments/MemoryPackTest/MemoryPackTest/Client/PredictQueue.cs:11-15 | the frame maps to the input, overwriting any previous one; every other frame is unchanged |
| PredictQueue.GetInput | experiments/MemoryPackTest/MemoryPackTest/Client/PredictQueue.cs:17-20 | returns the stored input, and throws KeyNotFoundException iff the frame has none |
| PredictQueue.CheckDequeue | experiments/MemoryPackTest/MemoryPackTest/Client/PredictQueue.cs:22-51 | true iff a prediction is stored for the frame with the authoritative bytes; the previous frame's entry is removed; afterwards the frame maps to the authoritative input; nothing else changes |
| PredictQueue.ReplaceTimeline | experiments/MemoryPackTest/MemoryPackTest/Client/PredictQueue.cs:53-56 | the two queues exchange their mappings |
| PredictQueue.CheckDequeueThenGet | experiments/MemoryPackTest/MemoryPackTest/Client/PredictQueue.cs:17-29 | after a check the frame reads back as the authoritative input, and reading the previous frame throws |
| PredictQueue.CheckDequeueIdempotent | experiments/MemoryPackTest/MemoryPackTest/Client/PredictQueue.cs:22-29 | checking the same authoritative input again succeeds and changes nothing |
| PredictQueue.ReplaceTimelineTwice | experiments/MemoryPackTest/MemoryPackTest/Client/PredictQueue.cs:53-56 | swapping twice restores both queues |
| Protocol.TypeOf | src/IPTransportLayer/Dispatcher/DefaultServerDispatcher.cs:60 | a type byte that names a message type is that type's code |
| Protocol.TypeOfCode | src/IPTransportLayer/Dispatcher/DefaultServerDispatcher.cs:48-60 | the type byte a message is stamped with reads back as the same type |
| Protocol.CodeInjective | src/IPTransportLayer/Dispatcher/DefaultClientDispatcher.cs:65-84 | distinct message types have distinct type bytes, so the dispatch switch cannot confuse two of them |
| Protocol.ReadLongPrefix | src/Useful/Bits.cs:16-135 | a long written at the front of a message reads back whatever follows it |
| Protocol.ReadIntPrefix | src/Useful/Bits.cs:16-112 | an int written at the front of a message reads back whatever follows it |
| Protocol.EncodeNullableLong | src/Useful/Bits.cs:80-90 | the nine bytes a nullable long occupies, as Write(long?) leaves them in a zeroed buffer |
| Protocol.ReadNullableLongPrefix | src/Useful/Bits.cs:80-177 | a nullable long written at the front of a message reads back whatever follows it |
| ServerDispatcher.Serialize | src/IPTransportLayer/Dispatcher/DefaultClientDispatcher.cs:170-187 | an input struct is a 12-byte header followed by the payload |
| ServerDispatcher.ParseClientInput | src/IPTransportLayer/Dispatcher/DefaultServerDispatcher.cs:74-94 | every record the loop passes on has a long frame and a positive length that fits, and the records passed on are exactly a serialized prefix of the message |
| ServerDispatcher.HeadIsSerialized | src/IPTransportLayer/Dispatcher/DefaultServerDispatcher.cs:77-88 | a record the loop accepts is the serialization of its frame and payload |
| ServerDispatcher.ParseSerialized | src/IPTransportLayer/Dispatcher/DefaultServerDispatcher.cs:77-90 | a serialized record followed by anything parses as that record, then the rest |
| ServerDispatcher.ParseSerializeCons | src/IPTransportLayer/Dispatcher/DefaultServerDispatcher.cs:77-91 | one more serialized record in front parses one more record |
| ServerDispatcher.SerializeAllCons | src/IPTransportLayer/Dispatcher/DefaultServerDispatcher.cs:90 | serializing a list is its head's serialization followed by the rest's |
| ServerDispatcher.ParseSerializeAll | src/IPTransportLayer/Dispatcher/DefaultServerDispatcher.cs:74-94 | serialized records followed by anything parse back as those records followed by what the tail parses as |
| ServerDispatcher.ParseSerializeAllExactly | src/IPTransportLayer/Dispatcher/DefaultServerDispatcher.cs:74-94 | parsing inverts serialization: a concatenation of input structs parses back as exactly those records |
| ServerDispatcher.AddInputs | src/IPTransportLayer/Dispatcher/DefaultServerDispatcher.cs:88 | one OnAddInput event per parsed record, in order, carrying the client id |
| ServerDispatcher.HandleMessage | src/IPTransportLayer/Dispatcher/DefaultServerDispatcher.cs:52-72 | an empty message or one whose type is not ClientInput raises nothing; a ClientInput message raises the events of its parsed records |
| ServerDispatcher.MessageHeader | src/IPTransportLayer/Dispatcher/DefaultServerDispatcher.cs:45-50 | the pre-header is skipped and the next byte is the message type |
| ServerDispatcher.ConstructInitialize | src/IPTransportLayer/Dispatcher/DefaultServerDispatcher.cs:96-106 | after the reliable header: the ServerInitialize byte, the id and the frame as longs, then the state bytes; the length is their sum |
| ServerDispatcher.ConstructInputAuthored | src/IPTransportLayer/Dispatcher/DefaultServerDispatcher.cs:113-122 | after the unreliable header: the ServerAuthorize byte, then the frame and the delay bits as longs |
| ServerDispatcher.ConstructAuthoritativeInput | src/IPTransportLayer/Dispatcher/DefaultServerDispatcher.cs:131-141 | after the reliable header: the ServerAuthInput byte, the frame, the nullable checksum, then the payload |
| ClientDispatcher.Create | src/IPTransportLayer/Dispatcher/DefaultClientDispatcher.cs:27-42 | a new dispatcher's aggregator is empty |
| ClientDispatcher.IsRealNumberExamples | src/IPTransportLayer/Dispatcher/DefaultClientDispatcher.cs:125-127 | 1.0 and infinity count as real numbers (double.IsRealNumber is true for every non-NaN), a NaN does not |
| ClientDispatcher.HandleServerInitialize | src/IPTransportLayer/Dispatcher/DefaultClientDispatcher.cs:87-107 | a message shorter than 16 bytes raises nothing; otherwise OnStart(id) then OnInitialize(frame, state), with id and frame read as longs and the state the bytes after them |
| ClientDispatcher.HandleServerAuthorize | src/IPTransportLayer/Dispatcher/DefaultClientDispatcher.cs:109-140 | a short message changes nothing; a non-NaN delay raises OnSetDelay and pops the aggregator up to the frame; a NaN delay changes nothing |
| ClientDispatcher.HandleServerAuthInput | src/IPTransportLayer/Dispatcher/DefaultClientDispatcher.cs:142-162 | a short message changes nothing; otherwise OnAddAuthInput(frame, input, checksum) is raised and the aggregator is popped up to the frame |
| ClientDispatcher.HandleMessage | src/IPTransportLayer/Dispatcher/DefaultClientDispatcher.cs:56-85 | an empty message, a ClientInput message or an unknown type change nothing; each server type goes to its handler with the type byte removed |
| ClientDispatcher.ConstructInput | src/IPTransportLayer/Dispatcher/DefaultClientDispatcher.cs:170-187 | the frame as a long, then the payload length as an int, then the payload; with a non-empty payload this is the record the server parses |
| ClientDispatcher.ConstructInputReads | src/IPTransportLayer/Dispatcher/DefaultClientDispatcher.cs:170-187 | the frame and the length read back from the input struct, and the payload follows the header |
| ClientDispatcher.SendStruct | src/IPTransportLayer/Dispatcher/DefaultClientDispatcher.cs:190-210 | the struct is always queued as the newest packet; the packet is built iff the header is non-negative, and then carries the ClientInput byte after the header followed by the kept structs |
| ClientDispatcher.SendInput | src/IPTransportLayer/Dispatcher/DefaultClientDispatcher.cs:190-210 | the aggregator stays consistent and non-empty; the packet is built iff the unreliable header is non-negative, is longer than the header, and carries the ClientInput byte right after it; its contents are stated by ClientDispatcher.SendInputReachesServer |
| ClientDispatcher.Stamp | src/IPTransportLayer/Dispatcher/DefaultClientDispatcher.cs:206-208 | writing the ClientInput byte changes only that byte and throws on a negative header index |
| ClientDispatcher.InitializeRoundTrip | src/IPTransportLayer/Dispatcher/DefaultServerDispatcher.cs:96-106 | the client decodes the server's initialization message into OnStart(id) and OnInitialize(frame, state); the counterpart is src/IPTransportLayer/Dispatcher/DefaultClientDispatcher.cs lines 87-107 |
| ClientDispatcher.AuthorizeRoundTrip | src/IPTransportLayer/Dispatcher/DefaultServerDispatcher.cs:113-122 | the client decodes the server's authorize message into the frame and delay it was built from; the counterpart is src/IPTransportLayer/Dispatcher/DefaultClientDispatcher.cs lines 109-140 |
| ClientDispatcher.AuthInputRoundTrip | src/IPTransportLayer/Dispatcher/DefaultServerDispatcher.cs:131-141 | the client decodes the server's authoritative input into the frame, payload and checksum it was built from, and pops its aggregator up to that frame; the counterpart is src/IPTransportLayer/Dispatcher/DefaultClientDispatcher.cs lines 142-162 |
| ClientDispatcher.Structs | src/IPTransportLayer/Dispatcher/DefaultClientDispatcher.cs:170-187 | one input struct per record |
| ClientDispatcher.ConcatStructs | src/IPTransportLayer/Dispatcher/DefaultClientDispatcher.cs:200-206 | the queued structs laid end to end are the serialization of their records; the counterpart is src/IPTransportLayer/Dispatcher/DefaultServerDispatcher.cs lines 74-94 |
| ClientDispatcher.StructsSuffix | src/IPTransportLayer/Dispatcher/PacketAggregator.cs:35-39 | the structs of a suffix of the records are the suffix of the structs |
| ClientDispatcher.StructsSnoc | src/IPTransportLayer/Dispatcher/PacketAggregator.cs:53-60 | queuing one more record's struct appends its serialization |
| ClientDispatcher.KeptStructs | src/IPTransportLayer/Dispatcher/PacketAggregator.cs:33-50 | the structs the aggregator keeps are those of a suffix of the records ending with the newest one |
| ClientDispatcher.ClientInputMessageParses | src/IPTransportLayer/Dispatcher/DefaultClientDispatcher.cs:198-208 | a ClientInput byte followed by the concatenated structs of some records makes the server raise exactly those records' events; the counterpart is src/IPTransportLayer/Dispatcher/DefaultServerDispatcher.cs lines 52-94 |
| ClientDispatcher.AggregatedPacketParses | src/IPTransportLayer/Dispatcher/DefaultClientDispatcher.cs:198-208 | an aggregated packet makes the server raise the events of the kept older records followed by the new one; the counterpart is src/IPTransportLayer/Dispatcher/DefaultServerDispatcher.cs lines 52-94 |
| ClientDispatcher.SendStructReachesServer | src/IPTransportLayer/Dispatcher/DefaultClientDispatcher.cs:190-210 | sending a record's struct yields a packet the server decodes into the still-unauthorized records, oldest first, ending with that record; the counterpart is src/IPTransportLayer/Dispatcher/DefaultServerDispatcher.cs lines 52-94 |
| ClientDispatcher.SendInputReachesServer | src/IPTransportLayer/Dispatcher/DefaultClientDispatcher.cs:190-210 | SendInput(frame, payload) yields a packet the server decodes into the kept unauthorized inputs followed by (frame, payload); the counterpart is src/IPTransportLayer/Dispatcher/DefaultServerDispatcher.cs lines 52-94 |
| ClientDispatcher.InputStructIsSerialized | src/IPTransportLayer/Dispatcher/DefaultClientDispatcher.cs:170-187 | the client's input struct is exactly the layout the server parses; the counterpart is src/IPTransportLayer/Dispatcher/DefaultServerDispatcher.cs lines 77-88 |
| TransportClientDispatcher.IsRealNumberRange | src/DefaultTransport/Dispatcher/DefaultClientDispatcher.cs:127-129 | a float's bits are a real number (not NaN) iff, with the sign cleared, they are at most those of infinity |
| TransportClientDispatcher.HandleServerInitialize | src/DefaultTransport/Dispatcher/DefaultClientDispatcher.cs:90-109 | a message shorter than 12 bytes raises nothing; otherwise one OnInitialize(id as int, frame as long, state) |
| TransportClientDispatcher.HandleServerAuthorize | src/DefaultTransport/Dispatcher/DefaultClientDispatcher.cs:111-142 | a short message changes nothing; a non-NaN float delay raises OnSetDelay(frame, delay) and pops the aggregator; a NaN changes nothing |
| TransportClientDispatcher.HandleServerAuthInput | src/DefaultTransport/Dispatcher/DefaultClientDispatcher.cs:144-164 | a short message changes nothing; otherwise OnAuthoritativeInput(frame, input, checksum) and a pop up to the frame |
| TransportClientDispatcher.HandleMessage | src/DefaultTransport/Dispatcher/DefaultClientDispatcher.cs:59-88 | dispatch on the type byte as in the earlier revision |
| TransportClientDispatcher.InitializeMessage | src/DefaultTransport/Dispatcher/DefaultClientDispatcher.cs:90-109 | the ServerInitialize byte, the int id, the long frame, then the state |
| TransportClientDispatcher.AuthorizeMessage | src/DefaultTransport/Dispatcher/DefaultClientDispatcher.cs:111-129 | the ServerAuthorize byte, the long frame, the int delay bits |
| TransportClientDispatcher.AuthInputMessage | src/DefaultTransport/Dispatcher/DefaultClientDispatcher.cs:144-158 | the ServerAuthInput byte, the frame, the nullable checksum, the input |
| TransportClientDispatcher.InitializeRoundTrip | src/DefaultTransport/Dispatcher/DefaultClientDispatcher.cs:90-109 | an initialization message decodes into the id, frame and state it carries |
| TransportClientDispatcher.AuthorizeRoundTrip | src/DefaultTransport/Dispatcher/DefaultClientDispatcher.cs:111-142 | an authorize message decodes into its frame and delay |
| TransportClientDispatcher.AuthInputRoundTrip | src/DefaultTransport/Dispatcher/DefaultClientDispatcher.cs:144-164 | an authoritative-input message decodes into its frame, input and checksum, and pops the aggregator |
| ReplacementCoordinator.Create | src/GameNewt/Rollback/ReplacementCoordinator.cs:20-21 | no replacement is active, the counter starts at long.MinValue and the predict queue is empty |
| ReplacementCoordinator.Init | src/Core/Rollback/ReplacementCoordinator.cs:21-24 | the earlier revision's Init empties the predict queue and nothing else |
| ReplacementCoordinator.TryDequeuePredictInput | src/GameNewt/Rollback/ReplacementCoordinator.cs:42 | an empty queue gives nothing; otherwise the oldest input is returned and removed |
| ReplacementCoordinator.AcquireAsWritten | src/GameNewt/Rollback/ReplacementCoordinator.cs:49-58 | as written: the counter is pre-incremented with long wrap-around, becomes the new index, the replacement is active and the queue is cleared |
| ReplacementCoordinator.Stop | src/GameNewt/Rollback/ReplacementCoordinator.cs:93-97 | afterwards exactly the index long.MaxValue counts as current |
| ReplacementCoordinator.AcquireAfterStopRevivesAll | src/GameNewt/Rollback/ReplacementCoordinator.cs:49-97 | as written, acquiring after Stop wraps the counter to long.MinValue, so the new replacement and every earlier one count as current again |
| ReplacementCoordinator.Acquire | src/GameNewt/Rollback/ReplacementCoordinator.cs:49-92 | corrected: the next index is one more than the last, except after Stop, where the counter stays at long.MaxValue and the new replacement is created cancelled |
| ReplacementCoordinator.AcquireAfterStopIsCancelled | src/GameNewt/Rollback/ReplacementCoordinator.cs:89-92 | with the correction, a replacement acquired after Stop is not current, and neither is any earlier one |
| ReplacementCoordinator.AcquireSupersedes | src/GameNewt/Rollback/ReplacementCoordinator.cs:49-87 | a newer replacement gets a larger index and makes the older one stale |
| ReplacementCoordinator.FinishReplacement | src/GameNewt/Rollback/ReplacementCoordinator.cs:66-75 | finishing the current replacement deactivates it; finishing a superseded one changes nothing |
| ReplacementCoordinator.TryGiveReplacementInput | src/GameNewt/Rollback/ReplacementCoordinator.cs:105-118 | succeeds iff the replacement is current; then the written input is queued and the writer emptied, otherwise the writer is reset and the queue is unchanged |
| ReplacementCoordinator.TryGivePredictionInput | src/GameNewt/Rollback/ReplacementCoordinator.cs:125-139 | while a replacement is active the input is dropped; otherwise it is queued |
| ReplacementCoordinator.ReplacementOwnsQueue | src/GameNewt/Rollback/ReplacementCoordinator.cs:49-139 | during a replacement only its inputs enter the queue; after it finishes, prediction inputs follow them |
| ReplacementCoordinator.QueueIsFifo | src/GameNewt/Rollback/ReplacementCoordinator.cs:42-139 | inputs leave the queue in the order they entered |
| ReplacementReceiver.Create | src/GameNewt/Rollback/ReplacementReceiver.cs:19-33 | the holder has the given frame and the initial state, nothing is replaced and the pending input is empty |
| ReplacementReceiver.CreateCore | src/Core/Rollback/ReplacementReceiver.cs:11-13 | the earlier revision starts at frame -1 |
| ReplacementReceiver.Init | src/Core/Rollback/ReplacementReceiver.cs:15-18 | Init sets the frame only |
| ReplacementReceiver.CreateThenInit | src/Core/Rollback/ReplacementReceiver.cs:11-18 | the earlier revision's construction followed by Init is the later revision's constructor |
| ReplacementReceiver.TryGive | src/GameNewt/Rollback/ReplacementReceiver.cs:44-61 | returns 0 iff the frames match; otherwise the frame difference and nothing changes; on a match the states are swapped through the State setter as written (each holder loses its checksum and keeps its serialized bytes), the input stored and the receiver marked replaced |
| ReplacementReceiver.TryReceive | src/GameNewt/Rollback/ReplacementReceiver.cs:71-88 | returns whether a replacement was waiting; if so the states are swapped through the setter as written (checksums dropped, serialized bytes kept) and the stored input handed out; either way the receiver moves to the new frame and is no longer replaced |
| ReplacementReceiver.TryReceiveCore | src/Core/Rollback/ReplacementReceiver.cs:39-53 | the earlier revision makes the same transition on states, frames and inputs without reporting success, and its setter leaves both swapped holders with no cached checksum or bytes |
| ReplacementReceiver.GiveThenReceiveOnce | src/GameNewt/Rollback/ReplacementReceiver.cs:44-88 | a given replacement is received exactly once: the predictor gets its state and input, and a second receive changes nothing; the prediction holder keeps the bytes it serialized for its old state |
| ReplacementReceiver.CatchUpThenGive | src/GameNewt/Rollback/ReplacementReceiver.cs:44-61 | a replacement that has been updated by as many frames as it was behind is accepted; the counterpart is src/GameNewt/Utility/StateHolder.cs lines 112-128 |
| UpdateInputPredictor.Create | src/GameNewt/Rollback/UpdateInputPredictor.cs:25-32 | the predictor keeps both delegates and the local id |
| UpdateInputPredictor.SetLocalId | src/Core/Rollback/UpdateInputPredictor.cs:13 | the earlier revision sets the local id after construction, keeping the delegates |
| UpdateInputPredictor.PredictAll | src/GameNewt/Rollback/UpdateInputPredictor.cs:46-64 | ids, order and termination flags are kept |
| UpdateInputPredictor.PredictClientInputs | src/GameNewt/Rollback/UpdateInputPredictor.cs:46-64 | the loop computes the entry-by-entry prediction |
| UpdateInputPredictor.Predict | src/GameNewt/Rollback/UpdateInputPredictor.cs:40-44 | the client entries are predicted and the server input replaced by its prediction from the state |
| UpdateInputPredictor.PredictAllEntries | src/GameNewt/Rollback/UpdateInputPredictor.cs:46-64 | the local client's entry becomes the local input; every other entry, terminated or not, goes through the client predictor |
| UpdateInputPredictor.DefaultPredictionChangesOnlyLocal | src/GameNewt/Rollback/UpdateInputPredictor.cs:40-64 | with the keep-last-input predictors, only the local client's entry changes |
| UpdateInputPredictor.DefaultPredictionIdempotent | src/GameNewt/Rollback/UpdateInputPredictor.cs:40-64 | with the keep-last-input client predictor, predicting an already predicted input again changes nothing |
| StateHolder.ClearedIsCoherent | src/GameNewt/Utility/StateHolder.cs:71-73 | a holder with no cached serialization or checksum is consistent with any serializer |
| StateHolder.Create | src/GameNewt/Utility/StateHolder.cs:69-73 | frame -1, the initial state, nothing cached |
| StateHolder.SetStateAsWritten | src/GameNewt/Utility/StateHolder.cs:56-64 | as written: the setter clears the checksum but keeps the serialized bytes of the old state |
| StateHolder.SetState | src/GameNewt/Utility/StateHolder.cs:56-64 | corrected: the setter clears both caches |
| StateHolder.GetSerialized | src/GameNewt/Utility/StateHolder.cs:80-88 | the serialization of the state is returned and the writer emptied; the checksum is cached |
| StateHolder.GetChecksum | src/GameNewt/Utility/StateHolder.cs:94-105 | a cached checksum is returned unchanged; otherwise the hash of the state's serialization is computed and cached |
| StateHolder.Update | src/GameNewt/Utility/StateHolder.cs:112-128 | the frame advances by one, the caches are cleared, and a throwing game update gives the empty output |
| StateHolder.GetChecksumIsStable | src/GameNewt/Utility/StateHolder.cs:94-105 | asking for the checksum twice gives the same value and changes nothing the second time |
| StateHolder.UpdatesAdvanceFrame | src/GameNewt/Utility/StateHolder.cs:112-128 | n updates advance the frame by n and give n outputs |
| StateHolder.UpdatesKeepCoherent | src/GameNewt/Utility/StateHolder.cs:94-128 | after any updates the checksum is the hash of the current state's serialization |
| StateHolder.SetStateKeepsStaleChecksum | src/GameNewt/Utility/StateHolder.cs:56-105 | as written: after a checksum of A, setting state B makes GetChecksum return A's hash |
| StateHolder.SetStateRefreshesChecksum | src/GameNewt/Utility/StateHolder.cs:56-105 | corrected: after setting a state the checksum and the serialization are those of the new state |
| FixedPoint.FromInt | src/Useful/Fixed.cs:30-33 | an int becomes the fixed value with that integer part and no fraction |
| FixedPoint.Add | src/Useful/Fixed.cs:51 | the raw sum, wrapped to a long on overflow |
| FixedPoint.Sub | src/Useful/Fixed.cs:52 | the raw difference, wrapped to a long on overflow |
| FixedPoint.Neg | src/Useful/Fixed.cs:80 | the raw negation, with MinValue its own negation |
| FixedPoint.Inc | src/Useful/Fixed.cs:46 | ++ adds one |
| FixedPoint.Dec | src/Useful/Fixed.cs:45 | -- subtracts one |
| FixedPoint.Abs | src/Useful/Fixed.cs:82 | Math.Abs throws OverflowException exactly on MinValue; otherwise the non-negative one of the value and its negation |
| FixedPoint.Div | src/Useful/Fixed.cs:78 | division always throws NotImplementedException |
| FixedPoint.CompareTo | src/Useful/Fixed.cs:40-86 | the sign of the comparison agrees with < and ==, and its values are -1, 0 and 1 |
| FixedPoint.CombineIsWrappedSum | src/Useful/Fixed.cs:70-73 | the long accumulations of the four partial products are their sum wrapped to a long |
| FixedPoint.ExpandProduct | src/Useful/Fixed.cs:58-73 | the split into 32-bit upper and lower halves reassembles the full product |
| FixedPoint.Mul | src/Useful/Fixed.cs:54-76 | corrected, not the program's operator: the product is the raw product scaled down by 2^32 (rounded toward minus infinity), wrapped to a long; the rest of the model's algebra is about this one |
| FixedPoint.LowProductBound | src/Useful/Fixed.cs:67-73 | the product of the two lower halves fits in 64 unsigned bits |
| FixedPoint.LowProductWraps | src/Useful/Fixed.cs:73 | that product, held in a long, is negative exactly when it reaches 2^63, and the shift is then 2^32 short |
| FixedPoint.CombineOneShort | src/Useful/Fixed.cs:70-73 | a low term 2^32 short makes the result one unit (2^32 raw) short |
| FixedPoint.MulAsWritten | src/Useful/Fixed.cs:54-76 | the program's operator *: it equals the corrected product unless the lower halves' product reaches 2^63, and is one unit (2^32 raw) short when it does |
| FixedPoint.MulAsWrittenThreeQuarters | src/Useful/Fixed.cs:54-76 | as written, 0.75 * 0.75 gives -0.4375; corrected, 0.5625 |
| FixedPoint.MulIdentity | src/Useful/Fixed.cs:36-76 | MultiplicativeIdentity is a two-sided identity of the product |
| FixedPoint.MulFromInt | src/Useful/Fixed.cs:30-76 | the product of two whole numbers is their integer product, as written and corrected |
| FixedPoint.MulCommutes | src/Useful/Fixed.cs:54-76 | the product does not depend on the order of its operands |
| FixedPoint.MulAsWrittenCommutes | src/Useful/Fixed.cs:54-76 | the operator as written does not depend on the order of its operands either |
| FixedPoint.MulAsWrittenIdentity | src/Useful/Fixed.cs:36-76 | MultiplicativeIdentity is a two-sided identity of the operator as written |
| FixedPoint.AddThenSub | src/Useful/Fixed.cs:51-52 | subtraction undoes addition, wrap-around included |
| FixedPoint.IncThenDec | src/Useful/Fixed.cs:45-46 | -- undoes ++ and ++ undoes -- |
| FixedPoint.DecUndoesInc | src/Useful/Fixed.cs:45-46 | -- undoes ++, wrap-around at long.MaxValue included |
| FixedPoint.IncUndoesDec | src/Useful/Fixed.cs:45-46 | ++ undoes --, wrap-around at long.MinValue included |
| FixedPoint.NegNeg | src/Useful/Fixed.cs:80 | negation is an involution |
| FixedPoint.SubIsAddNeg | src/Useful/Fixed.cs:51-80 | subtracting is adding the negation |
| FixedPoint.AdditiveIdentity | src/Useful/Fixed.cs:35-80 | zero is the additive identity and a value plus its negation is zero |
| FixedPoint.FromIntHomomorphic | src/Useful/Fixed.cs:30-51 | the conversion from int respects addition (when the sum is an int) and order |
| Vec2.Add | src/Useful/Vec2.cs:47 | componentwise fixed-point sum |
| Vec2.Sub | src/Useful/Vec2.cs:50 | componentwise fixed-point difference |
| Vec2.Neg | src/Useful/Vec2.cs:53 | componentwise negation |
| Vec2.Plus | src/Useful/Vec2.cs:56 | unary plus leaves the vector unchanged |
| Vec2.Scale | src/Useful/Vec2.cs:64 | both components multiplied by the scalar with Fixed's operator as written |
| Vec2.DivScalar | src/Useful/Vec2.cs:80 | dividing by a Fixed scalar throws, because fixed-point division is not implemented |
| Vec2.Project | src/Useful/Vec2.cs:100 | projection throws for the same reason |
| Vec2.Dot | src/Useful/Vec2.cs:92 | X * right.X + Y * right.Y with Fixed's operator as written is a valid fixed value; its symmetry is Vec2.DotCommutes |
| Vec2.SquaredMagnitude | src/Useful/Vec2.cs:85 | X * X + Y * Y with Fixed's operator as written is a valid fixed value; Vec2.SquaredMagnitudeIsDot ties it to Dot |
| Vec2.SquaredMagnitudeIsDot | src/Useful/Vec2.cs:85-92 | the squared magnitude is the vector's dot product with itself |
| Vec2.DotCommutes | src/Useful/Vec2.cs:72-92 | the dot product is symmetric, and scaling from the left is scaling from the right |
| Vec2.AddThenSub | src/Useful/Vec2.cs:47-50 | subtraction undoes addition and the zero vector is the identity |
| Vec2.NegInverse | src/Useful/Vec2.cs:47-53 | negation is an involution and a vector plus its negation is zero |
| Vec2.ScaleByOne | src/Useful/Vec2.cs:64 | scaling by one is the identity |
| Vec2.ScaleThreeQuarters | src/Useful/Vec2.cs:64 | the operator's wrap reaches vectors: (0.75, 0.75) scaled by 0.75 is (-0.4375, -0.4375) |
| Random.NextUInt64 | src/GameNewt/Utility/Random.cs:48-69 | xoshiro256** step: returns the output of the current state with the advanced state, and a state that is not all zero never advances to the all-zero one; Random.ReferenceOutputs pins the outputs |
| Random.Create | src/GameNewt/Utility/Random.cs:26-35 | an all-zero seed throws ArgumentException; any other seed is taken as the state, reinterpreted as unsigned |
| Random.CreateDefault | src/GameNewt/Utility/Random.cs:14-15 | the parameterless constructor seeds 42, 42, 42, 42 |
| Random.ReferenceOutputs | src/GameNewt/Utility/Random.cs:48-69 | the xoshiro256** step, from state (1, 2, 3, 4), yields 11520, 0 and 1509978240 and moves to the published next state |
| Random.NextUInt32 | src/GameNewt/Utility/Random.cs:37 | the upper 32 bits of a 64-bit draw are an unsigned 32-bit value |
| Random.Word | src/GameNewt/Utility/Random.cs:37-69 | a draw of the chosen width lies below 2^32 or 2^64 |
| Random.HighPartBelow | src/GameNewt/Utility/Random.cs:74-105 | the upper word of bound * x, with x below the word size, lies below the bound |
| Random.Redraw | src/GameNewt/Utility/Random.cs:79-105 | the rejection loop's result lies below the bound |
| Random.NextBelow | src/GameNewt/Utility/Random.cs:72-106 | NextUInt32(maxValue) / NextUInt64(maxValue): zero for a zero bound, otherwise below the bound |
| Random.Next | src/GameNewt/Utility/Random.cs:109-117 | Next() lies in [0, int.MaxValue) |
| Random.NextInt64 | src/GameNewt/Utility/Random.cs:134-144 | NextInt64() lies in [0, long.MaxValue) |
| Random.NextMax | src/GameNewt/Utility/Random.cs:120-124 | a negative maximum throws ArgumentOutOfRangeException; otherwise the value is below the maximum (zero for zero) |
| Random.NextInt64Max | src/GameNewt/Utility/Random.cs:147-151 | the same for longs |
| Random.NextRange | src/GameNewt/Utility/Random.cs:127-158 | a minimum above the maximum throws ArgumentOutOfRangeException; otherwise the value lies in [min, max), or is min when they are equal |
| Random.NextFixed | src/GameNewt/Utility/Random.cs:162 | a fixed-point value in [0, 1) |
| Random.Swap | src/GameNewt/Utility/Random.cs:174 | exchanging two entries keeps the multiset of values |
| Random.Shuffle | src/GameNewt/Utility/Random.cs:165-176 | the shuffled sequence is a permutation of the input |
| Random.GetItems | src/GameNewt/Utility/Random.cs:179-186 | no choices throws ArgumentException; otherwise every drawn item is one of the choices and the destination is filled |
| Stats.AtMostEach | src/Useful/Stats.cs:43 | the recursive "no smaller element" predicate means every element is at least the bound |
| Stats.Min | src/Useful/Stats.cs:43 | Min() of a non-empty queue is an element of it and no element is smaller |
| Stats.MinUnique | src/Useful/Stats.cs:43 | any element no larger than the others is the minimum |
| Stats.Last | src/Useful/Stats.cs:39-41 | the newest n values, or all of them if there are fewer |
| Stats.LastAll | src/Useful/Stats.cs:39-41 | a queue no longer than the window is kept whole |
| Stats.LastDropsOldest | src/Useful/Stats.cs:40-41 | one value too many drops the oldest |
| Stats.LastLast | src/Useful/Stats.cs:39-41 | taking the newest b of the newest a (b <= a) is taking the newest b |
| Stats.Create | src/Useful/Stats.cs:23-30 | a non-positive length throws ArgumentOutOfRangeException; otherwise an empty window of that length |
| Stats.Add | src/Useful/Stats.cs:37-44 | the queue holds the newest Length values, the new one last, and the result is their minimum |
| Stats.AddDropsOldest | src/Useful/Stats.cs:39-41 | on a full window Add drops exactly the oldest value |
| Stats.AddsPrefix | src/Useful/Stats.cs:37-44 | the results of a prefix of the additions are a prefix of the results |
| Stats.AddsKeepLatest | src/Useful/Stats.cs:37-44 | after any additions the queue is the newest Length values of everything added |
| Stats.AddsReturnLatestMinimum | src/Useful/Stats.cs:37-44 | the last result is the minimum of the newest Length values added |
| Stats.AddsReturnMinimum | src/Useful/Stats.cs:37-44 | the k-th result is the minimum of the newest Length values up to and including the k-th |
| Stats.AddsReturnWindowMinimum | src/Useful/Stats.cs:23-44 | from a fresh window, each result is the minimum of the last Length values so far |
| MovingAverage.Create | src/Useful/MovingAverage.cs:10-21 | a non-positive length throws ArgumentOutOfRangeException; otherwise every slot holds the initial value and the cursor is at 0 |
| MovingAverage.Update | src/Useful/MovingAverage.cs:23-34 | the loop returns the sum of all slots and the slot count |
| MovingAverage.Add | src/Useful/MovingAverage.cs:36-41 | the slot under the cursor gets the value, no other slot changes, the cursor moves on cyclically, and the result is the new sum and the length |
| MovingAverage.NextWraps | src/Useful/MovingAverage.cs:39 | (current + 1) % length wraps to 0 exactly at the end |
| MovingAverage.AddSlides | src/Useful/MovingAverage.cs:36-41 | read from the cursor on, the slots form a window that drops its oldest value and appends the new one |
| MovingAverage.WindowSum | src/Useful/MovingAverage.cs:23-34 | the window read from the cursor has the same sum as the slots |
| MovingAverage.AddAllSnoc | src/Useful/MovingAverage.cs:36-41 | adding one more value is one more Add |
| MovingAverage.AddAllKeepsLatest | src/Useful/MovingAverage.cs:10-41 | after any additions the window is the newest Length values of the initial values followed by everything added |
| MovingAverage.AddReturnsMovingSum | src/Useful/MovingAverage.cs:10-41 | Add returns the sum of the newest Length values, counting the initial values while fewer have been added |
| Results.Result.Error | src/Useful/Result.cs:51 | Error throws InvalidOperationException iff the result is a success; otherwise it is the failure message |
| Results.FromFailure | src/Useful/Result.cs:18-26 | a failure whose Error is the given message |
| Results.FromSuccess | src/Useful/Result.cs:32-40 | a success, whose Error throws |
| Results.ResultIsFailureOrSuccess | src/Useful/Result.cs:11-45 | every result is either FromSuccess() or FromFailure of its own message |
| Results.ValueResult.Error | src/Useful/Result.cs:115 | the same for Result<T> |
| Results.ValueResult.FromFailure | src/Useful/Result.cs:68-76 | a failure with the message and no value |
| Results.ValueResult.FromSuccess | src/Useful/Result.cs:83-92 | a success carrying the value, whose Error throws |
| Results.Convert | src/Useful/Result.cs:99 | the implicit conversion from a value gives a success carrying it |
| Results.ValueResultIsFailureOrSuccess | src/Useful/Result.cs:60-115 | Error succeeds exactly on a failure; a failure without a value is FromFailure of its message, a success with a value is FromSuccess of it, and the default struct reads as a success |
| Pool.Pool.Create | src/Useful/Pool.cs:16-30 | a negative MaxPooledObjects throws ArgumentOutOfRangeException; otherwise an empty pool with that bound, or 32 by default |
| Pool.Rent | src/Useful/Pool.cs:36 | an empty pool hands out a new object; otherwise one pooled object is taken out and the rest stay |
| Pool.Return | src/Useful/Pool.cs:46-50 | below the bound the object joins the pool; at the bound it is dropped |
| Pool.RentAfterReturn | src/Useful/Pool.cs:36-50 | renting right after a return below the bound hands back the returned object and restores the pool |
| Pool.StaysBounded | src/Useful/Pool.cs:36-50 | over any sequence of rents and returns the pool never holds more than MaxPooledObjects |
| SequenceChecks.IsConsecutive | src/Tester/Utility.cs:242-264 | true iff each element is one more than the previous; on false, the expected and the actual value at the first place where it fails |
| SequenceChecks.IsAscendingWithoutGaps | src/Tester/Utility.cs:266-289 | true iff each element equals or is one more than the previous; on false, the first offending pair |
| SequenceChecks.IsPrefixOf | src/Tester/Utility.cs:291-305 | true iff the first sequence is a leading part of the second |
| SequenceChecks.PrefixOfReflexive | src/Tester/Utility.cs:291-305 | the empty sequence and the sequence itself are prefixes of it |
| SequenceChecks.PrefixOfIsLeadingPart | src/Tester/Utility.cs:291-305 | the element-wise check means the other sequence starts with this one |
| SequenceChecks.ConsecutiveHasNoGaps | src/Tester/Utility.cs:242-289 | consecutive implies ascending without gaps, but not conversely |
| SourceFilter.Split | size.py:9 | splitting always yields at least one segment |
| SourceFilter.SplitSegments | size.py:9 | the segments are one more than the separators and contain none |
| SourceFilter.SplitJoin | size.py:9 | splitting a path joined at a separator splits each side |
| SourceFilter.SkippedBelow | size.py:8-42 | a directory under a skipped one is skipped too |
| SourceFilter.GlobalUsingsEndsInCs | size.py:5-6 | the GlobalUsings.cs exclusion only removes files that the .cs test admits |
| SourceFilter.SplitPlain | size.py:9 | a name without separators is one segment |
| SourceFilter.SplitChild | size.py:9 | a directory and a name joined by either separator split into the two |
| SourceFilter.SegmentsMatchWhole | size.py:8-10 | only whole segments named bin or obj exclude a directory, so binary, objects and .vs do not |
| SourceFilter.BinAndObjSkipped | size.py:8-10 | a bin or obj segment excludes the directory, after either separator |
| SourceFilter.SourceNames | size.py:5-6 | .cs files are sources except those ending in GlobalUsings.cs |
| FlagGame.Filled | examples/Basic/Game.cs:43 | a 10 x 10 grid holding the value everywhere |
| FlagGame.Set | examples/Basic/Game.cs:79 | one cell gets the value and no other cell changes |
| FlagGame.TryMove | examples/Basic/Game.cs:86-95 | the move succeeds iff the target is on the map, and the position changes only then |
| FlagGame.Step | examples/Basic/Game.cs:61-75 | no direction keeps the position; with a direction the player moves to the neighbouring cell exactly when that cell is on the map, and otherwise stays |
| FlagGame.FlagsKeptTransitive | examples/Basic/Game.cs:77-80 | "placed flags are never removed or changed" composes over several updates |
| BasicGame.Create | examples/Basic/Game.cs:40-44 | no players and no flags |
| BasicGame.ApplyInput | examples/Basic/Game.cs:50-80 | the client gets a player if it had none, at (0, 0); its player takes one step from where it stood and no other player moves; a flag with its id appears under it iff it asked and the cell was empty; no placed flag changes |
| BasicGame.Update | examples/Basic/Game.cs:48-84 | the update always returns UpdateOutput.Empty |
| BasicGame.ApplyInputsAddsPlayers | examples/Basic/Game.cs:50-57 | after an update every client that sent input has a player, and no one else gained one |
| BasicGame.ApplyInputsKeepsFlags | examples/Basic/Game.cs:77-80 | an update never removes or changes a placed flag |
| BasicGame.ClearTerminated | examples/Basic/Game.cs:50 | the entries with the termination flag cleared |
| BasicGame.TerminatedIgnored | examples/Basic/Game.cs:50-81 | the Basic game ignores the termination flag: terminated clients still move and place flags |
| AdvancedGame.Create | examples/Advanced/Game.cs:95-100 | no players, no flags, no end screen; the constructor leaves every trap unset, and the traps parameter generalises it to any layout |
| AdvancedGame.Cells | examples/Advanced/Game.cs:43-109 | the grid read in the order of the nested loops, x outer and y inner |
| AdvancedGame.CountTrueAll | examples/Advanced/Game.cs:105-116 | all cells are counted iff every cell satisfies the test |
| AdvancedGame.CountFilledTiles | examples/Advanced/Game.cs:105-116 | the count of tiles holding a trap or a flag equals MapSize * MapSize iff every tile is filled |
| AdvancedGame.FilledTilesAllFull | examples/Advanced/Game.cs:105-175 | CountFilledTiles() == MapSize * MapSize iff every tile has a trap or a flag |
| AdvancedGame.TallyCounts | examples/Advanced/Game.cs:51-56 | PlayerToFlags has a key exactly for the positive flag ids, mapping each to its number of flags |
| AdvancedGame.CreateEndScreenAsWritten | examples/Advanced/Game.cs:36-60 | as written: 25 ticks, the flag tally, and a trap count of twice the number of traps |
| AdvancedGame.CreateEndScreen | examples/Advanced/Game.cs:36-60 | corrected: 25 ticks, each trap counted once, and the flag tally |
| AdvancedGame.OneTrapCountedTwice | examples/Advanced/Game.cs:46-49 | as written a map with one trap reports two; corrected, one |
| AdvancedGame.UpdateEndScreen | examples/Advanced/Game.cs:62-75 | with no ticks left the game stops; otherwise one tick is used and nothing is output |
| AdvancedGame.EndScreenCountsDown | examples/Advanced/Game.cs:62-75 | an end screen with n ticks left stops at the (n+1)-th update |
| AdvancedGame.ApplyInput | examples/Advanced/Game.cs:129-173 | a terminated client's player is removed; otherwise the player is created at (0, 0) if needed and takes one step from where it stood, and no other player moves; a flag request on a trap kicks the client, on an empty cell places its flag; no placed flag changes |
| AdvancedGame.ApplyInputs | examples/Advanced/Game.cs:129-173 | the traps, the connection time and the end screen are untouched by the input loop |
| AdvancedGame.Update | examples/Advanced/Game.cs:118-184 | with an end screen only the end screen advances; otherwise the game does not stop, a non-negative server time is stored, ClientsToTerminate is the list the input loop kicked (which clients those are is AdvancedGame.UpdateKicks), and the end screen appears iff the map is full, as written: 25 ticks, the flag tally and twice the number of traps |
| AdvancedGame.KickedAtPrefix | examples/Advanced/Game.cs:129-173 | whether an entry is kicked depends only on the entries up to it |
| AdvancedGame.KickedLast | examples/Advanced/Game.cs:129-173 | the last entry of a run adds its client to the kick list exactly when it is a non-terminated flag request landing on a trap |
| AdvancedGame.KickedBeforePrefix | examples/Advanced/Game.cs:129-173 | whether one of the first n entries is a kicked entry of a client does not depend on the later entries |
| AdvancedGame.KickedBeforeSnoc | examples/Advanced/Game.cs:129-173 | one more entry adds to the kicked entries exactly that entry, when it is kicked |
| AdvancedGame.ApplyInputsKicks | examples/Advanced/Game.cs:127-173 | a client is in toBeKickedClients iff one of its non-terminated entries asks to place a flag on the tile its player then stands on, and that tile has a trap |
| AdvancedGame.WithConnectionTime | examples/Advanced/Game.cs:123-125 | a non-negative SetLatestConnectionTime replaces the stored time, a negative one leaves it; nothing else changes |
| AdvancedGame.UpdateKicks | examples/Advanced/Game.cs:118-184 | without an end screen, Update's ClientsToTerminate holds a client iff one of its entries was a flag request on a trap, as ApplyInputsKicks states |
| AdvancedGame.ApplyInputsKeepsFlags | examples/Advanced/Game.cs:162-172 | no update removes or changes a placed flag |
| AdvancedGame.LastTerminationRemoves | examples/Advanced/Game.cs:133-137 | a client whose last entry is a termination has no player afterwards |
| Levels.Level.Empty | examples/GameOfLife/Game/Level.cs:13-19 | the parameterless constructor gives a 0 x 0 level in which no tile is in bounds |
| Levels.Level.Create | examples/GameOfLife/Game/Level.cs:26-32 | the product width * height is taken in 32-bit arithmetic; a negative array size throws OverflowException; otherwise every slot is empty, and non-negative dimensions whose product fits give a well-formed level |
| Levels.IndexFacts | examples/GameOfLife/Game/Level.cs:50-63 | for an in-bounds tile x + y * Width lies in the array and reads back as (x, y) |
| Levels.Index | examples/GameOfLife/Game/Level.cs:50-63 | the array index of an in-bounds tile, from which the tile can be recovered |
| Levels.IndexCovers | examples/GameOfLife/Game/Level.cs:56-63 | every array slot is the index of exactly one in-bounds tile |
| Levels.At | examples/GameOfLife/Game/Level.cs:46-51 | At never throws and is empty outside the grid |
| Levels.Get | examples/GameOfLife/Game/Level.cs:34-65 | the indexer throws ArgumentOutOfRangeException exactly outside the grid; inside it reads what At reads |
| Levels.Put | examples/GameOfLife/Game/Level.cs:34-65 | writing through the indexer throws exactly outside the grid; inside, that tile holds the new object and no other tile changes |
| Levels.Extensional | examples/GameOfLife/Game/Level.cs:21-32 | two well-formed levels of the same size that agree on every tile are equal |
| Levels.TrySpawn | examples/GameOfLife/Game/GameState.cs:32-47 | the spawn point's indexer throws outside the grid; the avatar is placed iff the tile was empty, and then nothing else changes |
| Levels.Move | examples/GameOfLife/Game/GameState.cs:49-72 | the target is from + movement in 32-bit arithmetic; the object moves iff the target is in the grid and empty, leaving from empty and every other tile unchanged; otherwise nothing changes |
| GameOfLife.Occupation | examples/GameOfLife/Game/GameState.cs:74-80 | 1 for an occupied tile other than a newborn cell, else 0, and 0 outside the grid |
| GameOfLife.CountNeighbors | examples/GameOfLife/Game/GameState.cs:82-86 | the occupations of the eight neighbours, between 0 and 8 |
| GameOfLife.MarkKeepsOccupation | examples/GameOfLife/Game/GameState.cs:74-116 | marking a tile in the first pass never changes its occupation as later tiles see it: a newborn cell counts as empty |
| GameOfLife.MarkSettle | examples/GameOfLife/Game/GameState.cs:98-132 | the two passes together apply Conway's rule to each tile |
| GameOfLife.SameCounts | examples/GameOfLife/Game/GameState.cs:82-86 | levels with the same occupations give the same neighbour counts |
| GameOfLife.MarkTile | examples/GameOfLife/Game/GameState.cs:96-117 | one tile is marked by its neighbour count and no other tile changes |
| GameOfLife.MarkTileKeepsCounts | examples/GameOfLife/Game/GameState.cs:96-117 | marking a tile keeps every occupation, so later tiles count the old generation |
| GameOfLife.MarkColumn | examples/GameOfLife/Game/GameState.cs:94-118 | marking one column keeps every occupation and changes no other column |
| GameOfLife.MarkAll | examples/GameOfLife/Game/GameState.cs:93-118 | after the first pass every tile is marked according to the old generation's counts |
| GameOfLife.SettleAll | examples/GameOfLife/Game/GameState.cs:120-132 | the second pass removes dying cells and makes every remaining cell alive |
| GameOfLife.UpdateGame | examples/GameOfLife/Game/GameState.cs:88-133 | from a settled level, UpdateGame is the simultaneous Life step and leaves the level settled |
| GameOfLife.LifeStepUnique | examples/GameOfLife/Game/GameState.cs:88-133 | the Life step of a level is unique |
| GameOfLife.Create | examples/GameOfLife/Game/GameState.cs:20-30 | frame -1, no players and an empty 30 x 30 level |
| GameOfLife.UpdatePlayer | examples/GameOfLife/Game/GameState.cs:49-72 | an unspawned player throws ArgumentException; no direction changes nothing; otherwise the avatar moves as Move says and the player's position follows |
| GameOfLife.ApplyInput | examples/GameOfLife/Game/GameState.cs:159-187 | a disconnected client's player is removed; otherwise it exists afterwards with the input's direction, no other player changes, and an unspawned player spawns iff it asked and the spawn point was empty |
| GameOfLife.ApplyInputs | examples/GameOfLife/Game/GameState.cs:159-187 | the input loop keeps the frame and the level's size |
| GameOfLife.ApplyInputConsistent | examples/GameOfLife/Game/GameState.cs:159-187 | one client entry never throws and keeps each spawned player's avatar on its tile |
| GameOfLife.ApplyInputsConsistent | examples/GameOfLife/Game/GameState.cs:159-187 | the same for the whole input loop |
| GameOfLife.CheckRespawn | examples/GameOfLife/Game/GameState.cs:135-138 | a zero seed leaves the level as it is, and the level keeps its size |
| GameOfLife.RespawnTiles | examples/GameOfLife/Game/GameState.cs:135-153 | with a non-zero seed avatars stay, and every empty or cell tile holds a living cell exactly when its draw exceeds 0.66, and nothing otherwise |
| GameOfLife.RespawnConsistent | examples/GameOfLife/Game/GameState.cs:135-153 | a respawn event keeps the game consistent: the level stays settled and every avatar stays on its player's tile |
| GameOfLife.Update | examples/GameOfLife/Game/GameState.cs:155-194 | the frame advances by one and the output is empty; consistent states stay consistent; without client entries and respawn event the players are unchanged and the level makes exactly one Life step |
| GameOfLife.LastDisconnectRemoves | examples/GameOfLife/Game/GameState.cs:163-167 | a client whose last entry is a disconnection has no player afterwards |
| ConsoleGame.MapToMovementAsWritten | src/ConsoleGame/Input.cs:9-19 | as written: an invalid direction throws ArgumentOutOfRangeException; each valid one moves at most one tile per axis |
| ConsoleGame.RightMovesDiagonally | src/ConsoleGame/Input.cs:13-14 | as written, Right moves along both axes, so Left then Right ends one tile off the start |
| ConsoleGame.RightStepsDiagonally | src/ConsoleGame/GameState.cs:62-85 | the game moves with the mapping as written: a player holding Right steps one tile right and one tile down onto a free tile |
| ConsoleGame.MapToMovement | src/ConsoleGame/Input.cs:9-19 | corrected: each valid direction is a unit step along exactly one axis; invalid ones throw |
| ConsoleGame.OppositeDirectionsCancel | src/ConsoleGame/Input.cs:13-16 | corrected, opposite directions cancel and the directions are distinct |
| ConsoleGame.Create | src/ConsoleGame/GameState.cs:17-28 | frame -1, no players and an empty 30 x 30 level |
| ConsoleGame.HandleFoodEvent | src/ConsoleGame/GameState.cs:30-43 | a food event outside the grid throws; on an empty tile it places the food, on an occupied one it changes nothing; no other tile changes |
| ConsoleGame.UpdatePlayer | src/ConsoleGame/GameState.cs:62-85 | an unspawned player throws ArgumentException; no direction changes nothing; an invalid direction throws; otherwise the avatar moves as Move says for the movement Input.cs maps the direction to, as written |
| ConsoleGame.ApplyInput | src/ConsoleGame/GameState.cs:89-115 | as in the Game of Life: removal on disconnection, direction stored, spawn iff requested and the spawn point is empty |
| ConsoleGame.ApplyInputs | src/ConsoleGame/GameState.cs:89-115 | the input loop keeps the frame and the level's size |
| ConsoleGame.Update | src/ConsoleGame/GameState.cs:87-123 | the frame advances after the input loop; then a food event is placed, throwing iff it lies outside the grid; the output is empty |
| ConsoleGame.ApplyInputConsistent | src/ConsoleGame/GameState.cs:89-115 | a client entry with a valid direction never throws and keeps each avatar on its player's tile |
| ConsoleGame.ApplyInputsConsistent | src/ConsoleGame/GameState.cs:89-115 | the same for the whole input loop |
| ConsoleGame.UpdateConsistent | src/ConsoleGame/GameState.cs:87-123 | with valid directions and an in-grid food event, Update never throws and keeps the state consistent |
| ConsoleGame.DisconnectRemoves | src/ConsoleGame/GameState.cs:91-95 | a disconnection removes the player |
| ShooterAvatar.NewHistory | examples/TopDownShooter/Simulation/PlayerAvatar.cs:14-20 | ten zero positions with the cursor at 0 |
| ShooterAvatar.Record | examples/TopDownShooter/Simulation/PlayerAvatar.cs:24-28 | the cursor moves on cyclically, the new slot holds the value, and no other slot changes |
| ShooterAvatar.GetHistory | examples/TopDownShooter/Simulation/PlayerAvatar.cs:30-36 | a position exists exactly for offsets -9..0, and offset 0 is the current position |
| ShooterAvatar.RecordShifts | examples/TopDownShooter/Simulation/PlayerAvatar.cs:24-36 | after recording, offset i reads what offset i + 1 read before |
| ShooterAvatar.RecordAllRemembers | examples/TopDownShooter/Simulation/PlayerAvatar.cs:24-36 | after a series of recordings, offset -k is the k-th most recent value, for the last ten |
| ShooterAvatar.NewAvatar | examples/TopDownShooter/Simulation/PlayerAvatar.cs:67-71 | the ids are stored and the avatar is at rest at the origin |
| ShooterAvatar.Sign | examples/TopDownShooter/Simulation/PlayerAvatar.cs:79-80 | Math.Sign: -1, 0 or 1 with the sign of its argument |
| ShooterAvatar.AxisVelocity | examples/TopDownShooter/Simulation/PlayerAvatar.cs:82-85 | a held axis sets that velocity component to plus or minus MovementSpeed; otherwise it is kept |
| ShooterAvatar.AxisVelocityIsProduct | examples/TopDownShooter/Simulation/PlayerAvatar.cs:83-85 | that value is Math.Sign(axis) * MovementSpeed with Fixed's operator as written |
| ShooterAvatar.FrictionHalves | examples/TopDownShooter/Simulation/PlayerAvatar.cs:75-88 | multiplying by Friction (one half) with the operator as written halves the value: the low halves' product stays below 2^63 |
| ShooterAvatar.Update | examples/TopDownShooter/Simulation/PlayerAvatar.cs:77-89 | the new position is the old one plus the pushed velocity, the older positions shift back by one, and the velocity is then halved |
| ShooterAvatar.UpdateAppliesFriction | examples/TopDownShooter/Simulation/PlayerAvatar.cs:88 | the velocity after an update is the pushed velocity scaled by Friction |
| ShooterAvatar.MoveRightFromRest | examples/TopDownShooter/Simulation/PlayerAvatar.cs:77-89 | from rest, pressing right moves 10 units right and leaves velocity 5 |
| ShooterAvatar.Respawn | examples/TopDownShooter/Simulation/PlayerAvatar.cs:121-125 | the current position and the velocity become zero; the ids and the cursor are kept |
| ShooterAvatar.RespawnKeepsOlder | examples/TopDownShooter/Simulation/PlayerAvatar.cs:121-125 | respawning changes only the current position, not the history behind it |
| ShooterAvatar.RespawnIdempotent | examples/TopDownShooter/Simulation/PlayerAvatar.cs:121-125 | respawning twice is respawning once |
| ShooterAvatar.SquareBound | examples/TopDownShooter/Simulation/PlayerAvatar.cs:94 | the fixed-point square of a difference below 2^47 fits in a long |
| ShooterAvatar.CheckHit | examples/TopDownShooter/Simulation/PlayerAvatar.cs:91-95 | a predicate: the ray's end minus the target, dotted with itself by the operator as written, is at most ColliderRadiusSquared; it carries no contract, and ShooterAvatar.CheckHitIsDistance states what it decides |
| ShooterAvatar.CheckHitIsDistance | examples/TopDownShooter/Simulation/PlayerAvatar.cs:91-95 | while the differences stay below 2^47 raw, a hit is exactly the as-written squares (each the scaled square, one unit short when its low half's square reaches 2^63) summing to at most 32^2; so a true squared distance of at most 32^2 hits, and a hit is within 1026 units |
| ShooterAvatar.ShootAt | examples/TopDownShooter/Simulation/PlayerAvatar.cs:106-118 | shooting never adds or removes avatars and only respawns |
| ShooterAvatar.ShootAtRespawnsHit | examples/TopDownShooter/Simulation/PlayerAvatar.cs:106-118 | an avatar is respawned iff it is among the targets, is not the shooter, has a position at the history index and is hit |
| ShooterAvatar.Shoot | examples/TopDownShooter/Simulation/PlayerAvatar.cs:101-104 | a shooter without a position at the history index changes nothing |
| ShooterAvatar.ShootRespawnsHit | examples/TopDownShooter/Simulation/PlayerAvatar.cs:101-118 | exactly the hit targets other than the shooter are respawned, from the shooter's position at the history index |
| ShooterGame.Create | examples/TopDownShooter/Simulation/GameState.cs:12-13 | no clients and the entity counter at 0 |
| ShooterGame.Base | examples/TopDownShooter/Simulation/GameState.cs:34-48 | the avatar an entry updates: the client's existing one, or a new one with the next entity id |
| ShooterGame.MoveOne | examples/TopDownShooter/Simulation/GameState.cs:30-52 | the entry's avatar (existing, or new with the counter's id, which then advances) is updated by its input; a disconnected client is removed but its avatar still moves this frame; other players' avatars are unchanged |
| ShooterGame.MoveAll | examples/TopDownShooter/Simulation/GameState.cs:89-94 | every entry contributes one moved avatar; avatars and the counter only grow |
| ShooterGame.MoveAllOwner | examples/TopDownShooter/Simulation/GameState.cs:89-94 | the k-th moved avatar belongs to the k-th entry's client |
| ShooterGame.MoveAllOthers | examples/TopDownShooter/Simulation/GameState.cs:89-94 | avatars of clients without an entry are untouched by the movement loop |
| ShooterGame.MoveAllAbsent | examples/TopDownShooter/Simulation/GameState.cs:89-94 | clients without an entry keep their avatar assignment |
| ShooterGame.MoveAllEntry | examples/TopDownShooter/Simulation/GameState.cs:30-94 | with distinct ids, each entry's avatar is its client's (or a fresh id) updated once, and the client stays iff it did not disconnect |
| ShooterGame.MoveOneKeeps | examples/TopDownShooter/Simulation/GameState.cs:30-52 | handling one client's entry leaves every other client's avatar and assignment alone |
| ShooterGame.MoveAllLast | examples/TopDownShooter/Simulation/GameState.cs:89-94 | the last entry's avatar as MoveAllEntry states |
| ShooterGame.RespawnAll | examples/TopDownShooter/Simulation/GameState.cs:73-97 | the respawn loop never adds or removes avatars |
| ShooterGame.RespawnAllAt | examples/TopDownShooter/Simulation/GameState.cs:73-97 | an avatar is respawned iff some connected entry asked to start and owns it |
| ShooterGame.ShootAll | examples/TopDownShooter/Simulation/GameState.cs:62-100 | the shooting loop never adds or removes avatars, and changes nothing when no one shoots |
| ShooterGame.ShootAllAt | examples/TopDownShooter/Simulation/GameState.cs:62-100 | each avatar is either unchanged or respawned by the shooting loop |
| ShooterGame.Owners | examples/TopDownShooter/Simulation/GameState.cs:12-47 | only the avatars still assigned to a client are kept, unchanged |
| ShooterGame.Update | examples/TopDownShooter/Simulation/GameState.cs:84-103 | the state stays well formed, the output is empty and the entity counter only grows |
| ShooterGame.AfterMoving | examples/TopDownShooter/Simulation/GameState.cs:84-103 | after the movement loop an assigned avatar ends respawned if its client asked to start, and may be respawned again only by a shot; without shooting it ends as started |
| ShooterGame.UpdateEntryStays | examples/TopDownShooter/Simulation/GameState.cs:30-103 | an entry's client remains iff it did not disconnect, keeping its avatar id or receiving a fresh one |
| ShooterGame.UpdateEntry | examples/TopDownShooter/Simulation/GameState.cs:30-103 | a connected entry's avatar is moved by its input, then respawned if it asked to start, and otherwise changed only by being shot |
| ShooterGame.ShootAllSparesUnlisted | examples/TopDownShooter/Simulation/GameState.cs:62-100 | the shooting loop targets only the frame's avatar list: an avatar not in it is unchanged |
| ShooterGame.NotMoved | examples/TopDownShooter/Simulation/GameState.cs:84-94 | the avatar of a player without an entry is not added to the frame's avatar list |
| ShooterGame.UpdateAbsent | examples/TopDownShooter/Simulation/GameState.cs:84-103 | a client without an entry keeps its entity id and its avatar exactly as it was: no shot can reach it and nothing respawns it |
| TesterInputs.ValuesOf | src/Tester/InputPropagation/Game.cs:31-43 | the values an update appends for one client: at most one per entry and none the game skips |
| TesterInputs.ValuesOfAppend | src/Tester/InputPropagation/Game.cs:31-43 | the values of two batches of entries are the values of each, in order |
| TesterInputs.Receive | src/Tester/InputPropagation/Game.cs:31-43 | receiving never forgets a client |
| TesterInputs.ReceiveAt | src/Tester/InputPropagation/Game.cs:36-42 | a client has a list iff it had one or sent a kept value, and its list is the old one followed by those values in order |
| TesterInputs.ReceiveAppend | src/Tester/InputPropagation/Game.cs:31-43 | receiving two batches one after the other is receiving their concatenation |
| TesterInputs.Tick | src/Tester/InputPropagation/Game.cs:48-50 | the frame advances by one and the output stops the game exactly when it reaches TotalFrames; the counterpart is src/Tester/InputReceiveTest/Game.cs lines 40-50 |
| InputPropagationGame.Init | src/Tester/InputPropagation/Game.cs:22-27 | no received inputs, no server inputs, frame -1 |
| InputPropagationGame.Update | src/Tester/InputPropagation/Game.cs:29-51 | every client's list grows by its non-negative values, a non-negative server input is appended and nothing else is, the frame advances and the game stops at TotalFrames |
| InputPropagationGame.Provide | src/Tester/InputReceive/InputPropagationTest.cs:33-39 | the server's input is the current frame plus one, in int arithmetic |
| InputPropagationGame.ServerInputsCountFrames | src/Tester/InputReceive/InputPropagationTest.cs:33-85 | driven by that provider, after k updates the server inputs are exactly 0 .. k - 1: consecutive, starting at zero and numbering Frame + 1 |
| InputPropagationGame.RunCountsFrames | src/Tester/InputPropagation/Game.cs:48-50 | after n updates the frame has advanced by n and exactly the update reaching TotalFrames stops the game |
| InputPropagationGame.RunReceives | src/Tester/InputPropagation/Game.cs:31-43 | after a run every client's list is its old one followed by all its kept values, across all updates in order |
| InputReceiveGame.InitReceive | src/Tester/InputReceive/Game.cs:19-22 | no received inputs, frame -1 |
| InputReceiveGame.InitReceiveTest | src/Tester/InputReceiveTest/Game.cs:19-22 | no received inputs, frame 0 |
| InputReceiveGame.Update | src/Tester/InputReceive/Game.cs:24-43 | values other than int.MinValue are appended per client, the frame advances and the game stops when it reaches TotalFrames; the counterpart is src/Tester/InputReceiveTest/Game.cs lines 24-51 |
| InputReceiveGame.RunCountsFrames | src/Tester/InputReceive/Game.cs:40-42 | after n updates the frame has advanced by n and exactly the update reaching TotalFrames stops the game |
| InputReceiveGame.StopsAfter | src/Tester/InputReceive/Game.cs:21-42 | started from frame -1 the stop comes on update TotalFrames + 1; from frame 0 it comes one update earlier; the counterpart is src/Tester/InputReceiveTest/Game.cs lines 21-50 |
| PredictionGame.Update | src/Tester/Prediction/Game.cs:22-38 | the frame always advances; no inputs give the empty output; a terminated first client stops the game; otherwise a positive number from the first client is remembered |
| PredictionGame.RunRemembersLastChoice | src/Tester/Prediction/Game.cs:19-38 | after a run the remembered number is the one from the last update that chose one, or the old one if none did |

## Left out

- Sockets, transports, tasks, timers, clocks and the client/server orchestration loops: they are I/O and concurrency, and the model takes their results as parameters.
- Locks and logging: every locked section is one atomic step, and log calls are dropped.
- MemoryPack serialisation: game inputs and states are carried as already-serialised byte sequences, or through a serializer parameter (`StateHolder.Codec`).
- Partial writes before a throw: when a span is too short, the model throws without writing the bytes the C# code may have written first.
- ArrayPool rentals are modelled as exact-size, zero-filled arrays, so contracts about rented memory are lower bounds.
- Frame counters in the queues and holders are unbounded integers; `long` overflow is modelled only where it changes behaviour (`Fixed`, the coordinator's counter, `Random`, the tester games' frames).
- Dictionary enumeration order is modelled as insertion order; every stated property is independent of that order.
- Floating point: `Stats` time-weighted and plain averages, `DesiredTickRate` and the shooter's drawing are left out. `MinimumWindowed` only compares values, so over `double` it differs from the model only when a NaN enters the window.
- MovingAverage: the element type is `int` with exact addition. The program's only instance is `MovingAverage<double>` (src/Core/Providers/BasicSpeedController.cs:95), whose sums round, so the equalities below hold only up to rounding there.
- MovingAverage.Update: the returned sum is the exact integer sum of the slots, not a rounded `double` sum.
- MovingAverage.Add: the returned sum is exact; with `double` slots it is the slot-order rounded sum.
- MovingAverage.WindowSum: equating the window-order sum with the slot-order sum needs exact, associative addition, which `double` does not have.
- MovingAverage.AddReturnsMovingSum: holds for exact addition; with `double` the returned sum may differ by rounding from the sum of the newest values.
- Protocol.Code: the MessageType enumeration is not part of this model, so its four members are given the codes 0 to 3 in the order the model lists them; the real byte values may differ, and every property uses only that the codes are distinct.
- ClientDispatcher.SendInput: its own contract states the packet's framing but not which structs follow the type byte; that is stated for the struct SendStruct sends and, for non-empty payloads, by SendInputReachesServer, since SendInput is SendStruct applied to the constructed struct.
- `Debug.Assert` calls in `ReplacementReceiver` and `ReplacementCoordinator` are not modelled.
- Random: the state is only checked by its constructor; that `Advance` is a bijection (and `Retreat`) is not proved. Instead the first outputs of a fixed seed are proved equal to the published algorithm's outputs.
- Random.Redraw: the rejection loop takes a `fuel` bound and returns `Exhausted` when it runs out, so its contract only describes values that were drawn.
- Random.NextBelow: the same fuel bound applies; an exhausted draw has no value.
- Vec2.Dot and Vec2.SquaredMagnitude: they use Fixed's operator as written; their contracts state only that the result is a valid fixed-point value, and the algebra is proved in separate lemmas.
- ShooterAvatar.CheckHitIsDistance: stated only while the differences stay below 2^47 raw and the sums do not wrap, because past that the squares wrap as well. The shooter imports `Fixed` and `Vec2` from a Kcky.Useful package that is not part of this model; they are taken to be the src/Useful types, operator as written.
- Pool.StaysBounded: the bound holds for sequential use only. src/Useful/Pool.cs:9 calls the class thread-safe, yet Return (lines 48-49) reads Count and then adds to the ConcurrentBag without a lock, so two concurrent returns can both pass the check.
- The `ReadLong`, `ReadInt` and `Skip` span extensions used by the dispatchers (src/IPTransportLayer/Dispatcher/DefaultServerDispatcher.cs:79-80, DefaultClientDispatcher.cs:100-101) are not part of this model; they are taken to read little-endian, as Bits does, and to advance the span past what they read.
- TransportClientDispatcher: the DefaultTransport server's header sizes (12, 12 and 17 bytes) are taken as given constants, written as the sums of the fields they hold; DefaultServerDispatcher of that revision, which defines them, is not part of this model.
- examples/Advanced/Game.cs:41 reads `IsTrapped`, but GameState declares the field as `HasTrap` (line 90), so the file as shown does not compile; the model reads HasTrap.
- ShooterAvatar.FRICTION is the raw value 2^31 (one half); `Fixed.Reciprocal`, which computes it, is not part of this model.
- The shooter's `ClientInput` declaration is not part of this model; its fields are taken from their uses in the simulation, with Horizontal and Vertical as ints.
- The shooter's entity counter and GetEntities enumeration are left out: the counter is unbounded and entities are a map.
- `UpdateOutput.Terminate` is not declared in src/Core/Definitions.cs; it is modelled as the output whose ShallStop is set.
- The tester games' `ClientInput` and `ServerInput` classes are modelled as their single int field.
- GameOfLife.CheckRespawn: System.Random is not modelled, so the per-tile draws are a parameter rather than computed from the seed.
- GameOfLife's input direction is given as the movement it maps to, because that game's Input.cs is not part of this model.
- Level drawing and the console game's rendering are left out.
- size.py: `human_readable`, `process_file` and the `os.walk` traversal are file-system I/O and formatting; only the path filters are modelled.

## Findings

| source | as written | input that shows it | evidently intended | confidence | as-written member | corrected member |
|---|---|---|---|---|---|---|
| src/GameNewt/Rollback/ReplacementCoordinator.cs:49-58 | Stop sets the counter to long.MaxValue, and the next Acquire pre-increments it with wrap-around to long.MinValue | Stop, then Acquire: the new replacement is current, and so is every earlier one | a replacement acquired after Stop starts cancelled | not executed | ReplacementCoordinator.AcquireAfterStopRevivesAll | ReplacementCoordinator.AcquireAfterStopIsCancelled |
| src/Useful/Bits.cs:43, 54-64 | writing a null int? clears NullableIntSize = sizeof(long) + 1 = 9 bytes | null written into a 5-byte span throws, although a value fits and the reader needs 5 bytes | the null form takes the documented 5 bytes | not executed | Bits.WriteNullableInt | Bits.ReadNullableIntWriteCorrected |
| src/Core/DataStructures/ClientInputQueue.cs:168-169 | the removed-clients loop writes span[i] without advancing i | two removed clients: both write the same slot, and the next slot keeps stale data | each removed client gets its own terminated entry | not executed | ClientInputQueue.RemovedEntriesAsWritten | ClientInputQueue.RemovedEntries |
| src/Core/DataStructures/UpdateInputQueue.cs:78-88 | on an empty queue TryPeek leaves frame = 0, so the wake-up test passes when the new value is 0 | setting CurrentFrame = 0 on an empty queue wakes a waiter, which then dequeues from an empty queue | wake only when an input for the new frame is held | not executed | UpdateInputQueue.SetCurrentFrameZeroWakesOnEmptyQueue | UpdateInputQueue.SetCurrentFrameWakeFindsInput |
| examples/Advanced/Game.cs:46-49 | each trap increments TrapCount twice | a map with exactly one trap reports two | each trap counted once | not executed | AdvancedGame.OneTrapCountedTwice | AdvancedGame.CreateEndScreen |
| src/GameNewt/Utility/StateHolder.cs:56-64 | the State setter clears the cached checksum but keeps the old serialised bytes | GetChecksum of A, set State to B, GetChecksum again: A's hash is returned | the checksum follows the new state | not executed | StateHolder.SetStateKeepsStaleChecksum | StateHolder.SetStateRefreshesChecksum |
| src/Useful/Fixed.cs:54-76 | the product of the two unsigned low halves is taken as a long, which wraps once it reaches 2^63 | 0.75 * 0.75 gives -0.4375 | 0.5625: the raw product scaled down by 2^32 | not executed | FixedPoint.MulAsWrittenThreeQuarters | FixedPoint.Mul |
| src/ConsoleGame/Input.cs:14 | Right maps to the movement (1, 1) | Left then Right ends at (0, 1), not at the start | Right is (1, 0), the opposite of Left | not executed | ConsoleGame.RightMovesDiagonally | ConsoleGame.OppositeDirectionsCancel |

=== FILE: advanced_game.dfy ===
/**
 * The Advanced example game (examples/Advanced/Game.cs): the Basic flag game with traps that get
 * a client disconnected when it tries to place a flag on one, disconnected clients removed, a
 * server-set connection time, and an end screen that appears once every tile holds a trap or a
 * flag and counts down to stopping the server.
 */
module AdvancedGame {
  import opened Wrappers
  import opened GameTypes
  import opened FlagGame

  /** GameState.TickRateWhole. */
  const TICK_RATE_WHOLE: int := 5

  /** The end screen's initial RemainingTicks: five seconds of ticks. */
  const END_SCREEN_TICKS: int := TICK_RATE_WHOLE * 5

  /** ServerInput: a non-negative value overwrites the latest player connection time. */
  datatype ServerInput = ServerInput(setLatestConnectionTime: int)

  /** EndScreen: ticks left until the server stops, the trap count and each player's flag count. */
  datatype EndScreen = EndScreen(remainingTicks: int, trapCount: int, playerToFlags: map<int, int>)

  datatype GameState = GameState(
    players: map<int, Position>,
    flags: seq<seq<int>>,
    traps: seq<seq<bool>>,
    latestConnectionTime: int,
    endScreen: Option<EndScreen>)
  {
    predicate Valid()
    {
      IsGrid(flags) && IsGrid(traps) && AllOnMap(players)
    }
  }

  /**
   * A new game: no players, no flags, no end screen. The constructor leaves every trap unset;
   * the `traps` parameter generalises it to any trap layout.
   */
  function Create(traps: seq<seq<bool>>): (s: GameState)
    requires IsGrid(traps)
    ensures s.Valid() && s.players == map[] && s.endScreen.None? && s.traps == traps
    ensures forall x, y :: InBounds(x, y) ==> s.flags[x][y] == 0
  {
    GameState(map[], Filled(0), traps, 0, None)
  }

  /** The tiles of a grid in the order the source's nested loops visit them: x outer, y inner. */
  function Cells<T>(g: seq<seq<T>>): (c: seq<T>)
    requires IsGrid(g)
    ensures |c| == MAP_SIZE * MAP_SIZE
    ensures forall x, y :: InBounds(x, y) ==> c[MAP_SIZE * x + y] == g[x][y]
  {
    seq(MAP_SIZE * MAP_SIZE, i requires 0 <= i < MAP_SIZE * MAP_SIZE => g[i / MAP_SIZE][i % MAP_SIZE])
  }

  /** How many entries are true. */
  function CountTrue(s: seq<bool>): (n: nat)
    ensures n <= |s|
    decreases |s|
  {
    if |s| == 0 then 0 else CountTrue(s[..|s| - 1]) + if s[|s| - 1] then 1 else 0
  }

  /** A count reaches the length exactly when every entry is true. */
  lemma {:induction false} CountTrueAll(s: seq<bool>)
    ensures CountTrue(s) == |s| <==> forall i :: 0 <= i < |s| ==> s[i]
    decreases |s|
  {
    if |s| > 0 {
      var init := s[..|s| - 1];
      CountTrueAll(init);
      assert forall i :: 0 <= i < |init| ==> init[i] == s[i];
    }
  }

  /** Whether each tile, in loop order, holds a trap or a flag. */
  function FilledTiles(s: GameState): (c: seq<bool>)
    requires s.Valid()
    ensures |c| == MAP_SIZE * MAP_SIZE
  {
    seq(MAP_SIZE * MAP_SIZE, i requires 0 <= i < MAP_SIZE * MAP_SIZE => Cells(s.traps)[i] || Cells(s.flags)[i] != 0)
  }

  /** CountFilledTiles: the number of tiles holding a trap or a flag. */
  function CountFilledTiles(s: GameState): (n: nat)
    requires s.Valid()
    ensures n <= MAP_SIZE * MAP_SIZE
    ensures n == MAP_SIZE * MAP_SIZE <==> Full(s)
  {
    FilledTilesAllFull(s);
    CountTrue(FilledTiles(s))
  }

  /** The map is full: every tile holds a trap or a flag. */
  predicate Full(s: GameState)
    requires s.Valid()
  {
    forall x, y :: 0 <= x < MAP_SIZE && 0 <= y < MAP_SIZE ==> s.traps[x][y] || s.flags[x][y] != 0
  }

  /** All tiles are counted exactly when the map is full. */
  lemma FilledTilesAllFull(s: GameState)
    requires s.Valid()
    ensures CountTrue(FilledTiles(s)) == MAP_SIZE * MAP_SIZE <==> Full(s)
  {
    var c := FilledTiles(s);
    CountTrueAll(c);
    if forall i :: 0 <= i < |c| ==> c[i] {
      forall x, y | InBounds(x, y)
        ensures s.traps[x][y] || s.flags[x][y] != 0
      {
        assert c[MAP_SIZE * x + y];
      }
    }
    if Full(s) {
      forall i | 0 <= i < |c|
        ensures c[i]
      {
        var x, y := i / MAP_SIZE, i % MAP_SIZE;
        assert i == MAP_SIZE * x + y;
        assert InBounds(x, y);
      }
    }
  }

  /** The flag counts per player: each positive key, in order, adds one to its entry. */
  function Tally(keys: seq<int>): (m: map<int, int>)
    decreases |keys|
  {
    if |keys| == 0 then map[]
    else
      var m := Tally(keys[..|keys| - 1]);
      var key := keys[|keys| - 1];
      if key <= 0 then m else m[key := (if key in m then m[key] else 0) + 1]
  }

  /** Tally maps exactly the positive keys present to the number of times each occurs. */
  lemma {:induction false} TallyCounts(keys: seq<int>, key: int)
    ensures key in Tally(keys) <==> key > 0 && key in multiset(keys)
    ensures key in Tally(keys) ==> Tally(keys)[key] == multiset(keys)[key]
    decreases |keys|
  {
    if |keys| > 0 {
      var init := keys[..|keys| - 1];
      TallyCounts(init, key);
      assert keys == init + [keys[|keys| - 1]];
    }
  }

  /**
   * EndScreen.Create as written: every trapped tile is counted twice, once by the `if` and once
   * by the conditional addition after it. The trap grid is read from HasTrap, the one trap field
   * the game state has.
   */
  function CreateEndScreenAsWritten(s: GameState): (e: EndScreen)
    requires s.Valid()
    ensures e.remainingTicks == END_SCREEN_TICKS && e.playerToFlags == Tally(Cells(s.flags))
    ensures e.trapCount == 2 * CountTrue(Cells(s.traps))
  {
    var trapped := Cells(s.traps);
    EndScreen(END_SCREEN_TICKS, CountTrue(trapped) + CountTrue(trapped), Tally(Cells(s.flags)))
  }

  /** EndScreen.Create with each trap counted once. */
  function CreateEndScreen(s: GameState): (e: EndScreen)
    requires s.Valid()
    ensures e.remainingTicks == END_SCREEN_TICKS
    ensures e.trapCount == CountTrue(Cells(s.traps))
    ensures forall key :: key in e.playerToFlags <==> key > 0 && key in multiset(Cells(s.flags))
    ensures forall key :: key in e.playerToFlags ==> e.playerToFlags[key] == multiset(Cells(s.flags))[key]
  {
    var flags := Cells(s.flags);
    forall key
      ensures key in Tally(flags) <==> key > 0 && key in multiset(flags)
      ensures key in Tally(flags) ==> Tally(flags)[key] == multiset(flags)[key]
    {
      TallyCounts(flags, key);
    }
    EndScreen(END_SCREEN_TICKS, CountTrue(Cells(s.traps)), Tally(flags))
  }

  /** The discrepancy: a map with a single trap gets a trap count of 2 as written, 1 corrected. */
  lemma OneTrapCountedTwice(s: GameState)
    requires s.Valid() && CountTrue(Cells(s.traps)) == 1
    ensures CreateEndScreenAsWritten(s).trapCount == 2
    ensures CreateEndScreen(s).trapCount == 1
  {
  }

  /** EndScreen.Update: once no ticks remain the server is told to stop; otherwise one tick passes. */
  function UpdateEndScreen(e: EndScreen): (r: (EndScreen, UpdateOutput))
    ensures e.remainingTicks <= 0 ==> r == (e, TERMINATE_OUTPUT)
    ensures e.remainingTicks > 0 ==> r == (e.(remainingTicks := e.remainingTicks - 1), EMPTY_OUTPUT)
  {
    if e.remainingTicks <= 0 then (e, UpdateOutput(None, true))
    else (e.(remainingTicks := e.remainingTicks - 1), EMPTY_OUTPUT)
  }

  /** From n remaining ticks, n updates pass quietly and the next one stops the server. */
  lemma {:induction false} EndScreenCountsDown(e: EndScreen, n: nat)
    requires e.remainingTicks == n
    ensures var (e1, out) := UpdateEndScreen(e);
      (n == 0 ==> out.shallStop) && (n > 0 ==> !out.shallStop && e1.remainingTicks == n - 1)
  {
  }

  /**
   * One client's entry. A terminated client's player is removed. Otherwise the player is created
   * at (0, 0) if missing and steps; asking for a flag on a trapped tile gets the client listed
   * for disconnection, and on an untrapped, flagless tile places a flag with its id.
   */
  function ApplyInput(s: GameState, info: ClientInfo<ClientInput>): (r: (GameState, seq<int>))
    requires s.Valid()
    ensures r.0.Valid() && r.0.traps == s.traps && r.0.latestConnectionTime == s.latestConnectionTime
    ensures r.0.endScreen == s.endScreen
    ensures FlagsKept(s.flags, r.0.flags)
    ensures info.terminated ==> r.0 == s.(players := s.players - {info.id}) && r.1 == []
    ensures !info.terminated ==> r.0.players.Keys == s.players.Keys + {info.id}
    ensures !info.terminated ==> forall id :: id in s.players && id != info.id ==> r.0.players[id] == s.players[id]
    ensures !info.terminated ==>
      r.0.players[info.id] == Step(if info.id in s.players then s.players[info.id] else START, info.input.direction)
    ensures !info.terminated ==> var p := r.0.players[info.id];
      (r.1 == if info.input.placeFlag && s.traps[p.x][p.y] then [info.id] else []) &&
      (forall x, y :: InBounds(x, y) ==>
        r.0.flags[x][y] == if (x, y) == (p.x, p.y) && info.input.placeFlag && !s.traps[x][y] && s.flags[x][y] == 0
                           then info.id else s.flags[x][y])
  {
    var id := info.id;
    if info.terminated then (s.(players := s.players - {id}), [])
    else
      var players := if id in s.players then s.players else s.players[id := START];
      var p := Step(players[id], info.input.direction);
      var s1 := s.(players := players[id := p]);
      if !info.input.placeFlag then (s1, [])
      else if s.traps[p.x][p.y] then (s1, [id])
      else if s.flags[p.x][p.y] == 0 then (s1.(flags := Set(s.flags, p.x, p.y, id)), [])
      else (s1, [])
  }

  /** The client entries applied in order, with the clients to disconnect in order. */
  function ApplyInputs(s: GameState, infos: seq<ClientInfo<ClientInput>>): (r: (GameState, seq<int>))
    requires s.Valid()
    ensures r.0.Valid() && r.0.traps == s.traps && r.0.latestConnectionTime == s.latestConnectionTime
    ensures r.0.endScreen == s.endScreen
    decreases |infos|
  {
    if |infos| == 0 then (s, [])
    else
      var (s1, kicked) := ApplyInputs(s, infos[..|infos| - 1]);
      var (s2, more) := ApplyInput(s1, infos[|infos| - 1]);
      (s2, kicked + more)
  }

  /**
   * Whether entry k of a frame gets its client disconnected: it is not a termination, it asks
   * for a flag, and its player, after the earlier entries and its own step, stands on a trap.
   */
  predicate KickedAt(s: GameState, infos: seq<ClientInfo<ClientInput>>, k: int)
    requires s.Valid() && 0 <= k < |infos|
  {
    var info := infos[k];
    var before := ApplyInputs(s, infos[..k]).0;
    var p := Step(if info.id in before.players then before.players[info.id] else START, info.input.direction);
    !info.terminated && info.input.placeFlag && s.traps[p.x][p.y]
  }

  /** Entry k's kick does not depend on the entries after it. */
  lemma KickedAtPrefix(s: GameState, infos: seq<ClientInfo<ClientInput>>, n: int, k: int)
    requires s.Valid() && 0 <= k < n <= |infos|
    ensures KickedAt(s, infos, k) == KickedAt(s, infos[..n], k)
  {
    assert infos[..n][..k] == infos[..k];
  }

  /** The last entry of a run lists its client exactly when it is kicked. */
  lemma KickedLast(s: GameState, infos: seq<ClientInfo<ClientInput>>, id: int)
    requires s.Valid() && |infos| > 0
    ensures var n := |infos| - 1;
      ApplyInputs(s, infos).1 == ApplyInputs(s, infos[..n]).1 + ApplyInput(ApplyInputs(s, infos[..n]).0, infos[n]).1 &&
      (id in ApplyInput(ApplyInputs(s, infos[..n]).0, infos[n]).1 <==> infos[n].id == id && KickedAt(s, infos, n))
  {
    var n := |infos| - 1;
    var before := ApplyInputs(s, infos[..n]).0;
    var info := infos[n];
    var r := ApplyInput(before, info);
    if !info.terminated {
      var p := r.0.players[info.id];
      assert p == Step(if info.id in before.players then before.players[info.id] else START, info.input.direction);
      assert r.1 == if info.input.placeFlag && s.traps[p.x][p.y] then [info.id] else [];
    }
  }

  /** Whether one of the first m entries of the run is a kicked entry of client `id`. */
  predicate KickedBefore(s: GameState, infos: seq<ClientInfo<ClientInput>>, id: int, m: int)
    requires s.Valid() && 0 <= m <= |infos|
  {
    exists k :: 0 <= k < m && infos[k].id == id && KickedAt(s, infos, k)
  }

  lemma KickedBeforePrefix(s: GameState, infos: seq<ClientInfo<ClientInput>>, id: int, n: int)
    requires s.Valid() && 0 <= n <= |infos|
    ensures KickedBefore(s, infos, id, n) <==> KickedBefore(s, infos[..n], id, n)
  {
    if KickedBefore(s, infos, id, n) {
      var k :| 0 <= k < n && infos[k].id == id && KickedAt(s, infos, k);
      KickedAtPrefix(s, infos, n, k);
      assert infos[..n][k] == infos[k];
    }
    if KickedBefore(s, infos[..n], id, n) {
      var k :| 0 <= k < n && infos[..n][k].id == id && KickedAt(s, infos[..n], k);
      KickedAtPrefix(s, infos, n, k);
    }
  }

  lemma KickedBeforeSnoc(s: GameState, infos: seq<ClientInfo<ClientInput>>, id: int, n: int)
    requires s.Valid() && 0 <= n < |infos|
    ensures KickedBefore(s, infos, id, n + 1) <==>
      KickedBefore(s, infos, id, n) || (infos[n].id == id && KickedAt(s, infos, n))
  {
    if KickedBefore(s, infos, id, n + 1) {
      var k :| 0 <= k < n + 1 && infos[k].id == id && KickedAt(s, infos, k);
      if k < n {
        assert KickedBefore(s, infos, id, n);
      }
    }
  }

  /** Over any run of entries, a client is listed for disconnection exactly when one of its entries is kicked. */
  lemma {:induction false} ApplyInputsKicks(s: GameState, infos: seq<ClientInfo<ClientInput>>, id: int)
    requires s.Valid()
    ensures id in ApplyInputs(s, infos).1 <==> exists k :: 0 <= k < |infos| && infos[k].id == id && KickedAt(s, infos, k)
    decreases |infos|
  {
    if |infos| > 0 {
      var n := |infos| - 1;
      ApplyInputsKicks(s, infos[..n], id);
      assert id in ApplyInputs(s, infos[..n]).1 <==> KickedBefore(s, infos[..n], id, n);
      KickedBeforePrefix(s, infos, id, n);
      KickedBeforeSnoc(s, infos, id, n);
      KickedLast(s, infos, id);
      assert id in ApplyInputs(s, infos).1 <==> KickedBefore(s, infos, id, n + 1);
    }
  }

  /** The connection time set by the server input: a non-negative value overwrites it. */
  function WithConnectionTime(s: GameState, input: ServerInput): (r: GameState)
    requires s.Valid()
    ensures r.Valid() && r == s.(latestConnectionTime := r.latestConnectionTime)
    ensures r.latestConnectionTime == if input.setLatestConnectionTime >= 0 then input.setLatestConnectionTime else s.latestConnectionTime
  {
    if input.setLatestConnectionTime >= 0 then s.(latestConnectionTime := input.setLatestConnectionTime) else s
  }

  /**
   * Update: with an end screen, only the end screen advances. Otherwise the connection time is
   * set when the server input is non-negative, the entries are applied in order, and the end
   * screen is created, as written (each trap counted twice), if every tile now holds a trap or a
   * flag; the output names the clients to disconnect.
   */
  function Update(s: GameState, input: UpdateInput<ClientInput, ServerInput>): (r: (GameState, UpdateOutput))
    requires s.Valid()
    ensures r.0.Valid() && r.0.traps == s.traps
    ensures s.endScreen.Some? ==>
              r.0 == s.(endScreen := Some(UpdateEndScreen(s.endScreen.value).0)) &&
              r.1 == UpdateEndScreen(s.endScreen.value).1
    ensures s.endScreen.None? ==> !r.1.shallStop
    ensures s.endScreen.None? ==>
              r.1.clientsToTerminate == Some(ApplyInputs(WithConnectionTime(s, input.serverInput), input.clientInput).1)
    ensures s.endScreen.None? ==>
              r.0.latestConnectionTime == (if input.serverInput.setLatestConnectionTime >= 0
                                           then input.serverInput.setLatestConnectionTime
                                           else s.latestConnectionTime)
    ensures s.endScreen.None? ==> (r.0.endScreen.Some? <==> Full(r.0))
    ensures s.endScreen.None? && r.0.endScreen.Some? ==>
              r.0.endScreen.value.remainingTicks == END_SCREEN_TICKS &&
              r.0.endScreen.value.trapCount == 2 * CountTrue(Cells(s.traps)) &&
              r.0.endScreen.value.playerToFlags == Tally(Cells(r.0.flags))
  {
    if s.endScreen.Some? then
      var (e, output) := UpdateEndScreen(s.endScreen.value);
      (s.(endScreen := Some(e)), output)
    else
      var s0 := WithConnectionTime(s, input.serverInput);
      var (s1, kicked) := ApplyInputs(s0, input.clientInput);
      var s2 := if CountFilledTiles(s1) == MAP_SIZE * MAP_SIZE then s1.(endScreen := Some(CreateEndScreenAsWritten(s1))) else s1;
      (s2, UpdateOutput(Some(kicked), false))
  }

  /**
   * Without an end screen, the update's ClientsToTerminate lists a client exactly when one of
   * its entries asked for a flag while its player, after moving, stood on a trap.
   */
  lemma UpdateKicks(s: GameState, input: UpdateInput<ClientInput, ServerInput>, id: int)
    requires s.Valid() && s.endScreen.None?
    ensures var out := Update(s, input).1;
      var s0 := WithConnectionTime(s, input.serverInput);
      out.clientsToTerminate.Some? &&
      (id in out.clientsToTerminate.value <==>
         exists k :: 0 <= k < |input.clientInput| && input.clientInput[k].id == id && KickedAt(s0, input.clientInput, k))
  {
    ApplyInputsKicks(WithConnectionTime(s, input.serverInput), input.clientInput, id);
  }

  /** Over any run of entries no placed flag is overwritten, and every terminated client is gone. */
  lemma {:induction false} ApplyInputsKeepsFlags(s: GameState, infos: seq<ClientInfo<ClientInput>>)
    requires s.Valid()
    ensures FlagsKept(s.flags, ApplyInputs(s, infos).0.flags)
    decreases |infos|
  {
    if |infos| > 0 {
      var init := infos[..|infos| - 1];
      ApplyInputsKeepsFlags(s, init);
      FlagsKeptTransitive(s.flags, ApplyInputs(s, init).0.flags, ApplyInputs(s, infos).0.flags);
    }
  }

  /** A client whose last entry in the frame is a termination has no player afterwards. */
  lemma LastTerminationRemoves(s: GameState, infos: seq<ClientInfo<ClientInput>>)
    requires s.Valid() && |infos| > 0 && infos[|infos| - 1].terminated
    ensures infos[|infos| - 1].id !in ApplyInputs(s, infos).0.players
  {
  }
}

=== FILE: basic_game.dfy ===
/**
 * The Basic example game (examples/Basic/Game.cs): each client's player steps on a 10 x 10 map
 * and may place a flag, carrying its id, on an empty tile. Players are created on first input
 * and never removed. The server input carries nothing and is the unit value.
 */
module BasicGame {
  import opened GameTypes
  import opened FlagGame

  /** GameState: the players by client id and the placed flags. */
  datatype GameState = GameState(players: map<int, Position>, flags: seq<seq<int>>)
  {
    predicate Valid()
    {
      IsGrid(flags) && AllOnMap(players)
    }
  }

  /** A new game: no players and no flags. */
  function Create(): (s: GameState)
    ensures s.Valid() && s.players == map[]
    ensures forall x, y :: InBounds(x, y) ==> s.flags[x][y] == 0
  {
    GameState(map[], Filled(0))
  }

  /**
   * One client's entry: the player is created at (0, 0) if missing, steps, and places a flag
   * with its id if asked to and the tile it stands on holds none.
   */
  function ApplyInput(s: GameState, info: ClientInfo<ClientInput>): (r: GameState)
    requires s.Valid()
    ensures r.Valid()
    ensures r.players.Keys == s.players.Keys + {info.id}
    ensures forall id :: id in s.players && id != info.id ==> r.players[id] == s.players[id]
    ensures r.players[info.id] == Step(if info.id in s.players then s.players[info.id] else START, info.input.direction)
    ensures FlagsKept(s.flags, r.flags)
    ensures var p := r.players[info.id];
      forall x, y :: InBounds(x, y) ==>
        r.flags[x][y] == if (x, y) == (p.x, p.y) && info.input.placeFlag && s.flags[x][y] == 0
                         then info.id else s.flags[x][y]
  {
    var id := info.id;
    var players := if id in s.players then s.players else s.players[id := START];
    var p := Step(players[id], info.input.direction);
    var flags := if info.input.placeFlag && s.flags[p.x][p.y] == 0 then Set(s.flags, p.x, p.y, id) else s.flags;
    GameState(players[id := p], flags)
  }

  /** The client entries applied in order. */
  function ApplyInputs(s: GameState, infos: seq<ClientInfo<ClientInput>>): (r: GameState)
    requires s.Valid()
    ensures r.Valid()
    decreases |infos|
  {
    if |infos| == 0 then s else ApplyInput(ApplyInputs(s, infos[..|infos| - 1]), infos[|infos| - 1])
  }

  /** Update: every entry applied in order; the output is always UpdateOutput.Empty. */
  function Update(s: GameState, input: UpdateInput<ClientInput, ()>): (r: (GameState, UpdateOutput))
    requires s.Valid()
    ensures r.0.Valid() && r.1 == EMPTY_OUTPUT
  {
    (ApplyInputs(s, input.clientInput), EMPTY_OUTPUT)
  }

  /** Over any run of entries, every client seen gets a player and no player is removed. */
  lemma {:induction false} ApplyInputsAddsPlayers(s: GameState, infos: seq<ClientInfo<ClientInput>>)
    requires s.Valid()
    ensures ApplyInputs(s, infos).players.Keys == s.players.Keys + IdSet(infos)
    decreases |infos|
  {
    if |infos| > 0 {
      ApplyInputsAddsPlayers(s, infos[..|infos| - 1]);
    }
  }

  /** Over any run of entries, no placed flag is overwritten. */
  lemma {:induction false} ApplyInputsKeepsFlags(s: GameState, infos: seq<ClientInfo<ClientInput>>)
    requires s.Valid()
    ensures FlagsKept(s.flags, ApplyInputs(s, infos).flags)
    decreases |infos|
  {
    if |infos| > 0 {
      var init := infos[..|infos| - 1];
      ApplyInputsKeepsFlags(s, init);
      FlagsKeptTransitive(s.flags, ApplyInputs(s, init).flags, ApplyInputs(s, infos).flags);
    }
  }

  /** The entries with their Terminated flags cleared. */
  function ClearTerminated(infos: seq<ClientInfo<ClientInput>>): (r: seq<ClientInfo<ClientInput>>)
    ensures |r| == |infos|
    ensures forall k :: 0 <= k < |infos| ==> r[k] == infos[k].(terminated := false)
  {
    seq(|infos|, k requires 0 <= k < |infos| => infos[k].(terminated := false))
  }

  /** The Terminated flag is ignored: a disconnected client's entry is applied like any other. */
  lemma {:induction false} TerminatedIgnored(s: GameState, infos: seq<ClientInfo<ClientInput>>)
    requires s.Valid()
    ensures ApplyInputs(s, infos) == ApplyInputs(s, ClearTerminated(infos))
    decreases |infos|
  {
    if |infos| > 0 {
      var init := infos[..|infos| - 1];
      TerminatedIgnored(s, init);
      assert ClearTerminated(infos)[..|infos| - 1] == ClearTerminated(init);
    }
  }
}

=== FILE: bits.dfy ===
/**
 * Little-endian encoding of `int`, `long` and their nullable forms into byte spans
 * (src/Useful/Bits.cs). A span is a `seq<uint8>`; a write returns the whole span after
 * the write, so "the bytes past the encoding are unchanged" is a statement about the result.
 */
module Bits {
  import opened Wrappers
  import opened IntWidths

  const INT_SIZE: nat := 4
  const LONG_SIZE: nat := 8
  /** As written: `sizeof(long) + 1`, although a nullable int occupies only 5 bytes. */
  const NULLABLE_INT_SIZE: nat := 9
  const NULLABLE_LONG_SIZE: nat := 9
  /** The size a nullable int actually occupies: a flag byte and four value bytes. */
  const NULLABLE_INT_SIZE_INTENDED: nat := 5

  /** `v >> (8 * k)` on a two's-complement value: an arithmetic right shift is a floor division. */
  function ShiftRightBytes(v: int, k: nat): int
  {
    v / Pow256(k)
  }

  /** The n bytes a write of `v` produces: byte i is `(v >> 8i) & 0xFF`. */
  function Encode(v: int, n: nat): (r: seq<uint8>)
    ensures |r| == n
  {
    seq(n, i requires 0 <= i < n => (ShiftRightBytes(v, i) % 256) as uint8)
  }

  /** The unsigned value of little-endian bytes: the OR of `s[i] << 8i`, whose bit ranges are disjoint. */
  function LeValue(s: seq<uint8>): (r: nat)
    ensures r < Pow256(|s|)
  {
    if s == [] then 0 else s[0] as int + 256 * LeValue(s[1..])
  }

  /** Half the range of an n-byte integer: the signed values are [-Half(n), Half(n)). */
  function Half(n: nat): (r: int)
    requires n > 0
    ensures r > 0 && 2 * r == Pow256(n)
  {
    128 * Pow256(n - 1)
  }

  /** Writes the n-byte little-endian encoding of `v` at the start of `span`. */
  function WriteLe(v: int, n: nat, span: seq<uint8>): (r: Outcome<seq<uint8>>)
    ensures r.Throws? <==> |span| < n
    ensures r.Throws? ==> r.error == ArgumentException
    ensures r.Ok? ==> |r.value| == |span| && r.value[n..] == span[n..]
  {
    if |span| < n then Throws(ArgumentException) else Ok(Encode(v, n) + span[n..])
  }

  /** Reads a signed n-byte little-endian value from the start of `span`; extra bytes are ignored. */
  function ReadLe(n: nat, span: seq<uint8>): (r: Outcome<int>)
    requires n > 0
    ensures r.Throws? <==> |span| < n
    ensures r.Throws? ==> r.error == ArgumentException
    ensures r.Ok? ==> -Half(n) <= r.value < Half(n)
  {
    if |span| < n then Throws(ArgumentException) else Ok(ToSigned(LeValue(span[..n]), Half(n)))
  }

  function WriteInt(v: int, span: seq<uint8>): (r: Outcome<seq<uint8>>)
    requires IsInt32(v)
  {
    WriteLe(v, INT_SIZE, span)
  }

  function WriteLong(v: int, span: seq<uint8>): (r: Outcome<seq<uint8>>)
    requires IsInt64(v)
  {
    WriteLe(v, LONG_SIZE, span)
  }

  function ReadInt(span: seq<uint8>): (r: Outcome<int>)
    ensures r.Ok? ==> IsInt32(r.value)
  {
    Pow256Values();
    ReadLe(INT_SIZE, span)
  }

  function ReadLong(span: seq<uint8>): (r: Outcome<int>)
    ensures r.Ok? ==> IsInt64(r.value)
  {
    Pow256Values();
    ReadLe(LONG_SIZE, span)
  }

  function Zeros(n: nat): (r: seq<uint8>)
    ensures |r| == n && forall i :: 0 <= i < n ==> r[i] == 0
  {
    if n == 0 then [] else [0] + Zeros(n - 1)
  }

  /**
   * Write(long?): null clears the first NullableLongSize bytes (a slice that throws
   * ArgumentOutOfRangeException on a shorter span); a value writes flag byte 1 (indexing an
   * empty span throws IndexOutOfRangeException) and then the 8-byte encoding.
   */
  function WriteNullableLong(v: Option<int>, span: seq<uint8>): (r: Outcome<seq<uint8>>)
    requires v.Some? ==> IsInt64(v.value)
    ensures r.Throws? <==> |span| < NULLABLE_LONG_SIZE
    ensures r.Ok? ==> |r.value| == |span| && r.value[NULLABLE_LONG_SIZE..] == span[NULLABLE_LONG_SIZE..]
    ensures r.Ok? ==> (r.value[0] == 0 <==> v.None?)
    ensures r.Ok? && v.None? ==> r.value[..NULLABLE_LONG_SIZE] == Zeros(NULLABLE_LONG_SIZE)
  {
    match v
    case None =>
      if |span| < NULLABLE_LONG_SIZE then Throws(ArgumentOutOfRangeException)
      else Ok(Zeros(NULLABLE_LONG_SIZE) + span[NULLABLE_LONG_SIZE..])
    case Some(x) =>
      if |span| == 0 then Throws(IndexOutOfRangeException)
      else
        match WriteLong(x, span[1..])
        case Throws(e) => Throws(e)
        case Ok(rest) => Ok([1 as uint8] + rest)
  }

  /** Write(int?) as written: null clears NullableIntSize = 9 bytes, a value writes 1 + 4 bytes. */
  function WriteNullableInt(v: Option<int>, span: seq<uint8>): (r: Outcome<seq<uint8>>)
    requires v.Some? ==> IsInt32(v.value)
    ensures v.None? ==> (r.Throws? <==> |span| < NULLABLE_INT_SIZE)
    ensures v.Some? ==> (r.Throws? <==> |span| < NULLABLE_INT_SIZE_INTENDED)
    ensures r.Ok? ==> |r.value| == |span| && (r.value[0] == 0 <==> v.None?)
  {
    match v
    case None =>
      if |span| < NULLABLE_INT_SIZE then Throws(ArgumentOutOfRangeException)
      else Ok(Zeros(NULLABLE_INT_SIZE) + span[NULLABLE_INT_SIZE..])
    case Some(x) =>
      if |span| == 0 then Throws(IndexOutOfRangeException)
      else
        match WriteInt(x, span[1..])
        case Throws(e) => Throws(e)
        case Ok(rest) => Ok([1 as uint8] + rest)
  }

  /** Write(int?) with the size the format needs: null clears the 5 bytes a nullable int occupies. */
  function WriteNullableIntCorrected(v: Option<int>, span: seq<uint8>): (r: Outcome<seq<uint8>>)
    requires v.Some? ==> IsInt32(v.value)
    ensures r.Throws? <==> |span| < NULLABLE_INT_SIZE_INTENDED
    ensures r.Ok? ==> |r.value| == |span| && r.value[NULLABLE_INT_SIZE_INTENDED..] == span[NULLABLE_INT_SIZE_INTENDED..]
    ensures r.Ok? ==> (r.value[0] == 0 <==> v.None?)
  {
    match v
    case None =>
      if |span| < NULLABLE_INT_SIZE_INTENDED then Throws(ArgumentOutOfRangeException)
      else Ok(Zeros(NULLABLE_INT_SIZE_INTENDED) + span[NULLABLE_INT_SIZE_INTENDED..])
    case Some(x) =>
      if |span| == 0 then Throws(IndexOutOfRangeException)
      else
        match WriteInt(x, span[1..])
        case Throws(e) => Throws(e)
        case Ok(rest) => Ok([1 as uint8] + rest)
  }

  /** ReadNullableInt: needs 5 bytes; flag 0 is null, otherwise the int that follows. */
  function ReadNullableInt(span: seq<uint8>): (r: Outcome<Option<int>>)
    ensures r.Throws? <==> |span| < INT_SIZE + 1
    ensures r.Ok? ==> (r.value.None? <==> span[0] == 0)
    ensures r.Ok? && r.value.Some? ==> IsInt32(r.value.value)
  {
    if |span| < INT_SIZE + 1 then Throws(ArgumentException)
    else if span[0] == 0 then Ok(None)
    else Ok(Some(ReadInt(span[1..]).value))
  }

  /** ReadNullableLong: needs 9 bytes; flag 0 is null, otherwise the long that follows. */
  function ReadNullableLong(span: seq<uint8>): (r: Outcome<Option<int>>)
    ensures r.Throws? <==> |span| < LONG_SIZE + 1
    ensures r.Ok? ==> (r.value.None? <==> span[0] == 0)
    ensures r.Ok? && r.value.Some? ==> IsInt64(r.value.value)
  {
    if |span| < LONG_SIZE + 1 then Throws(ArgumentException)
    else if span[0] == 0 then Ok(None)
    else Ok(Some(ReadLong(span[1..]).value))
  }

  // ---------------------------------------------------------------------------------------
  // Encoding lemmas

  /** Dropping the first byte of an encoding is encoding the value shifted right by 8. */
  lemma EncodeTail(v: int, n: nat)
    requires n > 0
    ensures Encode(v, n)[0] as int == v % 256
    ensures Encode(v, n)[1..] == Encode(v / 256, n - 1)
  {
    forall i | 0 <= i < n - 1
      ensures Encode(v, n)[1..][i] == Encode(v / 256, n - 1)[i]
    {
      DivDiv(v, 256, Pow256(i));
    }
  }

  /** Reading back n encoded bytes gives `v` modulo 256^n. */
  lemma {:induction false} LeValueEncode(v: int, n: nat)
    ensures LeValue(Encode(v, n)) == v % Pow256(n)
    decreases n
  {
    if n > 0 {
      EncodeTail(v, n);
      LeValueEncode(v / 256, n - 1);
      DivDiv(v, 256, Pow256(n - 1));
    }
  }

  /** Encoding the value of n bytes gives those bytes back. */
  lemma {:induction false} EncodeLeValue(s: seq<uint8>)
    ensures Encode(LeValue(s), |s|) == s
  {
    if s != [] {
      var x := LeValue(s);
      ModAddMultiple(s[0] as int, LeValue(s[1..]), 256);
      EncodeTail(x, |s|);
      EncodeLeValue(s[1..]);
    }
  }

  /** An n-byte encoding only depends on the value modulo 256^n. */
  lemma {:induction false} EncodePeriodic(v: int, k: int, n: nat)
    ensures Encode(v + k * Pow256(n), n) == Encode(v, n)
    decreases n
  {
    if n > 0 {
      var w := v + k * Pow256(n);
      assert w == v + (k * Pow256(n - 1)) * 256;
      ModAddMultiple(v, k * Pow256(n - 1), 256);
      EncodeTail(w, n);
      EncodeTail(v, n);
      EncodePeriodic(v / 256, k, n - 1);
    }
  }

  /** A signed n-byte value survives the trip through its encoding. */
  lemma ReadLeWriteLe(v: int, n: nat, span: seq<uint8>)
    requires n > 0 && -Half(n) <= v < Half(n) && |span| >= n
    ensures WriteLe(v, n, span).Ok?
    ensures ReadLe(n, WriteLe(v, n, span).value) == Ok(v)
  {
    var w := WriteLe(v, n, span).value;
    assert w[..n] == Encode(v, n);
    LeValueEncode(v, n);
    if v < 0 {
      DivModUnique(v, Pow256(n), -1, v + Pow256(n));
    } else {
      DivModUnique(v, Pow256(n), 0, v);
    }
  }

  /** Writing back what was read leaves the span unchanged: the encoding is a bijection. */
  lemma WriteLeReadLe(n: nat, span: seq<uint8>)
    requires n > 0 && |span| >= n
    ensures ReadLe(n, span).Ok?
    ensures WriteLe(ReadLe(n, span).value, n, span) == Ok(span)
  {
    var u := LeValue(span[..n]);
    var v := ReadLe(n, span).value;
    if u >= Half(n) {
      assert v == u + (-1) * Pow256(n);
      EncodePeriodic(u, -1, n);
    }
    EncodeLeValue(span[..n]);
    assert span[..n] + span[n..] == span;
  }

  /** ReadInt inverts Write(int); bytes past the fourth are ignored. */
  lemma ReadIntWriteInt(v: int, span: seq<uint8>)
    requires IsInt32(v) && |span| >= INT_SIZE
    ensures WriteInt(v, span).Ok?
    ensures ReadInt(WriteInt(v, span).value) == Ok(v)
  {
    Pow256Values();
    ReadLeWriteLe(v, INT_SIZE, span);
  }

  /** Write(int) of the value read from a span rewrites the span unchanged. */
  lemma WriteIntReadInt(span: seq<uint8>)
    requires |span| >= INT_SIZE
    ensures ReadInt(span).Ok?
    ensures WriteInt(ReadInt(span).value, span) == Ok(span)
  {
    WriteLeReadLe(INT_SIZE, span);
  }

  /** ReadLong inverts Write(long) over 8 little-endian bytes. */
  lemma ReadLongWriteLong(v: int, span: seq<uint8>)
    requires IsInt64(v) && |span| >= LONG_SIZE
    ensures WriteLong(v, span).Ok?
    ensures ReadLong(WriteLong(v, span).value) == Ok(v)
  {
    Pow256Values();
    ReadLeWriteLe(v, LONG_SIZE, span);
  }

  /** Write(long) of the value read from a span rewrites the span unchanged. */
  lemma WriteLongReadLong(span: seq<uint8>)
    requires |span| >= LONG_SIZE
    ensures ReadLong(span).Ok?
    ensures WriteLong(ReadLong(span).value, span) == Ok(span)
  {
    WriteLeReadLe(LONG_SIZE, span);
  }

  /** ReadNullableLong inverts Write(long?). */
  lemma ReadNullableLongWrite(v: Option<int>, span: seq<uint8>)
    requires (v.Some? ==> IsInt64(v.value)) && |span| >= NULLABLE_LONG_SIZE
    ensures WriteNullableLong(v, span).Ok?
    ensures ReadNullableLong(WriteNullableLong(v, span).value) == Ok(v)
  {
    if v.Some? {
      var w := WriteNullableLong(v, span).value;
      ReadLongWriteLong(v.value, span[1..]);
      assert w[1..] == WriteLong(v.value, span[1..]).value;
    }
  }

  /** ReadNullableInt inverts Write(int?) on every span that the 9-byte null write accepts. */
  lemma ReadNullableIntWrite(v: Option<int>, span: seq<uint8>)
    requires (v.Some? ==> IsInt32(v.value)) && |span| >= NULLABLE_INT_SIZE
    ensures WriteNullableInt(v, span).Ok?
    ensures ReadNullableInt(WriteNullableInt(v, span).value) == Ok(v)
  {
    if v.Some? {
      var w := WriteNullableInt(v, span).value;
      ReadIntWriteInt(v.value, span[1..]);
      assert w[1..] == WriteInt(v.value, span[1..]).value;
    }
  }

  /**
   * The discrepancy as written: a 5-byte span is wide enough for ReadNullableInt and for a
   * non-null Write(int?), but a null Write(int?) into it throws.
   */
  lemma NullableIntNullWriteTooWide()
    ensures ReadNullableInt(Zeros(5)) == Ok(None)
    ensures WriteNullableInt(Some(7), Zeros(5)).Ok?
    ensures WriteNullableInt(None, Zeros(5)) == Throws(ArgumentOutOfRangeException)
  {
  }

  /** With the intended size, ReadNullableInt inverts Write(int?) on every span of at least 5 bytes. */
  lemma ReadNullableIntWriteCorrected(v: Option<int>, span: seq<uint8>)
    requires (v.Some? ==> IsInt32(v.value)) && |span| >= NULLABLE_INT_SIZE_INTENDED
    ensures WriteNullableIntCorrected(v, span).Ok?
    ensures ReadNullableInt(WriteNullableIntCorrected(v, span).value) == Ok(v)
  {
    if v.Some? {
      var w := WriteNullableIntCorrected(v, span).value;
      ReadIntWriteInt(v.value, span[1..]);
      assert w[1..] == WriteInt(v.value, span[1..]).value;
    }
  }
}

=== FILE: buffer_writer.dfy ===
/**
 * PooledBufferWriter<byte> (src/Useful/PooledBufferWriter.cs): a growable write buffer over a
 * pooled array. `buffer` is the rented array and `index` the length of the written prefix.
 *
 * Renting from the shared array pool is modelled as a zero-filled array of exactly the
 * requested length; the pool may hand out a longer array with stale contents, which is why
 * every capacity contract below is a lower bound.
 */
module BufferWriter {
  import opened Wrappers
  import opened IntWidths

  const DEFAULT_INITIAL_BUFFER_SIZE: int := 256
  /** Above this size the array pool stops pooling, so requests are rounded up to a power of two. */
  const POOL_THRESHOLD: int := 1024 * 1024

  datatype Writer = Writer(buffer: seq<uint8>, index: nat)
  {
    /** The writer's invariant while it owns an array: the written prefix fits in it. */
    predicate Valid() { index <= |buffer| }

    /** WrittenSpan: the written prefix. */
    function Written(): seq<uint8>
      requires Valid()
    {
      buffer[..index]
    }

    /** The free space after the written prefix. */
    function Free(): int
    {
      |buffer| - index
    }
  }

  /** ArrayPool.Rent: a negative length throws. */
  function Rent(n: int): (r: Outcome<seq<uint8>>)
    ensures r.Throws? <==> n < 0
    ensures r.Ok? ==> |r.value| >= n
  {
    if n < 0 then Throws(ArgumentOutOfRangeException) else Ok(seq(n, _ => 0))
  }

  /** The smallest power of two that is at least `x`, searching upwards from `p`. */
  function RoundUpFrom(x: nat, p: nat): (r: nat)
    requires IsPowerOfTwo(p) && (p < x ==> 2 * p <= 2 * x)
    ensures IsPowerOfTwo(r) && r >= x
    ensures r == p || r < 2 * x
    decreases x - p
  {
    if p >= x then p else RoundUpFrom(x, 2 * p)
  }

  ghost predicate IsPowerOfTwo(p: nat)
    decreases p
  {
    p == 1 || (p >= 2 && p % 2 == 0 && IsPowerOfTwo(p / 2))
  }

  /** BitOperations.RoundUpToPowerOf2 on a positive value. */
  function RoundUpToPowerOf2(x: nat): (r: nat)
    requires x >= 1
    ensures IsPowerOfTwo(r) && x <= r < 2 * x
  {
    RoundUpFrom(x, 1)
  }

  /** The constructor: rents `initialCapacity` elements and starts with nothing written. */
  function New(initialCapacity: int): (r: Outcome<Writer>)
    ensures r.Throws? <==> initialCapacity < 0
    ensures r.Ok? ==> r.value.Valid() && r.value.Written() == [] && |r.value.buffer| >= initialCapacity
  {
    var rented :- Rent(initialCapacity);
    Ok(Writer(rented, 0))
  }

  /** Reset forgets what was written but keeps the array. */
  function Reset(w: Writer): (r: Writer)
    ensures r.index == 0 && r.buffer == w.buffer && r.Valid()
  {
    w.(index := 0)
  }

  /** Extract hands out the written prefix and leaves the writer with an empty array. */
  function Extract(w: Writer): (r: Outcome<(seq<uint8>, Writer)>)
    ensures r.Throws? <==> !w.Valid()
    ensures r.Ok? ==> r.value.0 == w.Written()
    ensures r.Ok? ==> r.value.1.buffer == [] && r.value.1.index == 0
  {
    if !w.Valid() then Throws(ArgumentOutOfRangeException)
    else Ok((w.buffer[..w.index], Writer([], 0)))
  }

  /** ExtractAndReplace hands out the written prefix and continues on a fresh array of at least index + 1 elements. */
  function ExtractAndReplace(w: Writer): (r: Outcome<(seq<uint8>, Writer)>)
    ensures r.Throws? <==> !w.Valid()
    ensures r.Ok? ==> r.value.0 == w.Written()
    ensures r.Ok? ==> r.value.1.index == 0 && |r.value.1.buffer| >= w.index + 1
  {
    if !w.Valid() then Throws(ArgumentOutOfRangeException)
    else
      var prefix := w.buffer[..w.index];
      var rented := Rent(w.index + 1).value;
      Ok((prefix, Writer(rented, 0)))
  }

  /** Empty (and Dispose) return the array to the pool; the written length is left as it was. */
  function Empty(w: Writer): (r: Writer)
    ensures r.buffer == [] && r.index == w.index
  {
    Writer([], w.index)
  }

  /** Advance commits `count` more elements of the free space as written. */
  function Advance(w: Writer, count: int): (r: Outcome<Writer>)
    ensures r.Throws? <==> count < 0 || w.index + count > |w.buffer|
    ensures r.Throws? ==> r.error == (if count < 0 then ArgumentOutOfRangeException else ArgumentException)
    ensures r.Ok? ==> r.value.index == w.index + count && r.value.buffer == w.buffer && r.value.Valid()
  {
    if count < 0 then Throws(ArgumentOutOfRangeException)
    else if w.index > |w.buffer| - count then Throws(ArgumentException)
    else Ok(w.(index := w.index + count))
  }

  /**
   * Resize: rent `newSize` elements and copy as many of the old ones as fit.
   * An array of exactly `newSize` elements is kept.
   */
  function Resize(current: seq<uint8>, newSize: int): (r: Outcome<seq<uint8>>)
    ensures r.Throws? <==> newSize < 0 && |current| != newSize
    ensures r.Ok? ==> |r.value| >= newSize
    ensures r.Ok? ==> var kept := if |current| < newSize then |current| else newSize;
                      r.value[..kept] == current[..kept]
  {
    if |current| == newSize then Ok(current)
    else
      var newArray :- Rent(newSize);
      var itemsToCopy := if |current| < newSize then |current| else newSize;
      Ok(current[..itemsToCopy] + newArray[itemsToCopy..])
  }

  /**
   * The size ResizeBuffer asks for: index + hint in 32-bit arithmetic, so a sum past int.MaxValue
   * wraps to a negative length; a size above the pool threshold is rounded up to a power of two,
   * and the round-up cast back to `int` turns 2^31 into a negative length too.
   */
  function ResizeTarget(index: nat, sizeHint: nat): (r: int)
    requires sizeHint >= 1 && index <= INT32_MAX && sizeHint <= INT32_MAX
    ensures r >= index + sizeHint || r < 0
    ensures index + sizeHint > INT32_MAX ==> r < 0
    ensures index + sizeHint <= POOL_THRESHOLD ==> r == index + sizeHint
  {
    var minimumSize := Wrap32(index + sizeHint);
    if minimumSize > POOL_THRESHOLD then
      var rounded := RoundUpToPowerOf2(minimumSize);
      if rounded > INT32_MAX then rounded - TWO_32 else rounded
    else minimumSize
  }

  /**
   * EnsureCapacity: afterwards at least max(hint, 1) elements are free, and the written prefix is
   * kept. With enough room the writer is left alone; a resize whose size wraps past int.MaxValue
   * asks the pool for a negative length and throws.
   */
  function EnsureCapacity(w: Writer, sizeHint: int): (r: Outcome<Writer>)
    requires w.index <= INT32_MAX && IsInt32(sizeHint)
    ensures sizeHint < 0 ==> r == Throws(ArgumentOutOfRangeException)
    ensures r.Ok? ==> r.value.index == w.index && r.value.Valid()
    ensures r.Ok? ==> r.value.Free() >= sizeHint && r.value.Free() >= 1
    ensures r.Ok? && w.Valid() ==> r.value.Written() == w.Written()
    ensures sizeHint >= 0 && w.index + sizeHint < POOL_THRESHOLD ==> r.Ok?
    ensures var hint := if sizeHint == 0 then 1 else sizeHint;
      sizeHint >= 0 && hint <= w.Free() ==> r == Ok(w)
    ensures var hint := if sizeHint == 0 then 1 else sizeHint;
      sizeHint >= 0 && hint > w.Free() && w.index + hint > INT32_MAX ==> r == Throws(ArgumentOutOfRangeException)
  {
    if sizeHint < 0 then Throws(ArgumentOutOfRangeException)
    else
      var hint := if sizeHint == 0 then 1 else sizeHint;
      if hint > |w.buffer| - w.index then
        var newSize := ResizeTarget(w.index, hint);
        var rented :- Resize(w.buffer, newSize);
        Ok(w.(buffer := rented))
      else Ok(w)
  }

  /** GetSpan (and GetMemory): ensure capacity, then hand out the free space after the written prefix. */
  function GetSpan(w: Writer, sizeHint: int): (r: Outcome<(Writer, seq<uint8>)>)
    requires w.index <= INT32_MAX && IsInt32(sizeHint)
    ensures sizeHint < 0 ==> r == Throws(ArgumentOutOfRangeException)
    ensures sizeHint >= 0 && w.index + sizeHint < POOL_THRESHOLD ==> r.Ok?
    ensures r.Throws? <==> EnsureCapacity(w, sizeHint).Throws?
    ensures r.Ok? ==> var (w', span) := r.value;
      w'.Valid() && w'.index == w.index && span == w'.buffer[w.index..] &&
      |span| >= sizeHint && |span| >= 1 &&
      (w.Valid() ==> w'.Written() == w.Written())
  {
    var w' :- EnsureCapacity(w, sizeHint);
    Ok((w', w'.buffer[w'.index..]))
  }

  /** Writing `bytes` into the span GetSpan handed out: the array beyond the written prefix is replaced. */
  function FillSpan(w: Writer, span: seq<uint8>): (r: Writer)
    requires w.Valid() && |span| == |w.buffer| - w.index
    ensures r.index == w.index && r.Valid() && r.Written() == w.Written()
    ensures r.buffer[w.index..] == span
  {
    w.(buffer := w.buffer[..w.index] + span)
  }

  /** Whatever GetSpan hands out, writing into it and advancing appends exactly those elements. */
  lemma WriteThenAdvanceAppends(w: Writer, span: seq<uint8>, count: nat)
    requires w.Valid() && |span| == |w.buffer| - w.index && count <= |span|
    ensures Advance(FillSpan(w, span), count).Ok?
    ensures Advance(FillSpan(w, span), count).value.Written() == w.Written() + span[..count]
  {
    var f := FillSpan(w, span);
    assert f.buffer[..w.index + count] == f.buffer[..w.index] + f.buffer[w.index..][..count];
  }

  /** Growing the array keeps every element written so far. */
  lemma ResizeKeepsWritten(w: Writer, newSize: int)
    requires w.Valid() && newSize >= w.index
    ensures Resize(w.buffer, newSize).Ok?
    ensures Resize(w.buffer, newSize).value[..w.index] == w.Written()
  {
    var r := Resize(w.buffer, newSize).value;
    var kept := if |w.buffer| < newSize then |w.buffer| else newSize;
    assert r[..w.index] == r[..kept][..w.index];
  }
}

=== FILE: client_dispatcher.dfy ===
/**
 * DefaultClientDispatcher (src/IPTransportLayer/Dispatcher/DefaultClientDispatcher.cs): the
 * client half of the default protocol. It decodes the three server messages into the events the
 * client raises, and sends every input together with the inputs the server has not yet
 * authorized, through a PacketAggregator.
 *
 * Events are returned in the order they are raised. Each handler runs under the dispatcher's lock
 * and is one state transition here.
 */
module ClientDispatcher {
  import opened Wrappers
  import opened IntWidths
  import opened Bits
  import opened Protocol
  import opened ServerDispatcher
  import PacketAggregator

  datatype Event =
    | Start(id: int)
    | Initialize(frame: int, state: seq<uint8>)
    | SetDelay(differenceBits: int)
    | AddAuthInput(frame: int, input: seq<uint8>, checksum: Option<int>)

  datatype Dispatcher = Dispatcher(aggregator: PacketAggregator.Aggregator)
  {
    predicate Valid()
    {
      aggregator.Valid()
    }
  }

  function Create(): (d: Dispatcher)
    ensures d.Valid() && d.aggregator.packets == []
  {
    Dispatcher(PacketAggregator.Create())
  }

  const DOUBLE_MANTISSA: int := 0x10_0000_0000_0000
  const DOUBLE_EXPONENT_ALL_ONES: int := 0x7FF

  /**
   * double.IsRealNumber of the double whose bits are `bits`: every value but NaN, which is an
   * all-ones exponent with a non-zero mantissa. Infinities count as real numbers.
   */
  predicate IsRealNumber(bits: int)
  {
    var u := bits % TWO_64;
    !((u / DOUBLE_MANTISSA) % 0x800 == DOUBLE_EXPONENT_ALL_ONES && u % DOUBLE_MANTISSA != 0)
  }

  /** 1.0 and positive infinity pass the check; the canonical quiet NaN and a negative NaN do not. */
  lemma IsRealNumberExamples()
    ensures IsRealNumber(0x3FF0_0000_0000_0000)
    ensures IsRealNumber(0x7FF0_0000_0000_0000)
    ensures !IsRealNumber(0x7FF8_0000_0000_0000)
    ensures !IsRealNumber(-0x8_0000_0000_0001)
  {
  }

  /** HandleServerInitialize: a message shorter than the header is dropped; otherwise OnStart(id), then OnInitialize(frame, state). */
  function HandleServerInitialize(message: seq<uint8>): (r: seq<Event>)
    ensures |message| < INITIALIZE_HEADER ==> r == []
    ensures |message| >= INITIALIZE_HEADER ==>
      r == [Start(ReadLong(message).value), Initialize(ReadLong(message[LONG_SIZE..]).value, message[INITIALIZE_HEADER..])]
  {
    if |message| < INITIALIZE_HEADER then []
    else
      var id := ReadLong(message).value;
      var frame := ReadLong(message[LONG_SIZE..]).value;
      [Start(id), Initialize(frame, message[INITIALIZE_HEADER..])]
  }

  /**
   * HandleServerAuthorize: a message shorter than the header is dropped; otherwise the delay is
   * forwarded, and the aggregator popped up to the frame, only when the delay is a real number.
   */
  function HandleServerAuthorize(d: Dispatcher, message: seq<uint8>): (r: (Dispatcher, seq<Event>))
    requires d.Valid()
    ensures r.0.Valid()
    ensures |message| < INPUT_AUTHORED_HEADER ==> r == (d, [])
    ensures |message| >= INPUT_AUTHORED_HEADER ==>
      var frame := ReadLong(message).value;
      var bits := ReadLong(message[LONG_SIZE..]).value;
      r == if IsRealNumber(bits) then (Dispatcher(PacketAggregator.Pop(d.aggregator, frame)), [SetDelay(bits)]) else (d, [])
  {
    if |message| < INPUT_AUTHORED_HEADER then (d, [])
    else
      var frame := ReadLong(message).value;
      var bits := ReadLong(message[LONG_SIZE..]).value;
      if IsRealNumber(bits) then (Dispatcher(PacketAggregator.Pop(d.aggregator, frame)), [SetDelay(bits)])
      else (d, [])
  }

  /** HandleServerAuthInput: a message shorter than the header is dropped; otherwise OnAddAuthInput, then the aggregator is popped up to the frame. */
  function HandleServerAuthInput(d: Dispatcher, message: seq<uint8>): (r: (Dispatcher, seq<Event>))
    requires d.Valid()
    ensures r.0.Valid()
    ensures |message| < AUTHORITATIVE_INPUT_HEADER ==> r == (d, [])
    ensures |message| >= AUTHORITATIVE_INPUT_HEADER ==>
      var frame := ReadLong(message).value;
      r == (Dispatcher(PacketAggregator.Pop(d.aggregator, frame)),
            [AddAuthInput(frame, message[AUTHORITATIVE_INPUT_HEADER..], ReadNullableLong(message[LONG_SIZE..]).value)])
  {
    if |message| < AUTHORITATIVE_INPUT_HEADER then (d, [])
    else
      var header := message[..AUTHORITATIVE_INPUT_HEADER];
      var frame := ReadLong(header).value;
      var checksum := ReadNullableLong(header[LONG_SIZE..]).value;
      assert header[LONG_SIZE..][1..][..LONG_SIZE] == message[LONG_SIZE..][1..][..LONG_SIZE];
      assert header[..LONG_SIZE] == message[..LONG_SIZE];
      (Dispatcher(PacketAggregator.Pop(d.aggregator, frame)), [AddAuthInput(frame, message[AUTHORITATIVE_INPUT_HEADER..], checksum)])
  }

  /** HandleMessage: empty, ClientInput-typed and unknown-typed messages are dropped and raise nothing. */
  function HandleMessage(d: Dispatcher, message: seq<uint8>): (r: (Dispatcher, seq<Event>))
    requires d.Valid()
    ensures r.0.Valid()
    ensures |message| == 0 ==> r == (d, [])
    ensures |message| > 0 && TypeOf(message[0]) !in {Some(ServerInitialize), Some(ServerAuthorize), Some(ServerAuthInput)} ==> r == (d, [])
    ensures |message| > 0 && TypeOf(message[0]) == Some(ServerInitialize) ==> r == (d, HandleServerInitialize(message[1..]))
    ensures |message| > 0 && TypeOf(message[0]) == Some(ServerAuthorize) ==> r == HandleServerAuthorize(d, message[1..])
    ensures |message| > 0 && TypeOf(message[0]) == Some(ServerAuthInput) ==> r == HandleServerAuthInput(d, message[1..])
  {
    if |message| == 0 then (d, [])
    else
      match TypeOf(message[0])
      case Some(ServerInitialize) => (d, HandleServerInitialize(message[1..]))
      case Some(ServerAuthorize) => HandleServerAuthorize(d, message[1..])
      case Some(ServerAuthInput) => HandleServerAuthInput(d, message[1..])
      case _ => (d, [])
  }

  /**
   * ConstructInput: `[frame:long][payload length:int][payload]`. The frame is written, four bytes
   * skipped, the payload serialized, and the length field filled in last as total length - 12.
   * The payload length is bounded by the int length of a Memory.
   */
  function ConstructInput(frame: int, payload: seq<uint8>): (r: seq<uint8>)
    requires IsInt64(frame) && |payload| <= INT32_MAX - INPUT_STRUCT_HEADER
    ensures |r| == INPUT_STRUCT_HEADER + |payload|
    ensures r[..LONG_SIZE] == Encode(frame, LONG_SIZE) && r[LONG_SIZE..INPUT_STRUCT_HEADER] == Encode(|payload|, INT_SIZE)
    ensures r[INPUT_STRUCT_HEADER..] == payload
    ensures 0 < |payload| ==> r == Serialize(InputRecord(frame, payload))
  {
    var written := Encode(frame, LONG_SIZE) + Zeros(INT_SIZE) + payload;
    var payloadLength := |written| - INPUT_STRUCT_HEADER;
    var lengthField := WriteInt(payloadLength, written[LONG_SIZE..]).value;
    assert lengthField == Encode(payloadLength, INT_SIZE) + payload;
    var r := written[..LONG_SIZE] + lengthField;
    assert r[LONG_SIZE..INPUT_STRUCT_HEADER] == Encode(payloadLength, INT_SIZE);
    assert r[INPUT_STRUCT_HEADER..] == payload;
    r
  }

  /** The fields of an input struct read back as the frame, the payload length and the payload. */
  lemma ConstructInputReads(frame: int, payload: seq<uint8>)
    requires IsInt64(frame) && |payload| <= INT32_MAX - INPUT_STRUCT_HEADER
    ensures |ConstructInput(frame, payload)| == INPUT_STRUCT_HEADER + |payload|
    ensures ReadLong(ConstructInput(frame, payload)) == Ok(frame)
    ensures ReadInt(ConstructInput(frame, payload)[LONG_SIZE..]) == Ok(|payload|)
    ensures ConstructInput(frame, payload)[INPUT_STRUCT_HEADER..] == payload
  {
    var r := ConstructInput(frame, payload);
    assert r == r[..LONG_SIZE] + (r[LONG_SIZE..INPUT_STRUCT_HEADER] + r[INPUT_STRUCT_HEADER..]);
    ReadLongPrefix(frame, Encode(|payload|, INT_SIZE) + payload);
    assert r[LONG_SIZE..] == Encode(|payload|, INT_SIZE) + payload;
    ReadIntPrefix(|payload|, payload);
  }

  /**
   * The aggregating half of SendInput for an already constructed input struct: the struct is
   * added to the aggregator, which builds
   * `[unreliable header][ClientInput][input struct 1] ... [input struct N]` no longer than the
   * transport's limit unless a single struct is already too long; the type byte is then set.
   */
  function SendStruct(d: Dispatcher, frame: int, input: seq<uint8>, unreliableHeader: int, maxMessage: int): (r: (Dispatcher, Outcome<seq<uint8>>))
    requires d.Valid()
    ensures r.0.Valid()
    ensures var packets := r.0.aggregator.packets;
      |packets| >= 1 && packets[|packets| - 1] == input
    ensures r.1.Ok? <==> unreliableHeader >= 0
    ensures r.1.Ok? ==>
      (|r.1.value| == unreliableHeader + 1 + r.0.aggregator.sum &&
       r.1.value[unreliableHeader] == Code(ClientInput) &&
       r.1.value[unreliableHeader + 1..] == PacketAggregator.Concat(r.0.aggregator.packets))
    ensures r.1.Ok? ==>
      (|r.0.aggregator.packets| <= |d.aggregator.packets| + 1 &&
       r.0.aggregator.packets == (d.aggregator.packets + [input])[|d.aggregator.packets| + 1 - |r.0.aggregator.packets|..])
  {
    var res := PacketAggregator.AddAndConstruct(d.aggregator, input, frame, unreliableHeader + 1, maxMessage);
    (Dispatcher(res.0), Stamp(res.1, unreliableHeader))
  }

  /** Writes the ClientInput type byte at the end of the unreliable header of a built packet. */
  function Stamp(built: Outcome<seq<uint8>>, unreliableHeader: int): (r: Outcome<seq<uint8>>)
    requires built.Ok? ==> unreliableHeader + 1 <= |built.value|
    ensures built.Throws? ==> r == built
    ensures built.Ok? ==> (r.Ok? <==> unreliableHeader >= 0)
    ensures r.Ok? ==>
      |r.value| == |built.value| && r.value[unreliableHeader] == Code(ClientInput) &&
      r.value[unreliableHeader + 1..] == built.value[unreliableHeader + 1..]
  {
    match built
    case Throws(e) => built
    case Ok(packet) =>
      if unreliableHeader < 0 then Throws(IndexOutOfRangeException)
      else Ok(packet[unreliableHeader := Code(ClientInput)])
  }

  /**
   * SendInput: the input struct of (frame, payload) is sent together with every struct not yet
   * authorized; SendStruct states which structs the aggregator keeps.
   */
  function SendInput(d: Dispatcher, frame: int, payload: seq<uint8>, unreliableHeader: int, maxMessage: int): (r: (Dispatcher, Outcome<seq<uint8>>))
    requires d.Valid() && IsInt64(frame) && |payload| <= INT32_MAX - INPUT_STRUCT_HEADER
    ensures r.0.Valid() && |r.0.aggregator.packets| >= 1
    ensures r.1.Ok? <==> unreliableHeader >= 0
    ensures r.1.Ok? ==> unreliableHeader + 1 <= |r.1.value|
    ensures r.1.Ok? ==> r.1.value[unreliableHeader] == Code(ClientInput)
  {
    SendStruct(d, frame, ConstructInput(frame, payload), unreliableHeader, maxMessage)
  }

  // ---------------------------------------------------------------------------------------
  // Round trips between the server's messages and the client's handlers.

  /** An initialization message from the server raises OnStart(id) and then OnInitialize(frame, state). */
  lemma InitializeRoundTrip(d: Dispatcher, reliableHeader: nat, id: int, frame: int, state: seq<uint8>)
    requires d.Valid() && IsInt64(id) && IsInt64(frame)
    ensures HandleMessage(d, ConstructInitialize(reliableHeader, id, frame, state)[reliableHeader..]) ==
      (d, [Start(id), Initialize(frame, state)])
  {
    var m := ConstructInitialize(reliableHeader, id, frame, state);
    assert m[reliableHeader..][1..] == m[reliableHeader + 1..];
    assert m[reliableHeader + 1..][LONG_SIZE..] == m[reliableHeader + 1 + LONG_SIZE..];
    assert m[reliableHeader + 1..][INITIALIZE_HEADER..] == m[reliableHeader + 1 + INITIALIZE_HEADER..];
    TypeOfCode(ServerInitialize);
  }

  /** An authorize message forwards the delay bits, and pops the aggregator, exactly when they are a real number. */
  lemma AuthorizeRoundTrip(d: Dispatcher, unreliableHeader: nat, frame: int, differenceBits: int)
    requires d.Valid() && IsInt64(frame) && IsInt64(differenceBits)
    ensures HandleMessage(d, ConstructInputAuthored(unreliableHeader, frame, differenceBits)[unreliableHeader..]) ==
      if IsRealNumber(differenceBits) then (Dispatcher(PacketAggregator.Pop(d.aggregator, frame)), [SetDelay(differenceBits)])
      else (d, [])
  {
    var m := ConstructInputAuthored(unreliableHeader, frame, differenceBits);
    assert m[unreliableHeader..][1..] == m[unreliableHeader + 1..];
    assert m[unreliableHeader + 1..][LONG_SIZE..] == m[unreliableHeader + 1 + LONG_SIZE..];
    TypeOfCode(ServerAuthorize);
  }

  /** An authoritative input message yields (frame, payload, checksum) and pops the aggregator up to the frame. */
  lemma AuthInputRoundTrip(d: Dispatcher, reliableHeader: nat, frame: int, checksum: Option<int>, payload: seq<uint8>)
    requires d.Valid() && IsInt64(frame) && (checksum.Some? ==> IsInt64(checksum.value))
    ensures HandleMessage(d, ConstructAuthoritativeInput(reliableHeader, frame, checksum, payload)[reliableHeader..]) ==
      (Dispatcher(PacketAggregator.Pop(d.aggregator, frame)), [AddAuthInput(frame, payload, checksum)])
  {
    var m := ConstructAuthoritativeInput(reliableHeader, frame, checksum, payload);
    assert m[reliableHeader..][1..] == m[reliableHeader + 1..];
    assert m[reliableHeader + 1..][LONG_SIZE..] == m[reliableHeader + 1 + LONG_SIZE..];
    assert m[reliableHeader + 1..][AUTHORITATIVE_INPUT_HEADER..] == m[reliableHeader + 1 + AUTHORITATIVE_INPUT_HEADER..];
    TypeOfCode(ServerAuthInput);
  }

  /** The input structs of a sequence of records. */
  function Structs(records: seq<InputRecord>): (r: seq<seq<uint8>>)
    requires forall k :: 0 <= k < |records| ==> records[k].WellFormed()
    ensures |r| == |records|
  {
    if records == [] then [] else [Serialize(records[0])] + Structs(records[1..])
  }

  /** The structs of the records, laid end to end, are the records' serialization. */
  lemma {:induction false} ConcatStructs(records: seq<InputRecord>)
    requires forall k :: 0 <= k < |records| ==> records[k].WellFormed()
    ensures PacketAggregator.Concat(Structs(records)) == SerializeAll(records)
    decreases |records|
  {
    if records != [] {
      assert Structs(records)[1..] == Structs(records[1..]);
      ConcatStructs(records[1..]);
    }
  }


  /** A suffix of well-formed records is well-formed, and its structs are the suffix of the structs. */
  lemma {:induction false} StructsSuffix(records: seq<InputRecord>, dropped: nat)
    requires forall k :: 0 <= k < |records| ==> records[k].WellFormed()
    requires dropped <= |records|
    ensures forall k :: 0 <= k < |records| - dropped ==> records[dropped..][k].WellFormed()
    ensures Structs(records)[dropped..] == Structs(records[dropped..])
    decreases dropped
  {
    var kept := records[dropped..];
    forall k | 0 <= k < |kept| ensures kept[k].WellFormed() {
      assert kept[k] == records[dropped + k];
    }
    if dropped > 0 {
      var rest := records[1..];
      assert forall k :: 0 <= k < |rest| ==> rest[k] == records[k + 1];
      StructsSuffix(rest, dropped - 1);
      assert rest[dropped - 1..] == kept;
    }
  }

  /** Appending a record appends its struct. */
  lemma {:induction false} StructsSnoc(records: seq<InputRecord>, record: InputRecord)
    requires forall k :: 0 <= k < |records| ==> records[k].WellFormed()
    requires record.WellFormed()
    ensures forall k :: 0 <= k < |records + [record]| ==> (records + [record])[k].WellFormed()
    ensures Structs(records + [record]) == Structs(records) + [Serialize(record)]
    decreases |records|
  {
    var all := records + [record];
    assert forall k :: 0 <= k < |all| ==> all[k].WellFormed() by {
      forall k | 0 <= k < |all| ensures all[k].WellFormed() {
        if k < |records| { assert all[k] == records[k]; }
      }
    }
    if records != [] {
      var rest := records[1..];
      assert forall k :: 0 <= k < |rest| ==> rest[k] == records[k + 1];
      StructsSnoc(rest, record);
      assert all[1..] == rest + [record];
    } else {
      assert all == [record];
    }
  }

  /** Packets that are a suffix of the structs of some records are the structs of the matching suffix of records. */
  lemma KeptStructs(records: seq<InputRecord>, record: InputRecord, packets: seq<seq<uint8>>)
    requires forall k :: 0 <= k < |records| ==> records[k].WellFormed()
    requires record.WellFormed()
    requires 1 <= |packets| <= |records| + 1
    requires packets == (Structs(records) + [Serialize(record)])[|records| + 1 - |packets|..]
    ensures var kept := (records + [record])[|records| + 1 - |packets|..];
      (forall k :: 0 <= k < |kept| ==> kept[k].WellFormed()) &&
      packets == Structs(kept) && kept[|kept| - 1] == record
  {
    var all := records + [record];
    StructsSnoc(records, record);
    StructsSuffix(all, |all| - |packets|);
  }

  /** A ClientInput message whose body is the structs of some records is handled as exactly those records. */
  lemma ClientInputMessageParses(id: int, message: seq<uint8>, records: seq<InputRecord>)
    requires forall k :: 0 <= k < |records| ==> records[k].WellFormed()
    requires |message| > 0 && message[0] == Code(ClientInput)
    requires message[1..] == PacketAggregator.Concat(Structs(records))
    ensures ServerDispatcher.HandleMessage(id, message) == AddInputs(id, records)
  {
    ConcatStructs(records);
    ParseSerializeAllExactly(records);
    TypeOfCode(ClientInput);
  }

  /**
   * A ClientInput packet carrying a suffix of the structs of `records + [record]` is handled by the
   * server as the matching suffix of the records followed by `record`.
   */
  lemma AggregatedPacketParses(id: int, packet: seq<uint8>, header: nat, packets: seq<seq<uint8>>,
                               previous: seq<seq<uint8>>, records: seq<InputRecord>, record: InputRecord)
    requires forall k :: 0 <= k < |records| ==> records[k].WellFormed()
    requires record.WellFormed() && previous == Structs(records)
    requires 1 <= |packets| <= |previous| + 1
    requires packets == (previous + [Serialize(record)])[|previous| + 1 - |packets|..]
    requires header < |packet| && packet[header] == Code(ClientInput)
    requires packet[header + 1..] == PacketAggregator.Concat(packets)
    ensures ServerDispatcher.HandleMessage(id, packet[header..]) ==
      AddInputs(id, records[|records| + 1 - |packets|..] + [record])
  {
    var m := |records| + 1 - |packets|;
    KeptStructs(records, record, packets);
    assert (records + [record])[m..] == records[m..] + [record];
    assert packet[header..][1..] == packet[header + 1..];
    ClientInputMessageParses(id, packet[header..], (records + [record])[m..]);
  }

  /** A struct sent after the structs of `records` reaches the server as the unauthorized records, ending with it. */
  lemma SendStructReachesServer(d: Dispatcher, records: seq<InputRecord>, frame: int, payload: seq<uint8>,
                                unreliableHeader: nat, maxMessage: int, id: int)
    requires d.Valid() && forall k :: 0 <= k < |records| ==> records[k].WellFormed()
    requires d.aggregator.packets == Structs(records)
    requires InputRecord(frame, payload).WellFormed()
    ensures var r := SendStruct(d, frame, Serialize(InputRecord(frame, payload)), unreliableHeader, maxMessage);
      var n := |r.0.aggregator.packets|;
      r.1.Ok? &&
      ServerDispatcher.HandleMessage(id, r.1.value[unreliableHeader..]) ==
        AddInputs(id, records[|records| + 1 - n..] + [InputRecord(frame, payload)])
  {
    var record := InputRecord(frame, payload);
    var r := SendStruct(d, frame, Serialize(record), unreliableHeader, maxMessage);
    AggregatedPacketParses(id, r.1.value, unreliableHeader, r.0.aggregator.packets, d.aggregator.packets, records, record);
  }

  /**
   * A sent packet reaches the server as the client's unauthorized inputs, oldest first, followed by
   * the one just sent: the aggregated structs parse back to exactly the records they came from.
   */
  lemma SendInputReachesServer(d: Dispatcher, records: seq<InputRecord>, frame: int, payload: seq<uint8>,
                               unreliableHeader: nat, maxMessage: int, id: int)
    requires d.Valid() && forall k :: 0 <= k < |records| ==> records[k].WellFormed()
    requires d.aggregator.packets == Structs(records)
    requires IsInt64(frame) && 0 < |payload| <= INT32_MAX - INPUT_STRUCT_HEADER
    ensures var r := SendInput(d, frame, payload, unreliableHeader, maxMessage);
      var n := |r.0.aggregator.packets|;
      r.1.Ok? &&
      ServerDispatcher.HandleMessage(id, r.1.value[unreliableHeader..]) ==
        AddInputs(id, records[|records| + 1 - n..] + [InputRecord(frame, payload)])
  {
    var record := InputRecord(frame, payload);
    SendInputSendsRecord(d, frame, payload, unreliableHeader, maxMessage);
    var r := SendStruct(d, frame, Serialize(record), unreliableHeader, maxMessage);
    AggregatedPacketParses(id, r.1.value, unreliableHeader, r.0.aggregator.packets, d.aggregator.packets, records, record);
  }

  /** SendInputReachesServer's first step: SendInput sends the serialized record as its struct. */
  lemma SendInputSendsRecord(d: Dispatcher, frame: int, payload: seq<uint8>, unreliableHeader: nat, maxMessage: int)
    requires d.Valid() && IsInt64(frame) && 0 < |payload| <= INT32_MAX - INPUT_STRUCT_HEADER
    ensures InputRecord(frame, payload).WellFormed()
    ensures SendInput(d, frame, payload, unreliableHeader, maxMessage) ==
      SendStruct(d, frame, Serialize(InputRecord(frame, payload)), unreliableHeader, maxMessage)
  {
    InputStructIsSerialized(frame, payload);
  }

  /** The struct ConstructInput writes for a non-empty payload is the record layout the server parses. */
  lemma InputStructIsSerialized(frame: int, payload: seq<uint8>)
    requires IsInt64(frame) && 0 < |payload| <= INT32_MAX - INPUT_STRUCT_HEADER
    ensures InputRecord(frame, payload).WellFormed()
    ensures ConstructInput(frame, payload) == Serialize(InputRecord(frame, payload))
  {
  }
}

=== FILE: client_input_queue.dfy ===
/**
 * ClientInputQueue<TClientInput> (src/Core/DataStructures/ClientInputQueue.cs): the server's
 * collection of client inputs, from which one authoritative input frame is built per tick.
 *
 * `clients` lists the connected ids in the order the id dictionary enumerates them (taken to be
 * insertion order); `inputs` maps each connected id to its per-frame inputs; `removed` lists the
 * clients removed since the last constructed frame; `frame` is the last constructed frame.
 * The constructed frame is a freshly rented array, so a slot the code never writes holds the
 * array's default element, written `Unwritten` here.
 */
module ClientInputQueue {
  import opened Wrappers
  import opened GameTypes

  datatype Slot<I> = Written(info: ClientInfo<I>) | Unwritten

  /** Each connected client's inputs, by client id and then by frame. */
  type InputMap<I> = map<int, map<int, I>>

  datatype Queue<I> = Queue(clients: seq<int>, inputs: InputMap<I>, removed: seq<int>, frame: int)
  {
    /** Every connected id is listed once and has its own input dictionary. */
    predicate Valid()
    {
      (forall id | id in inputs :: id in clients) &&
      (forall k :: 0 <= k < |clients| ==> clients[k] in inputs) &&
      Distinct(clients)
    }

    /** The constructor: no clients, nothing removed, and Frame = -1. */
    static function Create(): (q: Queue<I>)
      ensures q.Valid() && q.frame == -1 && q.clients == [] && q.removed == []
    {
      Queue([], map[], [], -1)
    }
  }

  predicate Distinct(s: seq<int>)
  {
    forall j, k :: 0 <= j < k < |s| ==> s[j] != s[k]
  }

  /** The ids in `ids` other than `id`, in order. */
  function Without(ids: seq<int>, id: int): (r: seq<int>)
    ensures forall x :: x in r <==> x in ids && x != id
    ensures forall k :: 0 <= k < |r| ==> r[k] in ids && r[k] != id
    ensures |r| <= |ids|
  {
    if ids == [] then []
    else if ids[0] == id then Without(ids[1..], id)
    else [ids[0]] + Without(ids[1..], id)
  }

  lemma {:induction false} WithoutKeepsDistinct(ids: seq<int>, id: int)
    requires Distinct(ids)
    ensures Distinct(Without(ids, id))
  {
    if ids != [] {
      assert Distinct(ids[1..]) by {
        forall j, k | 0 <= j < k < |ids| - 1 ensures ids[1..][j] != ids[1..][k] {
          assert ids[1..][j] == ids[j + 1] && ids[1..][k] == ids[k + 1];
        }
      }
      WithoutKeepsDistinct(ids[1..], id);
      if ids[0] != id {
        var t := Without(ids[1..], id);
        assert ids[0] !in t by {
          forall k | 1 <= k < |ids| ensures ids[k] != ids[0] { }
        }
        forall j, k | 0 <= j < k < |t| + 1 ensures ([ids[0]] + t)[j] != ([ids[0]] + t)[k] {
          if j == 0 {
            assert ([ids[0]] + t)[k] == t[k - 1];
          } else {
            assert ([ids[0]] + t)[j] == t[j - 1] && ([ids[0]] + t)[k] == t[k - 1];
          }
        }
      }
    }
  }

  /** AddClient: a new id starts with no inputs; a present id throws. */
  function AddClient<I>(q: Queue<I>, id: int): (r: Outcome<Queue<I>>)
    requires q.Valid()
    ensures r.Throws? <==> id in q.inputs
    ensures r.Throws? ==> r.error == ArgumentException
    ensures r.Ok? ==> r.value.Valid() && r.value.inputs == q.inputs[id := map[]] &&
                      r.value.removed == q.removed && r.value.frame == q.frame
  {
    if id in q.inputs then Throws(ArgumentException)
    else Ok(q.(clients := q.clients + [id], inputs := q.inputs[id := map[]]))
  }

  /** RemoveClient: discard the client's inputs and remember it for the next frame; an absent id throws. */
  function RemoveClient<I>(q: Queue<I>, id: int): (r: Outcome<Queue<I>>)
    requires q.Valid()
    ensures r.Throws? <==> id !in q.inputs
    ensures r.Throws? ==> r.error == ArgumentException
    ensures r.Ok? ==> r.value.Valid() && r.value.inputs == q.inputs - {id} &&
                      r.value.removed == q.removed + [id] && r.value.frame == q.frame
  {
    if id !in q.inputs then Throws(ArgumentException)
    else
      WithoutKeepsDistinct(q.clients, id);
      Ok(q.(clients := Without(q.clients, id), inputs := q.inputs - {id}, removed := q.removed + [id]))
  }

  /** AddInput: late frames, unknown ids and repeated (id, frame) pairs are ignored; the first input wins. */
  function AddInput<I>(q: Queue<I>, id: int, frame: int, input: I): (r: Queue<I>)
    requires q.Valid()
    ensures r.Valid() && r.clients == q.clients && r.removed == q.removed && r.frame == q.frame
    ensures frame <= q.frame || id !in q.inputs || frame in q.inputs[id] ==> r == q
    ensures frame > q.frame && id in q.inputs && frame !in q.inputs[id] ==>
      r.inputs == q.inputs[id := q.inputs[id][frame := input]]
  {
    if frame <= q.frame then q
    else if id !in q.inputs then q
    else if frame in q.inputs[id] then q
    else q.(inputs := q.inputs[id := q.inputs[id][frame := input]])
  }

  /** WriteUpdateInfo: the client's input for `frame`, or the default input when it sent none. */
  function InputFor<I>(perFrame: map<int, I>, frame: int, defaultInput: I): I
  {
    if frame in perFrame then perFrame[frame] else defaultInput
  }

  /** The entries of the connected clients, in enumeration order. */
  function ActiveEntries<I>(clients: seq<int>, inputs: InputMap<I>, frame: int, defaultInput: I): (r: seq<Slot<I>>)
    requires forall k :: 0 <= k < |clients| ==> clients[k] in inputs
    ensures |r| == |clients|
    ensures forall k :: 0 <= k < |clients| ==>
      r[k] == Written(ClientInfo(clients[k], InputFor(inputs[clients[k]], frame, defaultInput), false))
  {
    if clients == [] then []
    else [Written(ClientInfo(clients[0], InputFor(inputs[clients[0]], frame, defaultInput), false))]
         + ActiveEntries(clients[1..], inputs, frame, defaultInput)
  }

  /**
   * The removed-clients loop as written: every removed client is written to the same slot, so the
   * first slot reports the last removed client and the others are never written.
   */
  function RemovedEntriesAsWritten<I>(removed: seq<int>, defaultInput: I): (r: seq<Slot<I>>)
    ensures |r| == |removed|
    ensures |removed| > 0 ==> r[0] == Written(ClientInfo(removed[|removed| - 1], defaultInput, true))
    ensures forall k :: 1 <= k < |r| ==> r[k] == Unwritten
  {
    if removed == [] then []
    else [Written(ClientInfo(removed[|removed| - 1], defaultInput, true))] + seq(|removed| - 1, _ => Unwritten)
  }

  /** The removed-clients loop with the index advanced: each removed client gets its own slot. */
  function RemovedEntries<I>(removed: seq<int>, defaultInput: I): (r: seq<Slot<I>>)
    ensures |r| == |removed|
    ensures forall j :: 0 <= j < |removed| ==> r[j] == Written(ClientInfo(removed[j], defaultInput, true))
  {
    seq(|removed|, j requires 0 <= j < |removed| => Written(ClientInfo(removed[j], defaultInput, true)))
  }

  /** The state after a frame is constructed: the frame's inputs are consumed and the removed list cleared. */
  function Advanced<I>(q: Queue<I>): (r: Queue<I>)
    requires q.Valid()
    ensures r.Valid() && r.clients == q.clients && r.removed == [] && r.frame == q.frame + 1
    ensures forall id :: id in r.inputs <==> id in q.inputs
    ensures forall id :: id in r.inputs ==> r.inputs[id] == q.inputs[id] - {q.frame + 1}
  {
    var next := q.frame + 1;
    q.(inputs := map id | id in q.inputs :: q.inputs[id] - {next}, removed := [], frame := next)
  }

  /**
   * ConstructAuthoritativeFrame as written: the connected clients' entries are as in the corrected
   * frame, but the slot after them reports only the last removed client and the remaining slots
   * are never written.
   */
  function ConstructAuthoritativeFrameAsWritten<I>(q: Queue<I>, defaultInput: I): (r: (Queue<I>, seq<Slot<I>>))
    requires q.Valid()
    ensures r.0 == Advanced(q)
    ensures |r.1| == |q.clients| + |q.removed|
    ensures forall k :: 0 <= k < |q.clients| ==>
      r.1[k] == Written(ClientInfo(q.clients[k], InputFor(q.inputs[q.clients[k]], q.frame + 1, defaultInput), false))
    ensures |q.removed| > 0 ==>
      r.1[|q.clients|] == Written(ClientInfo(q.removed[|q.removed| - 1], defaultInput, true))
    ensures forall k :: |q.clients| < k < |r.1| ==> r.1[k] == Unwritten
  {
    (Advanced(q), ActiveEntries(q.clients, q.inputs, q.frame + 1, defaultInput) + RemovedEntriesAsWritten(q.removed, defaultInput))
  }

  /**
   * ConstructAuthoritativeFrame: one entry per connected client carrying its input for the next
   * frame (or the default input), followed by one terminated entry per client removed since the
   * previous frame. Frame advances by one.
   */
  function ConstructAuthoritativeFrame<I>(q: Queue<I>, defaultInput: I): (r: (Queue<I>, seq<Slot<I>>))
    requires q.Valid()
    ensures r.0.Valid() && r.0.frame == q.frame + 1 && r.0.removed == [] && r.0.clients == q.clients
    ensures forall id :: id in r.0.inputs ==> id in q.inputs && r.0.inputs[id] == q.inputs[id] - {q.frame + 1}
    ensures |r.1| == |q.clients| + |q.removed|
    ensures forall k :: 0 <= k < |q.clients| ==>
      r.1[k] == Written(ClientInfo(q.clients[k], InputFor(q.inputs[q.clients[k]], q.frame + 1, defaultInput), false))
    ensures forall j :: 0 <= j < |q.removed| ==>
      r.1[|q.clients| + j] == Written(ClientInfo(q.removed[j], defaultInput, true))
  {
    var active := ActiveEntries(q.clients, q.inputs, q.frame + 1, defaultInput);
    var gone := RemovedEntries(q.removed, defaultInput);
    (Advanced(q), active + gone)
  }

  /**
   * The discrepancy as written: with two clients removed in the same tick only the second one is
   * reported terminated, and the first one's slot is never written.
   */
  lemma SecondRemovedClientOverwritesFirst(defaultInput: int)
    ensures var q := Queue([], map[], [5, 6], 3);
      ConstructAuthoritativeFrameAsWritten(q, defaultInput).1 ==
        [Written(ClientInfo(6, defaultInput, true)), Unwritten]
  {
  }

  /**
   * The as-written frame is the corrected one exactly when at most one client was removed since
   * the previous frame: with two or more, the corrected frame writes every slot and the as-written
   * one leaves the last slot unwritten.
   */
  lemma {:induction false} AsWrittenAgreesIffOneRemoval<I>(q: Queue<I>, defaultInput: I)
    requires q.Valid()
    ensures ConstructAuthoritativeFrameAsWritten(q, defaultInput).0 == ConstructAuthoritativeFrame(q, defaultInput).0
    ensures ConstructAuthoritativeFrameAsWritten(q, defaultInput).1 == ConstructAuthoritativeFrame(q, defaultInput).1
      <==> |q.removed| <= 1
  {
    var active := ActiveEntries(q.clients, q.inputs, q.frame + 1, defaultInput);
    if |q.removed| <= 1 {
      assert RemovedEntriesAsWritten(q.removed, defaultInput) == RemovedEntries(q.removed, defaultInput);
    } else {
      var n := |q.clients| + |q.removed|;
      assert ConstructAuthoritativeFrameAsWritten(q, defaultInput).1[n - 1] == Unwritten;
    }
  }

  /** An input added for the next frame of a connected client is exactly what that client's entry carries. */
  lemma AddedInputReachesFrame<I>(q: Queue<I>, k: nat, input: I, defaultInput: I)
    requires q.Valid() && k < |q.clients|
    requires q.frame + 1 !in q.inputs[q.clients[k]]
    ensures var (q', entries) := ConstructAuthoritativeFrame(AddInput(q, q.clients[k], q.frame + 1, input), defaultInput);
      entries[k] == Written(ClientInfo(q.clients[k], input, false)) && q'.frame == q.frame + 1
  {
  }

  /** Inputs for frames already constructed are ignored: the next frame is unaffected by them. */
  lemma LateInputIgnored<I>(q: Queue<I>, id: int, frame: int, input: I)
    requires q.Valid() && frame <= q.frame
    ensures AddInput(q, id, frame, input) == q
  {
  }
}

=== FILE: console_game.dfy ===
/**
 * The console test game (src/ConsoleGame): a 30 x 30 level of player avatars and food. Each
 * Update handles the clients' entries in order (disconnected players dropped, new ids given a
 * player, spawned players moved, unspawned ones spawned on request), moves the frame on and then
 * places the server's food, if any, on an empty tile.
 */
module ConsoleGame {
  import opened Wrappers
  import opened IntWidths
  import opened GameTypes
  import opened Levels

  const LEVEL_WIDTH: int := 30
  const LEVEL_HEIGHT: int := 30
  const SPAWN_POINT: Point := Point(0, 0)

  /** The Direction values, stored in a byte; other byte values can occur and are invalid. */
  const RIGHT: uint8 := 0
  const UP: uint8 := 1
  const LEFT: uint8 := 2
  const DOWN: uint8 := 3

  /** The level objects: food of some type, or the avatar of the player with the given id. */
  datatype LevelObject = Food(foodType: int) | Avatar(id: int)

  /** ClientInput: the direction held, if any, and whether to spawn. */
  datatype ClientInput = ClientInput(direction: Option<uint8>, start: bool)

  /** The input a new ClientInput holds: no direction and no spawn request. */
  const DEFAULT_INPUT: ClientInput := ClientInput(None, false)

  /** FoodSpawnEvent: the tile and type of food the server spawns. */
  datatype FoodSpawnEvent = FoodSpawnEvent(x: int, y: int, foodType: int)

  /** The event a new FoodSpawnEvent holds: tile (0, 0), the default food type. */
  const DEFAULT_FOOD_EVENT: FoodSpawnEvent := FoodSpawnEvent(0, 0, 0)

  /** ServerInput: the food spawn event of the frame, if any (none by default). */
  datatype ServerInput = ServerInput(foodSpawnEvent: Option<FoodSpawnEvent>)

  /** Player: the direction last sent and, once spawned, the avatar's tile. */
  datatype Player = Player(direction: Option<uint8>, position: Option<Point>)

  datatype GameState = GameState(frame: int, players: map<int, Player>, level: Level<LevelObject>)

  /**
   * MapToMovement as written: Left, Up and Down step one tile along an axis; Right is mapped to
   * (1, 1), a diagonal step. Any other value throws ArgumentOutOfRangeException.
   */
  function MapToMovementAsWritten(d: uint8): (r: Outcome<Point>)
    ensures r.Throws? <==> d > DOWN
    ensures r.Throws? ==> r.error == ArgumentOutOfRangeException
    ensures r.Ok? ==> -1 <= r.value.x <= 1 && -1 <= r.value.y <= 1 && r.value != Point(0, 0)
  {
    if d == LEFT then Ok(Point(-1, 0))
    else if d == RIGHT then Ok(Point(1, 1))
    else if d == UP then Ok(Point(0, -1))
    else if d == DOWN then Ok(Point(0, 1))
    else Throws(ArgumentOutOfRangeException)
  }

  /** Movements of opposite directions, added up: a player stepping one way and back. */
  function RoundTrip(m: Outcome<Point>, n: Outcome<Point>): Point
    requires m.Ok? && n.Ok?
  {
    Point(m.value.x + n.value.x, m.value.y + n.value.y)
  }

  /**
   * As written, Right moves along both axes, so stepping Left and then Right ends one tile lower
   * instead of back at the start.
   */
  lemma RightMovesDiagonally()
    ensures MapToMovementAsWritten(RIGHT).value.x != 0 && MapToMovementAsWritten(RIGHT).value.y != 0
    ensures RoundTrip(MapToMovementAsWritten(LEFT), MapToMovementAsWritten(RIGHT)) == Point(0, 1)
  {
  }

  /**
   * MapToMovement with Right mapped to (1, 0): every valid direction steps exactly one tile
   * along exactly one axis. Any other value throws ArgumentOutOfRangeException.
   */
  function MapToMovement(d: uint8): (r: Outcome<Point>)
    ensures r.Throws? <==> d > DOWN
    ensures r.Throws? ==> r.error == ArgumentOutOfRangeException
    ensures r.Ok? ==> (r.value.x == 0 || r.value.y == 0) && -1 <= r.value.x <= 1 && -1 <= r.value.y <= 1
    ensures r.Ok? ==> r.value != Point(0, 0)
  {
    if d == LEFT then Ok(Point(-1, 0))
    else if d == RIGHT then Ok(Point(1, 0))
    else if d == UP then Ok(Point(0, -1))
    else if d == DOWN then Ok(Point(0, 1))
    else Throws(ArgumentOutOfRangeException)
  }

  /** Opposite directions cancel and the four directions are distinct movements. */
  lemma OppositeDirectionsCancel()
    ensures RoundTrip(MapToMovement(LEFT), MapToMovement(RIGHT)) == Point(0, 0)
    ensures RoundTrip(MapToMovement(UP), MapToMovement(DOWN)) == Point(0, 0)
    ensures MapToMovement(LEFT) != MapToMovement(UP) && MapToMovement(RIGHT) != MapToMovement(DOWN)
  {
  }

  /** Every spawned player's tile holds that player's avatar. */
  predicate AvatarsPlaced(l: Level<LevelObject>, players: map<int, Player>)
    requires l.Valid()
  {
    forall id :: id in players && players[id].position.Some? ==>
      At(l, players[id].position.value.x, players[id].position.value.y) == Some(Avatar(id))
  }

  /** The invariant the game keeps between frames. */
  predicate Consistent(s: GameState)
  {
    s.level.Valid() && s.level.width == LEVEL_WIDTH && s.level.height == LEVEL_HEIGHT &&
    AvatarsPlaced(s.level, s.players)
  }

  /** A new game: frame -1, no players and an empty 30 x 30 level. */
  function Create(): (s: GameState)
    ensures Consistent(s) && s.frame == -1 && s.players == map[]
    ensures forall x, y :: At(s.level, x, y).None?
  {
    var l := Levels.Level<LevelObject>.Create(LEVEL_WIDTH, LEVEL_HEIGHT).value;
    assert forall x, y :: l.InBounds(x, y) ==> At(l, x, y) == l.objects[Index(l, x, y)];
    GameState(-1, map[], l)
  }

  /** HandleFoodEvent: food is placed only on an empty tile; a tile outside the level throws. */
  function HandleFoodEvent(l: Level<LevelObject>, e: FoodSpawnEvent): (r: Outcome<Level<LevelObject>>)
    requires l.Valid()
    ensures r.Throws? <==> !l.InBounds(e.x, e.y)
    ensures r.Ok? ==> r.value.Valid() && r.value.width == l.width && r.value.height == l.height
    ensures r.Ok? ==> At(r.value, e.x, e.y) == if At(l, e.x, e.y).None? then Some(Food(e.foodType)) else At(l, e.x, e.y)
    ensures r.Ok? ==> forall a, b :: (a, b) != (e.x, e.y) ==> At(r.value, a, b) == At(l, a, b)
  {
    var place :- Get(l, e.x, e.y);
    if place.Some? then Ok(l) else Put(l, e.x, e.y, Some(Food(e.foodType)))
  }

  /**
   * UpdatePlayer: an unspawned player throws ArgumentException; a player without a direction
   * stays; otherwise the direction is mapped to a movement (an invalid one throws) and the avatar
   * moves when the tile reached is inside the level and empty.
   */
  function UpdatePlayer(l: Level<LevelObject>, player: Player): (r: Outcome<(Level<LevelObject>, Player)>)
    requires l.Valid()
    ensures player.position.None? ==> r == Throws(ArgumentException)
    ensures player.position.Some? && player.direction.None? ==> r == Ok((l, player))
    ensures player.position.Some? && player.direction.Some? && player.direction.value > DOWN ==>
      r == Throws(ArgumentOutOfRangeException)
    ensures player.position.Some? && player.direction.Some? && player.direction.value <= DOWN ==>
      var m := Move(l, player.position.value, MapToMovementAsWritten(player.direction.value).value);
      (r.Throws? <==> m.Throws?) &&
      (r.Ok? ==> r.value == (m.value.0, player.(position := Some(m.value.1))))
  {
    if player.position.None? then Throws(ArgumentException)
    else if player.direction.None? then Ok((l, player))
    else
      var movement :- MapToMovementAsWritten(player.direction.value);
      var (l1, to) :- Move(l, player.position.value, movement);
      Ok((l1, player.(position := Some(to))))
  }

  /**
   * The as-written mapping reaches the game: a spawned player holding Right on a free diagonal
   * tile ends one tile right and one tile down.
   */
  lemma RightStepsDiagonally(l: Level<LevelObject>, p: Point)
    requires l.Valid() && l.InBounds(p.x, p.y) && l.InBounds(p.x + 1, p.y + 1)
    requires At(l, p.x + 1, p.y + 1).None? && IsInt32(p.x + 1) && IsInt32(p.y + 1)
    ensures var r := UpdatePlayer(l, Player(Some(RIGHT), Some(p)));
      r.Ok? && r.value.1.position == Some(Point(p.x + 1, p.y + 1))
  {
    assert MapToMovementAsWritten(RIGHT) == Ok(Point(1, 1));
    var m := Move(l, p, Point(1, 1));
    assert m.Ok? && m.value.1 == Point(p.x + 1, p.y + 1);
  }

  /**
   * One client's entry: a disconnected player is removed (its avatar stays on the level); a new
   * id gets a player; the direction is recorded; a spawned player moves, and an unspawned one
   * spawns if Start is set.
   */
  function ApplyInput(s: GameState, info: ClientInfo<ClientInput>): (r: Outcome<GameState>)
    requires s.level.Valid()
    ensures r.Ok? ==> r.value.level.Valid() && r.value.frame == s.frame
    ensures r.Ok? ==> r.value.level.width == s.level.width && r.value.level.height == s.level.height
    ensures info.terminated ==> r == Ok(s.(players := s.players - {info.id}))
    ensures !info.terminated && r.Ok? ==>
      r.value.players.Keys == s.players.Keys + {info.id} &&
      r.value.players[info.id].direction == info.input.direction &&
      forall id :: id in s.players && id != info.id ==> r.value.players[id] == s.players[id]
    ensures !info.terminated && r.Ok? && (info.id !in s.players || s.players[info.id].position.None?) ==>
      (r.value.players[info.id].position.Some? <==> info.input.start && At(s.level, SPAWN_POINT.x, SPAWN_POINT.y).None?)
  {
    var id := info.id;
    if info.terminated then Ok(s.(players := s.players - {id}))
    else
      var player := (if id in s.players then s.players[id] else Player(None, None)).(direction := info.input.direction);
      if player.position.Some? then
        var (l1, moved) :- UpdatePlayer(s.level, player);
        Ok(s.(level := l1, players := s.players[id := moved]))
      else if !info.input.start then Ok(s.(players := s.players[id := player]))
      else
        var (l1, spawned) :- TrySpawn(s.level, SPAWN_POINT, Avatar(id));
        var p := if spawned then player.(position := Some(SPAWN_POINT)) else player;
        Ok(s.(level := l1, players := s.players[id := p]))
  }

  /** The entries applied in order; the first exception ends the update. */
  function ApplyInputs(s: GameState, infos: seq<ClientInfo<ClientInput>>): (r: Outcome<GameState>)
    requires s.level.Valid()
    ensures r.Ok? ==> r.value.level.Valid() && r.value.frame == s.frame
    ensures r.Ok? ==> r.value.level.width == s.level.width && r.value.level.height == s.level.height
    decreases |infos|
  {
    if |infos| == 0 then Ok(s)
    else
      var s1 :- ApplyInputs(s, infos[..|infos| - 1]);
      ApplyInput(s1, infos[|infos| - 1])
  }

  /**
   * Update: the entries in order, the frame counter, then the food event; the output is
   * UpdateOutput.Empty.
   */
  function Update(s: GameState, input: UpdateInput<ClientInput, ServerInput>): (r: Outcome<(GameState, UpdateOutput)>)
    requires s.level.Valid()
    ensures r.Ok? ==> r.value.0.frame == s.frame + 1 && r.value.1 == EMPTY_OUTPUT && r.value.0.level.Valid()
    ensures var played := ApplyInputs(s, input.clientInput);
      (r.Ok? ==> played.Ok? && r.value.0.players == played.value.players) &&
      (played.Ok? && input.serverInput.foodSpawnEvent.None? ==> r.Ok? && r.value.0.level == played.value.level)
    ensures var played := ApplyInputs(s, input.clientInput);
      var e := input.serverInput.foodSpawnEvent;
      played.Ok? && e.Some? ==>
        (r.Ok? <==> played.value.level.InBounds(e.value.x, e.value.y)) &&
        (r.Ok? ==> r.value.0.level == HandleFoodEvent(played.value.level, e.value).value)
  {
    var s1 :- ApplyInputs(s, input.clientInput);
    var s2 := s1.(frame := s1.frame + 1);
    match input.serverInput.foodSpawnEvent
    case None => Ok((s2, EMPTY_OUTPUT))
    case Some(e) =>
      var l :- HandleFoodEvent(s2.level, e);
      Ok((s2.(level := l), EMPTY_OUTPUT))
  }

  /** The inputs a consistent game handles without throwing: valid directions only. */
  predicate ValidDirections(infos: seq<ClientInfo<ClientInput>>)
  {
    forall k :: 0 <= k < |infos| && infos[k].input.direction.Some? ==> infos[k].input.direction.value <= DOWN
  }

  /** An entry with a valid direction keeps the invariant and never throws. */
  lemma ApplyInputConsistent(s: GameState, info: ClientInfo<ClientInput>)
    requires Consistent(s)
    requires info.input.direction.Some? ==> info.input.direction.value <= DOWN
    ensures ApplyInput(s, info).Ok? && Consistent(ApplyInput(s, info).value)
  {
    var id := info.id;
    if !info.terminated {
      var player := (if id in s.players then s.players[id] else Player(None, None)).(direction := info.input.direction);
      if player.position.Some? {
        var from := player.position.value;
        assert At(s.level, from.x, from.y) == Some(Avatar(id));
        if player.direction.Some? {
          var m := Move(s.level, from, MapToMovementAsWritten(player.direction.value).value);
          var l1 := m.value.0;
          forall q | q in s.players && q != id && s.players[q].position.Some?
            ensures At(l1, s.players[q].position.value.x, s.players[q].position.value.y) == Some(Avatar(q))
          {
            var pq := s.players[q].position.value;
            assert At(s.level, pq.x, pq.y) == Some(Avatar(q));
          }
        }
      } else if info.input.start {
        var t := TrySpawn(s.level, SPAWN_POINT, Avatar(id));
        forall q | q in s.players && q != id && s.players[q].position.Some?
          ensures At(t.value.0, s.players[q].position.value.x, s.players[q].position.value.y) == Some(Avatar(q))
        {
          var pq := s.players[q].position.value;
          assert At(s.level, pq.x, pq.y) == Some(Avatar(q));
        }
      }
    }
  }

  /** A frame of entries with valid directions keeps the invariant and never throws. */
  lemma {:induction false} ApplyInputsConsistent(s: GameState, infos: seq<ClientInfo<ClientInput>>)
    requires Consistent(s) && ValidDirections(infos)
    ensures ApplyInputs(s, infos).Ok? && Consistent(ApplyInputs(s, infos).value)
    decreases |infos|
  {
    if |infos| > 0 {
      var init := infos[..|infos| - 1];
      assert ValidDirections(init) by {
        forall k | 0 <= k < |init| && init[k].input.direction.Some?
          ensures init[k].input.direction.value <= DOWN
        {
          assert init[k] == infos[k];
        }
      }
      ApplyInputsConsistent(s, init);
      ApplyInputConsistent(ApplyInputs(s, init).value, infos[|infos| - 1]);
    }
  }

  /**
   * From a consistent game, with valid directions and food inside the level, Update does not
   * throw and the game stays consistent; the food lands only on a tile left empty by the players.
   */
  lemma UpdateConsistent(s: GameState, input: UpdateInput<ClientInput, ServerInput>)
    requires Consistent(s) && ValidDirections(input.clientInput)
    requires input.serverInput.foodSpawnEvent.Some? ==>
      s.level.InBounds(input.serverInput.foodSpawnEvent.value.x, input.serverInput.foodSpawnEvent.value.y)
    ensures Update(s, input).Ok? && Consistent(Update(s, input).value.0)
  {
    ApplyInputsConsistent(s, input.clientInput);
    var s1 := ApplyInputs(s, input.clientInput).value;
    if input.serverInput.foodSpawnEvent.Some? {
      var e := input.serverInput.foodSpawnEvent.value;
      var l := HandleFoodEvent(s1.level, e).value;
      forall q | q in s1.players && s1.players[q].position.Some?
        ensures At(l, s1.players[q].position.value.x, s1.players[q].position.value.y) == Some(Avatar(q))
      {
        var pq := s1.players[q].position.value;
        assert At(s1.level, pq.x, pq.y) == Some(Avatar(q));
      }
    }
  }

  /** A disconnected player is gone after the entry, whatever it sent. */
  lemma DisconnectRemoves(s: GameState, info: ClientInfo<ClientInput>)
    requires s.level.Valid() && info.terminated
    ensures ApplyInput(s, info).Ok? && info.id !in ApplyInput(s, info).value.players
  {
  }
}

=== FILE: fixed.dfy ===
/**
 * Fixed (src/Useful/Fixed.cs): a signed 32.32 fixed-point number held as a C# long, `raw`, the
 * value times 2^32. Addition, subtraction, negation and the shifts wrap like unchecked long
 * arithmetic. The conversion to float is not part of this model.
 */
module FixedPoint {
  import opened Wrappers
  import opened IntWidths

  /** FractionalPart is 32: one is 1 << 32. */
  const ONE_VALUE: int := TWO_32

  datatype Fixed = Fixed(raw: int)
  {
    predicate Valid() { IsInt64(raw) }
  }

  /** Fixed(int): the integer shifted into the integral half. */
  function FromInt(n: int): (r: Fixed)
    requires IsInt32(n)
    ensures r.Valid() && r.raw / ONE_VALUE == n && r.raw % ONE_VALUE == 0
  {
    Fixed(n * ONE_VALUE)
  }

  const ADDITIVE_IDENTITY: Fixed := Fixed(0)
  const MULTIPLICATIVE_IDENTITY: Fixed := Fixed(ONE_VALUE)
  const MAX_VALUE: Fixed := Fixed(INT64_MAX)
  const MIN_VALUE: Fixed := Fixed(INT64_MIN)

  function Add(a: Fixed, b: Fixed): (r: Fixed)
    ensures r.Valid() && (IsInt64(a.raw + b.raw) ==> r.raw == a.raw + b.raw)
  {
    Fixed(Wrap64(a.raw + b.raw))
  }

  function Sub(a: Fixed, b: Fixed): (r: Fixed)
    ensures r.Valid() && (IsInt64(a.raw - b.raw) ==> r.raw == a.raw - b.raw)
  {
    Fixed(Wrap64(a.raw - b.raw))
  }

  /** Unary minus: long.MinValue is its own negation. */
  function Neg(a: Fixed): (r: Fixed)
    requires a.Valid()
    ensures r.Valid() && (a != MIN_VALUE ==> r.raw == -a.raw) && (a == MIN_VALUE ==> r == a)
  {
    Fixed(Wrap64(-a.raw))
  }

  /** Unary plus is the identity. */
  function Plus(a: Fixed): (r: Fixed)
    ensures r == a
  {
    a
  }

  /** ++ adds one, that is raw 2^32. */
  function Inc(a: Fixed): (r: Fixed)
    ensures r == Add(a, MULTIPLICATIVE_IDENTITY)
  {
    Fixed(Wrap64(a.raw + ONE_VALUE))
  }

  /** -- subtracts one. */
  function Dec(a: Fixed): (r: Fixed)
    ensures r == Sub(a, MULTIPLICATIVE_IDENTITY)
  {
    Fixed(Wrap64(a.raw - ONE_VALUE))
  }

  /** Math.Abs on the raw value: throws OverflowException for long.MinValue. */
  function Abs(a: Fixed): (r: Outcome<Fixed>)
    requires a.Valid()
    ensures r.Throws? <==> a == MIN_VALUE
    ensures r.Ok? ==> r.value.Valid() && r.value.raw >= 0 && (r.value == a || r.value == Neg(a))
  {
    if a.raw == INT64_MIN then Throws(OverflowException)
    else if a.raw < 0 then Ok(Fixed(-a.raw)) else Ok(a)
  }

  /** Division is not implemented: it always throws NotImplementedException. */
  function Div(a: Fixed, b: Fixed): (r: Outcome<Fixed>)
    ensures r == Throws(NotImplementedException)
  {
    Throws(NotImplementedException)
  }

  predicate Less(a: Fixed, b: Fixed) { a.raw < b.raw }

  predicate LessEq(a: Fixed, b: Fixed) { a.raw <= b.raw }

  /** CompareTo is long.CompareTo on the raw values: -1, 0 or 1. */
  function CompareTo(a: Fixed, b: Fixed): (r: int)
    ensures r in {-1, 0, 1}
    ensures r < 0 <==> Less(a, b)
    ensures r == 0 <==> a == b
    ensures r > 0 <==> Less(b, a)
  {
    if a.raw < b.raw then -1 else if a.raw > b.raw then 1 else 0
  }

  // ---------------------------------------------------------------------------------------
  // Multiplication: each operand is split into its high half (raw >> 32, signed) and its low
  // half (raw & 0xFFFF_FFFF, unsigned), and the four partial products are summed in long.

  /**
   * The sum the operator forms from the partial products, every long operation wrapping: `hh`
   * is the product of the high halves, `hl` and `lh` the two mixed products, and `low` the
   * product of the low halves shifted right by 32.
   */
  function Combine(hh: int, hl: int, lh: int, low: int): (r: int)
    ensures IsInt64(r)
  {
    var value := Wrap64(Wrap64(hh) * TWO_32);
    var value := Wrap64(value + Wrap64(hl));
    var value := Wrap64(value + Wrap64(lh));
    Wrap64(value + low)
  }

  /**
   * The operator as written: the low halves are multiplied as longs, so a product of 2^63 or
   * more wraps negative before the arithmetic shift.
   */
  function MulAsWritten(a: Fixed, b: Fixed): (r: Fixed)
    ensures r.Valid()
    ensures var ldw, rdw := a.raw % TWO_32, b.raw % TWO_32;
      r == if ldw * rdw <= INT64_MAX then Mul(a, b) else Sub(Mul(a, b), MULTIPLICATIVE_IDENTITY)
  {
    var lup, ldw, rup, rdw := a.raw / TWO_32, a.raw % TWO_32, b.raw / TWO_32, b.raw % TWO_32;
    LowProductWraps(ldw, rdw);
    if ldw * rdw > INT64_MAX then
      CombineOneShort(lup * rup, lup * rdw, ldw * rup, ldw * rdw / TWO_32);
      Fixed(Combine(lup * rup, lup * rdw, ldw * rup, Wrap64(ldw * rdw) / TWO_32))
    else
      Fixed(Combine(lup * rup, lup * rdw, ldw * rup, Wrap64(ldw * rdw) / TWO_32))
  }

  /** The operator with the low halves multiplied unsigned (as ulong), which cannot overflow. */
  function Mul(a: Fixed, b: Fixed): (r: Fixed)
    ensures r.Valid()
    ensures r.raw == Wrap64(a.raw * b.raw / TWO_32)
  {
    var lup, ldw, rup, rdw := a.raw / TWO_32, a.raw % TWO_32, b.raw / TWO_32, b.raw % TWO_32;
    ScaledProductOfHalves(a.raw, b.raw);
    Fixed(Combine(lup * rup, lup * rdw, ldw * rup, ldw * rdw / TWO_32))
  }

  /** The product of the halves, expanded. */
  lemma ExpandProduct(l: int, r: int)
    ensures l * r == ((l / TWO_32) * (r / TWO_32) * TWO_32 + (l / TWO_32) * (r % TWO_32) + (l % TWO_32) * (r / TWO_32)) * TWO_32
                     + (l % TWO_32) * (r % TWO_32)
  {
    var lup, ldw, rup, rdw := l / TWO_32, l % TWO_32, r / TWO_32, r % TWO_32;
    assert l == lup * TWO_32 + ldw;
    assert r == rup * TWO_32 + rdw;
    calc {
      l * r;
      (lup * TWO_32 + ldw) * r;
      lup * TWO_32 * r + ldw * r;
      lup * TWO_32 * (rup * TWO_32 + rdw) + ldw * (rup * TWO_32 + rdw);
      (lup * rup * TWO_32 + lup * rdw + ldw * rup) * TWO_32 + ldw * rdw;
    }
  }

  /** Combine is the exact sum of the partial products, wrapped once. */
  lemma CombineIsWrappedSum(hh: int, hl: int, lh: int, low: int)
    ensures Combine(hh, hl, lh, low) == Wrap64(hh * TWO_32 + hl + lh + low)
  {
    var x0 := hh * TWO_32;
    Wrap64Scale(hh);
    WrappedAdd(x0, hl);
    WrappedAdd(x0 + hl, lh);
    Wrap64AddLeft(x0 + hl + lh, low);
  }

  /** CombineIsWrappedSum's step: adding two wrapped terms wraps their exact sum. */
  lemma WrappedAdd(a: int, b: int)
    ensures Wrap64(Wrap64(a) + Wrap64(b)) == Wrap64(a + b)
  {
    Wrap64AddLeft(a, Wrap64(b));
    Wrap64AddRight(a, b);
  }

  /** The partial products of the halves, summed as the operator sums them, give the scaled product. */
  lemma ScaledProductOfHalves(l: int, r: int)
    ensures var lup, ldw, rup, rdw := l / TWO_32, l % TWO_32, r / TWO_32, r % TWO_32;
      Combine(lup * rup, lup * rdw, ldw * rup, ldw * rdw / TWO_32) == Wrap64(l * r / TWO_32)
  {
    var lup, ldw, rup, rdw := l / TWO_32, l % TWO_32, r / TWO_32, r % TWO_32;
    ExpandProduct(l, r);
    ModAddMultiple(ldw * rdw, lup * rup * TWO_32 + lup * rdw + ldw * rup, TWO_32);
    CombineIsWrappedSum(lup * rup, lup * rdw, ldw * rup, ldw * rdw / TWO_32);
  }

  /** Two low halves multiply to less than 2^64. */
  lemma LowProductBound(ldw: int, rdw: int)
    requires 0 <= ldw < TWO_32 && 0 <= rdw < TWO_32
    ensures 0 <= ldw * rdw < TWO_64
  {
    var gap := TWO_32 - rdw;
    assert ldw * TWO_32 == ldw * rdw + ldw * gap;
    MulNonNegative(ldw, rdw);
    MulNonNegative(ldw, gap);
  }

  /** The low product wraps exactly when it reaches 2^63, and the shift then comes out 2^32 short. */
  lemma LowProductWraps(ldw: int, rdw: int)
    requires 0 <= ldw < TWO_32 && 0 <= rdw < TWO_32
    ensures ldw * rdw <= INT64_MAX ==> Wrap64(ldw * rdw) / TWO_32 == ldw * rdw / TWO_32
    ensures ldw * rdw > INT64_MAX ==> Wrap64(ldw * rdw) / TWO_32 == ldw * rdw / TWO_32 - TWO_32
  {
    var p := ldw * rdw;
    LowProductBound(ldw, rdw);
    if p > INT64_MAX {
      assert Wrap64(p) == p - TWO_64;
      ModAddMultiple(p, -TWO_32, TWO_32);
    }
  }

  /** Taking one unit off the last term takes one unit off the wrapped sum. */
  lemma CombineOneShort(hh: int, hl: int, lh: int, low: int)
    ensures Combine(hh, hl, lh, low - TWO_32) == Wrap64(Combine(hh, hl, lh, low) - TWO_32)
  {
    var x := hh * TWO_32 + hl + lh + low;
    CombineIsWrappedSum(hh, hl, lh, low);
    CombineIsWrappedSum(hh, hl, lh, low - TWO_32);
    Wrap64Congruent(x - TWO_32, Wrap64(x) - TWO_32, Wrap64Quotient(x));
  }

  /** The discrepancy on a small input: three quarters times three quarters comes out as -0.4375, not 0.5625. */
  lemma MulAsWrittenThreeQuarters()
    ensures var threeQuarters := Fixed(3 * 0x4000_0000);
      MulAsWritten(threeQuarters, threeQuarters) == Fixed(-7 * 0x1000_0000) &&
      Mul(threeQuarters, threeQuarters) == Fixed(9 * 0x1000_0000)
  {
    var x := Fixed(3 * 0x4000_0000);
    assert x.raw % TWO_32 == x.raw && x.raw * x.raw == 9 * 0x1000_0000_0000_0000;
    assert Mul(x, x).raw == 9 * 0x1000_0000;
    assert MulAsWritten(x, x) == Sub(Mul(x, x), MULTIPLICATIVE_IDENTITY);
  }

  /** One is the multiplicative identity, on either side. */
  lemma MulIdentity(a: Fixed)
    requires a.Valid()
    ensures Mul(a, MULTIPLICATIVE_IDENTITY) == a && Mul(MULTIPLICATIVE_IDENTITY, a) == a
  {
  }

  /** Integers multiply exactly while their product is an int, and the operator as written agrees there. */
  lemma MulFromInt(m: int, n: int)
    requires IsInt32(m) && IsInt32(n) && IsInt32(m * n)
    ensures Mul(FromInt(m), FromInt(n)) == FromInt(m * n)
    ensures MulAsWritten(FromInt(m), FromInt(n)) == FromInt(m * n)
  {
    var a, b := FromInt(m), FromInt(n);
    assert a.raw * b.raw / TWO_32 == m * n * TWO_32 by {
      assert a.raw * b.raw == (m * n * TWO_32) * TWO_32;
    }
  }

  /** Multiplication commutes. */
  lemma MulCommutes(a: Fixed, b: Fixed)
    ensures Mul(a, b) == Mul(b, a)
  {
  }

  /** The operator as written commutes too: its shortfall depends on the product of the low halves only. */
  lemma MulAsWrittenCommutes(a: Fixed, b: Fixed)
    ensures MulAsWritten(a, b) == MulAsWritten(b, a)
  {
    MulCommutes(a, b);
  }

  /** One is the identity of the operator as written as well, on either side: its low half is zero. */
  lemma MulAsWrittenIdentity(a: Fixed)
    requires a.Valid()
    ensures MulAsWritten(a, MULTIPLICATIVE_IDENTITY) == a && MulAsWritten(MULTIPLICATIVE_IDENTITY, a) == a
  {
    MulIdentity(a);
  }

  // ---------------------------------------------------------------------------------------
  // The additive structure, under wrap-around.

  /** Subtraction undoes addition, overflow or not. */
  lemma AddThenSub(a: Fixed, b: Fixed)
    requires a.Valid()
    ensures Sub(Add(a, b), b) == a
  {
    var s := a.raw + b.raw;
    Wrap64Congruent(Wrap64(s) - b.raw, a.raw, -Wrap64Quotient(s));
  }

  /** -- undoes ++. */
  lemma DecUndoesInc(a: Fixed)
    requires a.Valid()
    ensures Dec(Inc(a)) == a
  {
    AddThenSub(a, MULTIPLICATIVE_IDENTITY);
  }

  /** ++ undoes --. */
  lemma IncUndoesDec(a: Fixed)
    requires a.Valid()
    ensures Inc(Dec(a)) == a
  {
    var d := a.raw - ONE_VALUE;
    Wrap64Congruent(Wrap64(d) + ONE_VALUE, a.raw, -Wrap64Quotient(d));
  }

  /** ++ and -- undo each other. */
  lemma IncThenDec(a: Fixed)
    requires a.Valid()
    ensures Dec(Inc(a)) == a && Inc(Dec(a)) == a
  {
    DecUndoesInc(a);
    IncUndoesDec(a);
  }

  /** Negation is an involution, long.MinValue included. */
  lemma NegNeg(a: Fixed)
    requires a.Valid()
    ensures Neg(Neg(a)) == a
  {
  }

  /** a - b is a + (-b), with wrap-around. */
  lemma SubIsAddNeg(a: Fixed, b: Fixed)
    requires b.Valid()
    ensures Sub(a, b) == Add(a, Neg(b))
  {
    var n := -b.raw;
    Wrap64Congruent(a.raw - b.raw, a.raw + Wrap64(n), Wrap64Quotient(n));
  }

  /** Zero is the additive identity and a + (-a) is zero. */
  lemma AdditiveIdentity(a: Fixed)
    requires a.Valid()
    ensures Add(a, ADDITIVE_IDENTITY) == a && Add(a, Neg(a)) == ADDITIVE_IDENTITY
  {
    SubIsAddNeg(a, a);
  }

  /** Fixed(int) preserves sums that stay within an int, and the order of integers. */
  lemma FromIntHomomorphic(m: int, n: int)
    requires IsInt32(m) && IsInt32(n)
    ensures IsInt32(m + n) ==> Add(FromInt(m), FromInt(n)) == FromInt(m + n)
    ensures Less(FromInt(m), FromInt(n)) <==> m < n
  {
  }
}

=== FILE: flag_game.dfy ===
/**
 * What the Basic and Advanced example games (examples/Basic/Game.cs, examples/Advanced/Game.cs)
 * share: a 10 x 10 map, players that step one tile per frame and stay on the map, and a grid of
 * flags indexed `[x, y]` holding the id of the client who placed each (0 for none).
 */
module FlagGame {

  /** GameState.MapSize. */
  const MAP_SIZE: int := 10

  /** Direction; a value outside the named ones is not modelled. */
  datatype Direction = NoDirection | Up | Down | Left | Right

  /** ClientInput: where to step and whether to place a flag on the tile reached. */
  datatype ClientInput = ClientInput(direction: Direction, placeFlag: bool)

  /** PlayerInfo: a player's tile. A new player starts at (0, 0). */
  datatype Position = Position(x: int, y: int)

  const START: Position := Position(0, 0)

  predicate InBounds(x: int, y: int)
  {
    0 <= x < MAP_SIZE && 0 <= y < MAP_SIZE
  }

  predicate OnMap(p: Position)
  {
    InBounds(p.x, p.y)
  }

  /** A map-sized grid, indexed `[x][y]`. */
  predicate IsGrid<T>(g: seq<seq<T>>)
  {
    |g| == MAP_SIZE && forall x :: 0 <= x < MAP_SIZE ==> |g[x]| == MAP_SIZE
  }

  /** A grid with `v` on every tile. */
  function Filled<T>(v: T): (g: seq<seq<T>>)
    ensures IsGrid(g)
    ensures forall x, y :: InBounds(x, y) ==> g[x][y] == v
  {
    seq(MAP_SIZE, _ => seq(MAP_SIZE, _ => v))
  }

  /** The grid with tile (x, y) set to `v` and every other tile kept. */
  function Set<T>(g: seq<seq<T>>, x: int, y: int, v: T): (r: seq<seq<T>>)
    requires IsGrid(g) && InBounds(x, y)
    ensures IsGrid(r) && r[x][y] == v
    ensures forall i, j :: InBounds(i, j) && (i, j) != (x, y) ==> r[i][j] == g[i][j]
  {
    g[x := g[x][y := v]]
  }

  /**
   * TryMovePlayer: the player moves to (newX, newY) exactly when that tile is on the map, and
   * stays put otherwise; the result says whether it moved.
   */
  function TryMove(p: Position, newX: int, newY: int): (r: (Position, bool))
    ensures r.1 <==> InBounds(newX, newY)
    ensures r.0 == if r.1 then Position(newX, newY) else p
  {
    if newX < 0 || newX >= MAP_SIZE || newY < 0 || newY >= MAP_SIZE then (p, false)
    else (Position(newX, newY), true)
  }

  /** The tile one step from `p` in direction `d`: Up decreases y, Down increases it, Left and Right move x. */
  function Neighbour(p: Position, d: Direction): Position
  {
    match d
    case Up => Position(p.x, p.y - 1)
    case Down => Position(p.x, p.y + 1)
    case Left => Position(p.x - 1, p.y)
    case Right => Position(p.x + 1, p.y)
    case NoDirection => p
  }

  /**
   * The switch on the input direction: with a direction, the player moves to the neighbouring
   * tile exactly when that tile is on the map, and stays put otherwise.
   */
  function Step(p: Position, d: Direction): (r: Position)
    ensures OnMap(p) ==> OnMap(r)
    ensures d == NoDirection ==> r == p
    ensures d != NoDirection ==> (r == Neighbour(p, d) <==> OnMap(Neighbour(p, d)))
    ensures r == p || r == Neighbour(p, d)
  {
    match d
    case Up => TryMove(p, p.x, p.y - 1).0
    case Down => TryMove(p, p.x, p.y + 1).0
    case Left => TryMove(p, p.x - 1, p.y).0
    case Right => TryMove(p, p.x + 1, p.y).0
    case NoDirection => p
  }

  /** Every player is on the map. */
  predicate AllOnMap(players: map<int, Position>)
  {
    forall id :: id in players ==> OnMap(players[id])
  }

  /** The tiles that hold a flag keep it: `after` agrees with `before` wherever `before` is non-zero. */
  predicate FlagsKept(before: seq<seq<int>>, after: seq<seq<int>>)
    requires IsGrid(before) && IsGrid(after)
  {
    forall x, y :: 0 <= x < MAP_SIZE && 0 <= y < MAP_SIZE && before[x][y] != 0 ==> after[x][y] == before[x][y]
  }

  lemma FlagsKeptTransitive(a: seq<seq<int>>, b: seq<seq<int>>, c: seq<seq<int>>)
    requires IsGrid(a) && IsGrid(b) && IsGrid(c) && FlagsKept(a, b) && FlagsKept(b, c)
    ensures FlagsKept(a, c)
  {
  }
}

=== FILE: game_of_life.dfy ===
/**
 * The GameOfLife example (examples/GameOfLife/Game/GameState.cs): a 30 x 30 level of Life cells
 * and player avatars. Each Update first takes one Life step over the whole level, then handles
 * the clients' entries: disconnected players are dropped, new ids get a player, a spawned player
 * moves, and an unspawned one spawns on request when the spawn point is free.
 *
 * The direction a client sends is modelled by the movement it maps to, since the mapping is
 * declared outside the modelled files.
 */
module GameOfLife {
  import opened Wrappers
  import opened GameTypes
  import opened Levels

  const LEVEL_WIDTH: int := 30
  const LEVEL_HEIGHT: int := 30
  const SPAWN_POINT: Point := Point(0, 0)

  /** Cell.CellState: Newborn cells appear in the next frame, Dying ones leave it. */
  datatype CellState = Newborn | Alive | Dying

  /** The level objects: a Life cell, or the avatar of the player with the given id. */
  datatype LevelObject = Cell(state: CellState) | Avatar(id: int)

  /** ClientInput: the movement of the direction held, if any, and whether to spawn. */
  datatype ClientInput = ClientInput(direction: Option<Point>, start: bool)

  /** Player: the direction last sent and, once spawned, the avatar's tile. */
  datatype Player = Player(direction: Option<Point>, position: Option<Point>)

  datatype GameState = GameState(frame: int, players: map<int, Player>, level: Level<LevelObject>)

  /** GetOccupation: nothing and newborn cells count 0; other cells and other objects count 1. */
  function Occupation(l: Level<LevelObject>, x: int, y: int): (n: int)
    requires l.Valid()
    ensures n == 0 || n == 1
    ensures !l.InBounds(x, y) ==> n == 0
    ensures n == 1 <==> At(l, x, y).Some? && At(l, x, y) != Some(Cell(Newborn))
  {
    var o := At(l, x, y);
    if o.None? then 0
    else if o.value.Cell? then (if o.value.state != Newborn then 1 else 0)
    else 1
  }

  /** CountNeighbors: the occupation of the eight surrounding tiles. */
  function CountNeighbors(l: Level<LevelObject>, x: int, y: int): (n: int)
    requires l.Valid()
    ensures 0 <= n <= 8
  {
    Occupation(l, x - 1, y - 1) + Occupation(l, x - 1, y) + Occupation(l, x - 1, y + 1) +
    Occupation(l, x, y - 1) + Occupation(l, x, y + 1) +
    Occupation(l, x + 1, y - 1) + Occupation(l, x + 1, y) + Occupation(l, x + 1, y + 1)
  }

  /**
   * Conway's rule, the reference for one tile: an empty tile with exactly three occupied
   * neighbours gets a living cell, a cell lives on with two or three and dies otherwise, and any
   * other object stays.
   */
  function Next(o: Option<LevelObject>, n: int): Option<LevelObject>
  {
    if o.None? then (if n == 3 then Some(Cell(Alive)) else None)
    else if o.value.Cell? then (if n == 2 || n == 3 then Some(Cell(Alive)) else None)
    else o
  }

  /** `after` is the simultaneous Life step of `before`: every tile follows Next on the old counts. */
  ghost predicate IsLifeStep(before: Level<LevelObject>, after: Level<LevelObject>)
    requires before.Valid() && after.Valid()
  {
    after.width == before.width && after.height == before.height &&
    forall x, y :: before.InBounds(x, y) ==> At(after, x, y) == Next(At(before, x, y), CountNeighbors(before, x, y))
  }

  /** Between frames every cell is Alive: none is newborn or dying. */
  predicate Settled(l: Level<LevelObject>)
    requires l.Valid()
  {
    forall x, y :: 0 <= x < l.width && 0 <= y < l.height ==>
      At(l, x, y) != Some(Cell(Newborn)) && At(l, x, y) != Some(Cell(Dying))
  }

  /** The first loop's change to one tile, from its neighbour count. */
  function Mark(o: Option<LevelObject>, n: int): (r: Option<LevelObject>)
  {
    if o.None? then (if n == 3 then Some(Cell(Newborn)) else None)
    else if o.value.Cell? then Some(Cell(if n < 2 || n > 3 then Dying else Alive))
    else o
  }

  /** The second loop's change to one slot: dying cells go, the other cells become Alive. */
  function Settle(o: Option<LevelObject>): (r: Option<LevelObject>)
  {
    if o == Some(Cell(Dying)) then None
    else if o.Some? && o.value.Cell? then Some(Cell(Alive))
    else o
  }

  /** Marking keeps what a tile counts for, unless the tile held a newborn cell. */
  lemma MarkKeepsOccupation(o: Option<LevelObject>, n: int)
    requires o != Some(Cell(Newborn))
    ensures Mark(o, n) != Some(Cell(Newborn)) <==> o.Some? || n != 3
    ensures (Mark(o, n).Some? && Mark(o, n) != Some(Cell(Newborn))) <==> o.Some?
  {
  }

  /** Marking and then settling a tile is the Life rule. */
  lemma MarkSettle(o: Option<LevelObject>, n: int)
    ensures Settle(Mark(o, n)) == Next(o, n)
  {
  }

  /** Tiles no farther than the neighbours of (x, y) are counted the same in two levels. */
  lemma SameCounts(l1: Level<LevelObject>, l2: Level<LevelObject>, x: int, y: int)
    requires l1.Valid() && l2.Valid()
    requires forall a, b :: Occupation(l1, a, b) == Occupation(l2, a, b)
    ensures CountNeighbors(l1, x, y) == CountNeighbors(l2, x, y)
  {
  }

  /**
   * UpdateGame: the first pass, x outer and y inner, marks each tile in place from the counts on
   * the level as it stands; the second pass settles every slot. Marking never changes what a tile
   * counts for, so when every cell starts Alive the counts are the old ones and the result is the
   * simultaneous Life step. Every cell ends Alive.
   */
  method UpdateGame(l: Level<LevelObject>) returns (r: Level<LevelObject>)
    requires l.Valid()
    ensures r.Valid() && Settled(r)
    ensures Settled(l) ==> IsLifeStep(l, r)
  {
    var mid := MarkAll(l);
    r := SettleAll(mid);
    if Settled(l) {
      forall a, b | l.InBounds(a, b)
        ensures At(r, a, b) == Next(At(l, a, b), CountNeighbors(l, a, b))
      {
        MarkSettle(At(l, a, b), CountNeighbors(l, a, b));
        assert At(r, a, b) == Settle(At(mid, a, b));
      }
    }
  }

  /** The first pass, column by column. */
  method MarkAll(l: Level<LevelObject>) returns (cur: Level<LevelObject>)
    requires l.Valid()
    ensures cur.Valid() && cur.width == l.width && cur.height == l.height
    ensures Settled(l) ==> forall a, b :: l.InBounds(a, b) ==>
              At(cur, a, b) == Mark(At(l, a, b), CountNeighbors(l, a, b))
  {
    cur := l;
    var x := 0;
    while x < l.width
      invariant 0 <= x <= l.width
      invariant cur.Valid() && cur.width == l.width && cur.height == l.height
      invariant Settled(l) ==> forall a, b :: Occupation(cur, a, b) == Occupation(l, a, b)
      invariant Settled(l) ==> forall a, b :: l.InBounds(a, b) && a < x ==>
                  At(cur, a, b) == Mark(At(l, a, b), CountNeighbors(l, a, b))
      invariant forall a, b :: l.InBounds(a, b) && a >= x ==> At(cur, a, b) == At(l, a, b)
    {
      cur := MarkColumn(l, cur, x);
      x := x + 1;
    }
  }

  /** The first pass over column x, top to bottom. */
  method MarkColumn(l: Level<LevelObject>, start: Level<LevelObject>, x: int) returns (cur: Level<LevelObject>)
    requires l.Valid() && start.Valid() && start.width == l.width && start.height == l.height && 0 <= x < l.width
    requires Settled(l) ==> forall a, b :: Occupation(start, a, b) == Occupation(l, a, b)
    requires forall b :: l.InBounds(x, b) ==> At(start, x, b) == At(l, x, b)
    ensures cur.Valid() && cur.width == l.width && cur.height == l.height
    ensures Settled(l) ==> forall a, b :: Occupation(cur, a, b) == Occupation(l, a, b)
    ensures Settled(l) ==> forall b :: l.InBounds(x, b) ==> At(cur, x, b) == Mark(At(l, x, b), CountNeighbors(l, x, b))
    ensures forall a, b :: a != x ==> At(cur, a, b) == At(start, a, b)
  {
    cur := start;
    var y := 0;
    while y < l.height
      invariant 0 <= y <= l.height
      invariant cur.Valid() && cur.width == l.width && cur.height == l.height
      invariant Settled(l) ==> forall a, b :: Occupation(cur, a, b) == Occupation(l, a, b)
      invariant Settled(l) ==> forall b :: 0 <= b < y ==> At(cur, x, b) == Mark(At(l, x, b), CountNeighbors(l, x, b))
      invariant forall b :: y <= b < l.height ==> At(cur, x, b) == At(l, x, b)
      invariant forall a, b :: a != x ==> At(cur, a, b) == At(start, a, b)
    {
      MarkColumnStep(l, start, cur, x, y);
      cur := MarkTile(cur, x, y);
      y := y + 1;
    }
  }

  /** MarkColumn's loop step: marking tile (x, y) carries every loop invariant from y to y + 1. */
  lemma MarkColumnStep(l: Level<LevelObject>, start: Level<LevelObject>, cur: Level<LevelObject>, x: int, y: int)
    requires l.Valid() && start.Valid() && cur.Valid() && cur.width == l.width && cur.height == l.height
    requires 0 <= x < l.width && 0 <= y < l.height
    requires Settled(l) ==> forall a, b :: Occupation(cur, a, b) == Occupation(l, a, b)
    requires Settled(l) ==> forall b :: 0 <= b < y ==> At(cur, x, b) == Mark(At(l, x, b), CountNeighbors(l, x, b))
    requires forall b :: y <= b < l.height ==> At(cur, x, b) == At(l, x, b)
    requires forall a, b :: a != x ==> At(cur, a, b) == At(start, a, b)
    ensures var r := MarkTile(cur, x, y);
      (Settled(l) ==> forall a, b :: Occupation(r, a, b) == Occupation(l, a, b)) &&
      (Settled(l) ==> forall b :: 0 <= b < y + 1 ==> At(r, x, b) == Mark(At(l, x, b), CountNeighbors(l, x, b))) &&
      (forall b :: y + 1 <= b < l.height ==> At(r, x, b) == At(l, x, b)) &&
      (forall a, b :: a != x ==> At(r, a, b) == At(start, a, b))
  {
    var r := MarkTile(cur, x, y);
    if Settled(l) {
      MarkTileKeepsCounts(l, cur, x, y);
      forall b | 0 <= b < y + 1
        ensures At(r, x, b) == Mark(At(l, x, b), CountNeighbors(l, x, b))
      {
        if b != y {
          assert At(r, x, b) == At(cur, x, b);
        }
      }
    }
    forall b | y + 1 <= b < l.height
      ensures At(r, x, b) == At(l, x, b)
    {
      assert At(r, x, b) == At(cur, x, b);
    }
  }

  /** The second pass: every slot settled. */
  method SettleAll(mid: Level<LevelObject>) returns (cur: Level<LevelObject>)
    requires mid.Valid()
    ensures cur.Valid() && cur.width == mid.width && cur.height == mid.height && Settled(cur)
    ensures forall a, b :: At(cur, a, b) == Settle(At(mid, a, b))
  {
    cur := mid;
    var i := 0;
    while i < |mid.objects|
      invariant 0 <= i <= |mid.objects|
      invariant cur.Valid() && cur.width == mid.width && cur.height == mid.height
      invariant forall j :: 0 <= j < i ==> cur.objects[j] == Settle(mid.objects[j])
      invariant forall j :: i <= j < |mid.objects| ==> cur.objects[j] == mid.objects[j]
    {
      cur := cur.(objects := cur.objects[i := Settle(cur.objects[i])]);
      i := i + 1;
    }
  }

  /** One step of the first pass: tile (x, y) is marked from its count on the level as it stands. */
  function MarkTile(cur: Level<LevelObject>, x: int, y: int): (r: Level<LevelObject>)
    requires cur.Valid() && cur.InBounds(x, y)
    ensures r.Valid() && r.width == cur.width && r.height == cur.height
    ensures At(r, x, y) == Mark(At(cur, x, y), CountNeighbors(cur, x, y))
    ensures forall a, b :: (a, b) != (x, y) ==> At(r, a, b) == At(cur, a, b)
  {
    Put(cur, x, y, Mark(At(cur, x, y), CountNeighbors(cur, x, y))).value
  }

  /**
   * While every count on `cur` is the count on a settled `l` and tile (x, y) is as in `l`,
   * marking it gives the mark it gets on `l`, and all counts stay as they were.
   */
  lemma MarkTileKeepsCounts(l: Level<LevelObject>, cur: Level<LevelObject>, x: int, y: int)
    requires l.Valid() && cur.Valid() && cur.InBounds(x, y) && Settled(l)
    requires At(cur, x, y) == At(l, x, y)
    requires forall a, b :: Occupation(cur, a, b) == Occupation(l, a, b)
    ensures At(MarkTile(cur, x, y), x, y) == Mark(At(l, x, y), CountNeighbors(l, x, y))
    ensures forall a, b :: Occupation(MarkTile(cur, x, y), a, b) == Occupation(l, a, b)
  {
    var r := MarkTile(cur, x, y);
    SameCounts(cur, l, x, y);
    var o := At(cur, x, y);
    assert o != Some(Cell(Newborn));
    MarkKeepsOccupation(o, CountNeighbors(cur, x, y));
    forall a, b
      ensures Occupation(r, a, b) == Occupation(cur, a, b)
    {
      if (a, b) != (x, y) {
        assert At(r, a, b) == At(cur, a, b);
      }
    }
  }

  /** The Life step is unique: two levels that are both the step of `before` are equal. */
  lemma LifeStepUnique(before: Level<LevelObject>, a1: Level<LevelObject>, a2: Level<LevelObject>)
    requires before.Valid() && a1.Valid() && a2.Valid()
    requires IsLifeStep(before, a1) && IsLifeStep(before, a2)
    ensures a1 == a2
  {
    Extensional(a1, a2);
  }

  /** ServerInput: the seed of a random cell-respawn event, 0 for none. */
  datatype ServerInput = ServerInput(cellRespawnEventSeed: int)

  /** Every spawned player's tile holds that player's avatar. */
  predicate AvatarsPlaced(l: Level<LevelObject>, players: map<int, Player>)
    requires l.Valid()
  {
    forall id :: id in players && players[id].position.Some? ==>
      At(l, players[id].position.value.x, players[id].position.value.y) == Some(Avatar(id))
  }

  /** The invariant the game keeps between frames. */
  predicate Consistent(s: GameState)
  {
    s.level.Valid() && s.level.width == LEVEL_WIDTH && s.level.height == LEVEL_HEIGHT &&
    Settled(s.level) && AvatarsPlaced(s.level, s.players)
  }

  /** A new game: frame -1, no players and an empty 30 x 30 level. */
  function Create(): (s: GameState)
    ensures Consistent(s) && s.frame == -1 && s.players == map[]
    ensures forall x, y :: At(s.level, x, y).None?
  {
    var l := Levels.Level<LevelObject>.Create(LEVEL_WIDTH, LEVEL_HEIGHT).value;
    assert forall x, y :: l.InBounds(x, y) ==> At(l, x, y) == l.objects[Index(l, x, y)];
    GameState(-1, map[], l)
  }

  /**
   * UpdatePlayer: an unspawned player throws ArgumentException; a player without a direction
   * stays; otherwise its avatar moves by the direction's movement when the tile reached is inside
   * the level and empty.
   */
  function UpdatePlayer(l: Level<LevelObject>, player: Player): (r: Outcome<(Level<LevelObject>, Player)>)
    requires l.Valid()
    ensures player.position.None? ==> r == Throws(ArgumentException)
    ensures player.position.Some? && player.direction.None? ==> r == Ok((l, player))
    ensures player.position.Some? && player.direction.Some? ==>
      var m := Move(l, player.position.value, player.direction.value);
      (r.Throws? <==> m.Throws?) &&
      (r.Ok? ==> r.value == (m.value.0, player.(position := Some(m.value.1))))
  {
    if player.position.None? then Throws(ArgumentException)
    else if player.direction.None? then Ok((l, player))
    else
      var (l1, to) :- Move(l, player.position.value, player.direction.value);
      Ok((l1, player.(position := Some(to))))
  }

  /**
   * One client's entry: a disconnected player is removed (its avatar stays on the level); a new
   * id gets a player; the direction is recorded; a spawned player moves, and an unspawned one
   * spawns if Start is set.
   */
  function ApplyInput(s: GameState, info: ClientInfo<ClientInput>): (r: Outcome<GameState>)
    requires s.level.Valid()
    ensures r.Ok? ==> r.value.level.Valid() && r.value.frame == s.frame
    ensures r.Ok? ==> r.value.level.width == s.level.width && r.value.level.height == s.level.height
    ensures info.terminated ==> r == Ok(s.(players := s.players - {info.id}))
    ensures !info.terminated && r.Ok? ==>
      r.value.players.Keys == s.players.Keys + {info.id} &&
      r.value.players[info.id].direction == info.input.direction &&
      forall id :: id in s.players && id != info.id ==> r.value.players[id] == s.players[id]
    ensures !info.terminated && r.Ok? && (info.id !in s.players || s.players[info.id].position.None?) ==>
      (r.value.players[info.id].position.Some? <==> info.input.start && At(s.level, SPAWN_POINT.x, SPAWN_POINT.y).None?)
  {
    var id := info.id;
    if info.terminated then Ok(s.(players := s.players - {id}))
    else
      var player := (if id in s.players then s.players[id] else Player(None, None)).(direction := info.input.direction);
      if player.position.Some? then
        var (l1, moved) :- UpdatePlayer(s.level, player);
        Ok(s.(level := l1, players := s.players[id := moved]))
      else if info.input.start then
        var (l1, spawned) :- TrySpawn(s.level, SPAWN_POINT, Avatar(id));
        var p := if spawned then player.(position := Some(SPAWN_POINT)) else player;
        Ok(s.(level := l1, players := s.players[id := p]))
      else Ok(s.(players := s.players[id := player]))
  }

  /** The entries applied in order; the first exception ends the update. */
  function ApplyInputs(s: GameState, infos: seq<ClientInfo<ClientInput>>): (r: Outcome<GameState>)
    requires s.level.Valid()
    ensures r.Ok? ==> r.value.level.Valid() && r.value.frame == s.frame
    ensures r.Ok? ==> r.value.level.width == s.level.width && r.value.level.height == s.level.height
    decreases |infos|
  {
    if |infos| == 0 then Ok(s)
    else
      var s1 :- ApplyInputs(s, infos[..|infos| - 1]);
      ApplyInput(s1, infos[|infos| - 1])
  }

  /** An entry keeps the invariant, and in a consistent game it never throws. */
  lemma ApplyInputConsistent(s: GameState, info: ClientInfo<ClientInput>)
    requires Consistent(s)
    ensures ApplyInput(s, info).Ok? && Consistent(ApplyInput(s, info).value)
  {
    var id := info.id;
    if !info.terminated {
      var player := (if id in s.players then s.players[id] else Player(None, None)).(direction := info.input.direction);
      if player.position.Some? {
        var from := player.position.value;
        assert At(s.level, from.x, from.y) == Some(Avatar(id));
        if player.direction.Some? {
          var m := Move(s.level, from, player.direction.value);
          var l1 := m.value.0;
          forall q | q in s.players && q != id && s.players[q].position.Some?
            ensures At(l1, s.players[q].position.value.x, s.players[q].position.value.y) == Some(Avatar(q))
          {
            var pq := s.players[q].position.value;
            assert At(s.level, pq.x, pq.y) == Some(Avatar(q));
          }
        }
      } else if info.input.start {
        var t := TrySpawn(s.level, SPAWN_POINT, Avatar(id));
        forall q | q in s.players && q != id && s.players[q].position.Some?
          ensures At(t.value.0, s.players[q].position.value.x, s.players[q].position.value.y) == Some(Avatar(q))
        {
          var pq := s.players[q].position.value;
          assert At(s.level, pq.x, pq.y) == Some(Avatar(q));
        }
      }
    }
  }

  /** Every entry of a frame keeps the invariant, and none throws. */
  lemma {:induction false} ApplyInputsConsistent(s: GameState, infos: seq<ClientInfo<ClientInput>>)
    requires Consistent(s)
    ensures ApplyInputs(s, infos).Ok? && Consistent(ApplyInputs(s, infos).value)
    decreases |infos|
  {
    if |infos| > 0 {
      ApplyInputsConsistent(s, infos[..|infos| - 1]);
      ApplyInputConsistent(ApplyInputs(s, infos[..|infos| - 1]).value, infos[|infos| - 1]);
    }
  }

  /**
   * CheckRespawn: a zero seed changes nothing; any other seed refills every tile that is empty or
   * holds a cell, with a living cell when that tile's draw exceeds 0.66 and with nothing
   * otherwise. Avatars stay, and no draw is made for them. System.Random is not modelled:
   * `draws(i)` says whether the draw consumed at tile index i, if any, exceeds 0.66.
   */
  function CheckRespawn(l: Level<LevelObject>, seed: int, draws: int -> bool): (r: Level<LevelObject>)
    requires l.Valid()
    ensures r.Valid() && r.width == l.width && r.height == l.height
    ensures seed == 0 ==> r == l
  {
    if seed == 0 then l
    else
      var objects := seq(|l.objects|, i requires 0 <= i < |l.objects| =>
        if l.objects[i].Some? && l.objects[i].value.Avatar? then l.objects[i]
        else if draws(i) then Some(Cell(Alive)) else None);
      l.(objects := objects)
  }

  /**
   * What a respawn event leaves on each tile: an avatar where there was one, and elsewhere a
   * living cell exactly when that tile's draw says so. The result is settled and keeps every
   * avatar in place, so a consistent game stays consistent.
   */
  lemma RespawnTiles(s: GameState, seed: int, draws: int -> bool, x: int, y: int)
    requires Consistent(s) && seed != 0 && 0 <= x < s.level.width && 0 <= y < s.level.height
    ensures var o := At(CheckRespawn(s.level, seed, draws), x, y);
      (At(s.level, x, y).Some? && At(s.level, x, y).value.Avatar? ==> o == At(s.level, x, y)) &&
      (At(s.level, x, y).None? || At(s.level, x, y).value.Cell? ==>
         (o == Some(Cell(Alive)) <==> draws(Index(s.level, x, y))) && (o.None? <==> !draws(Index(s.level, x, y))))
  {
  }

  lemma RespawnConsistent(s: GameState, seed: int, draws: int -> bool)
    requires Consistent(s)
    ensures Consistent(s.(level := CheckRespawn(s.level, seed, draws)))
  {
    var l := CheckRespawn(s.level, seed, draws);
    forall x, y | 0 <= x < l.width && 0 <= y < l.height
      ensures At(l, x, y) != Some(Cell(Newborn)) && At(l, x, y) != Some(Cell(Dying))
    {
      assert At(s.level, x, y) != Some(Cell(Newborn)) && At(s.level, x, y) != Some(Cell(Dying));
    }
    forall id | id in s.players && s.players[id].position.Some?
      ensures At(l, s.players[id].position.value.x, s.players[id].position.value.y) == Some(Avatar(id))
    {
      var p := s.players[id].position.value;
      assert At(s.level, p.x, p.y) == Some(Avatar(id));
    }
  }

  /**
   * Update: one Life step, then the entries in order, then the respawn event, then the frame
   * counter moves on; the output is UpdateOutput.Empty. From a consistent game nothing throws
   * and the result is consistent; without entries and respawn event its level is the Life step
   * of the old level. `draws` stands for the System.Random seeded by the server input.
   */
  method Update(s: GameState, input: UpdateInput<ClientInput, ServerInput>, draws: int -> bool)
    returns (r: Outcome<(GameState, UpdateOutput)>)
    requires s.level.Valid()
    ensures r.Ok? ==> r.value.0.frame == s.frame + 1 && r.value.1 == EMPTY_OUTPUT
    ensures Consistent(s) ==> r.Ok? && Consistent(r.value.0)
    ensures Consistent(s) && |input.clientInput| == 0 && input.serverInput.cellRespawnEventSeed == 0 ==>
              r.value.0.players == s.players && IsLifeStep(s.level, r.value.0.level)
  {
    var level := UpdateGame(s.level);
    var s0 := s.(level := level);
    if Consistent(s) {
      forall id | id in s.players && s.players[id].position.Some?
        ensures At(level, s.players[id].position.value.x, s.players[id].position.value.y) == Some(Avatar(id))
      {
        var p := s.players[id].position.value;
        assert At(s.level, p.x, p.y) == Some(Avatar(id));
      }
      ApplyInputsConsistent(s0, input.clientInput);
      RespawnConsistent(ApplyInputs(s0, input.clientInput).value, input.serverInput.cellRespawnEventSeed, draws);
    }
    var played := ApplyInputs(s0, input.clientInput);
    if played.Throws? {
      r := Throws(played.error);
    } else {
      var p := played.value;
      var respawned := p.(level := CheckRespawn(p.level, input.serverInput.cellRespawnEventSeed, draws));
      r := Ok((respawned.(frame := s.frame + 1), EMPTY_OUTPUT));
    }
  }

  /** A player whose client disconnects in the frame's last entry is gone after the update. */
  lemma LastDisconnectRemoves(s: GameState, infos: seq<ClientInfo<ClientInput>>)
    requires Consistent(s) && |infos| > 0 && infos[|infos| - 1].terminated
    ensures ApplyInputs(s, infos).Ok? && infos[|infos| - 1].id !in ApplyInputs(s, infos).value.players
  {
    ApplyInputsConsistent(s, infos[..|infos| - 1]);
  }
}

=== FILE: game_types.dfy ===
/**
 * The records exchanged between the framework and the game code: the per-client entry of an
 * update input (UpdateClientInfo), the update input itself and the update output
 * (src/Core/UpdateClientInfo.cs, src/Core/Definitions.cs).
 */
module GameTypes {
  import opened Wrappers

  /** UpdateClientInfo: a client's id, its input for the frame, and whether it disconnected. */
  datatype ClientInfo<I> = ClientInfo(id: int, input: I, terminated: bool)

  /** UpdateInput: one entry per client and the server's input. */
  datatype UpdateInput<C, S> = UpdateInput(clientInput: seq<ClientInfo<C>>, serverInput: S)

  /** UpdateOutput: clients to disconnect (null when none are named) and whether the server shall stop. */
  datatype UpdateOutput = UpdateOutput(clientsToTerminate: Option<seq<int>>, shallStop: bool)

  /** UpdateOutput.Empty: nothing to do. */
  const EMPTY_OUTPUT: UpdateOutput := UpdateOutput(None, false)

  /** UpdateOutput.Terminate, taken to be the output that stops the game. */
  const TERMINATE_OUTPUT: UpdateOutput := UpdateOutput(None, true)

  /** The ids of the entries of a client-input sequence, in order. */
  function Ids<C>(infos: seq<ClientInfo<C>>): (r: seq<int>)
    ensures |r| == |infos| && forall k :: 0 <= k < |infos| ==> r[k] == infos[k].id
  {
    seq(|infos|, k requires 0 <= k < |infos| => infos[k].id)
  }

  /** The set of ids named by a client-input sequence. */
  function IdSet<C>(infos: seq<ClientInfo<C>>): (r: set<int>)
    decreases |infos|
  {
    if |infos| == 0 then {} else IdSet(infos[..|infos| - 1]) + {infos[|infos| - 1].id}
  }

  /** IdSet holds exactly the ids of the entries. */
  lemma {:induction false} IdSetMembers<C>(infos: seq<ClientInfo<C>>, id: int)
    ensures id in IdSet(infos) <==> exists k :: 0 <= k < |infos| && infos[k].id == id
    decreases |infos|
  {
    if |infos| > 0 {
      var init := infos[..|infos| - 1];
      IdSetMembers(init, id);
      if id in IdSet(init) {
        var k :| 0 <= k < |init| && init[k].id == id;
        assert infos[k].id == id;
      }
      if exists k :: 0 <= k < |infos| && infos[k].id == id {
        var k :| 0 <= k < |infos| && infos[k].id == id;
        if k < |init| {
          assert init[k].id == id;
        }
      }
    }
  }
}

=== FILE: indexed_queue.dfy ===
/**
 * IndexedQueue<T> (src/GameNewt/DataStructures/IndexedQueue.cs and its earlier revision
 * src/Core/DataStructures/IndexedQueue.cs): a queue whose elements carry consecutive `long`
 * indices and can be read by index. `elements` is the backing dictionary; `first` and `last`
 * bound the contained range.
 */
module IndexedQueue {
  import opened Wrappers

  datatype Queue<T> = Queue(elements: map<int, T>, first: int, last: int)
  {
    /** The dictionary holds exactly the indices of the contained range. */
    ghost predicate Valid()
    {
      forall i :: i in elements <==> first <= i <= last
    }

    predicate IsContained(index: int)
    {
      first <= index <= last
    }

    /** Empty: no index is contained. */
    predicate IsEmpty()
      ensures IsEmpty() <==> forall i :: !IsContained(i)
    {
      if first > last then true
      else assert IsContained(first); false
    }

    /** NextIndex: the index the next Add will return. */
    function NextIndex(): int
    {
      last + 1
    }

    /** A new queue: first = 0, last = -1. */
    static function Create(): (q: Queue<T>)
      ensures q.Valid() && q.IsEmpty() && q.first == 0 && q.NextIndex() == 0
    {
      Queue(map[], 0, -1)
    }
  }

  /** The throwing indexer of the later revision. */
  function Get<T>(q: Queue<T>, index: int): (r: Outcome<T>)
    requires q.Valid()
    ensures r.Ok? <==> q.first <= index <= q.last
    ensures r.Throws? ==> r.error == IndexOutOfRangeException
    ensures r.Ok? ==> index in q.elements && r.value == q.elements[index]
  {
    if q.IsContained(index) then Ok(q.elements[index]) else Throws(IndexOutOfRangeException)
  }

  /** TryGet: the element when contained, otherwise false (None). */
  function TryGet<T>(q: Queue<T>, index: int): (r: Option<T>)
    requires q.Valid()
    ensures r.Some? <==> Get(q, index).Ok?
    ensures r.Some? ==> r.value == Get(q, index).value
  {
    if q.IsContained(index) then Some(q.elements[index]) else None
  }

  /** The indexer of the earlier revision: null outside the contained range. */
  function GetOrNull<T>(q: Queue<T>, index: int): (r: Option<T>)
    requires q.Valid()
    ensures r.Some? <==> q.first <= index <= q.last
    ensures r.Some? ==> index in q.elements && r.value == q.elements[index]
  {
    if q.first <= index && index <= q.last then Some(q.elements[index]) else None
  }

  /** Add: the counter always advances; the element is stored only when its index is not already popped. */
  function Add<T>(q: Queue<T>, value: T): (r: (Queue<T>, int))
    requires q.Valid()
    ensures r.0.Valid()
    ensures r.1 == q.NextIndex() && r.0.last == r.1 && r.0.first == q.first
    ensures r.1 >= q.first ==> GetOrNull(r.0, r.1) == Some(value)
    ensures forall i :: i != r.1 ==> GetOrNull(r.0, i) == GetOrNull(q, i)
  {
    var last := q.last + 1;
    assert last !in q.elements;
    if last >= q.first then (Queue(q.elements[last := value], q.first, last), last)
    else (Queue(q.elements, q.first, last), last)
  }

  /** Set: clear the queue and count from `frame`. */
  function Set<T>(q: Queue<T>, frame: int): (r: Queue<T>)
    ensures r.Valid() && r.IsEmpty() && r.first == frame && r.NextIndex() == frame
  {
    Queue(map[], frame, frame - 1)
  }

  /** Pop: drop every index up to `frame`, including indices not added yet. */
  function Pop<T>(q: Queue<T>, frame: int): (r: Queue<T>)
    requires q.Valid()
    ensures r.Valid()
    ensures r.first == (if q.first <= frame then frame + 1 else q.first) && r.last == q.last
    ensures forall i :: GetOrNull(r, i) == if i <= frame then None else GetOrNull(q, i)
    decreases if q.first <= frame then frame - q.first + 1 else 0
  {
    if q.first <= frame then
      Pop(Queue(q.elements - {q.first}, q.first + 1, q.last), frame)
    else q
  }

  /** First and Last go through the throwing indexer, so on an empty queue they throw. */
  function First<T>(q: Queue<T>): (r: Outcome<T>)
    requires q.Valid()
    ensures r.Throws? <==> q.IsEmpty()
  {
    Get(q, q.first)
  }

  function Last<T>(q: Queue<T>): (r: Outcome<T>)
    requires q.Valid()
    ensures r.Throws? <==> q.IsEmpty()
  {
    Get(q, q.last)
  }

  /** First and Last of the earlier revision are null exactly on an empty queue. */
  function FirstOrNull<T>(q: Queue<T>): (r: Option<T>)
    requires q.Valid()
    ensures r.None? <==> q.IsEmpty()
  {
    GetOrNull(q, q.first)
  }

  function LastOrNull<T>(q: Queue<T>): (r: Option<T>)
    requires q.Valid()
    ensures r.None? <==> q.IsEmpty()
  {
    GetOrNull(q, q.last)
  }

  /** Adding the elements of `xs` in order. */
  function AddAll<T>(q: Queue<T>, xs: seq<T>): (r: Queue<T>)
    requires q.Valid()
    ensures r.Valid()
    decreases |xs|
  {
    if xs == [] then q else AddAll(Add(q, xs[0]).0, xs[1..])
  }

  /**
   * After Set(s), adding xs gives each element the index s + k, where it can be read,
   * and nothing else is contained.
   */
  lemma AddAllAfterSet<T>(q: Queue<T>, xs: seq<T>)
    requires q.Valid() && q.first == q.NextIndex()
    ensures AddAll(q, xs).first == q.first && AddAll(q, xs).NextIndex() == q.first + |xs|
    ensures forall k :: 0 <= k < |xs| ==> GetOrNull(AddAll(q, xs), q.first + k) == Some(xs[k])
    ensures forall i :: i < q.first || i >= q.first + |xs| ==> GetOrNull(AddAll(q, xs), i).None?
  {
    AddAllAfterSetFrom(q, xs, q.first);
  }

  /** Helper for AddAllAfterSet: adding after index p keeps the element at p. */
  lemma {:induction false} AddAllKeeps<T>(q: Queue<T>, xs: seq<T>, p: int)
    requires q.Valid() && p <= q.last
    ensures GetOrNull(AddAll(q, xs), p) == GetOrNull(q, p)
    decreases |xs|
  {
    if xs != [] {
      AddAllKeeps(Add(q, xs[0]).0, xs[1..], p);
    }
  }

  /** Helper for AddAllAfterSet: adds onto a queue that is contiguous from `s`. */
  lemma {:induction false} AddAllAfterSetFrom<T>(q: Queue<T>, xs: seq<T>, s: int)
    requires q.Valid() && q.first == s <= q.NextIndex()
    ensures AddAll(q, xs).first == s && AddAll(q, xs).NextIndex() == q.NextIndex() + |xs|
    ensures forall k :: 0 <= k < |xs| ==> GetOrNull(AddAll(q, xs), q.NextIndex() + k) == Some(xs[k])
    ensures forall i :: i < s || i >= q.NextIndex() + |xs| ==> GetOrNull(AddAll(q, xs), i).None?
    decreases |xs|
  {
    if xs != [] {
      var q1 := Add(q, xs[0]).0;
      AddAllAfterSetFrom(q1, xs[1..], s);
      AddAllKeeps(q1, xs[1..], q.NextIndex());
      forall k | 1 <= k < |xs|
        ensures GetOrNull(AddAll(q, xs), q.NextIndex() + k) == Some(xs[k])
      {
        assert xs[1..][k - 1] == xs[k];
      }
    }
  }
}

=== FILE: int_widths.dfy ===
/**
 * Fixed-width integers of the C# source over Dafny's unbounded `int`:
 * ranges, two's-complement wrap-around, bytes and powers of 256.
 */
module IntWidths {

  const INT32_MIN: int := -0x8000_0000
  const INT32_MAX: int := 0x7FFF_FFFF
  const INT64_MIN: int := -0x8000_0000_0000_0000
  const INT64_MAX: int := 0x7FFF_FFFF_FFFF_FFFF
  const TWO_32: int := 0x1_0000_0000
  const TWO_64: int := 0x1_0000_0000_0000_0000

  /** A C# `byte`. */
  newtype uint8 = x: int | 0 <= x < 256

  predicate IsInt32(x: int) { INT32_MIN <= x <= INT32_MAX }

  predicate IsInt64(x: int) { INT64_MIN <= x <= INT64_MAX }

  /** 256^n, the weight of byte n in a little-endian number. */
  function Pow256(n: nat): (r: nat)
    ensures r >= 1
  {
    if n == 0 then 1 else 256 * Pow256(n - 1)
  }

  lemma Pow256Values()
    ensures Pow256(4) == TWO_32 && Pow256(8) == TWO_64
  {
    assert Pow256(2) == 0x1_0000;
    assert Pow256(4) == 0x1_0000 * 0x1_0000;
  }

  /** The two's-complement reading of an unsigned `bits`-wide number. */
  function ToSigned(u: int, width: int): (r: int)
    requires width > 0 && 0 <= u < 2 * width
    ensures -width <= r < width
    ensures r == u || r == u - 2 * width
  {
    if u >= width then u - 2 * width else u
  }

  /**
   * The C# `long` that an unchecked 64-bit operation yields for the exact result `x`:
   * the unique value in the `long` range congruent to `x` modulo 2^64.
   */
  function Wrap64(x: int): (r: int)
    ensures IsInt64(r)
    ensures IsInt64(x) ==> r == x
  {
    var m := x % TWO_64;
    if m > INT64_MAX then m - TWO_64 else m
  }

  /** How many multiples of 2^64 Wrap64 takes off its argument. */
  function Wrap64Quotient(x: int): (q: int)
    ensures x - Wrap64(x) == q * TWO_64
  {
    if x % TWO_64 > INT64_MAX then x / TWO_64 + 1 else x / TWO_64
  }

  /** Wrap64 depends on its argument only modulo 2^64. */
  lemma Wrap64Congruent(a: int, b: int, k: int)
    requires a == b + k * TWO_64
    ensures Wrap64(a) == Wrap64(b)
  {
    ModAddMultiple(b, k, TWO_64);
  }

  /** Wrapping an operand of a sum first does not change the wrapped sum. */
  lemma Wrap64AddLeft(a: int, b: int)
    ensures Wrap64(Wrap64(a) + b) == Wrap64(a + b)
  {
    Wrap64Congruent(a + b, Wrap64(a) + b, Wrap64Quotient(a));
  }

  lemma Wrap64AddRight(a: int, b: int)
    ensures Wrap64(a + Wrap64(b)) == Wrap64(a + b)
  {
    Wrap64Congruent(a + b, a + Wrap64(b), Wrap64Quotient(b));
  }

  /** Wrapping before scaling by 2^32 does not change the wrapped product. */
  lemma Wrap64Scale(a: int)
    ensures Wrap64(Wrap64(a) * TWO_32) == Wrap64(a * TWO_32)
  {
    var q := Wrap64Quotient(a);
    assert a * TWO_32 == Wrap64(a) * TWO_32 + q * TWO_32 * TWO_64;
    Wrap64Congruent(a * TWO_32, Wrap64(a) * TWO_32, q * TWO_32);
  }

  /** The C# `int` that an unchecked 32-bit operation yields for the exact result `x`. */
  function Wrap32(x: int): (r: int)
    ensures IsInt32(r)
    ensures (x - r) % TWO_32 == 0
    ensures IsInt32(x) ==> r == x
  {
    var m := x % TWO_32;
    if m > INT32_MAX then m - TWO_32 else m
  }

  /** Euclidean division is characterised by its quotient and remainder. */
  lemma DivModUnique(v: int, d: int, q: int, r: int)
    requires d > 0 && v == q * d + r && 0 <= r < d
    ensures v / d == q && v % d == r
  {
    var q0, r0 := v / d, v % d;
    assert v == q0 * d + r0;
    assert (q - q0) * d == r0 - r;
    if q > q0 {
      MulAtLeast(q - q0, d);
    } else if q < q0 {
      MulAtLeast(q0 - q, d);
    }
  }

  /** A product of non-negative numbers is non-negative. */
  lemma MulNonNegative(a: int, b: int)
    requires a >= 0 && b >= 0
    ensures a * b >= 0
  {
  }

  /** A positive multiple of d is at least d. */
  lemma MulAtLeast(k: int, d: int)
    requires k >= 1 && d > 0
    ensures k * d >= d
  {
    assert k * d == (k - 1) * d + d;
  }

  /** Dividing twice is dividing by the product. */
  lemma DivDiv(v: int, a: int, b: int)
    requires a > 0 && b > 0
    ensures v / a / b == v / (a * b)
    ensures v % (a * b) == v % a + a * (v / a % b)
  {
    var q1, r1 := v / a, v % a;
    var q2, r2 := q1 / b, q1 % b;
    assert v == q1 * a + r1;
    assert q1 * a == (q2 * b + r2) * a;
    assert (q2 * b + r2) * a == q2 * (a * b) + a * r2;
    assert a * r2 + r1 < a * b by {
      MulNonNegative(a, b - 1 - r2);
      assert a * (b - 1 - r2) == a * b - a - a * r2;
    }
    DivModUnique(v, a * b, q2, a * r2 + r1);
  }

  /** Adding a multiple of the divisor changes the quotient only. */
  lemma ModAddMultiple(v: int, k: int, d: int)
    requires d > 0
    ensures (v + k * d) % d == v % d
    ensures (v + k * d) / d == v / d + k
  {
    DivModUnique(v + k * d, d, v / d + k, v % d);
  }
}

=== FILE: level.dfy ===
/**
 * Level (examples/GameOfLife/Game/Level.cs, src/ConsoleGame/Level.cs): a Width x Height grid of
 * optional level objects kept in one flat array, tile (x, y) at index x + y * Width. Both games
 * declare the same structure; the GameOfLife one also records Size = Width * Height.
 */
module Levels {
  import opened Wrappers
  import opened IntWidths

  /** Vector2i: a tile coordinate or a movement. */
  datatype Point = Point(x: int, y: int)

  datatype Level<T> = Level(width: int, height: int, size: int, objects: seq<Option<T>>)
  {
    predicate Valid()
    {
      0 <= width && 0 <= height && |objects| == width * height && size == |objects|
    }

    /** InBounds: both coordinates are inside the grid. */
    predicate InBounds(x: int, y: int)
    {
      0 <= x < width && 0 <= y < height
    }

    /** The parameterless constructor: a 0 x 0 level with an empty array. */
    static function Empty(): (l: Level<T>)
      ensures l.Valid() && l.width == 0 && l.height == 0
      ensures forall x, y :: !l.InBounds(x, y)
    {
      Level(0, 0, 0, [])
    }

    /**
     * Level(width, height): Size is the unchecked 32-bit product, and allocating an array of
     * negative length throws OverflowException. Otherwise every tile is empty; when the product
     * of non-negative dimensions fits an int the level is well formed.
     */
    static function Create(width: int, height: int): (r: Outcome<Level<T>>)
      requires IsInt32(width) && IsInt32(height)
      ensures r.Throws? <==> Wrap32(width * height) < 0
      ensures r.Throws? ==> r.error == OverflowException
      ensures r.Ok? ==> r.value.width == width && r.value.height == height
      ensures r.Ok? ==> r.value.size == |r.value.objects| == Wrap32(width * height)
      ensures r.Ok? ==> forall i :: 0 <= i < |r.value.objects| ==> r.value.objects[i].None?
      ensures 0 <= width && 0 <= height && width * height <= INT32_MAX ==> r.Ok? && r.value.Valid()
    {
      NonNegativeProduct(width, height);
      var size := Wrap32(width * height);
      if size < 0 then Throws(OverflowException)
      else Ok(Level(width, height, size, seq(size, _ => None)))
    }
  }

  lemma NonNegativeProduct(a: int, b: int)
    ensures 0 <= a && 0 <= b ==> 0 <= a * b
  {
    if 0 <= a && 0 <= b {
      MulNonNegative(a, b);
    }
  }

  /** Where a tile of a w x h grid lies in the flat array, and how to read the tile back from it. */
  lemma IndexFacts(w: int, h: int, x: int, y: int)
    requires 0 <= x < w && 0 <= y < h
    ensures 0 <= x + y * w < w * h
    ensures (x + y * w) % w == x && (x + y * w) / w == y
  {
    MulNonNegative(y, w);
    MulNonNegative(h - 1 - y, w);
    assert (h - 1 - y) * w == h * w - w - y * w;
    DivModUnique(x + y * w, w, y, x);
  }

  /** The array index of an in-bounds tile: x + y * Width. Distinct tiles get distinct indices. */
  function Index<T>(l: Level<T>, x: int, y: int): (i: nat)
    requires l.Valid() && l.InBounds(x, y)
    ensures i < |l.objects| && i % l.width == x && i / l.width == y
  {
    IndexFacts(l.width, l.height, x, y);
    x + y * l.width
  }

  /** Every array slot is the index of exactly one tile: (i % Width, i / Width). */
  lemma IndexCovers<T>(l: Level<T>, i: int)
    requires l.Valid() && 0 <= i < |l.objects|
    ensures l.width > 0 && l.InBounds(i % l.width, i / l.width)
    ensures Index(l, i % l.width, i / l.width) == i
  {
    var w := l.width;
    var q, r := i / w, i % w;
    assert i == q * w + r;
    MulNonNegative(q, w);
  }

  /** At: the object on an in-bounds tile, and none outside the grid; it never throws. */
  function At<T>(l: Level<T>, x: int, y: int): (o: Option<T>)
    requires l.Valid()
    ensures !l.InBounds(x, y) ==> o.None?
  {
    if x < 0 || x >= l.width || y < 0 || y >= l.height then None
    else l.objects[Index(l, x, y)]
  }

  /**
   * The two-coordinate indexer read: CheckValid throws ArgumentOutOfRangeException for a tile
   * outside the grid; inside it the indexer and At agree.
   */
  function Get<T>(l: Level<T>, x: int, y: int): (r: Outcome<Option<T>>)
    requires l.Valid()
    ensures r.Throws? <==> !l.InBounds(x, y)
    ensures r.Throws? ==> r.error == ArgumentOutOfRangeException
    ensures r.Ok? ==> r.value == At(l, x, y)
  {
    if x < 0 || x >= l.width then Throws(ArgumentOutOfRangeException)
    else if y < 0 || y >= l.height then Throws(ArgumentOutOfRangeException)
    else Ok(l.objects[Index(l, x, y)])
  }

  /**
   * A write through the two-coordinate indexer: outside the grid it throws like the read; inside
   * it the tile holds `o` afterwards and every other tile keeps its object.
   */
  function Put<T>(l: Level<T>, x: int, y: int, o: Option<T>): (r: Outcome<Level<T>>)
    requires l.Valid()
    ensures r.Throws? <==> !l.InBounds(x, y)
    ensures r.Throws? ==> r.error == ArgumentOutOfRangeException
    ensures r.Ok? ==> r.value.Valid() && r.value.width == l.width && r.value.height == l.height
    ensures r.Ok? ==> At(r.value, x, y) == o
    ensures r.Ok? ==> forall a, b :: (a, b) != (x, y) ==> At(r.value, a, b) == At(l, a, b)
  {
    if x < 0 || x >= l.width then Throws(ArgumentOutOfRangeException)
    else if y < 0 || y >= l.height then Throws(ArgumentOutOfRangeException)
    else Ok(l.(objects := l.objects[Index(l, x, y) := o]))
  }

  /** A well-formed level is determined by its dimensions and what At reads on every tile. */
  lemma Extensional<T>(l1: Level<T>, l2: Level<T>)
    requires l1.Valid() && l2.Valid() && l1.width == l2.width && l1.height == l2.height
    requires forall x, y :: l1.InBounds(x, y) ==> At(l1, x, y) == At(l2, x, y)
    ensures l1 == l2
  {
    forall i | 0 <= i < |l1.objects|
      ensures l1.objects[i] == l2.objects[i]
    {
      IndexCovers(l1, i);
      var x, y := i % l1.width, i / l1.width;
      assert At(l1, x, y) == At(l2, x, y);
    }
  }

  /**
   * TrySpawnPlayer: the object is placed on the spawn point only when it is empty; the result
   * says whether it was. A spawn point outside the grid makes the indexer throw.
   */
  function TrySpawn<T>(l: Level<T>, spawn: Point, o: T): (r: Outcome<(Level<T>, bool)>)
    requires l.Valid()
    ensures r.Throws? <==> !l.InBounds(spawn.x, spawn.y)
    ensures r.Ok? ==> r.value.0.Valid() && r.value.0.width == l.width && r.value.0.height == l.height
    ensures r.Ok? ==> (r.value.1 <==> At(l, spawn.x, spawn.y).None?)
    ensures r.Ok? && r.value.1 ==> At(r.value.0, spawn.x, spawn.y) == Some(o)
    ensures r.Ok? ==> forall a, b :: (a, b) != (spawn.x, spawn.y) ==> At(r.value.0, a, b) == At(l, a, b)
    ensures r.Ok? && !r.value.1 ==> r.value.0 == l
  {
    var place :- Get(l, spawn.x, spawn.y);
    if place.Some? then Ok((l, false))
    else
      var l1 := Put(l, spawn.x, spawn.y, Some(o)).value;
      Ok((l1, true))
  }

  /**
   * UpdatePlayer once the direction is mapped to a movement: the object on `from` moves to
   * `from + movement` (unchecked 32-bit addition) only when that tile is inside the grid and
   * empty, and `from` is left empty; otherwise nothing changes. The new position is returned.
   * A `from` outside the grid makes the indexer throw once the move is attempted.
   */
  function Move<T>(l: Level<T>, from: Point, movement: Point): (r: Outcome<(Level<T>, Point)>)
    requires l.Valid()
    ensures var to := Point(Wrap32(from.x + movement.x), Wrap32(from.y + movement.y));
      var moves := l.InBounds(to.x, to.y) && At(l, to.x, to.y).None?;
      (r.Throws? <==> moves && !l.InBounds(from.x, from.y)) &&
      (r.Ok? ==> r.value.0.Valid() && r.value.0.width == l.width && r.value.0.height == l.height) &&
      (r.Ok? && !moves ==> r.value == (l, from)) &&
      (r.Ok? && moves ==>
         r.value.1 == to &&
         At(r.value.0, to.x, to.y) == At(l, from.x, from.y) && At(r.value.0, from.x, from.y).None? &&
         forall a, b :: (a, b) != (to.x, to.y) && (a, b) != (from.x, from.y) ==> At(r.value.0, a, b) == At(l, a, b))
  {
    var to := Point(Wrap32(from.x + movement.x), Wrap32(from.y + movement.y));
    if !l.InBounds(to.x, to.y) then Ok((l, from))
    else
      var place := Get(l, to.x, to.y).value;
      if place.Some? then Ok((l, from))
      else
        var obj :- Get(l, from.x, from.y);
        var l1 := Put(l, to.x, to.y, obj).value;
        var l2 := Put(l1, from.x, from.y, None).value;
        Ok((l2, to))
  }
}

=== FILE: local_input_queue.dfy ===
/**
 * LocalInputQueue<TInput> (src/Core/DataStructures/LocalInputQueue.cs): the local client's
 * inputs between the authoritative and the predicted state, indexed by frame. Frames must be
 * added consecutively; the range [firstFrame, lastFrame] is what can be read back.
 */
module LocalInputQueue {
  import opened Wrappers

  datatype Queue<I> = Queue(inputs: map<int, I>, firstFrame: int, lastFrame: int)
  {
    /**
     * Every frame of the readable range is stored, and nothing is stored beyond lastFrame,
     * so the dictionary add in Add never meets an existing key.
     */
    ghost predicate Valid()
    {
      (forall f :: firstFrame <= f <= lastFrame ==> f in inputs) &&
      (forall f :: f in inputs ==> f <= lastFrame)
    }

    /** A new queue: nothing stored, firstFrame = 0 and lastFrame = -1. */
    static function Create(): (q: Queue<I>)
      ensures q.Valid() && q.firstFrame == 0 && q.lastFrame == -1
    {
      Queue(map[], 0, -1)
    }
  }

  /** The indexer: the stored input for frames in [firstFrame, lastFrame], otherwise null. */
  function Get<I>(q: Queue<I>, frame: int): (r: Option<I>)
    requires q.Valid()
    ensures r.Some? <==> q.firstFrame <= frame <= q.lastFrame
    ensures r.Some? ==> frame in q.inputs && r.value == q.inputs[frame]
  {
    if frame >= q.firstFrame && frame <= q.lastFrame then Some(q.inputs[frame]) else None
  }

  /** Add: already-covered frames are ignored; anything but the next frame throws. */
  function Add<I>(q: Queue<I>, input: I, frame: int): (r: Outcome<Queue<I>>)
    requires q.Valid()
    ensures frame <= q.lastFrame ==> r == Ok(q)
    ensures r.Throws? <==> frame > q.lastFrame + 1
    ensures r.Throws? ==> r.error == ArgumentOutOfRangeException
    ensures r.Ok? ==> r.value.Valid() && r.value.firstFrame == q.firstFrame
    ensures r.Ok? && frame == q.lastFrame + 1 ==>
      r.value.lastFrame == frame && frame in r.value.inputs && r.value.inputs[frame] == input &&
      forall f :: f != frame ==> Get(r.value, f) == Get(q, f)
  {
    if frame <= q.lastFrame then Ok(q)
    else if frame != q.lastFrame + 1 then Throws(ArgumentOutOfRangeException)
    else
      var last := q.lastFrame + 1;
      assert last !in q.inputs;
      Ok(Queue(q.inputs[last := input], q.firstFrame, last))
  }

  /** Pop: forget every frame up to `frame`, including frames not added yet. */
  function Pop<I>(q: Queue<I>, frame: int): (r: Queue<I>)
    requires q.Valid()
    ensures r.Valid() && r.lastFrame == q.lastFrame
    ensures r.firstFrame == (if q.firstFrame <= frame then frame + 1 else q.firstFrame)
    ensures forall f :: f in r.inputs ==> f in q.inputs && r.inputs[f] == q.inputs[f]
    ensures forall f :: q.firstFrame <= f <= frame ==> f !in r.inputs
    ensures forall f :: Get(r, f) == if f <= frame then None else Get(q, f)
    decreases if q.firstFrame <= frame then frame - q.firstFrame + 1 else 0
  {
    if q.firstFrame <= frame then
      Pop(Queue(q.inputs - {q.firstFrame}, q.firstFrame + 1, q.lastFrame), frame)
    else q
  }

  /** Set: Pop, and when that empties the queue make lastFrame trail firstFrame so skipped frames stay skipped. */
  function Set<I>(q: Queue<I>, frame: int): (r: Queue<I>)
    requires q.Valid()
    ensures r.Valid()
    ensures r.lastFrame >= frame && r.lastFrame >= q.lastFrame
    ensures forall f :: Get(r, f) == if f <= frame then None else Get(q, f)
  {
    var p := Pop(q, frame);
    if p.lastFrame < p.firstFrame then p.(lastFrame := p.firstFrame - 1) else p
  }

  /** After Set(frame), adding any frame up to `frame` is silently ignored. */
  lemma SetSkipsEarlierFrames<I>(q: Queue<I>, frame: int, g: int, input: I)
    requires q.Valid() && g <= frame
    ensures Add(Set(q, frame), input, g) == Ok(Set(q, frame))
  {
  }

  /** Adding consecutively after Set(frame) fills frame + 1, frame + 2, ... and each can be read back. */
  lemma SetThenAddNext<I>(q: Queue<I>, frame: int, input: I)
    requires q.Valid() && q.lastFrame <= frame && q.firstFrame <= frame + 1
    ensures Add(Set(q, frame), input, frame + 1).Ok?
    ensures Get(Add(Set(q, frame), input, frame + 1).value, frame + 1) == Some(input)
  {
  }
}

=== FILE: moving_average.dfy ===
/**
 * MovingAverage (src/Useful/MovingAverage.cs): a ring buffer of the last `length` values of a
 * series, summed after every Add. The element type is `int` with exact addition; the program's
 * only instance sums `double` values, whose rounding this model does not follow.
 *
 * `values` are the slots and `current` the slot the next Add overwrites, which is also the
 * oldest value held; read from `current` round to `current - 1`, the slots are the window,
 * oldest first.
 */
module MovingAverage {
  import opened Wrappers
  import opened IntWidths
  import Stats

  datatype MovingAverage = MovingAverage(values: seq<int>, current: int)
  {
    predicate Valid()
    {
      0 <= current < |values|
    }
  }

  /** The sum of a sequence, added up from the front. */
  function Sum(s: seq<int>): int
    decreases |s|
  {
    if |s| == 0 then 0 else Sum(s[..|s| - 1]) + s[|s| - 1]
  }

  /** Sums add up over a concatenation. */
  lemma {:induction false} SumAppend(a: seq<int>, b: seq<int>)
    ensures Sum(a + b) == Sum(a) + Sum(b)
    decreases |b|
  {
    if |b| > 0 {
      var init := b[..|b| - 1];
      assert (a + b)[..|a + b| - 1] == a + init;
      SumAppend(a, init);
    } else {
      assert a + b == a;
    }
  }

  /** The slots read from the oldest, at `current`, to the newest, just before it. */
  function Window(m: MovingAverage): (w: seq<int>)
    requires m.Valid()
    ensures |w| == |m.values|
  {
    m.values[m.current..] + m.values[..m.current]
  }

  /** `length` copies of `v`. */
  function Repeat(v: int, length: nat): (r: seq<int>)
    ensures |r| == length && forall k :: 0 <= k < length ==> r[k] == v
  {
    seq(length, _ => v)
  }

  /**
   * The constructor: a non-positive length throws ArgumentOutOfRangeException; otherwise every
   * slot holds `initial` and the first slot is the current one.
   */
  function Create(length: int, initial: int): (r: Outcome<MovingAverage>)
    requires IsInt32(length)
    ensures r.Throws? <==> length <= 0
    ensures r.Throws? ==> r.error == ArgumentOutOfRangeException
    ensures r.Ok? ==> r.value.Valid() && |r.value.values| == length && r.value.current == 0
    ensures r.Ok? ==> forall k :: 0 <= k < length ==> r.value.values[k] == initial
  {
    if length <= 0 then Throws(ArgumentOutOfRangeException)
    else Ok(MovingAverage(Repeat(initial, length), 0))
  }

  /** Update: the sum of every slot, added up in a loop, with the number of slots. */
  method Update(m: MovingAverage) returns (sum: int, length: int)
    ensures sum == Sum(m.values) && length == |m.values|
  {
    sum := 0;
    length := |m.values|;
    var i := 0;
    while i < length
      invariant 0 <= i <= length
      invariant sum == Sum(m.values[..i])
    {
      assert m.values[..i + 1][..i] == m.values[..i];
      sum := sum + m.values[i];
      i := i + 1;
    }
    assert m.values[..length] == m.values;
  }

  /**
   * Add: the value overwrites the current slot, the next slot becomes current (wrapping round),
   * and the sum of all slots is returned with the number of slots.
   */
  function Add(m: MovingAverage, value: int): (r: (MovingAverage, (int, int)))
    requires m.Valid()
    ensures r.0.Valid() && |r.0.values| == |m.values|
    ensures r.0.values[m.current] == value
    ensures forall k :: 0 <= k < |m.values| && k != m.current ==> r.0.values[k] == m.values[k]
    ensures r.0.current == if m.current + 1 == |m.values| then 0 else m.current + 1
    ensures r.1 == (Sum(r.0.values), |m.values|)
  {
    var values := m.values[m.current := value];
    var next := MovingAverage(values, (NextWraps(m.current, |values|); (m.current + 1) % |values|));
    (next, (Sum(values), |values|))
  }

  /** Advancing an index modulo the length wraps round to 0 after the last slot. */
  lemma NextWraps(c: int, length: int)
    requires 0 <= c < length
    ensures (c + 1) % length == if c + 1 == length then 0 else c + 1
  {
  }

  /** Add moves the window on by one: the oldest value leaves and the new one is the newest. */
  lemma AddSlides(m: MovingAverage, value: int)
    requires m.Valid()
    ensures Window(Add(m, value).0) == Window(m)[1..] + [value]
  {
    var c := m.current;
    var values := m.values[c := value];
    if c + 1 < |values| {
      assert values[c + 1..] == m.values[c + 1..];
      assert values[..c + 1] == m.values[..c] + [value];
      assert Window(m)[1..] == m.values[c + 1..] + m.values[..c];
    } else {
      assert values == m.values[..c] + [value];
      assert Window(m)[1..] == m.values[..c];
    }
  }

  /** The window holds the same values as the slots, so its sum is theirs. */
  lemma WindowSum(m: MovingAverage)
    requires m.Valid()
    ensures Sum(Window(m)) == Sum(m.values)
  {
    SumAppend(m.values[m.current..], m.values[..m.current]);
    SumAppend(m.values[..m.current], m.values[m.current..]);
    assert m.values[..m.current] + m.values[m.current..] == m.values;
  }

  /** Values added one after another. */
  function AddAll(m: MovingAverage, values: seq<int>): (r: MovingAverage)
    requires m.Valid()
    ensures r.Valid() && |r.values| == |m.values|
    decreases |values|
  {
    if |values| == 0 then m else Add(AddAll(m, values[..|values| - 1]), values[|values| - 1]).0
  }

  /** Adding one more value is one more Add. */
  lemma AddAllSnoc(m: MovingAverage, values: seq<int>, value: int)
    requires m.Valid()
    ensures AddAll(m, values + [value]) == Add(AddAll(m, values), value).0
  {
    assert (values + [value])[..|values|] == values;
  }

  /**
   * Whatever was added, the window is the last `length` values of the series that starts with
   * `length` copies of the initial value.
   */
  lemma {:induction false} AddAllKeepsLatest(length: int, initial: int, history: seq<int>)
    requires IsInt32(length) && length > 0
    ensures Window(AddAll(Create(length, initial).value, history)) ==
      Stats.Last(Repeat(initial, length) + history, length)
    decreases |history|
  {
    var start := Repeat(initial, length);
    if |history| == 0 {
      assert start + history == start;
      Stats.LastAll(start, length);
    } else {
      var init, v := history[..|history| - 1], history[|history| - 1];
      var m := AddAll(Create(length, initial).value, init);
      AddAllKeepsLatest(length, initial, init);
      AddSlides(m, v);
      Stats.LastAppend(start + init, v, length);
      Stats.LastDropsOldest(Stats.Last(start + init, length) + [v], length);
      Stats.SplitLast(start, history);
    }
  }

  /**
   * AddReturnsMovingSum's regrouping step: the series after the new value is the old series
   * with the value appended. Kept apart so that the lemma's context stays small.
   */
  lemma AppendOne(start: seq<int>, history: seq<int>, value: int)
    ensures start + (history + [value]) == start + history + [value]
  {
  }

  /** Once the series is at least `length` long, the initial values have all left the window. */
  lemma {:induction false} LastOfLonger(a: seq<int>, b: seq<int>, n: nat)
    requires |b| >= n
    ensures Stats.Last(a + b, n) == Stats.Last(b, n)
    decreases n
  {
    if n > 0 {
      var init := b[..|b| - 1];
      assert (a + b)[..|a + b| - 1] == a + init;
      LastOfLonger(a, init, n - 1);
    }
  }

  /**
   * Each Add returns the sum of the last `length` values of the series led by `length` copies of
   * the initial value; once at least `length` values were added, the sum of the last `length`
   * values added.
   */
  lemma AddReturnsMovingSum(length: int, initial: int, history: seq<int>, value: int)
    requires IsInt32(length) && length > 0
    ensures var m := AddAll(Create(length, initial).value, history);
      var (sum, n) := Add(m, value).1;
      n == length &&
      sum == Sum(Stats.Last(Repeat(initial, length) + history + [value], length)) &&
      (|history| + 1 >= length ==> sum == Sum(Stats.Last(history + [value], length)))
  {
    var start := Repeat(initial, length);
    var m := Create(length, initial).value;
    AddAllKeepsLatest(length, initial, history + [value]);
    AddAllSnoc(m, history, value);
    WindowSum(AddAll(m, history + [value]));
    AppendOne(start, history, value);
    if |history| + 1 >= length {
      LastOfLonger(start, history + [value], length);
    }
  }
}

=== FILE: packet_aggregator.dfy ===
/**
 * PacketAggregator (src/IPTransportLayer/Dispatcher/PacketAggregator.cs): keeps the packets of
 * the most recent frames so that every packet sent also repeats the frames before it, which
 * makes single packet losses harmless. The queued packets are taken to belong to the
 * consecutive frames oldestFrame, oldestFrame + 1, ...
 */
module PacketAggregator {
  import opened Wrappers
  import opened IntWidths
  import Bits

  datatype Aggregator = Aggregator(packets: seq<seq<uint8>>, sum: int, oldestFrame: int)
  {
    /** sum_ is the total length of the queued packets. */
    predicate Valid()
    {
      sum == TotalLength(packets)
    }
  }

  function TotalLength(packets: seq<seq<uint8>>): (r: nat)
  {
    if packets == [] then 0 else |packets[0]| + TotalLength(packets[1..])
  }

  function Concat(packets: seq<seq<uint8>>): (r: seq<uint8>)
    ensures |r| == TotalLength(packets)
  {
    if packets == [] then [] else packets[0] + Concat(packets[1..])
  }

  lemma {:induction false} TotalLengthAppend(packets: seq<seq<uint8>>, p: seq<uint8>)
    ensures TotalLength(packets + [p]) == TotalLength(packets) + |p|
    ensures Concat(packets + [p]) == Concat(packets) + p
    decreases |packets|
  {
    if packets != [] {
      assert (packets + [p])[1..] == packets[1..] + [p];
      TotalLengthAppend(packets[1..], p);
    } else {
      assert [p][1..] == [];
    }
  }

  function Create(): (a: Aggregator)
    ensures a.Valid() && a.packets == [] && a.oldestFrame == INT64_MIN
  {
    Aggregator([], 0, INT64_MIN)
  }

  /** Add: the first packet of an empty aggregator fixes the oldest frame. */
  function Add(a: Aggregator, memory: seq<uint8>, frame: int): (r: Aggregator)
    requires a.Valid()
    ensures r.Valid() && r.packets == a.packets + [memory]
    ensures r.oldestFrame == if a.packets == [] then frame else a.oldestFrame
  {
    TotalLengthAppend(a.packets, memory);
    var oldest := if |a.packets| <= 0 then frame else a.oldestFrame;
    Aggregator(a.packets + [memory], a.sum + |memory|, oldest)
  }

  /** Dequeue: drop the oldest packet; the oldest frame moves on by one. */
  function Dequeue(a: Aggregator): (r: Aggregator)
    requires a.Valid() && |a.packets| > 0
    ensures r.Valid() && r.packets == a.packets[1..] && r.oldestFrame == a.oldestFrame + 1
    ensures r.sum == a.sum - |a.packets[0]|
  {
    Aggregator(a.packets[1..], a.sum - |a.packets[0]|, a.oldestFrame + 1)
  }

  /** Pop: drop packets while the oldest one belongs to a frame up to `frame`. */
  function Pop(a: Aggregator, frame: int): (r: Aggregator)
    requires a.Valid()
    ensures r.Valid()
    ensures var dropped := |a.packets| - |r.packets|;
      0 <= dropped && r.packets == a.packets[dropped..] && r.oldestFrame == a.oldestFrame + dropped
    ensures r.packets == [] || r.oldestFrame > frame
    ensures a.oldestFrame > frame ==> r == a
    decreases |a.packets|
  {
    if |a.packets| > 0 && frame >= a.oldestFrame then Pop(Dequeue(a), frame) else a
  }

  /** The dropping loop of ConstructAggregate: oldest packets go until the packet fits, but the newest always stays. */
  function Trim(a: Aggregator, header: int, maxSize: int): (r: Aggregator)
    requires a.Valid()
    ensures r.Valid()
    ensures var dropped := |a.packets| - |r.packets|;
      0 <= dropped && r.packets == a.packets[dropped..] && r.oldestFrame == a.oldestFrame + dropped
    ensures |a.packets| >= 1 ==> |r.packets| >= 1
    ensures header + r.sum <= maxSize || |r.packets| <= 1
    ensures header + a.sum <= maxSize ==> r == a
    decreases |a.packets|
  {
    if maxSize < header + a.sum && |a.packets| > 1 then Trim(Dequeue(a), header, maxSize) else a
  }

  /** The packet array: `header` bytes left for the transport, then every queued packet, oldest first. */
  function Build(header: nat, packets: seq<seq<uint8>>): (r: seq<uint8>)
    ensures |r| == header + TotalLength(packets) && r[header..] == Concat(packets)
    ensures forall i :: 0 <= i < header ==> r[i] == 0
  {
    var r := Bits.Zeros(header) + Concat(packets);
    assert r[header..] == Concat(packets);
    r
  }

  /**
   * ConstructAggregate: a negative header throws; otherwise the oldest packets are dropped until
   * `[header bytes][oldest packet] ... [newest packet]` fits in maxSize or one packet is left,
   * and that array is built. The header bytes are left for the caller (zero in a fresh array).
   */
  function ConstructAggregate(a: Aggregator, header: int, maxSize: int): (r: (Aggregator, Outcome<seq<uint8>>))
    requires a.Valid()
    ensures header < 0 ==> r == (a, Throws(ArgumentOutOfRangeException))
    ensures r.0.Valid()
    ensures var dropped := |a.packets| - |r.0.packets|;
      0 <= dropped && r.0.packets == a.packets[dropped..] && r.0.oldestFrame == a.oldestFrame + dropped
    ensures |a.packets| >= 1 ==> |r.0.packets| >= 1
    ensures header >= 0 ==> r.1.Ok? && |r.1.value| == header + r.0.sum && r.1.value[header..] == Concat(r.0.packets)
    ensures header >= 0 ==> header + r.0.sum <= maxSize || |r.0.packets| <= 1
    ensures header + a.sum <= maxSize ==> |r.0.packets| == |a.packets|
  {
    if header < 0 then (a, Throws(ArgumentOutOfRangeException))
    else
      var trimmed := Trim(a, header, maxSize);
      (trimmed, Ok(Build(header, trimmed.packets)))
  }

  /** AddAndConstruct: add the packet of `frame`, then construct the aggregate. */
  function AddAndConstruct(a: Aggregator, memory: seq<uint8>, frame: int, header: int, maxSize: int): (r: (Aggregator, Outcome<seq<uint8>>))
    requires a.Valid()
    ensures r.0.Valid() && |r.0.packets| >= 1 && r.0.packets[|r.0.packets| - 1] == memory
    ensures r.1.Throws? <==> header < 0
    ensures r.1.Throws? ==> r.1.error == ArgumentOutOfRangeException && r.0 == Add(a, memory, frame)
    ensures r.1.Ok? ==>
      (|r.1.value| == header + r.0.sum && r.1.value[header..] == Concat(r.0.packets) &&
       (header + r.0.sum <= maxSize || r.0.packets == [memory]))
    ensures 0 <= header && header + a.sum + |memory| <= maxSize ==> r.0 == Add(a, memory, frame)
    ensures |r.0.packets| <= |a.packets| + 1 && r.0.packets == (a.packets + [memory])[|a.packets| + 1 - |r.0.packets|..]
  {
    var added := Add(a, memory, frame);
    var r := ConstructAggregate(added, header, maxSize);
    SuffixEndsWith(a.packets, memory, r.0.packets);
    r
  }

  /** A non-empty suffix of `packets + [memory]` ends with memory, and is `[memory]` when it has one element. */
  lemma SuffixEndsWith(packets: seq<seq<uint8>>, memory: seq<uint8>, suffix: seq<seq<uint8>>)
    requires 1 <= |suffix| <= |packets| + 1 && suffix == (packets + [memory])[|packets| + 1 - |suffix|..]
    ensures suffix[|suffix| - 1] == memory
    ensures |suffix| == 1 ==> suffix == [memory]
  {
    assert suffix[|suffix| - 1] == (packets + [memory])[|packets|];
  }

  // ---------------------------------------------------------------------------------------
  // The aggregation window: popping `offset` frames behind and then adding the newest frame,
  // round after round, sends exactly the frames max(i - offset + 1, 0) .. i in round i.

  /** The packet of frame i in the sending loop: i as a little-endian long. */
  function Payload(i: int): (r: seq<uint8>)
    ensures |r| == 8
  {
    Bits.Encode(i, 8)
  }

  /** The packets of frames lo .. hi, oldest first. */
  function Window(lo: int, hi: int): (r: seq<seq<uint8>>)
    requires lo <= hi + 1
    ensures |r| == hi - lo + 1
  {
    seq(hi - lo + 1, k => Payload(lo + k))
  }

  function Max(a: int, b: int): int { if a < b then b else a }

  lemma {:induction false} TotalLengthBound(packets: seq<seq<uint8>>, size: nat)
    requires forall k :: 0 <= k < |packets| ==> |packets[k]| == size
    ensures TotalLength(packets) == size * |packets|
    decreases |packets|
  {
    if packets != [] {
      TotalLengthBound(packets[1..], size);
    }
  }

  lemma WindowTail(lo: int, hi: int)
    requires lo <= hi
    ensures Window(lo, hi)[1..] == Window(lo + 1, hi)
  {
  }

  lemma WindowSnoc(lo: int, hi: int)
    requires lo <= hi + 1
    ensures Window(lo, hi) + [Payload(hi + 1)] == Window(lo, hi + 1)
  {
  }

  /** Popping up to `frame` a window whose oldest frame is lo leaves the window from frame + 1 on. */
  lemma {:induction false} PopWindow(a: Aggregator, lo: int, hi: int, frame: int)
    requires a.Valid() && lo <= hi + 1 && a.packets == Window(lo, hi) && a.oldestFrame == lo
    requires frame <= hi
    ensures Pop(a, frame).packets == Window(Max(lo, frame + 1), hi)
    ensures Pop(a, frame).oldestFrame == Max(lo, frame + 1)
    decreases hi - lo + 1
  {
    if frame >= lo {
      assert |a.packets| > 0;
      var d := Dequeue(a);
      WindowTail(lo, hi);
      PopWindow(d, lo + 1, hi, frame);
    }
  }

  /** A window of frames lo .. hi carries 8 bytes per frame. */
  lemma WindowLength(lo: int, hi: int)
    requires lo <= hi + 1
    ensures TotalLength(Window(lo, hi)) == 8 * (hi - lo + 1)
  {
    var w := Window(lo, hi);
    forall k | 0 <= k < |w| ensures |w[k]| == 8 {
      assert w[k] == Payload(lo + k);
    }
    TotalLengthBound(w, 8);
  }

  /** With no header and room for the new packet, AddAndConstruct drops nothing and sends every queued packet. */
  lemma AddAndConstructFits(a: Aggregator, memory: seq<uint8>, frame: int, maxSize: int)
    requires a.Valid() && a.sum + |memory| <= maxSize
    ensures AddAndConstruct(a, memory, frame, 0, maxSize) == (Add(a, memory, frame), Ok(Concat(a.packets + [memory])))
  {
    var r := AddAndConstruct(a, memory, frame, 0, maxSize);
    assert r.1.value == r.1.value[0..];
  }

  /** Before round i, forgetting the frames up to i - offset leaves the frames max(i + 1 - offset, 0) .. i - 1. */
  lemma PopBeforeRound(previous: Aggregator, offset: int, i: nat)
    requires 1 <= offset
    requires previous.Valid() && previous.packets == Window(Max(i - offset, 0), i - 1)
    requires previous.packets != [] ==> previous.oldestFrame == Max(i - offset, 0)
    ensures Pop(previous, i - offset).packets == Window(Max(i + 1 - offset, 0), i - 1)
    ensures Pop(previous, i - offset).packets != [] ==> Pop(previous, i - offset).oldestFrame == Max(i + 1 - offset, 0)
  {
    var lo := Max(i - offset, 0);
    if previous.packets != [] {
      PopWindow(previous, lo, i - 1, i - offset);
      assert Max(lo, i - offset + 1) == Max(i + 1 - offset, 0);
    } else {
      assert lo == i == 0;
      assert Pop(previous, i - offset) == previous;
    }
  }

  /** Adding frame i to the window lo .. i - 1 sends the window lo .. i. */
  lemma AddToWindow(popped: Aggregator, lo: int, i: int)
    requires 0 <= i - lo < 0x100_0000
    requires popped.Valid() && popped.packets == Window(lo, i - 1)
    requires popped.packets != [] ==> popped.oldestFrame == lo
    ensures AddAndConstruct(popped, Payload(i), i, 0, INT32_MAX).0.packets == Window(lo, i)
    ensures AddAndConstruct(popped, Payload(i), i, 0, INT32_MAX).0.oldestFrame == lo
    ensures AddAndConstruct(popped, Payload(i), i, 0, INT32_MAX).1 == Ok(Concat(Window(lo, i)))
  {
    WindowLength(lo, i - 1);
    AddAndConstructFits(popped, Payload(i), i, INT32_MAX);
    WindowSnoc(lo, i - 1);
  }

  /** One round of the sending loop on the state left by the previous round. */
  method SendRound(a: Aggregator, offset: int, i: nat) returns (next: Aggregator, packet: seq<uint8>)
    requires 1 <= offset <= 0x100_0000
    requires a.Valid() && a.packets == Window(Max(i - offset, 0), i - 1)
    requires a.packets != [] ==> a.oldestFrame == Max(i - offset, 0)
    ensures next.Valid() && next.packets == Window(Max(i + 1 - offset, 0), i)
    ensures next.packets != [] ==> next.oldestFrame == Max(i + 1 - offset, 0)
    ensures packet == Concat(Window(Max(i + 1 - offset, 0), i))
  {
    var popped := Pop(a, i - offset);
    PopBeforeRound(a, offset, i);
    AddToWindow(popped, Max(i + 1 - offset, 0), i);
    var sent := AddAndConstruct(popped, Payload(i), i, 0, INT32_MAX);
    next, packet := sent.0, sent.1.value;
  }

  /**
   * The sending loop of the aggregation test: in round i, forget the frames up to i - offset and
   * send frame i with no header and no size limit. With offset >= 1, round i sends exactly the
   * frames max(i - offset + 1, 0) .. i, oldest first.
   */
  method SendRounds(count: nat, offset: int) returns (sent: seq<seq<uint8>>)
    requires 1 <= offset <= 0x100_0000
    ensures |sent| == count
    ensures forall i :: 0 <= i < count ==> sent[i] == Concat(Window(Max(i + 1 - offset, 0), i))
  {
    var a := Create();
    sent := [];
    var i := 0;
    while i < count
      invariant 0 <= i <= count && |sent| == i
      invariant a.Valid() && a.packets == Window(Max(i - offset, 0), i - 1)
      invariant a.packets != [] ==> a.oldestFrame == Max(i - offset, 0)
      invariant forall j :: 0 <= j < i ==> sent[j] == Concat(Window(Max(j + 1 - offset, 0), j))
    {
      var packet;
      a, packet := SendRound(a, offset, i);
      sent := sent + [packet];
      i := i + 1;
    }
  }
}

=== FILE: pool.dfy ===
/**
 * Pool<T> (src/Useful/Pool.cs): a bounded stock of reusable objects. The concurrent bag is a
 * sequence taken from the back, as a bag used from one thread hands out the object added last;
 * `made` stands for the object `new()` would construct.
 */
module Pool {
  import opened Wrappers
  import opened IntWidths

  /** The default of MaxPooledObjects. */
  const DEFAULT_MAX_POOLED: int := 32

  datatype Pool<T> = Pool(pooled: seq<T>, maxPooled: int)
  {
    /** The pool never holds more than its maximum. */
    predicate Valid()
    {
      0 <= maxPooled && |pooled| <= maxPooled
    }

    /**
     * A new, empty pool; `maxPooled` is the MaxPooledObjects initializer when one is given. A
     * negative maximum throws ArgumentOutOfRangeException; without one the maximum is 32.
     */
    static function Create(maxPooled: Option<int>): (r: Outcome<Pool<T>>)
      requires maxPooled.Some? ==> IsInt32(maxPooled.value)
      ensures r.Throws? <==> maxPooled.Some? && maxPooled.value < 0
      ensures r.Throws? ==> r.error == ArgumentOutOfRangeException
      ensures r.Ok? ==> r.value.Valid() && r.value.pooled == []
      ensures r.Ok? ==> r.value.maxPooled == maxPooled.UnwrapOr(DEFAULT_MAX_POOLED)
    {
      match maxPooled
      case None => Ok(Pool([], DEFAULT_MAX_POOLED))
      case Some(m) => if m < 0 then Throws(ArgumentOutOfRangeException) else Ok(Pool([], m))
    }
  }

  /**
   * Rent: a pooled object, which leaves the pool, when there is one; otherwise a newly made object,
   * and the pool is unchanged.
   */
  function Rent<T>(p: Pool<T>, made: T): (r: (Pool<T>, T))
    ensures p.Valid() ==> r.0.Valid()
    ensures r.0.maxPooled == p.maxPooled
    ensures |p.pooled| == 0 ==> r == (p, made)
    ensures |p.pooled| > 0 ==> r.1 in p.pooled && |r.0.pooled| == |p.pooled| - 1
    ensures |p.pooled| > 0 ==> multiset(r.0.pooled) + multiset{r.1} == multiset(p.pooled)
  {
    if |p.pooled| == 0 then (p, made)
    else
      var rest := p.pooled[..|p.pooled| - 1];
      assert p.pooled == rest + [p.pooled[|p.pooled| - 1]];
      (p.(pooled := rest), p.pooled[|p.pooled| - 1])
  }

  /** Return: the object joins the pool only while the pool holds fewer than the maximum. */
  function Return<T>(p: Pool<T>, obj: T): (r: Pool<T>)
    ensures p.Valid() ==> r.Valid()
    ensures r.maxPooled == p.maxPooled
    ensures |p.pooled| < p.maxPooled ==> multiset(r.pooled) == multiset(p.pooled) + multiset{obj}
    ensures |p.pooled| >= p.maxPooled ==> r == p
  {
    if |p.pooled| < p.maxPooled then p.(pooled := p.pooled + [obj]) else p
  }

  /** An object returned to a pool with room is the next one rented, and the pool is as before. */
  lemma RentAfterReturn<T>(p: Pool<T>, obj: T, made: T)
    requires |p.pooled| < p.maxPooled
    ensures Rent(Return(p, obj), made) == (p, obj)
  {
    assert (p.pooled + [obj])[..|p.pooled|] == p.pooled;
  }

  /** Any run of rents and returns keeps the pool within its maximum. */
  lemma {:induction false} StaysBounded<T>(p: Pool<T>, ops: seq<Option<T>>, made: T)
    requires p.Valid()
    ensures Run(p, ops, made).Valid()
    decreases |ops|
  {
    if |ops| > 0 {
      var q := Run(p, ops[..|ops| - 1], made);
      StaysBounded(p, ops[..|ops| - 1], made);
      match ops[|ops| - 1]
      case Some(obj) => assert Run(p, ops, made) == Return(q, obj);
      case None => assert Run(p, ops, made) == Rent(q, made).0;
    }
  }

  /** A run of operations: Some(obj) returns obj, None rents an object. */
  function Run<T>(p: Pool<T>, ops: seq<Option<T>>, made: T): Pool<T>
    decreases |ops|
  {
    if |ops| == 0 then p
    else
      var q := Run(p, ops[..|ops| - 1], made);
      match ops[|ops| - 1]
      case Some(obj) => Return(q, obj)
      case None => Rent(q, made).0
  }
}

=== FILE: predict_queue.dfy ===
/**
 * PredictQueue (experiments/MemoryPackTest/MemoryPackTest/Client/PredictQueue.cs): the prototype
 * client's record of the serialized input it predicted for each frame, checked against the
 * authoritative input once that arrives.
 */
module PredictQueue {
  import opened Wrappers
  import opened IntWidths

  datatype Queue = Queue(mapping: map<int, seq<uint8>>)

  function Create(): (q: Queue)
    ensures q.mapping == map[]
  {
    Queue(map[])
  }

  /** AddPredict: TryAdd, falling back to overwriting; either way the frame now maps to the input. */
  function AddPredict(q: Queue, input: seq<uint8>, frame: int): (r: Queue)
    ensures frame in r.mapping && r.mapping[frame] == input
    ensures forall f :: f != frame ==> (f in r.mapping <==> f in q.mapping)
    ensures forall f :: f != frame && f in q.mapping ==> r.mapping[f] == q.mapping[f]
  {
    Queue(q.mapping[frame := input])
  }

  /** GetInput: the dictionary indexer throws for a frame with no entry. */
  function GetInput(q: Queue, frame: int): (r: Outcome<seq<uint8>>)
    ensures r.Throws? <==> frame !in q.mapping
    ensures r.Throws? ==> r.error == KeyNotFoundException
    ensures r.Ok? ==> r.value == q.mapping[frame]
  {
    if frame in q.mapping then Ok(q.mapping[frame]) else Throws(KeyNotFoundException)
  }

  /**
   * CheckDequeue: whether the prediction for `frame` matches the authoritative bytes; the entry of
   * the previous frame is dropped, and a wrong or missing prediction is replaced by the
   * authoritative input.
   */
  function CheckDequeue(q: Queue, authoritative: seq<uint8>, frame: int): (r: (Queue, bool))
    ensures r.1 <==> frame in q.mapping && q.mapping[frame] == authoritative
    ensures frame - 1 !in r.0.mapping
    ensures frame in r.0.mapping && r.0.mapping[frame] == authoritative
    ensures forall f :: f != frame && f != frame - 1 ==>
      (f in r.0.mapping <==> f in q.mapping) && (f in q.mapping ==> r.0.mapping[f] == q.mapping[f])
  {
    var equal := frame in q.mapping && q.mapping[frame] == authoritative;
    var removed := Queue(q.mapping - {frame - 1});
    if equal then (removed, true) else (AddPredict(removed, authoritative, frame), false)
  }

  /** ReplaceTimeline: the two queues exchange their mappings. */
  function ReplaceTimeline(q: Queue, other: Queue): (r: (Queue, Queue))
    ensures r.0.mapping == other.mapping && r.1.mapping == q.mapping
  {
    (Queue(other.mapping), Queue(q.mapping))
  }

  /** After a check, the frame reads back as the authoritative input, whatever was predicted. */
  lemma CheckDequeueThenGet(q: Queue, authoritative: seq<uint8>, frame: int)
    ensures GetInput(CheckDequeue(q, authoritative, frame).0, frame) == Ok(authoritative)
    ensures GetInput(CheckDequeue(q, authoritative, frame).0, frame - 1).Throws?
  {
  }

  /** Checking the same authoritative input twice succeeds the second time. */
  lemma CheckDequeueIdempotent(q: Queue, authoritative: seq<uint8>, frame: int)
    ensures CheckDequeue(CheckDequeue(q, authoritative, frame).0, authoritative, frame).1
    ensures CheckDequeue(CheckDequeue(q, authoritative, frame).0, authoritative, frame).0 == CheckDequeue(q, authoritative, frame).0
  {
    var once := CheckDequeue(q, authoritative, frame).0;
    assert once.mapping - {frame - 1} == once.mapping;
  }

  /** Replacing the timeline twice restores both queues. */
  lemma ReplaceTimelineTwice(q: Queue, other: Queue)
    ensures var (a, b) := ReplaceTimeline(q, other); ReplaceTimeline(a, b) == (q, other)
  {
  }
}

=== FILE: protocol.dfy ===
/**
 * The pieces of the default dispatcher protocol shared by the server and the client: the message
 * type byte that opens every message, and reading encoded fields off the front of a message.
 *
 * The MessageType enumeration itself is not part of this model; its four members are given the
 * distinct codes 0 to 3 here, and nothing below depends on which code belongs to which member.
 */
module Protocol {
  import opened Wrappers
  import opened IntWidths
  import opened Bits

  datatype MessageType = ClientInput | ServerInitialize | ServerAuthorize | ServerAuthInput

  function Code(t: MessageType): (b: uint8)
  {
    match t
    case ClientInput => 0
    case ServerInitialize => 1
    case ServerAuthorize => 2
    case ServerAuthInput => 3
  }

  /** The cast `(MessageType)message.Span[0]`; a byte naming no member is None. */
  function TypeOf(b: uint8): (t: Option<MessageType>)
    ensures t.Some? ==> Code(t.value) == b
  {
    if b == 0 then Some(ClientInput)
    else if b == 1 then Some(ServerInitialize)
    else if b == 2 then Some(ServerAuthorize)
    else if b == 3 then Some(ServerAuthInput)
    else None
  }

  /** Every message type survives the trip through its type byte. */
  lemma TypeOfCode(t: MessageType)
    ensures TypeOf(Code(t)) == Some(t)
  {
  }

  /** Distinct message types have distinct type bytes. */
  lemma CodeInjective(s: MessageType, t: MessageType)
    ensures Code(s) == Code(t) <==> s == t
  {
    TypeOfCode(s);
    TypeOfCode(t);
  }

  /** A long encoded at the front of a message reads back, whatever follows it. */
  lemma ReadLongPrefix(v: int, rest: seq<uint8>)
    requires IsInt64(v)
    ensures ReadLong(Encode(v, LONG_SIZE) + rest) == Ok(v)
  {
    var s := Encode(v, LONG_SIZE) + rest;
    ReadLongWriteLong(v, s);
    assert WriteLong(v, s).value == s;
  }

  /** An int encoded at the front of a message reads back, whatever follows it. */
  lemma ReadIntPrefix(v: int, rest: seq<uint8>)
    requires IsInt32(v)
    ensures ReadInt(Encode(v, INT_SIZE) + rest) == Ok(v)
  {
    var s := Encode(v, INT_SIZE) + rest;
    ReadIntWriteInt(v, s);
    assert WriteInt(v, s).value == s;
  }

  /** The 9-byte nullable encoding of a checksum: flag 0 and zeros for null, flag 1 and the long otherwise. */
  function EncodeNullableLong(v: Option<int>): (r: seq<uint8>)
    requires v.Some? ==> IsInt64(v.value)
    ensures |r| == NULLABLE_LONG_SIZE
    ensures WriteNullableLong(v, Zeros(NULLABLE_LONG_SIZE)) == Ok(r)
  {
    match v
    case None =>
      assert Zeros(NULLABLE_LONG_SIZE) + Zeros(NULLABLE_LONG_SIZE)[NULLABLE_LONG_SIZE..] == Zeros(NULLABLE_LONG_SIZE);
      Zeros(NULLABLE_LONG_SIZE)
    case Some(x) =>
      assert WriteLong(x, Zeros(NULLABLE_LONG_SIZE)[1..]) == Ok(Encode(x, LONG_SIZE) + Zeros(NULLABLE_LONG_SIZE)[1..][LONG_SIZE..]);
      assert Zeros(NULLABLE_LONG_SIZE)[1..][LONG_SIZE..] == [];
      assert Encode(x, LONG_SIZE) + Zeros(NULLABLE_LONG_SIZE)[1..][LONG_SIZE..] == Encode(x, LONG_SIZE);
      assert WriteNullableLong(v, Zeros(NULLABLE_LONG_SIZE)) == Ok([1 as uint8] + Encode(x, LONG_SIZE));
      [1 as uint8] + Encode(x, LONG_SIZE)
  }

  /** A nullable long encoded at the front of a message reads back, whatever follows it. */
  lemma ReadNullableLongPrefix(v: Option<int>, rest: seq<uint8>)
    requires v.Some? ==> IsInt64(v.value)
    ensures ReadNullableLong(EncodeNullableLong(v) + rest) == Ok(v)
  {
    var e := EncodeNullableLong(v);
    ReadNullableLongWrite(v, Zeros(NULLABLE_LONG_SIZE));
    if v.Some? {
      assert (e + rest)[1..] == Encode(v.value, LONG_SIZE) + rest;
      ReadLongPrefix(v.value, rest);
    }
  }
}

=== FILE: random.dfy ===
/**
 * Random (src/GameNewt/Utility/Random.cs): the deterministic generator the games share through
 * their state, xoshiro256** over four 64-bit words, with System.Random's interface on top.
 *
 * Every draw returns the generator it leaves behind. The rejection loops of the source
 * (Lemire's bounded draws and the retries of Next() and NextInt64()) run until a draw is
 * accepted; here each loop gets at most `fuel` retries and reports `Exhausted` beyond that.
 */
module Random {
  import opened Wrappers
  import opened IntWidths
  import opened FixedPoint

  datatype Generator = Generator(s0: bv64, s1: bv64, s2: bv64, s3: bv64)
  {
    /** xoshiro256** must never be in the all-zero state, from which it outputs zeros forever. */
    predicate Valid() { s0 != 0 || s1 != 0 || s2 != 0 || s3 != 0 }
  }

  /** The result of a draw: the value with the generator after it, or the retries ran out. */
  datatype Drawn<T> = Drawn(g: Generator, value: T) | Exhausted

  /** The seed the parameterless constructor uses. */
  const DEFAULT_SEED: bv64 := 42

  /**
   * The constructor: the four longs become the four words unchanged, bit for bit (a cast to
   * ulong), so they are given here by their bits. An all-zero seed throws ArgumentException.
   */
  function Create(a: bv64, b: bv64, c: bv64, d: bv64): (r: Outcome<Generator>)
    ensures r.Throws? <==> a == 0 && b == 0 && c == 0 && d == 0
    ensures r.Throws? ==> r.error == ArgumentException
    ensures r.Ok? ==> r.value.Valid() && r.value == Generator(a, b, c, d)
  {
    if a == 0 && b == 0 && c == 0 && d == 0 then Throws(ArgumentException)
    else Ok(Generator(a, b, c, d))
  }

  /** The parameterless (deserialization) constructor seeds every word with 42. */
  function CreateDefault(): (r: Generator)
    ensures r.Valid() && Create(DEFAULT_SEED, DEFAULT_SEED, DEFAULT_SEED, DEFAULT_SEED) == Ok(r)
  {
    Generator(42, 42, 42, 42)
  }

  // ---------------------------------------------------------------------------------------
  // xoshiro256**

  /** The output of the current state: rotl(s1 * 5, 7) * 9. */
  function Scramble(s1: bv64): bv64
  {
    (s1 * 5).RotateLeft(7) * 9
  }

  /** The state update of xoshiro256**. */
  function Advance(g: Generator): Generator
  {
    var t := g.s1 << 17;
    var s2 := g.s2 ^ g.s0;
    var s3 := g.s3 ^ g.s1;
    var s1 := g.s1 ^ s2;
    var s0 := g.s0 ^ s3;
    Generator(s0, s1, s2 ^ t, s3.RotateLeft(45))
  }

  /**
   * NextUInt64: the output of the current state, and the state advanced. A state that is not
   * all zero never advances to the all-zero one.
   */
  function NextUInt64(g: Generator): (r: (Generator, bv64))
    ensures g.Valid() ==> r.0.Valid()
  {
    (Advance(g), Scramble(g.s1))
  }

  /**
   * The first three outputs from the state (1, 2, 3, 4) are those of the reference implementation
   * by Blackman and Vigna: 11520, 0 and 1509978240.
   */
  lemma ReferenceOutputs()
    ensures var (g1, x1) := NextUInt64(Generator(1, 2, 3, 4));
      var (g2, x2) := NextUInt64(g1);
      var (_, x3) := NextUInt64(g2);
      g1 == Generator(7, 0, 0x4_0002, 0xC000_0000_0000) && x1 == 11520 && x2 == 0 && x3 == 1509978240
  {
  }

  /** NextUInt32: the high half of the next 64-bit output (an unsigned shift right by 32). */
  function NextUInt32(g: Generator): (r: (Generator, int))
    ensures 0 <= r.1 < TWO_32
  {
    var (g1, x) := NextUInt64(g);
    (g1, (x as int) / TWO_32)
  }

  // ---------------------------------------------------------------------------------------
  // Bounded draws (Lemire): the bound times a uniform word; the high part is the result, and
  // a low part under (2^w - bound) % bound is redrawn.

  /** The word width of a bounded draw: 32 for the int draws, 64 for the long ones. */
  function Width(wide: bool): int
  {
    if wide then TWO_64 else TWO_32
  }

  /** One uniform word of the width. */
  function Word(g: Generator, wide: bool): (r: (Generator, int))
    ensures 0 <= r.1 < Width(wide)
  {
    if wide then (NextUInt64(g).0, NextUInt64(g).1 as int) else NextUInt32(g)
  }

  /** The high part of bound * x is below the bound for any word x. */
  lemma HighPartBelow(bound: int, x: int, w: int)
    requires 0 < bound && 0 <= x < w
    ensures 0 <= bound * x / w < bound
  {
    var p := bound * x;
    MulNonNegative(bound, x);
    assert bound * w == p + (w - x) * bound;
    MulAtLeast(w - x, bound);
    var q := p / w;
    assert q * w <= p;
    if q >= bound {
      MulNonNegative(q - bound, w);
      assert false;
    }
  }

  /** The high part of bound * x: the candidate result of a bounded draw. */
  function HighPart(bound: int, x: int, w: int): (h: int)
    requires 0 < bound && 0 <= x < w
    ensures 0 <= h < bound
  {
    HighPartBelow(bound, x, w);
    bound * x / w
  }

  /** The redraw loop: accept the current word once its low part reaches `remainder`. */
  function Redraw(g: Generator, bound: int, remainder: int, x: int, wide: bool, fuel: nat): (r: Drawn<int>)
    requires 0 < bound && 0 <= x < Width(wide)
    ensures r.Drawn? ==> 0 <= r.value < bound
    decreases fuel
  {
    var w := Width(wide);
    if (bound * x) % w >= remainder then Drawn(g, HighPart(bound, x, w))
    else if fuel == 0 then Exhausted
    else
      var (g1, x1) := Word(g, wide);
      Redraw(g1, bound, remainder, x1, wide, fuel - 1)
  }

  /**
   * NextUInt32(max) / NextUInt64(max): a value below the bound, or 0 for a zero bound. The
   * redraw loop is entered only when the first low part is under the bound.
   */
  function NextBelow(g: Generator, bound: int, wide: bool, fuel: nat): (r: Drawn<int>)
    requires 0 <= bound < Width(wide)
    ensures r.Drawn? ==> (bound == 0 ==> r.value == 0) && (bound > 0 ==> 0 <= r.value < bound)
  {
    var (g1, x) := Word(g, wide);
    var w := Width(wide);
    if bound == 0 then Drawn(g1, 0)
    else if (bound * x) % w < bound then Redraw(g1, bound, (w - bound) % bound, x, wide, fuel)
    else Drawn(g1, HighPart(bound, x, w))
  }

  /** Next(): the top 31 bits of a word, redrawn while they equal int.MaxValue. */
  function Next(g: Generator, fuel: nat): (r: Drawn<int>)
    ensures r.Drawn? ==> 0 <= r.value < INT32_MAX
    decreases fuel
  {
    var (g1, x) := NextUInt64(g);
    var result := (x as int) / 0x2_0000_0000;
    if result != INT32_MAX then Drawn(g1, result)
    else if fuel == 0 then Exhausted
    else Next(g1, fuel - 1)
  }

  /** NextInt64(): the top 63 bits of a word, redrawn while they equal long.MaxValue. */
  function NextInt64(g: Generator, fuel: nat): (r: Drawn<int>)
    ensures r.Drawn? ==> 0 <= r.value < INT64_MAX
    decreases fuel
  {
    var (g1, x) := NextUInt64(g);
    var result := (x as int) / 2;
    if result != INT64_MAX then Drawn(g1, result)
    else if fuel == 0 then Exhausted
    else NextInt64(g1, fuel - 1)
  }

  /** Next(max): a negative bound throws ArgumentOutOfRangeException; otherwise a value in [0, max), or 0 for max 0. */
  function NextMax(g: Generator, maxValue: int, fuel: nat): (r: Outcome<Drawn<int>>)
    requires IsInt32(maxValue)
    ensures r.Throws? <==> maxValue < 0
    ensures r.Throws? ==> r.error == ArgumentOutOfRangeException
    ensures r.Ok? && r.value.Drawn? ==> (maxValue == 0 ==> r.value.value == 0) && (maxValue > 0 ==> 0 <= r.value.value < maxValue)
  {
    if maxValue < 0 then Throws(ArgumentOutOfRangeException)
    else Ok(NextBelow(g, maxValue, false, fuel))
  }

  /** NextInt64(max): the same over long. */
  function NextInt64Max(g: Generator, maxValue: int, fuel: nat): (r: Outcome<Drawn<int>>)
    requires IsInt64(maxValue)
    ensures r.Throws? <==> maxValue < 0
    ensures r.Throws? ==> r.error == ArgumentOutOfRangeException
    ensures r.Ok? && r.value.Drawn? ==> (maxValue == 0 ==> r.value.value == 0) && (maxValue > 0 ==> 0 <= r.value.value < maxValue)
  {
    if maxValue < 0 then Throws(ArgumentOutOfRangeException)
    else Ok(NextBelow(g, maxValue, true, fuel))
  }

  /**
   * Next(min, max) and NextInt64(min, max): min > max throws; otherwise the difference, taken
   * unsigned, bounds the draw and min is added back, so the value lies in [min, max), or is min
   * when the two are equal. The source's int and long wrap-arounds cancel out here.
   */
  function NextRange(g: Generator, minValue: int, maxValue: int, wide: bool, fuel: nat): (r: Outcome<Drawn<int>>)
    requires if wide then IsInt64(minValue) && IsInt64(maxValue) else IsInt32(minValue) && IsInt32(maxValue)
    ensures r.Throws? <==> minValue > maxValue
    ensures r.Throws? ==> r.error == ArgumentOutOfRangeException
    ensures r.Ok? && r.value.Drawn? ==>
      (minValue == maxValue ==> r.value.value == minValue) && (minValue < maxValue ==> minValue <= r.value.value < maxValue)
  {
    if minValue > maxValue then Throws(ArgumentOutOfRangeException)
    else
      match NextBelow(g, maxValue - minValue, wide, fuel)
      case Exhausted => Ok(Exhausted)
      case Drawn(g1, v) => Ok(Drawn(g1, v + minValue))
  }

  /** NextFixed: the low 32 bits of NextInt64() as the raw value, so 0 <= value < 1. */
  function NextFixed(g: Generator, fuel: nat): (r: Drawn<Fixed>)
    ensures r.Drawn? ==> r.value.Valid() && LessEq(ADDITIVE_IDENTITY, r.value) && Less(r.value, MULTIPLICATIVE_IDENTITY)
  {
    match NextInt64(g, fuel)
    case Exhausted => Exhausted
    case Drawn(g1, v) => Drawn(g1, Fixed(v % TWO_32))
  }

  // ---------------------------------------------------------------------------------------
  // Shuffle and GetItems.

  /** Swaps positions i and j. */
  function Swap<T>(s: seq<T>, i: int, j: int): (r: seq<T>)
    requires 0 <= i < |s| && 0 <= j < |s|
    ensures |r| == |s| && multiset(r) == multiset(s)
  {
    s[i := s[j]][j := s[i]]
  }

  /**
   * Shuffle (Fisher-Yates): position i takes the element at a position drawn from [i, n). The
   * result is a permutation of the input.
   */
  method Shuffle<T>(g: Generator, values: seq<T>, fuel: nat) returns (r: Drawn<seq<T>>)
    requires |values| <= INT32_MAX
    ensures r.Drawn? ==> |r.value| == |values| && multiset(r.value) == multiset(values)
  {
    var n := |values|;
    var s := values;
    var gen := g;
    var i := 0;
    while i < n - 1
      invariant 0 <= i <= if n == 0 then 0 else n - 1
      invariant |s| == n && multiset(s) == multiset(values)
    {
      var j := NextRange(gen, i, n, false, fuel);
      match j.value
      case Exhausted =>
        return Exhausted;
      case Drawn(g1, k) =>
        if k != i {
          s := Swap(s, i, k);
        }
        gen := g1;
      i := i + 1;
    }
    return Drawn(gen, s);
  }

  /** GetItems: empty choices throw ArgumentException; otherwise `count` draws, each an element of the choices. */
  method GetItems<T>(g: Generator, choices: seq<T>, count: nat, fuel: nat) returns (r: Outcome<Drawn<seq<T>>>)
    requires |choices| <= INT32_MAX
    ensures r.Throws? <==> choices == []
    ensures r.Throws? ==> r.error == ArgumentException
    ensures r.Ok? && r.value.Drawn? ==>
      |r.value.value| == count && forall k :: 0 <= k < count ==> r.value.value[k] in choices
  {
    if choices == [] {
      return Throws(ArgumentException);
    }
    var items: seq<T> := [];
    var gen := g;
    while |items| < count
      invariant |items| <= count
      invariant forall k :: 0 <= k < |items| ==> items[k] in choices
    {
      var drawn := NextBelow(gen, |choices|, false, fuel);
      match drawn
      case Exhausted =>
        return Ok(Exhausted);
      case Drawn(g1, k) =>
        items := items + [choices[k]];
        gen := g1;
    }
    return Ok(Drawn(gen, items));
  }
}

=== FILE: replacement_coordinator.dfy ===
/**
 * ReplacementCoordinator (src/GameNewt/Rollback/ReplacementCoordinator.cs, and the earlier
 * revision src/Core/Rollback/ReplacementCoordinator.cs, which differs only by Init): makes sure at
 * most one replacement of the predicted timeline runs at a time, and queues the predicted inputs
 * of the current timeline so that they can be compared against authoritative ones.
 *
 * `current` is the replacement counter, a C# long, `active` the flag telling that a replacement is
 * running and `queue` the concurrent queue of serialized inputs, oldest first. Each public method
 * takes the coordinator's lock and is one transition here.
 */
module ReplacementCoordinator {
  import opened Wrappers
  import opened IntWidths
  import BufferWriter

  datatype Coordinator = Coordinator(active: bool, current: int, queue: seq<seq<uint8>>)
  {
    predicate Valid()
    {
      IsInt64(current)
    }
  }

  function Create(): (c: Coordinator)
    ensures c.Valid() && !c.active && c.current == INT64_MIN && c.queue == []
  {
    Coordinator(false, INT64_MIN, [])
  }

  /** Init (earlier revision): empties the predicted-input queue and changes nothing else. */
  function Init(c: Coordinator): (r: Coordinator)
    ensures r.queue == [] && r.active == c.active && r.current == c.current
  {
    c.(queue := [])
  }

  /** TryDequeuePredictInput: the oldest queued input, if there is one. */
  function TryDequeuePredictInput(c: Coordinator): (r: (Coordinator, Option<seq<uint8>>))
    ensures c.queue == [] ==> r == (c, None)
    ensures c.queue != [] ==> r.1 == Some(c.queue[0]) && [c.queue[0]] + r.0.queue == c.queue
    ensures r.0.active == c.active && r.0.current == c.current
  {
    if c.queue == [] then (c, None)
    else (c.(queue := c.queue[1..]), Some(c.queue[0]))
  }

  /** CheckReplacementCurrent: no newer replacement than `index` has been acquired. */
  predicate IsCurrent(c: Coordinator, index: int)
  {
    c.current <= index
  }

  /**
   * AcquireReplacementIndex as written: `++currentReplacement_` in an unchecked context, so the
   * counter wraps from long.MaxValue to long.MinValue. The new replacement is active and the
   * predicted-input queue is cleared.
   */
  function AcquireAsWritten(c: Coordinator): (r: (Coordinator, int))
    requires c.Valid()
    ensures r.0.Valid() && r.0.current == r.1 && r.0.active && r.0.queue == []
    ensures c.current < INT64_MAX ==> r.1 == c.current + 1
  {
    var index := Wrap64(c.current + 1);
    (Coordinator(true, index, []), index)
  }

  /** Stop: the counter jumps to long.MaxValue, superseding every replacement. */
  function Stop(c: Coordinator): (r: Coordinator)
    ensures r.Valid() && r.active == c.active && r.queue == c.queue
    ensures forall index :: IsInt64(index) ==> (IsCurrent(r, index) <==> index == INT64_MAX)
  {
    c.(current := INT64_MAX)
  }

  /**
   * The discrepancy as written: a replacement acquired after Stop is not created cancelled, as
   * Stop's documentation says. The counter wraps to long.MinValue, which makes every replacement
   * index current again, those that Stop had superseded included.
   */
  lemma AcquireAfterStopRevivesAll(c: Coordinator, index: int)
    requires c.Valid() && IsInt64(index)
    ensures var (r, acquired) := AcquireAsWritten(Stop(c));
      acquired == INT64_MIN && IsCurrent(r, acquired) && IsCurrent(r, index)
  {
  }

  /**
   * AcquireReplacementIndex with the counter saturating at long.MaxValue: before Stop it hands out
   * the next index; after Stop it leaves the counter alone and hands out long.MinValue, an index
   * that is already superseded, so the replacement is created cancelled.
   */
  function Acquire(c: Coordinator): (r: (Coordinator, int))
    requires c.Valid()
    ensures r.0.Valid() && r.0.active && r.0.queue == []
    ensures c.current < INT64_MAX ==> r.1 == c.current + 1 && r.0.current == r.1
    ensures c.current == INT64_MAX ==> r.0.current == INT64_MAX && !IsCurrent(r.0, r.1)
  {
    if c.current == INT64_MAX then (Coordinator(true, c.current, []), INT64_MIN)
    else (Coordinator(true, c.current + 1, []), c.current + 1)
  }

  /** With the saturating counter, nothing acquired after Stop is ever current, and Stop stays in force. */
  lemma AcquireAfterStopIsCancelled(c: Coordinator, index: int)
    requires c.Valid() && IsInt64(index) && index < INT64_MAX
    ensures var (r, acquired) := Acquire(Stop(c));
      !IsCurrent(r, acquired) && !IsCurrent(r, index) && r.current == INT64_MAX
  {
  }

  /** Acquired indices strictly increase, each one supersedes all before it, and the newest is current. */
  lemma AcquireSupersedes(c: Coordinator)
    requires c.Valid() && c.current < INT64_MAX - 1
    ensures var (c1, first) := Acquire(c);
      var (c2, second) := Acquire(c1);
      first < second && IsCurrent(c2, second) && !IsCurrent(c2, first) && IsCurrent(c1, first)
  {
  }

  /** FinishReplacement: clears the active flag only for the latest index; a superseded index changes nothing. */
  function FinishReplacement(c: Coordinator, index: int): (r: Coordinator)
    ensures r.current == c.current && r.queue == c.queue
    ensures index == c.current ==> !r.active
    ensures index != c.current ==> r == c
  {
    if c.current == index then c.(active := false) else c
  }

  /**
   * TryGiveReplacementInput: a superseded replacement's input is dropped and the writer reset,
   * and false returned; otherwise the written bytes are queued, the writer replaced by a fresh
   * one, and true returned.
   */
  function TryGiveReplacementInput(c: Coordinator, index: int, w: BufferWriter.Writer): (r: (Coordinator, BufferWriter.Writer, bool))
    requires w.Valid()
    ensures r.2 <==> IsCurrent(c, index)
    ensures r.0.active == c.active && r.0.current == c.current
    ensures r.2 ==> r.0.queue == c.queue + [w.Written()] && r.1.index == 0
    ensures !r.2 ==> r.0.queue == c.queue && r.1 == BufferWriter.Reset(w)
  {
    if c.current > index then (c, BufferWriter.Reset(w), false)
    else
      var (bytes, replaced) := BufferWriter.ExtractAndReplace(w).value;
      (c.(queue := c.queue + [bytes]), replaced, true)
  }

  /** TryGivePredictionInput: while a replacement runs the input is dropped; otherwise it is queued. */
  function TryGivePredictionInput(c: Coordinator, w: BufferWriter.Writer): (r: (Coordinator, BufferWriter.Writer))
    requires w.Valid()
    ensures r.0.active == c.active && r.0.current == c.current
    ensures c.active ==> r.0.queue == c.queue && r.1 == BufferWriter.Reset(w)
    ensures !c.active ==> r.0.queue == c.queue + [w.Written()] && r.1.index == 0
  {
    if c.active then (c, BufferWriter.Reset(w))
    else
      var (bytes, replaced) := BufferWriter.ExtractAndReplace(w).value;
      (c.(queue := c.queue + [bytes]), replaced)
  }

  /**
   * The timeline hand-over: once a replacement is acquired, predicted inputs are dropped and only
   * the replacement's own inputs are queued, until it finishes; after that predicted inputs queue again.
   */
  lemma ReplacementOwnsQueue(c: Coordinator, w1: BufferWriter.Writer, w2: BufferWriter.Writer, w3: BufferWriter.Writer)
    requires c.Valid() && c.current < INT64_MAX && w1.Valid() && w2.Valid() && w3.Valid()
    ensures var (c1, index) := Acquire(c);
      var c2 := TryGivePredictionInput(c1, w1).0;
      var c3 := TryGiveReplacementInput(c2, index, w2).0;
      var c4 := FinishReplacement(c3, index);
      var c5 := TryGivePredictionInput(c4, w3).0;
      c2.queue == [] && c3.queue == [w2.Written()] && c5.queue == [w2.Written(), w3.Written()]
  {
  }

  /** The queue is first in, first out: inputs given one after another are dequeued in that order. */
  lemma QueueIsFifo(c: Coordinator, w1: BufferWriter.Writer, w2: BufferWriter.Writer)
    requires !c.active && c.queue == [] && w1.Valid() && w2.Valid()
    ensures var (c1, w1') := TryGivePredictionInput(c, w1);
      var (c2, _) := TryGivePredictionInput(c1, w2);
      var (c3, first) := TryDequeuePredictInput(c2);
      var (_, second) := TryDequeuePredictInput(c3);
      first == Some(w1.Written()) && second == Some(w2.Written())
  {
  }
}

=== FILE: replacement_receiver.dfy ===
/**
 * ReplacementReceiver (src/GameNewt/Rollback/ReplacementReceiver.cs, and the earlier revision
 * src/Core/Rollback/ReplacementReceiver.cs): hands a finished replacement state over to the
 * prediction simulation, at a frame both sides agree on.
 *
 * The receiver owns a state holder of its own, `holder`, whose frame is the frame the next
 * replacement must reach; `newPredictInput` is the input recorded with a handed-over state and
 * `isReplaced` tells that one is waiting. The holders passed in are values here: each operation
 * returns the holder it leaves behind. Each method runs under the receiver's lock, so each is one
 * transition. This revision swaps states through its State setter as written, which drops the
 * cached checksum but keeps the serialized bytes (StateHolder.SetStateAsWritten); the earlier
 * revision's setter drops both (StateHolder.SetState).
 */
module ReplacementReceiver {
  import opened Wrappers
  import opened GameTypes
  import StateHolder

  datatype Receiver<S, In> = Receiver(holder: StateHolder.Holder<S>, newPredictInput: In, isReplaced: bool)

  /**
   * The constructor: the receiver's holder is at `frame` and nothing is pending; `empty` is
   * UpdateInput.Empty and `initial` the game's default state.
   */
  function Create<S, In>(initial: S, frame: int, empty: In): (r: Receiver<S, In>)
    ensures r.holder.frame == frame && r.holder.state == initial && StateHolder.Cleared(r.holder)
    ensures !r.isReplaced && r.newPredictInput == empty
  {
    Receiver(StateHolder.Holder(initial, frame, [], None), empty, false)
  }

  /** The earlier revision's constructor leaves the holder at frame -1; Init then sets the frame and nothing else. */
  function CreateCore<S, In>(initial: S, empty: In): (r: Receiver<S, In>)
    ensures r == Create(initial, -1, empty)
  {
    Receiver(StateHolder.Create(initial), empty, false)
  }

  /** Init (earlier revision): sets the frame the next replacement must reach, and nothing else. */
  function Init<S, In>(rc: Receiver<S, In>, frame: int): (r: Receiver<S, In>)
    ensures r.holder.frame == frame
    ensures r.holder.state == rc.holder.state && r.holder.written == rc.holder.written && r.holder.checksum == rc.holder.checksum
    ensures r.newPredictInput == rc.newPredictInput && r.isReplaced == rc.isReplaced
  {
    rc.(holder := rc.holder.(frame := frame))
  }

  /** The two revisions agree: a Core receiver after Init is a new receiver at that frame. */
  lemma CreateThenInit<S, In>(initial: S, empty: In, frame: int)
    ensures Init(CreateCore(initial, empty), frame) == Create(initial, frame, empty)
  {
  }

  /**
   * TryGive: the difference between the receiver's frame and the replacement holder's. While it
   * is non-zero nothing changes. At zero the replacement state goes into the receiver, the
   * receiver's old state into the replacement holder, the input is recorded and the hand-over
   * marked pending. The earlier revision's TryGive makes the same transition on states, frames
   * and inputs, but swaps through its own setter, which clears both cached serializations.
   */
  function TryGive<S, In>(rc: Receiver<S, In>, replacement: StateHolder.Holder<S>, input: In): (r: (Receiver<S, In>, StateHolder.Holder<S>, int))
    ensures r.2 == 0 <==> rc.holder.frame == replacement.frame
    ensures r.2 != 0 ==> r == (rc, replacement, rc.holder.frame - replacement.frame)
    ensures r.2 == 0 ==>
      r.0.holder.state == replacement.state && r.1.state == rc.holder.state &&
      r.0.holder.frame == rc.holder.frame && r.1.frame == replacement.frame &&
      r.0.isReplaced && r.0.newPredictInput == input
    ensures r.2 == 0 ==>
      r.0.holder.checksum.None? && r.0.holder.written == rc.holder.written &&
      r.1.checksum.None? && r.1.written == replacement.written
  {
    var difference := rc.holder.frame - replacement.frame;
    if difference != 0 then (rc, replacement, difference)
    else
      var given := StateHolder.SetStateAsWritten(replacement, rc.holder.state);
      var received := StateHolder.SetStateAsWritten(rc.holder, replacement.state);
      (Receiver(received, input, true), given, 0)
  }

  /**
   * TryReceive: a pending state goes into the prediction holder, whose old state the receiver
   * keeps, and the recorded input replaces `input`; the result tells whether that happened. In
   * every case the receiver's frame becomes `frame`. Both holders lose their cached checksum but
   * keep the bytes they had serialized, as the setter as written leaves them.
   */
  function TryReceive<S, In>(rc: Receiver<S, In>, frame: int, predictive: StateHolder.Holder<S>, input: In): (r: (Receiver<S, In>, StateHolder.Holder<S>, In, bool))
    ensures r.3 == rc.isReplaced && !r.0.isReplaced && r.0.holder.frame == frame
    ensures r.0.newPredictInput == rc.newPredictInput
    ensures rc.isReplaced ==>
      r.1.state == rc.holder.state && r.1.frame == predictive.frame &&
      r.0.holder.state == predictive.state && r.2 == rc.newPredictInput
    ensures rc.isReplaced ==>
      r.1.checksum.None? && r.1.written == predictive.written &&
      r.0.holder.checksum.None? && r.0.holder.written == rc.holder.written
    ensures !rc.isReplaced ==> r.1 == predictive && r.2 == input && r.0 == rc.(holder := rc.holder.(frame := frame))
  {
    if rc.isReplaced then
      var delivered := StateHolder.SetStateAsWritten(predictive, rc.holder.state);
      var kept := StateHolder.SetStateAsWritten(rc.holder, predictive.state);
      (Receiver(kept.(frame := frame), rc.newPredictInput, false), delivered, rc.newPredictInput, true)
    else
      (rc.(holder := rc.holder.(frame := frame)), predictive, input, false)
  }

  /**
   * TryReceive of the earlier revision: the same transition on states, frames and inputs, without
   * the result; its setter leaves both swapped holders with no cached data.
   */
  function TryReceiveCore<S, In>(rc: Receiver<S, In>, frame: int, predictive: StateHolder.Holder<S>, input: In): (r: (Receiver<S, In>, StateHolder.Holder<S>, In))
    ensures var (rc', predictive', input', _) := TryReceive(rc, frame, predictive, input);
      r.0.holder.state == rc'.holder.state && r.0.holder.frame == rc'.holder.frame &&
      r.0.newPredictInput == rc'.newPredictInput && r.0.isReplaced == rc'.isReplaced &&
      r.1.state == predictive'.state && r.1.frame == predictive'.frame && r.2 == input'
    ensures rc.isReplaced ==> StateHolder.Cleared(r.0.holder) && StateHolder.Cleared(r.1)
    ensures !rc.isReplaced ==> r.1 == predictive && r.0 == rc.(holder := rc.holder.(frame := frame))
  {
    if rc.isReplaced then
      var delivered := StateHolder.SetState(predictive, rc.holder.state);
      var kept := StateHolder.SetState(rc.holder, predictive.state);
      (Receiver(kept.(frame := frame), rc.newPredictInput, false), delivered, rc.newPredictInput)
    else
      (rc.(holder := rc.holder.(frame := frame)), predictive, input)
  }

  /**
   * The hand-over: a state given at the agreed frame is received exactly once, together with the
   * input given with it, and the replacement holder gets back the state the receiver held. The
   * prediction holder keeps the bytes it had serialized for its old state.
   */
  lemma GiveThenReceiveOnce<S, In>(rc: Receiver<S, In>, replacement: StateHolder.Holder<S>, given: In,
                                    predictive: StateHolder.Holder<S>, stale: In, frame: int, next: int)
    requires replacement.frame == rc.holder.frame
    ensures var (rc1, replacement1, d) := TryGive(rc, replacement, given);
      var (rc2, predictive2, input2, first) := TryReceive(rc1, frame, predictive, stale);
      var (_, predictive3, input3, second) := TryReceive(rc2, next, predictive2, input2);
      d == 0 && replacement1.state == rc.holder.state &&
      first && predictive2.state == replacement.state && input2 == given &&
      !second && predictive3 == predictive2 && input3 == given &&
      predictive2.checksum.None? && predictive2.written == predictive.written
  {
  }

  /**
   * The replacement catches up: a replacement holder that is behind the receiver by n frames is
   * accepted once it has been updated n more times.
   */
  lemma CatchUpThenGive<S, I, In>(rc: Receiver<S, In>, replacement: StateHolder.Holder<S>, inputs: seq<I>,
                                   gameUpdate: (S, I) -> (S, Outcome<UpdateOutput>), given: In)
    requires rc.holder.frame - replacement.frame == |inputs|
    ensures TryGive(rc, StateHolder.Updates(replacement, inputs, gameUpdate).0, given).2 == 0
  {
    StateHolder.UpdatesAdvanceFrame(replacement, inputs, gameUpdate);
  }
}

=== FILE: result.dfy ===
/**
 * Result and Result<T> (src/Useful/Result.cs): the outcome of an operation that either
 * succeeded or failed with a message. `message` is the nullable message field; a result is a
 * success exactly when it holds no message. A C# `string` message is never null here.
 */
module Results {
  import opened Wrappers

  datatype Result = Result(message: Option<string>)
  {
    /** Success: no message is held. */
    predicate Success()
    {
      message.None?
    }

    /** Error: the message, or InvalidOperationException for a success. */
    function Error(): (r: Outcome<string>)
      ensures r.Throws? <==> Success()
      ensures r.Throws? ==> r.error == InvalidOperationException
      ensures r.Ok? ==> message == Some(r.value)
    {
      match message
      case Some(m) => Ok(m)
      case None => Throws(InvalidOperationException)
    }
  }

  /** FromFailure: a failed result reporting `message`. */
  function FromFailure(message: string): (r: Result)
    ensures !r.Success() && r.Error() == Ok(message)
  {
    Result(Some(message))
  }

  /** FromSuccess: a successful result, whose Error throws. */
  function FromSuccess(): (r: Result)
    ensures r.Success() && r.Error() == Throws(InvalidOperationException)
  {
    Result(None)
  }

  /** Every result is one of the two kinds, and the message a failure reports identifies it. */
  lemma ResultIsFailureOrSuccess(r: Result)
    ensures r.Success() ==> r == FromSuccess()
    ensures !r.Success() ==> r.Error().Ok? && r == FromFailure(r.Error().value)
  {
  }

  /**
   * Result<T>: `value` is the Value property, None standing for its default (null for a
   * reference type, the zero value for a value type).
   */
  datatype ValueResult<T> = ValueResult(value: Option<T>, message: Option<string>)
  {
    predicate Success()
    {
      message.None?
    }

    function Error(): (r: Outcome<string>)
      ensures r.Throws? <==> Success()
      ensures r.Throws? ==> r.error == InvalidOperationException
      ensures r.Ok? ==> message == Some(r.value)
    {
      match message
      case Some(m) => Ok(m)
      case None => Throws(InvalidOperationException)
    }

    /** Result<T>.FromFailure: a failure reporting `message`, with Value left at its default. */
    static function FromFailure(message: string): (r: ValueResult<T>)
      ensures !r.Success() && r.Error() == Ok(message) && r.value.None?
    {
      ValueResult(None, Some(message))
    }

    /** Result<T>.FromSuccess: a success holding `value`, whose Error throws. */
    static function FromSuccess(value: T): (r: ValueResult<T>)
      ensures r.Success() && r.value == Some(value)
      ensures r.Error() == Throws(InvalidOperationException)
    {
      ValueResult(Some(value), None)
    }
  }

  /** The implicit conversion from T: a success holding the converted value. */
  function Convert<T>(value: T): (r: ValueResult<T>)
    ensures r.Success() && r.value == Some(value)
  {
    ValueResult.FromSuccess(value)
  }

  /**
   * Every Result<T> is one of the two kinds: Error succeeds exactly on a failure, a failure without
   * a value is FromFailure of its own message, and a success with a value is FromSuccess of it.
   * A default-constructed Result<T> (no value, no message) reads as a success.
   */
  lemma ValueResultIsFailureOrSuccess<T>(r: ValueResult<T>)
    ensures r.Error().Ok? <==> !r.Success()
    ensures !r.Success() && r.value.None? ==> r == ValueResult<T>.FromFailure(r.Error().value)
    ensures r.Success() && r.value.Some? ==> r == ValueResult<T>.FromSuccess(r.value.value)
    ensures r.value.None? && r.message.None? ==> r.Success()
  {
  }
}

=== FILE: sequence_checks.dfy ===
/**
 * The tester's sequence checks (EnumerableExtensions in src/Tester/Utility.cs), over `int`
 * elements. Each check walks the sequence once; the two numeric checks report, on failure, the
 * pair of values that broke the rule and leave both at zero otherwise.
 */
module SequenceChecks {

  /** Every element is the first plus its position. */
  predicate Consecutive(s: seq<int>)
  {
    forall k :: 0 <= k < |s| ==> s[k] == s[0] + k
  }

  /** Every element equals its predecessor or exceeds it by one. */
  predicate AscendingWithoutGaps(s: seq<int>)
  {
    forall k :: 0 < k < |s| ==> s[k] == s[k - 1] || s[k] == s[k - 1] + 1
  }

  /** `self` is no longer than `other` and agrees with it position by position. */
  predicate PrefixOf(self: seq<int>, other: seq<int>)
  {
    |self| <= |other| && forall k :: 0 <= k < |self| ==> self[k] == other[k]
  }

  /**
   * IsConsecutive: true on the empty sequence; otherwise the expected value is advanced by one
   * per element after the first, and the first element that differs from it ends the walk,
   * reporting the expected value as `badPrevious` and the element as `badCurrent`.
   */
  method IsConsecutive(s: seq<int>) returns (ok: bool, badPrevious: int, badCurrent: int)
    ensures ok <==> Consecutive(s)
    ensures ok ==> badPrevious == 0 && badCurrent == 0
    ensures !ok ==> (exists k :: 0 < k < |s| && badPrevious == s[0] + k && badCurrent == s[k] &&
                                 badCurrent != badPrevious && Consecutive(s[..k]))
  {
    badPrevious, badCurrent := 0, 0;
    if |s| == 0 {
      return true, badPrevious, badCurrent;
    }
    var previous := s[0];
    var i := 1;
    while i < |s|
      invariant 1 <= i <= |s|
      invariant previous == s[0] + i - 1
      invariant Consecutive(s[..i])
    {
      previous := previous + 1;
      if previous != s[i] {
        assert s[..i + 1][..i] == s[..i];
        return false, previous, s[i];
      }
      assert forall k :: 0 <= k < i ==> s[..i + 1][k] == s[..i][k];
      i := i + 1;
    }
    assert s[..i] == s;
    return true, badPrevious, badCurrent;
  }

  /**
   * IsAscendingWithoutGaps: true on the empty sequence; otherwise the first element that neither
   * equals its predecessor nor exceeds it by one ends the walk, reporting both.
   */
  method IsAscendingWithoutGaps(s: seq<int>) returns (ok: bool, badPrevious: int, badCurrent: int)
    ensures ok <==> AscendingWithoutGaps(s)
    ensures ok ==> badPrevious == 0 && badCurrent == 0
    ensures !ok ==> (exists k :: 0 < k < |s| && badPrevious == s[k - 1] && badCurrent == s[k] &&
                                 badCurrent != badPrevious && badCurrent != badPrevious + 1 &&
                                 AscendingWithoutGaps(s[..k]))
  {
    badPrevious, badCurrent := 0, 0;
    if |s| == 0 {
      return true, badPrevious, badCurrent;
    }
    var previous := s[0];
    var i := 1;
    while i < |s|
      invariant 1 <= i <= |s|
      invariant previous == s[i - 1]
      invariant AscendingWithoutGaps(s[..i])
    {
      if previous != s[i] && previous + 1 != s[i] {
        return false, previous, s[i];
      }
      previous := s[i];
      i := i + 1;
    }
    assert s[..i] == s;
    return true, badPrevious, badCurrent;
  }

  /**
   * IsPrefixOf: walks `self`, stepping through `other` alongside; false as soon as `other` runs
   * out or differs, true when `self` is exhausted.
   */
  method IsPrefixOf(self: seq<int>, other: seq<int>) returns (ok: bool)
    ensures ok <==> PrefixOf(self, other)
  {
    var i := 0;
    while i < |self|
      invariant 0 <= i <= |self|
      invariant i <= |other|
      invariant forall k :: 0 <= k < i ==> self[k] == other[k]
    {
      if i >= |other| {
        return false;
      }
      if other[i] != self[i] {
        return false;
      }
      i := i + 1;
    }
    return true;
  }

  /** The empty sequence is a prefix of every sequence, and every sequence is a prefix of itself. */
  lemma PrefixOfReflexive(s: seq<int>)
    ensures PrefixOf([], s) && PrefixOf(s, s)
  {
  }

  /** PrefixOf is exactly being the leading part of the other sequence. */
  lemma PrefixOfIsLeadingPart(self: seq<int>, other: seq<int>)
    ensures PrefixOf(self, other) <==> |self| <= |other| && other[..|self|] == self
  {
    if |self| <= |other| && other[..|self|] == self {
      assert forall k :: 0 <= k < |self| ==> self[k] == other[..|self|][k];
    }
  }

  /** A consecutive sequence has no gaps, but a sequence without gaps may repeat a value. */
  lemma ConsecutiveHasNoGaps(s: seq<int>)
    ensures Consecutive(s) ==> AscendingWithoutGaps(s)
    ensures AscendingWithoutGaps([1, 1, 2]) && !Consecutive([1, 1, 2])
  {
    if Consecutive(s) {
      forall k | 0 < k < |s|
        ensures s[k] == s[k - 1] + 1
      {
        assert s[k] == s[0] + k && s[k - 1] == s[0] + (k - 1);
      }
    }
    assert [1, 1, 2][1] != [1, 1, 2][0] + 1;
  }
}

=== FILE: server_dispatcher.dfy ===
/**
 * DefaultServerDispatcher (src/IPTransportLayer/Dispatcher/DefaultServerDispatcher.cs): the
 * server half of the default protocol. It splits the client's input packets into input records
 * and lays out the three server messages. Transport headers are left as zero bytes, which the
 * transport fills in; MemoryPack payloads are opaque byte strings.
 */
module ServerDispatcher {
  import opened Wrappers
  import opened IntWidths
  import opened Bits
  import opened Protocol

  /** [id:long][frame:long] */
  const INITIALIZE_HEADER: nat := 2 * LONG_SIZE
  /** [frame:long][delay as double bits:long] */
  const INPUT_AUTHORED_HEADER: nat := 2 * LONG_SIZE
  /** [frame:long][checksum:long?] */
  const AUTHORITATIVE_INPUT_HEADER: nat := LONG_SIZE + NULLABLE_LONG_SIZE
  /** [frame:long][payload length:int], the head of every client input record */
  const INPUT_STRUCT_HEADER: nat := LONG_SIZE + INT_SIZE

  /** One client input: the frame and its serialized payload. */
  datatype InputRecord = InputRecord(frame: int, payload: seq<uint8>)
  {
    /** A long frame and a non-empty payload whose length an int holds: what the parser accepts. */
    predicate WellFormed()
    {
      IsInt64(frame) && 0 < |payload| <= INT32_MAX
    }
  }

  /** The OnAddInput event: client id, frame, input bytes. */
  datatype AddInput = AddInput(id: int, frame: int, input: seq<uint8>)

  /** The record layout `[frame:long][length:int][payload]`. */
  function Serialize(record: InputRecord): (r: seq<uint8>)
    requires record.WellFormed()
    ensures |r| == INPUT_STRUCT_HEADER + |record.payload|
  {
    Encode(record.frame, LONG_SIZE) + Encode(|record.payload|, INT_SIZE) + record.payload
  }

  function SerializeAll(records: seq<InputRecord>): (r: seq<uint8>)
    requires forall k :: 0 <= k < |records| ==> records[k].WellFormed()
  {
    if records == [] then [] else Serialize(records[0]) + SerializeAll(records[1..])
  }

  /**
   * HandleClientInput: reads `[frame:long][length:int][payload]` records while more than 12 bytes
   * remain, and stops at a non-positive length or when fewer than `length` bytes are left. What
   * it emits re-serializes to a prefix of the message, so it never reads past the buffer.
   */
  function ParseClientInput(message: seq<uint8>): (r: seq<InputRecord>)
    ensures forall k :: 0 <= k < |r| ==> r[k].WellFormed()
    ensures |SerializeAll(r)| <= |message| && message[..|SerializeAll(r)|] == SerializeAll(r)
    decreases |message|
  {
    if |message| <= INPUT_STRUCT_HEADER then []
    else
      var frame := ReadLong(message).value;
      var length := ReadInt(message[LONG_SIZE..]).value;
      var rest := message[INPUT_STRUCT_HEADER..];
      if length <= 0 then []
      else if |rest| < length then []
      else
        var record := InputRecord(frame, rest[..length]);
        var tail := ParseClientInput(rest[length..]);
        HeadIsSerialized(message, record);
        assert SerializeAll([record] + tail) == Serialize(record) + SerializeAll(tail) by {
          assert ([record] + tail)[1..] == tail;
        }
        [record] + tail
  }

  /** The bytes a parsed record came from are exactly its serialization. */
  lemma HeadIsSerialized(message: seq<uint8>, record: InputRecord)
    requires |message| > INPUT_STRUCT_HEADER
    requires record.frame == ReadLong(message).value
    requires ReadInt(message[LONG_SIZE..]).value == |record.payload| > 0
    requires |record.payload| <= |message| - INPUT_STRUCT_HEADER
    requires record.payload == message[INPUT_STRUCT_HEADER..][..|record.payload|]
    ensures record.WellFormed()
    ensures message[..INPUT_STRUCT_HEADER + |record.payload|] == Serialize(record)
  {
    WriteLongReadLong(message);
    WriteIntReadInt(message[LONG_SIZE..]);
    var n := |record.payload|;
    calc {
      message[..INPUT_STRUCT_HEADER + n];
      message[..LONG_SIZE] + message[LONG_SIZE..][..INT_SIZE] + message[INPUT_STRUCT_HEADER..][..n];
      Encode(record.frame, LONG_SIZE) + Encode(n, INT_SIZE) + record.payload;
    }
  }

  /** Parsing a serialized record, followed by anything, yields that record first. */
  lemma ParseSerialized(record: InputRecord, rest: seq<uint8>)
    requires record.WellFormed()
    ensures ParseClientInput(Serialize(record) + rest) == [record] + ParseClientInput(rest)
  {
    var message := Serialize(record) + rest;
    var n := |record.payload|;
    assert message == Encode(record.frame, LONG_SIZE) + (Encode(n, INT_SIZE) + record.payload + rest);
    ReadLongPrefix(record.frame, Encode(n, INT_SIZE) + record.payload + rest);
    assert message[LONG_SIZE..] == Encode(n, INT_SIZE) + (record.payload + rest);
    ReadIntPrefix(n, record.payload + rest);
    assert message[INPUT_STRUCT_HEADER..] == record.payload + rest;
    assert message[INPUT_STRUCT_HEADER..][..n] == record.payload;
    assert message[INPUT_STRUCT_HEADER..][n..] == rest;
  }

  /** The inductive step: a parse of the later records extends to a parse of them all. */
  lemma ParseSerializeCons(records: seq<InputRecord>, tail: seq<uint8>)
    requires records != [] && forall k :: 0 <= k < |records| ==> records[k].WellFormed()
    requires ParseClientInput(SerializeAll(records[1..]) + tail) == records[1..] + ParseClientInput(tail)
    ensures ParseClientInput(SerializeAll(records) + tail) == records + ParseClientInput(tail)
  {
    var rest := SerializeAll(records[1..]) + tail;
    SerializeAllCons(records, tail);
    ParseSerialized(records[0], rest);
    ConsAppend(records, ParseClientInput(tail));
  }

  lemma SerializeAllCons(records: seq<InputRecord>, tail: seq<uint8>)
    requires records != [] && forall k :: 0 <= k < |records| ==> records[k].WellFormed()
    ensures SerializeAll(records) + tail == Serialize(records[0]) + (SerializeAll(records[1..]) + tail)
  {
  }

  lemma ConsAppend<T>(xs: seq<T>, ys: seq<T>)
    requires xs != []
    ensures [xs[0]] + (xs[1..] + ys) == xs + ys
  {
  }

  /** Parsing well-formed serialized records, followed by anything, yields those records first. */
  lemma {:induction false} ParseSerializeAll(records: seq<InputRecord>, tail: seq<uint8>)
    requires forall k :: 0 <= k < |records| ==> records[k].WellFormed()
    ensures ParseClientInput(SerializeAll(records) + tail) == records + ParseClientInput(tail)
    decreases |records|
  {
    if records != [] {
      ParseSerializeAll(records[1..], tail);
      ParseSerializeCons(records, tail);
    } else {
      assert SerializeAll(records) + tail == tail;
    }
  }

  /** In particular a packet made only of serialized records parses back to exactly those records. */
  lemma ParseSerializeAllExactly(records: seq<InputRecord>)
    requires forall k :: 0 <= k < |records| ==> records[k].WellFormed()
    ensures ParseClientInput(SerializeAll(records)) == records
  {
    ParseSerializeAll(records, []);
    assert SerializeAll(records) + [] == SerializeAll(records);
  }

  /** The OnAddInput events raised for the records of one client, in order. */
  function AddInputs(id: int, records: seq<InputRecord>): (r: seq<AddInput>)
    ensures |r| == |records|
    ensures forall k :: 0 <= k < |r| ==> r[k] == AddInput(id, records[k].frame, records[k].payload)
  {
    if records == [] then []
    else
      var r := [AddInput(id, records[0].frame, records[0].payload)] + AddInputs(id, records[1..]);
      assert forall k :: 1 <= k < |r| ==> r[k] == AddInputs(id, records[1..])[k - 1];
      r
  }

  /** HandleMessage: an empty message is dropped; otherwise byte 0 is the type and only ClientInput is handled. */
  function HandleMessage(id: int, message: seq<uint8>): (r: seq<AddInput>)
    ensures |message| == 0 || TypeOf(message[0]) != Some(ClientInput) ==> r == []
    ensures |message| > 0 && TypeOf(message[0]) == Some(ClientInput) ==> r == AddInputs(id, ParseClientInput(message[1..]))
  {
    if |message| == 0 then []
    else
      match TypeOf(message[0])
      case Some(ClientInput) => AddInputs(id, ParseClientInput(message[1..]))
      case _ => []
  }

  /** WriteMessageHeader: the transport's header bytes, then the type byte. */
  function MessageHeader(preHeader: nat, t: MessageType): (r: seq<uint8>)
    ensures |r| == preHeader + 1 && r[preHeader] == Code(t)
  {
    Zeros(preHeader) + [Code(t)]
  }

  /** ConstructInitialize: `[reliable header][ServerInitialize][id:long][frame:long][state]`. */
  function ConstructInitialize(reliableHeader: nat, id: int, frame: int, state: seq<uint8>): (r: seq<uint8>)
    requires IsInt64(id) && IsInt64(frame)
    ensures |r| == reliableHeader + 1 + INITIALIZE_HEADER + |state|
    ensures r[reliableHeader] == Code(ServerInitialize)
    ensures ReadLong(r[reliableHeader + 1..]) == Ok(id)
    ensures ReadLong(r[reliableHeader + 1 + LONG_SIZE..]) == Ok(frame)
    ensures r[reliableHeader + 1 + INITIALIZE_HEADER..] == state
  {
    var body := Encode(id, LONG_SIZE) + Encode(frame, LONG_SIZE) + state;
    assert body == Encode(id, LONG_SIZE) + (Encode(frame, LONG_SIZE) + state);
    ReadLongPrefix(id, Encode(frame, LONG_SIZE) + state);
    assert body[LONG_SIZE..] == Encode(frame, LONG_SIZE) + state;
    ReadLongPrefix(frame, state);
    var r := MessageHeader(reliableHeader, ServerInitialize) + body;
    assert r[reliableHeader + 1..] == body;
    r
  }

  /** ConstructInputAuthored: `[unreliable header][ServerAuthorize][frame:long][delay as double bits:long]`. */
  function ConstructInputAuthored(unreliableHeader: nat, frame: int, differenceBits: int): (r: seq<uint8>)
    requires IsInt64(frame) && IsInt64(differenceBits)
    ensures |r| == unreliableHeader + 1 + INPUT_AUTHORED_HEADER
    ensures r[unreliableHeader] == Code(ServerAuthorize)
    ensures ReadLong(r[unreliableHeader + 1..]) == Ok(frame)
    ensures ReadLong(r[unreliableHeader + 1 + LONG_SIZE..]) == Ok(differenceBits)
  {
    var body := Encode(frame, LONG_SIZE) + Encode(differenceBits, LONG_SIZE);
    ReadLongPrefix(frame, Encode(differenceBits, LONG_SIZE));
    assert body[LONG_SIZE..] == Encode(differenceBits, LONG_SIZE) + [];
    ReadLongPrefix(differenceBits, []);
    var r := MessageHeader(unreliableHeader, ServerAuthorize) + body;
    assert r[unreliableHeader + 1..] == body;
    r
  }

  /** ConstructAuthoritativeInput: `[reliable header][ServerAuthInput][frame:long][checksum:long?][payload]`. */
  function ConstructAuthoritativeInput(reliableHeader: nat, frame: int, checksum: Option<int>, payload: seq<uint8>): (r: seq<uint8>)
    requires IsInt64(frame) && (checksum.Some? ==> IsInt64(checksum.value))
    ensures |r| == reliableHeader + 1 + AUTHORITATIVE_INPUT_HEADER + |payload|
    ensures r[reliableHeader] == Code(ServerAuthInput)
    ensures ReadLong(r[reliableHeader + 1..]) == Ok(frame)
    ensures ReadNullableLong(r[reliableHeader + 1 + LONG_SIZE..]) == Ok(checksum)
    ensures r[reliableHeader + 1 + AUTHORITATIVE_INPUT_HEADER..] == payload
  {
    var body := Encode(frame, LONG_SIZE) + EncodeNullableLong(checksum) + payload;
    assert body == Encode(frame, LONG_SIZE) + (EncodeNullableLong(checksum) + payload);
    ReadLongPrefix(frame, EncodeNullableLong(checksum) + payload);
    assert body[LONG_SIZE..] == EncodeNullableLong(checksum) + payload;
    ReadNullableLongPrefix(checksum, payload);
    var r := MessageHeader(reliableHeader, ServerAuthInput) + body;
    assert r[reliableHeader + 1..] == body;
    assert body[AUTHORITATIVE_INPUT_HEADER..] == payload;
    r
  }
}

=== FILE: shooter_avatar.dfy ===
/**
 * The TopDownShooter avatar (examples/TopDownShooter/Simulation/PlayerAvatar.cs, and its earlier
 * revision src/TopDownShooter/Game/Player.cs): a ten-slot ring buffer of past positions, a
 * velocity set by the input and halved by friction every frame, a hit test against a circle of
 * radius 32, and shooting, which respawns every other avatar hit. Positions are Vec2 of Fixed.
 * The simulation uses the Fixed and Vec2 of the Kcky.Useful package; they are taken to be the
 * src/Useful ones, so products follow the operator * as written (FixedPoint.MulAsWritten).
 */
module ShooterAvatar {
  import opened Wrappers
  import opened IntWidths
  import opened FixedPoint
  import Vec2

  /** Position.HistorySize. */
  const HISTORY_SIZE: int := 10

  /** MovementSpeed: 10. */
  const MOVEMENT_SPEED: Fixed := Fixed(10 * TWO_32)

  /** ColliderRadiusSquared: 32 * 32. */
  const COLLIDER_RADIUS_SQUARED: Fixed := Fixed(1024 * TWO_32)

  /** Friction: raw 2^31, one half. */
  const FRICTION: Fixed := Fixed(0x8000_0000)

  /** Position: the ring buffer of positions, `current` the slot of the latest one. */
  datatype History = History(slots: seq<Vec2.Vec>, current: int)
  {
    predicate Valid()
    {
      |slots| == HISTORY_SIZE && 0 <= current < HISTORY_SIZE
    }
  }

  /** A new Position: every slot (0, 0), slot 0 current. */
  function NewHistory(): (h: History)
    ensures h.Valid() && h.current == 0
    ensures forall k :: 0 <= k < HISTORY_SIZE ==> h.slots[k] == Vec2.ZERO
  {
    History(seq(HISTORY_SIZE, _ => Vec2.ZERO), 0)
  }

  /** Current: the latest position. */
  function Current(h: History): Vec2.Vec
    requires h.Valid()
  {
    h.slots[h.current]
  }

  /** Position.Update: the next slot, wrapping round, becomes current and holds the value. */
  function Record(h: History, v: Vec2.Vec): (r: History)
    requires h.Valid()
    ensures r.Valid() && Current(r) == v
    ensures r.current == (h.current + 1) % HISTORY_SIZE
    ensures forall k :: 0 <= k < HISTORY_SIZE && k != r.current ==> r.slots[k] == h.slots[k]
  {
    var c := (h.current + 1) % HISTORY_SIZE;
    History(h.slots[c := v], c)
  }

  /**
   * GetHistory: the position `-index` updates ago, for index in (-10, 0]; null for any other
   * index.
   */
  function GetHistory(h: History, index: int): (r: Option<Vec2.Vec>)
    requires h.Valid()
    ensures r.Some? <==> -HISTORY_SIZE < index <= 0
    ensures index == 0 ==> r == Some(Current(h))
  {
    if index > 0 || index <= -HISTORY_SIZE then None
    else Some(h.slots[(h.current + index + HISTORY_SIZE) % HISTORY_SIZE])
  }

  /** Recording a value shifts the history by one: what was `i` updates ago is now `i + 1` ago. */
  lemma RecordShifts(h: History, v: Vec2.Vec, index: int)
    requires h.Valid() && -HISTORY_SIZE < index < 0
    ensures GetHistory(Record(h, v), index) == GetHistory(h, index + 1)
  {
  }

  /** Values recorded one after another. */
  function RecordAll(h: History, values: seq<Vec2.Vec>): (r: History)
    requires h.Valid()
    ensures r.Valid()
    decreases |values|
  {
    if |values| == 0 then h else Record(RecordAll(h, values[..|values| - 1]), values[|values| - 1])
  }

  /**
   * The ring buffer remembers the last ten values: after recording `values`, GetHistory(-k)
   * is the value recorded k updates before the last one.
   */
  lemma {:induction false} RecordAllRemembers(h: History, values: seq<Vec2.Vec>, k: int)
    requires h.Valid() && 0 <= k < HISTORY_SIZE && k < |values|
    ensures GetHistory(RecordAll(h, values), -k) == Some(values[|values| - 1 - k])
    decreases |values|
  {
    if k > 0 {
      var init := values[..|values| - 1];
      RecordAllRemembers(h, init, k - 1);
      RecordShifts(RecordAll(h, init), values[|values| - 1], -k);
    }
  }

  /** PlayerAvatar: its entity and player ids, its position history and its velocity. */
  datatype Avatar = Avatar(entityId: int, playerId: int, history: History, velocity: Vec2.Vec)
  {
    predicate Valid()
    {
      history.Valid() && velocity.Valid()
    }
  }

  /** A new avatar: at the origin, at rest. */
  function NewAvatar(entityId: int, playerId: int): (a: Avatar)
    ensures a.Valid() && a.entityId == entityId && a.playerId == playerId
    ensures Current(a.history) == Vec2.ZERO && a.velocity == Vec2.ZERO
  {
    Avatar(entityId, playerId, NewHistory(), Vec2.ZERO)
  }

  /** The movement part of ClientInput: the horizontal and vertical axes, as sbytes. */
  datatype Movement = Movement(horizontal: int, vertical: int)

  /** Math.Sign. */
  function Sign(n: int): (r: int)
    ensures r in {-1, 0, 1} && (r < 0 <==> n < 0) && (r == 0 <==> n == 0)
  {
    if n < 0 then -1 else if n > 0 then 1 else 0
  }

  /**
   * An axis's velocity after the input: Sign(axis) * MovementSpeed when the axis is pressed,
   * written as the integer it equals (AxisVelocityIsProduct); otherwise kept.
   */
  function AxisVelocity(axis: int, v: Fixed): (r: Fixed)
    ensures axis > 0 ==> r == MOVEMENT_SPEED
    ensures axis < 0 ==> r == FromInt(-10)
    ensures axis == 0 ==> r == v
  {
    if axis != 0 then FromInt(10 * Sign(axis)) else v
  }

  /** A pressed axis's velocity is the fixed-point product Sign(axis) * MovementSpeed of the source. */
  lemma AxisVelocityIsProduct(axis: int, v: Fixed)
    requires axis != 0
    ensures AxisVelocity(axis, v) == MulAsWritten(FromInt(Sign(axis)), MOVEMENT_SPEED)
  {
    MulFromInt(Sign(axis), 10);
  }

  /** Half of a fixed-point value, rounded down. */
  function Halve(f: Fixed): Fixed
  {
    Fixed(f.raw / 2)
  }

  /**
   * Multiplying by Friction (raw 2^31) halves the raw value, rounding down, and never wraps: the
   * low halves' product stays below 2^63, so the operator as written is exact here.
   */
  lemma FrictionHalves(f: Fixed)
    requires f.Valid()
    ensures MulAsWritten(f, FRICTION) == Halve(f)
  {
    LowProductBelow(f.raw % TWO_32);
    DivDiv(f.raw * 0x8000_0000, 0x8000_0000, 2);
    assert f.raw * 0x8000_0000 / 0x8000_0000 == f.raw;
  }

  /** A low half times 2^31 stays below 2^63. */
  lemma LowProductBelow(ldw: int)
    requires 0 <= ldw < TWO_32
    ensures ldw * 0x8000_0000 <= INT64_MAX
  {
    MulNonNegative(TWO_32 - 1 - ldw, 0x8000_0000);
  }

  /** The frame's velocity: the pressed axes set to +-MovementSpeed, the others kept. */
  function Pushed(a: Avatar, input: Movement): Vec2.Vec
  {
    Vec2.Vec(AxisVelocity(input.horizontal, a.velocity.x), AxisVelocity(input.vertical, a.velocity.y))
  }

  /**
   * Update: the position moves by the frame's velocity (the pressed axes at +-10, the others as
   * they were) and is recorded as the newest in the history, every older position moving one
   * step back; then Friction halves the velocity.
   */
  function Update(a: Avatar, input: Movement): (r: Avatar)
    requires a.Valid()
    ensures r.Valid() && r.entityId == a.entityId && r.playerId == a.playerId
    ensures Current(r.history) == Vec2.Add(Current(a.history), Pushed(a, input))
    ensures forall index :: -HISTORY_SIZE < index < 0 ==> GetHistory(r.history, index) == GetHistory(a.history, index + 1)
    ensures r.velocity == Vec2.Vec(Halve(Pushed(a, input).x), Halve(Pushed(a, input).y))
  {
    var v := Pushed(a, input);
    a.(history := Record(a.history, Vec2.Add(Current(a.history), v)), velocity := Vec2.Vec(Halve(v.x), Halve(v.y)))
  }

  /** The halved velocity is the source's `velocity *= Friction`, the vector scaled by the fixed-point Friction. */
  lemma UpdateAppliesFriction(a: Avatar, input: Movement)
    requires a.Valid()
    ensures Update(a, input).velocity == Vec2.Scale(Pushed(a, input), FRICTION)
  {
    FrictionHalves(Pushed(a, input).x);
    FrictionHalves(Pushed(a, input).y);
  }

  /** From rest at the origin, holding right for a frame moves the avatar to (10, 0) and leaves it at speed 5. */
  lemma MoveRightFromRest(entityId: int, playerId: int)
    ensures var a := Update(NewAvatar(entityId, playerId), Movement(1, 0));
      Current(a.history) == Vec2.Vec(FromInt(10), FromInt(0)) && a.velocity == Vec2.Vec(FromInt(5), FromInt(0))
  {
  }

  /** Respawn: the current position and the velocity become zero. */
  function Respawn(a: Avatar): (r: Avatar)
    requires a.Valid()
    ensures r.Valid() && Current(r.history) == Vec2.ZERO && r.velocity == Vec2.ZERO
    ensures r.entityId == a.entityId && r.playerId == a.playerId && r.history.current == a.history.current
  {
    a.(history := a.history.(slots := a.history.slots[a.history.current := Vec2.ZERO]), velocity := Vec2.ZERO)
  }

  /** Respawning rewrites only the latest position: the older ones in the history are kept. */
  lemma RespawnKeepsOlder(a: Avatar, index: int)
    requires a.Valid() && index != 0
    ensures GetHistory(Respawn(a).history, index) == GetHistory(a.history, index)
  {
  }

  /** Respawning twice is respawning once. */
  lemma RespawnIdempotent(a: Avatar)
    requires a.Valid()
    ensures Respawn(Respawn(a)) == Respawn(a)
  {
  }

  /** CheckHit: the end of the ray from `origin` lies within the collider circle around the target. */
  predicate CheckHit(origin: Vec2.Vec, ray: Vec2.Vec, target: Vec2.Vec)
  {
    var diff := Vec2.Sub(Vec2.Add(origin, ray), target);
    LessEq(Vec2.Dot(diff, diff), COLLIDER_RADIUS_SQUARED)
  }

  /** The square of a raw value below 2^47 in magnitude, scaled back, stays below 2^62. */
  lemma SquareBound(d: int)
    requires -0x8000_0000_0000 < d < 0x8000_0000_0000
    ensures 0 <= d * d / TWO_32 < 0x4000_0000_0000_0000
  {
    var m := if d < 0 then -d else d;
    assert d * d == m * m;
    MulNonNegative(m, m);
    MulNonNegative(0x8000_0000_0000 - m, m);
    MulNonNegative(0x8000_0000_0000 - m, 0x8000_0000_0000);
    assert m * m < 0x8000_0000_0000 * 0x8000_0000_0000;
  }

  /**
   * How much the operator as written loses when squaring a raw value: one unit (2^32 raw) when
   * the square of its low half reaches 2^63, nothing otherwise.
   */
  function Shortfall(d: int): (e: int)
    ensures e == 0 || e == TWO_32
  {
    if (d % TWO_32) * (d % TWO_32) > INT64_MAX then TWO_32 else 0
  }

  /**
   * While the ray's end is less than 2^15 away from the target along each axis (and the sums
   * do not wrap), CheckHit compares the squared distance, in units of 2^-32 rounded down per
   * axis and less each axis's shortfall, with 32^2. So a target within the radius is always
   * hit, and a hit target is within a squared distance of 32^2 + 2.
   */
  lemma CheckHitIsDistance(origin: Vec2.Vec, ray: Vec2.Vec, target: Vec2.Vec)
    requires origin.Valid() && ray.Valid() && target.Valid()
    requires var dx := origin.x.raw + ray.x.raw - target.x.raw;
      var dy := origin.y.raw + ray.y.raw - target.y.raw;
      IsInt64(origin.x.raw + ray.x.raw) && IsInt64(origin.y.raw + ray.y.raw) &&
      -0x8000_0000_0000 < dx < 0x8000_0000_0000 && -0x8000_0000_0000 < dy < 0x8000_0000_0000
    ensures var dx := origin.x.raw + ray.x.raw - target.x.raw;
      var dy := origin.y.raw + ray.y.raw - target.y.raw;
      CheckHit(origin, ray, target) <==>
        dx * dx / TWO_32 - Shortfall(dx) + dy * dy / TWO_32 - Shortfall(dy) <= 1024 * TWO_32
    ensures var dx := origin.x.raw + ray.x.raw - target.x.raw;
      var dy := origin.y.raw + ray.y.raw - target.y.raw;
      (dx * dx / TWO_32 + dy * dy / TWO_32 <= 1024 * TWO_32 ==> CheckHit(origin, ray, target)) &&
      (CheckHit(origin, ray, target) ==> dx * dx / TWO_32 + dy * dy / TWO_32 <= 1026 * TWO_32)
  {
    var diff := Vec2.Sub(Vec2.Add(origin, ray), target);
    var dx := origin.x.raw + ray.x.raw - target.x.raw;
    var dy := origin.y.raw + ray.y.raw - target.y.raw;
    assert diff.x.raw == dx && diff.y.raw == dy;
    SquareAsWritten(diff.x);
    SquareAsWritten(diff.y);
  }

  /** The square of a raw value below 2^47 in magnitude, as written: the scaled square less the shortfall. */
  lemma SquareAsWritten(d: Fixed)
    requires -0x8000_0000_0000 < d.raw < 0x8000_0000_0000
    ensures MulAsWritten(d, d).raw == d.raw * d.raw / TWO_32 - Shortfall(d.raw)
    ensures 0 <= d.raw * d.raw / TWO_32 < 0x4000_0000_0000_0000
  {
    SquareBound(d.raw);
  }

  /**
   * Whether the avatar at `target` is hit by a shot from `origin` along `ray` at history index
   * `index`, the positions read from `avatars` as they are before the shot: it is not the
   * shooter and it has a position at that index within the collider radius of the ray's end.
   */
  predicate IsHit(avatars: map<int, Avatar>, shooter: int, origin: Vec2.Vec, ray: Vec2.Vec, index: int, target: int)
    requires target in avatars && avatars[target].Valid()
  {
    target != shooter &&
    GetHistory(avatars[target].history, index).Some? &&
    CheckHit(origin, ray, GetHistory(avatars[target].history, index).value)
  }

  /** Every avatar in the map is well formed. */
  predicate AllValid(avatars: map<int, Avatar>)
  {
    forall e :: e in avatars ==> avatars[e].Valid()
  }

  /** `after` holds the avatars of `before`, well formed and with the same ids, wherever they now stand. */
  predicate SameAvatars(before: map<int, Avatar>, after: map<int, Avatar>)
  {
    after.Keys == before.Keys &&
    forall e :: e in after ==>
      after[e].Valid() && after[e].entityId == before[e].entityId && after[e].playerId == before[e].playerId
  }

  /**
   * The loop of Shoot over the avatar list (entity ids, all in the map): each entry other than
   * the shooter with a position at `index` that the shot hits is respawned, read as it is when
   * its turn comes.
   */
  function ShootAt(avatars: map<int, Avatar>, shooter: int, origin: Vec2.Vec, ray: Vec2.Vec, index: int, targets: seq<int>): (r: map<int, Avatar>)
    requires AllValid(avatars) && forall k :: 0 <= k < |targets| ==> targets[k] in avatars
    ensures AllValid(r) && SameAvatars(avatars, r)
    decreases |targets|
  {
    if |targets| == 0 then avatars
    else
      var before := ShootAt(avatars, shooter, origin, ray, index, targets[..|targets| - 1]);
      var e := targets[|targets| - 1];
      if e == shooter then before
      else
        var position := GetHistory(before[e].history, index);
        if position.None? || !CheckHit(origin, ray, position.value) then before
        else before[e := Respawn(before[e])]
  }

  /**
   * Shooting is order-independent: after the loop, an avatar is respawned exactly when it is in
   * the list and was hit as the avatars stood before the shot; every other avatar is unchanged.
   */
  lemma {:induction false} ShootAtRespawnsHit(avatars: map<int, Avatar>, shooter: int, origin: Vec2.Vec, ray: Vec2.Vec,
                                               index: int, targets: seq<int>, e: int)
    requires AllValid(avatars) && forall k :: 0 <= k < |targets| ==> targets[k] in avatars
    requires e in avatars
    ensures ShootAt(avatars, shooter, origin, ray, index, targets)[e] ==
      if e in targets && IsHit(avatars, shooter, origin, ray, index, e) then Respawn(avatars[e]) else avatars[e]
    decreases |targets|
  {
    if |targets| > 0 {
      var init := targets[..|targets| - 1];
      var last := targets[|targets| - 1];
      ShootAtRespawnsHit(avatars, shooter, origin, ray, index, init, e);
      if e == last && e != shooter {
        var before := ShootAt(avatars, shooter, origin, ray, index, init);
        if e in init && IsHit(avatars, shooter, origin, ray, index, e) {
          RespawnIdempotent(avatars[e]);
          assert before[e] == Respawn(avatars[e]);
          if index != 0 {
            RespawnKeepsOlder(avatars[e], index);
          }
        }
      }
      assert e in targets <==> e in init || e == last;
    }
  }

  /**
   * Shoot: nothing happens when the shooter has no position at `index`; otherwise the shot goes
   * from that position along `ray`, and the avatars in the list are tested one by one.
   */
  function Shoot(avatars: map<int, Avatar>, shooter: int, ray: Vec2.Vec, targets: seq<int>, index: int): (r: map<int, Avatar>)
    requires AllValid(avatars) && shooter in avatars && forall k :: 0 <= k < |targets| ==> targets[k] in avatars
    ensures AllValid(r) && SameAvatars(avatars, r)
    ensures GetHistory(avatars[shooter].history, index).None? ==> r == avatars
  {
    var position := GetHistory(avatars[shooter].history, index);
    if position.None? then avatars
    else ShootAt(avatars, shooter, position.value, ray, index, targets)
  }

  /**
   * What a shot does to each avatar: when the shooter has a position at `index`, the avatar is
   * respawned exactly when it is in the list and the shot from that position hits it as the
   * avatars stood before the shot; otherwise, and to every avatar the shot misses, nothing.
   */
  lemma ShootRespawnsHit(avatars: map<int, Avatar>, shooter: int, ray: Vec2.Vec, targets: seq<int>, index: int, e: int)
    requires AllValid(avatars) && shooter in avatars && forall k :: 0 <= k < |targets| ==> targets[k] in avatars
    requires e in avatars
    ensures var origin := GetHistory(avatars[shooter].history, index);
      Shoot(avatars, shooter, ray, targets, index)[e] ==
        if origin.Some? && e in targets && IsHit(avatars, shooter, origin.value, ray, index, e) then Respawn(avatars[e])
        else avatars[e]
  {
    var origin := GetHistory(avatars[shooter].history, index);
    if origin.Some? {
      ShootAtRespawnsHit(avatars, shooter, origin.value, ray, index, targets, e);
    }
  }
}

=== FILE: shooter_game.dfy ===
/**
 * The TopDownShooter game state (examples/TopDownShooter/Simulation/GameState.cs): clients mapped
 * to their avatars, and an entity counter handing out avatar ids. An update moves every avatar
 * named in the input (creating avatars for new clients and dropping disconnected ones), then
 * respawns the avatars whose clients pressed Start, then lets every shooting client shoot at
 * the avatars moved this frame.
 *
 * The avatars are objects shared between the client map and the per-frame avatar list; the model
 * keeps them in a store indexed by entity id, the list holding entity ids, and after the update
 * keeps in the store exactly the avatars still owned by a client.
 */
module ShooterGame {
  import opened Wrappers
  import opened IntWidths
  import opened FixedPoint
  import Vec2
  import opened GameTypes
  import opened ShooterAvatar

  /** ClientInput: the two axes (sbytes), Start, Shoot, the shot's ray and how many frames back it aims. */
  datatype ClientInput = ClientInput(horizontal: int, vertical: int, start: bool, shoot: bool,
                                     shootX: int, shootY: int, shootFrameOffset: int)
  {
    predicate Valid()
    {
      IsInt32(shootX) && IsInt32(shootY) && IsInt32(shootFrameOffset)
    }
  }

  /** The server sends no input to this game. */
  datatype ServerInput = ServerInput

  predicate InputsValid(infos: seq<ClientInfo<ClientInput>>)
  {
    forall k :: 0 <= k < |infos| ==> infos[k].input.Valid()
  }

  /** One entry per client, as the framework delivers them. */
  predicate DistinctIds(infos: seq<ClientInfo<ClientInput>>)
  {
    forall i, j :: 0 <= i < j < |infos| ==> infos[i].id != infos[j].id
  }

  function MovementOf(input: ClientInput): Movement
  {
    Movement(input.horizontal, input.vertical)
  }

  /** Every stored avatar is well formed, carries its own entity id, and that id was handed out. */
  predicate StoreValid(avatars: map<int, Avatar>, counter: int)
  {
    forall e :: e in avatars ==> 0 <= e < counter && avatars[e].Valid() && avatars[e].entityId == e
  }

  /** Every client's avatar is stored and belongs to that client. */
  predicate ClientsValid(clients: map<int, int>, avatars: map<int, Avatar>)
  {
    forall c :: c in clients ==> clients[c] in avatars && avatars[clients[c]].playerId == c
  }

  /** Every stored avatar is the avatar of its player. */
  predicate Owned(clients: map<int, int>, avatars: map<int, Avatar>)
  {
    forall e :: e in avatars ==> avatars[e].playerId in clients && clients[avatars[e].playerId] == e
  }

  /** GameState: client id to entity id, entity id to avatar, and the next entity id. */
  datatype GameState = GameState(clients: map<int, int>, avatars: map<int, Avatar>, entityCounter: int)
  {
    predicate Valid()
    {
      0 <= entityCounter && StoreValid(avatars, entityCounter) && ClientsValid(clients, avatars) && Owned(clients, avatars)
    }
  }

  /** A new game: no clients, the counter at 0. */
  function Create(): (s: GameState)
    ensures s.Valid() && s.clients == map[] && s.entityCounter == 0
  {
    GameState(map[], map[], 0)
  }

  /** The state during the movement phase: the avatar list of the frame is `moved`. */
  datatype Work = Work(clients: map<int, int>, avatars: map<int, Avatar>, counter: int, moved: seq<int>)
  {
    predicate Valid()
    {
      0 <= counter && StoreValid(avatars, counter) && ClientsValid(clients, avatars) &&
      forall k :: 0 <= k < |moved| ==> moved[k] in avatars
    }
  }

  /**
   * The avatar an entry of client `id` updates: the client's own, or, for a client not in the
   * map, a new avatar with the entity id `newId`.
   */
  function Base(w: Work, id: int, newId: int): (a: Avatar)
    requires w.Valid()
    ensures a.Valid() && a.playerId == id
    ensures id in w.clients ==> a == w.avatars[w.clients[id]]
    ensures id !in w.clients ==> a == NewAvatar(newId, id)
  {
    if id in w.clients then
      var e := w.clients[id];
      w.avatars[e]
    else NewAvatar(newId, id)
  }

  /**
   * UpdatePlayerAvatar for one entry: a client seen for the first time gets a new avatar with
   * the next entity id; a disconnected client is removed from the map; the avatar is updated
   * with the input either way and appended to the frame's list. Avatars of other players are
   * untouched.
   */
  function MoveOne(w: Work, info: ClientInfo<ClientInput>): (r: Work)
    requires w.Valid()
    ensures r.Valid() && w.counter <= r.counter && w.avatars.Keys <= r.avatars.Keys
    ensures |r.moved| == |w.moved| + 1 && r.moved[..|w.moved|] == w.moved
    ensures var e := r.moved[|w.moved|];
      r.avatars[e] == ShooterAvatar.Update(Base(w, info.id, w.counter), MovementOf(info.input)) &&
      (info.id in w.clients ==> e == w.clients[info.id] && r.counter == w.counter) &&
      (info.id !in w.clients ==> e == w.counter && r.counter == w.counter + 1)
    ensures info.terminated ==> r.clients == w.clients - {info.id}
    ensures !info.terminated ==> r.clients == w.clients[info.id := r.moved[|w.moved|]]
    ensures forall e :: e in w.avatars && w.avatars[e].playerId != info.id ==> r.avatars[e] == w.avatars[e]
  {
    var e := if info.id in w.clients then w.clients[info.id] else w.counter;
    var moved := ShooterAvatar.Update(Base(w, info.id, w.counter), MovementOf(info.input));
    assert moved.Valid() && moved.entityId == e && moved.playerId == info.id;
    var clients := if info.terminated then w.clients - {info.id} else w.clients[info.id := e];
    var r := Work(clients, w.avatars[e := moved], if info.id in w.clients then w.counter else w.counter + 1, w.moved + [e]);
    assert r.moved[..|w.moved|] == w.moved;
    assert StoreValid(r.avatars, r.counter) by {
      forall x | x in r.avatars
        ensures 0 <= x < r.counter && r.avatars[x].Valid() && r.avatars[x].entityId == x
      {
        if x != e {
          assert x in w.avatars && r.avatars[x] == w.avatars[x];
        }
      }
    }
    assert ClientsValid(r.clients, r.avatars);
    r
  }

  /** The movement loop over the entries, starting from an empty avatar list. */
  function MoveAll(w: Work, infos: seq<ClientInfo<ClientInput>>): (r: Work)
    requires w.Valid() && w.moved == []
    ensures r.Valid() && w.counter <= r.counter && w.avatars.Keys <= r.avatars.Keys && |r.moved| == |infos|
    decreases |infos|
  {
    if |infos| == 0 then w else MoveOne(MoveAll(w, infos[..|infos| - 1]), infos[|infos| - 1])
  }

  /** Entry k's avatar, the k-th of the frame's list, belongs to entry k's client. */
  lemma {:induction false} MoveAllOwner(w: Work, infos: seq<ClientInfo<ClientInput>>, k: int)
    requires w.Valid() && w.moved == [] && 0 <= k < |infos|
    ensures var r := MoveAll(w, infos); r.avatars[r.moved[k]].playerId == infos[k].id
    decreases |infos|
  {
    var init := infos[..|infos| - 1];
    if k < |init| {
      MoveAllOwner(w, init, k);
      var m := MoveAll(w, init);
      assert MoveAll(w, infos).moved[k] == m.moved[k];
      assert init[k] == infos[k];
      MoveOneKeepsOwner(m, infos[|infos| - 1], m.moved[k]);
    }
  }

  /** MoveAllOwner's step: an entry never hands a stored avatar to another player. */
  lemma MoveOneKeepsOwner(m: Work, info: ClientInfo<ClientInput>, e: int)
    requires m.Valid() && e in m.avatars
    ensures MoveOne(m, info).avatars[e].playerId == m.avatars[e].playerId
  {
    if m.avatars[e].playerId == info.id {
      assert info.id in m.clients ==> m.avatars[m.clients[info.id]].playerId == info.id;
    }
  }

  /** The avatars of players without an entry are not touched by the movement loop. */
  lemma {:induction false} MoveAllOthers(w: Work, infos: seq<ClientInfo<ClientInput>>, e: int)
    requires w.Valid() && w.moved == [] && e in w.avatars && w.avatars[e].playerId !in IdSet(infos)
    ensures MoveAll(w, infos).avatars[e] == w.avatars[e]
    decreases |infos|
  {
    if |infos| > 0 {
      MoveAllOthers(w, infos[..|infos| - 1], e);
    }
  }

  /** A client without an entry stays, or stays away, with the same avatar id. */
  lemma {:induction false} MoveAllAbsent(w: Work, infos: seq<ClientInfo<ClientInput>>, c: int)
    requires w.Valid() && w.moved == [] && c !in IdSet(infos)
    ensures var r := MoveAll(w, infos);
      (c in r.clients <==> c in w.clients) && (c in w.clients ==> r.clients[c] == w.clients[c])
    decreases |infos|
  {
    if |infos| > 0 {
      MoveAllAbsent(w, infos[..|infos| - 1], c);
    }
  }

  /**
   * With one entry per client, entry k's avatar (the k-th of the frame's list) is the client's
   * avatar moved by its input, or a new avatar with an id not handed out before, moved; the
   * client stays in the map, with that avatar, exactly when it did not disconnect.
   */
  lemma {:induction false} MoveAllEntry(w: Work, infos: seq<ClientInfo<ClientInput>>, k: int)
    requires w.Valid() && w.moved == [] && DistinctIds(infos) && 0 <= k < |infos|
    ensures var r := MoveAll(w, infos);
      var c, e := infos[k].id, r.moved[k];
      r.avatars[e] == ShooterAvatar.Update(Base(w, c, e), MovementOf(infos[k].input)) &&
      (c in w.clients ==> e == w.clients[c]) && (c !in w.clients ==> w.counter <= e) &&
      (c in r.clients <==> !infos[k].terminated) &&
      (c in r.clients ==> r.clients[c] == e)
    decreases |infos|
  {
    var init := infos[..|infos| - 1];
    var last := infos[|infos| - 1];
    var m := MoveAll(w, init);
    var c := infos[k].id;
    if k == |infos| - 1 {
      MoveAllLast(w, infos);
    } else {
      assert init[k] == infos[k];
      MoveAllEntry(w, init, k);
      MoveAllOwner(w, init, k);
      MoveOneKeeps(m, last, c, m.moved[k]);
      assert MoveOne(m, last).moved[k] == m.moved[k];
    }
  }

  /** An entry of another client leaves a client's map entry and avatar as they were. */
  lemma MoveOneKeeps(m: Work, info: ClientInfo<ClientInput>, c: int, e: int)
    requires m.Valid() && e in m.avatars && m.avatars[e].playerId == c && c != info.id
    ensures var r := MoveOne(m, info);
      r.avatars[e] == m.avatars[e] && (c in r.clients <==> c in m.clients) && (c in m.clients ==> r.clients[c] == m.clients[c])
  {
  }

  /** MoveAllEntry for the last entry, whose client no earlier entry names. */
  lemma MoveAllLast(w: Work, infos: seq<ClientInfo<ClientInput>>)
    requires w.Valid() && w.moved == [] && DistinctIds(infos) && 0 < |infos|
    ensures var r := MoveAll(w, infos);
      var k := |infos| - 1;
      var c, e := infos[k].id, r.moved[k];
      r.avatars[e] == ShooterAvatar.Update(Base(w, c, e), MovementOf(infos[k].input)) &&
      (c in w.clients ==> e == w.clients[c]) && (c !in w.clients ==> w.counter <= e) &&
      (c in r.clients <==> !infos[k].terminated) &&
      (c in r.clients ==> r.clients[c] == e)
  {
    var init := infos[..|infos| - 1];
    var last := infos[|infos| - 1];
    var m := MoveAll(w, init);
    var c := last.id;
    forall j | 0 <= j < |init|
      ensures init[j].id != c
    {
      assert init[j] == infos[j];
    }
    IdSetMembers(init, c);
    MoveAllAbsent(w, init, c);
    var r := MoveOne(m, last);
    var e := r.moved[|init|];
    if c in w.clients {
      MoveAllOthers(w, init, w.clients[c]);
      assert Base(m, c, m.counter) == Base(w, c, e);
    } else {
      assert Base(m, c, m.counter) == Base(w, c, e);
    }
  }

  /** Whether the entry makes the avatar `e` respawn: Start pressed by a connected client whose avatar it is. */
  predicate Respawns(clients: map<int, int>, info: ClientInfo<ClientInput>, e: int)
  {
    info.input.start && !info.terminated && info.id in clients && clients[info.id] == e
  }

  /** The respawn loop. */
  function RespawnAll(clients: map<int, int>, avatars: map<int, Avatar>, infos: seq<ClientInfo<ClientInput>>): (r: map<int, Avatar>)
    requires AllValid(avatars) && forall c :: c in clients ==> clients[c] in avatars
    ensures AllValid(r) && SameAvatars(avatars, r)
    decreases |infos|
  {
    if |infos| == 0 then avatars
    else
      var before := RespawnAll(clients, avatars, infos[..|infos| - 1]);
      var last := infos[|infos| - 1];
      if last.input.start && !last.terminated && last.id in clients
      then
        var e := clients[last.id];
        before[e := Respawn(before[e])]
      else before
  }

  /** An avatar is respawned exactly when some entry respawns it, however many entries do. */
  lemma {:induction false} RespawnAllAt(clients: map<int, int>, avatars: map<int, Avatar>, infos: seq<ClientInfo<ClientInput>>, e: int)
    requires AllValid(avatars) && forall c :: c in clients ==> clients[c] in avatars
    requires e in avatars
    ensures RespawnAll(clients, avatars, infos)[e] ==
      if exists k :: 0 <= k < |infos| && Respawns(clients, infos[k], e) then Respawn(avatars[e]) else avatars[e]
    decreases |infos|
  {
    if |infos| > 0 {
      var init := infos[..|infos| - 1];
      RespawnAllAt(clients, avatars, init, e);
      RespawnIdempotent(avatars[e]);
      if exists k :: 0 <= k < |init| && Respawns(clients, init[k], e) {
        var k :| 0 <= k < |init| && Respawns(clients, init[k], e);
        assert Respawns(clients, infos[k], e);
      }
      if exists k :: 0 <= k < |infos| && Respawns(clients, infos[k], e) {
        var k :| 0 <= k < |infos| && Respawns(clients, infos[k], e);
        if k < |init| {
          assert Respawns(clients, init[k], e);
        }
      }
    }
  }

  /** The shot of an entry: the ray (ShootX, ShootY) and the history index -ShootFrameOffset, as ints wrap. */
  function Ray(input: ClientInput): Vec2.Vec
    requires input.Valid()
  {
    Vec2.Vec(FromInt(input.shootX), FromInt(input.shootY))
  }

  function HistoryIndex(input: ClientInput): int
  {
    Wrap32(-input.shootFrameOffset)
  }

  /** Whether the entry shoots: Shoot pressed by a connected client that has an avatar. */
  predicate Shoots(clients: map<int, int>, info: ClientInfo<ClientInput>)
  {
    info.input.shoot && !info.terminated && info.id in clients
  }

  /** The shooting loop: every shooting client shoots at the frame's avatar list. With nobody shooting nothing changes. */
  function ShootAll(clients: map<int, int>, avatars: map<int, Avatar>, moved: seq<int>, infos: seq<ClientInfo<ClientInput>>): (r: map<int, Avatar>)
    requires AllValid(avatars) && InputsValid(infos)
    requires forall c :: c in clients ==> clients[c] in avatars
    requires forall k :: 0 <= k < |moved| ==> moved[k] in avatars
    ensures AllValid(r) && SameAvatars(avatars, r)
    ensures (forall k :: 0 <= k < |infos| ==> !Shoots(clients, infos[k])) ==> r == avatars
    decreases |infos|
  {
    if |infos| == 0 then avatars
    else
      var init := infos[..|infos| - 1];
      var last := infos[|infos| - 1];
      assert forall k :: 0 <= k < |init| ==> init[k] == infos[k];
      var before := ShootAll(clients, avatars, moved, init);
      if Shoots(clients, last)
      then ShooterAvatar.Shoot(before, clients[last.id], Ray(last.input), moved, HistoryIndex(last.input))
      else before
  }

  /** Shooting only ever respawns: each avatar ends as it was or respawned. */
  lemma {:induction false} ShootAllAt(clients: map<int, int>, avatars: map<int, Avatar>, moved: seq<int>, infos: seq<ClientInfo<ClientInput>>, e: int)
    requires AllValid(avatars) && InputsValid(infos)
    requires forall c :: c in clients ==> clients[c] in avatars
    requires forall k :: 0 <= k < |moved| ==> moved[k] in avatars
    requires e in avatars
    ensures var r := ShootAll(clients, avatars, moved, infos);
      r[e] == avatars[e] || r[e] == Respawn(avatars[e])
    decreases |infos|
  {
    if |infos| > 0 {
      var init := infos[..|infos| - 1];
      var last := infos[|infos| - 1];
      assert forall k :: 0 <= k < |init| ==> init[k] == infos[k];
      ShootAllAt(clients, avatars, moved, init, e);
      RespawnIdempotent(avatars[e]);
      if Shoots(clients, last) {
        var before := ShootAll(clients, avatars, moved, init);
        ShootRespawnsHit(before, clients[last.id], Ray(last.input), moved, HistoryIndex(last.input), e);
      }
    }
  }

  /** The avatars owned by a client; the others are dropped. */
  function Owners(clients: map<int, int>, avatars: map<int, Avatar>): (r: map<int, Avatar>)
    ensures r.Keys <= avatars.Keys && Owned(clients, r)
    ensures forall e :: e in r ==> r[e] == avatars[e]
    ensures forall e :: e in avatars && avatars[e].playerId in clients && clients[avatars[e].playerId] == e ==> e in r
  {
    map e | e in avatars && avatars[e].playerId in clients && clients[avatars[e].playerId] == e :: avatars[e]
  }

  /** The three loops of an update: movement, respawn, shooting; then the unowned avatars are dropped. */
  function Update(s: GameState, input: UpdateInput<ClientInput, ServerInput>): (r: (GameState, UpdateOutput))
    requires s.Valid() && InputsValid(input.clientInput)
    ensures r.0.Valid() && r.1 == EMPTY_OUTPUT && s.entityCounter <= r.0.entityCounter
  {
    var m := Moved(s, input.clientInput);
    var respawned := RespawnAll(m.clients, m.avatars, input.clientInput);
    var shot := ShootAll(m.clients, respawned, m.moved, input.clientInput);
    var kept := Owners(m.clients, shot);
    assert ClientsValid(m.clients, kept) by {
      forall c | c in m.clients
        ensures m.clients[c] in kept && kept[m.clients[c]].playerId == c
      {
        var e := m.clients[c];
        assert e in m.avatars && m.avatars[e].playerId == c;
        assert respawned[e].playerId == c;
        assert shot[e].playerId == c;
      }
    }
    (GameState(m.clients, kept, m.counter), EMPTY_OUTPUT)
  }

  /** The frame's movement loop, from the state before the update. */
  function Moved(s: GameState, infos: seq<ClientInfo<ClientInput>>): (m: Work)
    requires s.Valid()
  {
    MoveAll(Work(s.clients, s.avatars, s.entityCounter, []), infos)
  }

  /**
   * What the respawn and shooting loops do to an avatar still owned after the movement loop:
   * it is respawned if some entry respawns it, and then possibly respawned by a shot; when
   * nobody shoots, only the first.
   */
  lemma AfterMoving(s: GameState, input: UpdateInput<ClientInput, ServerInput>, e: int)
    requires s.Valid() && InputsValid(input.clientInput)
    requires var m := Moved(s, input.clientInput);
      e in m.avatars && m.avatars[e].playerId in m.clients && m.clients[m.avatars[e].playerId] == e
    ensures var infos := input.clientInput;
      var m := Moved(s, infos);
      var r := Update(s, input).0;
      var started := if exists k :: 0 <= k < |infos| && Respawns(m.clients, infos[k], e) then Respawn(m.avatars[e]) else m.avatars[e];
      e in r.avatars && (r.avatars[e] == started || r.avatars[e] == Respawn(m.avatars[e])) &&
      ((forall j :: 0 <= j < |infos| ==> !infos[j].input.shoot) ==> r.avatars[e] == started)
  {
    var infos := input.clientInput;
    var m := Moved(s, infos);
    var respawned := RespawnAll(m.clients, m.avatars, infos);
    var shot := ShootAll(m.clients, respawned, m.moved, infos);
    RespawnAllAt(m.clients, m.avatars, infos, e);
    ShootAllAt(m.clients, respawned, m.moved, infos, e);
    RespawnIdempotent(m.avatars[e]);
    assert shot[e].playerId == m.avatars[e].playerId;
  }

  /**
   * A client with an entry in the update, one entry per client: it stays exactly when it did
   * not disconnect, and keeps its entity id; a new client gets one not handed out before.
   */
  lemma UpdateEntryStays(s: GameState, input: UpdateInput<ClientInput, ServerInput>, k: int)
    requires s.Valid() && InputsValid(input.clientInput) && DistinctIds(input.clientInput)
    requires 0 <= k < |input.clientInput|
    ensures var r := Update(s, input).0;
      var c := input.clientInput[k].id;
      (c in r.clients <==> !input.clientInput[k].terminated) &&
      (c in r.clients && c in s.clients ==> r.clients[c] == s.clients[c]) &&
      (c in r.clients && c !in s.clients ==> s.entityCounter <= r.clients[c])
  {
    MoveAllEntry(Work(s.clients, s.avatars, s.entityCounter, []), input.clientInput, k);
  }

  /**
   * The avatar of a client with an entry, one entry per client, ends moved by its input, then
   * respawned if it pressed Start, and then possibly respawned by a shot; when nobody shoots,
   * exactly moved, then respawned if it pressed Start.
   */
  lemma UpdateEntry(s: GameState, input: UpdateInput<ClientInput, ServerInput>, k: int)
    requires s.Valid() && InputsValid(input.clientInput) && DistinctIds(input.clientInput)
    requires 0 <= k < |input.clientInput| && !input.clientInput[k].terminated
    ensures var r := Update(s, input).0;
      var info := input.clientInput[k];
      var c := info.id;
      c in r.clients &&
      var e := r.clients[c];
      var moved := ShooterAvatar.Update(Base(Work(s.clients, s.avatars, s.entityCounter, []), c, e), MovementOf(info.input));
      var started := if info.input.start then Respawn(moved) else moved;
      (r.avatars[e] == started || r.avatars[e] == Respawn(moved)) &&
      ((forall j :: 0 <= j < |input.clientInput| ==> !input.clientInput[j].input.shoot) ==> r.avatars[e] == started)
  {
    var infos := input.clientInput;
    var m := Moved(s, infos);
    MoveAllEntry(Work(s.clients, s.avatars, s.entityCounter, []), infos, k);
    var c := infos[k].id;
    var e := m.clients[c];
    assert m.avatars[e].playerId == c;
    AfterMoving(s, input, e);
    assert (exists j :: 0 <= j < |infos| && Respawns(m.clients, infos[j], e)) <==> infos[k].input.start by {
      if exists j :: 0 <= j < |infos| && Respawns(m.clients, infos[j], e) {
        var j :| 0 <= j < |infos| && Respawns(m.clients, infos[j], e);
        assert m.avatars[m.clients[infos[j].id]].playerId == infos[j].id;
        assert j == k;
      }
      if infos[k].input.start {
        assert Respawns(m.clients, infos[k], e);
      }
    }
  }

  /** A shot only ever hits the frame's list: an avatar not in it leaves the shooting loop unchanged. */
  lemma {:induction false} ShootAllSparesUnlisted(clients: map<int, int>, avatars: map<int, Avatar>, moved: seq<int>, infos: seq<ClientInfo<ClientInput>>, e: int)
    requires AllValid(avatars) && InputsValid(infos)
    requires forall c :: c in clients ==> clients[c] in avatars
    requires forall k :: 0 <= k < |moved| ==> moved[k] in avatars
    requires e in avatars && e !in moved
    ensures ShootAll(clients, avatars, moved, infos)[e] == avatars[e]
    decreases |infos|
  {
    if |infos| > 0 {
      var init := infos[..|infos| - 1];
      var last := infos[|infos| - 1];
      assert forall k :: 0 <= k < |init| ==> init[k] == infos[k];
      ShootAllSparesUnlisted(clients, avatars, moved, init, e);
      if Shoots(clients, last) {
        var before := ShootAll(clients, avatars, moved, init);
        ShootRespawnsHit(before, clients[last.id], Ray(last.input), moved, HistoryIndex(last.input), e);
      }
    }
  }

  /** An avatar whose player has no entry is not in the frame's list. */
  lemma NotMoved(w: Work, infos: seq<ClientInfo<ClientInput>>, e: int)
    requires w.Valid() && w.moved == [] && e in w.avatars && w.avatars[e].playerId !in IdSet(infos)
    ensures e !in MoveAll(w, infos).moved
  {
    var r := MoveAll(w, infos);
    MoveAllOthers(w, infos, e);
    if e in r.moved {
      var k :| 0 <= k < |r.moved| && r.moved[k] == e;
      MoveAllOwner(w, infos, k);
      IdSetMembers(infos, infos[k].id);
      assert false;
    }
  }

  /**
   * A client without an entry stays, with the same entity id and the same avatar: it is not in
   * the frame's avatar list, so no shot reaches it, and no entry of its own respawns it.
   */
  lemma UpdateAbsent(s: GameState, input: UpdateInput<ClientInput, ServerInput>, c: int)
    requires s.Valid() && InputsValid(input.clientInput)
    requires forall k :: 0 <= k < |input.clientInput| ==> input.clientInput[k].id != c
    ensures var r := Update(s, input).0;
      (c in r.clients <==> c in s.clients) &&
      (c in s.clients ==> var e := s.clients[c]; r.clients[c] == e && r.avatars[e] == s.avatars[e])
  {
    var infos := input.clientInput;
    IdSetMembers(infos, c);
    var w := Work(s.clients, s.avatars, s.entityCounter, []);
    var m := Moved(s, infos);
    MoveAllAbsent(w, infos, c);
    if c in s.clients {
      var e := s.clients[c];
      MoveAllOthers(w, infos, e);
      NotMoved(w, infos, e);
      forall j | 0 <= j < |infos|
        ensures !Respawns(m.clients, infos[j], e)
      {
        if infos[j].id in m.clients {
          assert m.avatars[m.clients[infos[j].id]].playerId == infos[j].id;
        }
      }
      var respawned := RespawnAll(m.clients, m.avatars, infos);
      RespawnAllAt(m.clients, m.avatars, infos, e);
      ShootAllSparesUnlisted(m.clients, respawned, m.moved, infos, e);
    }
  }
}

=== FILE: source_filter.dfy ===
/**
 * The line-counting script's filters (size.py): which file names count as C# sources and which
 * directories the walk descends into. Paths are character strings.
 */
module SourceFilter {

  /** `s` ends with `suffix`. */
  predicate EndsWith(s: string, suffix: string)
  {
    |suffix| <= |s| && s[|s| - |suffix|..] == suffix
  }

  /** is_source: a `.cs` file that is not a `GlobalUsings.cs` file. */
  predicate IsSource(filename: string)
  {
    EndsWith(filename, ".cs") && !EndsWith(filename, "GlobalUsings.cs")
  }

  predicate IsSeparator(c: char)
  {
    c == '/' || c == '\\'
  }

  /**
   * The segments of a path split at every '/' or '\': one more segment than separators, empty
   * segments included, as a regular-expression split yields them.
   */
  function Split(path: string): (parts: seq<string>)
    ensures |parts| > 0
    decreases |path|
  {
    if |path| == 0 then [""]
    else
      var parts := Split(path[..|path| - 1]);
      var c := path[|path| - 1];
      if IsSeparator(c) then parts + [""]
      else parts[..|parts| - 1] + [parts[|parts| - 1] + [c]]
  }

  /** is_source_dir: no segment of the path is exactly "bin" or "obj". */
  predicate IsSourceDir(dirname: string)
  {
    var dirs := Split(dirname);
    "bin" !in dirs && "obj" !in dirs
  }

  /** How many separators a path holds. */
  function Separators(path: string): nat
    decreases |path|
  {
    if |path| == 0 then 0
    else Separators(path[..|path| - 1]) + if IsSeparator(path[|path| - 1]) then 1 else 0
  }

  /** The split yields one segment more than there are separators, and no segment holds one. */
  lemma {:induction false} SplitSegments(path: string)
    ensures |Split(path)| == Separators(path) + 1
    ensures forall i, k :: 0 <= i < |Split(path)| && 0 <= k < |Split(path)[i]| ==> !IsSeparator(Split(path)[i][k])
    decreases |path|
  {
    if |path| > 0 {
      SplitSegments(path[..|path| - 1]);
    }
  }

  /** Splitting a path joined at a separator splits both halves. */
  lemma {:induction false} SplitJoin(dir: string, sep: char, rest: string)
    requires IsSeparator(sep)
    ensures Split(dir + [sep] + rest) == Split(dir) + Split(rest)
    decreases |rest|
  {
    if |rest| == 0 {
      assert dir + [sep] + rest == dir + [sep];
      SplitSnoc(dir, sep);
    } else {
      var init, c := rest[..|rest| - 1], rest[|rest| - 1];
      assert rest == init + [c];
      assert dir + [sep] + rest == (dir + [sep] + init) + [c];
      SplitJoin(dir, sep, init);
      SplitSnoc(dir + [sep] + init, c);
      SplitSnoc(init, c);
      var a, b := Split(dir), Split(init);
      if IsSeparator(c) {
        assert a + b + [""] == a + (b + [""]);
      } else {
        ExtendLast(a, b, c);
      }
    }
  }

  /** SplitJoin's unfolding step: one more character either opens a segment or extends the last. */
  lemma SplitSnoc(p: string, c: char)
    ensures var parts := Split(p);
      Split(p + [c]) == if IsSeparator(c) then parts + [""] else parts[..|parts| - 1] + [parts[|parts| - 1] + [c]]
  {
    assert (p + [c])[..|p + [c]| - 1] == p;
  }

  /** Extending the last segment of a concatenation extends the last segment of its second part. */
  lemma ExtendLast(a: seq<string>, b: seq<string>, c: char)
    requires |b| > 0
    ensures (a + b)[..|a + b| - 1] + [(a + b)[|a + b| - 1] + [c]] == a + (b[..|b| - 1] + [b[|b| - 1] + [c]])
  {
    assert (a + b)[..|a + b| - 1] == a + b[..|b| - 1];
  }

  /** Everything below a `bin` or `obj` directory is skipped, however deep. */
  lemma SkippedBelow(dir: string, sep: char, rest: string)
    requires IsSeparator(sep) && !IsSourceDir(dir)
    ensures !IsSourceDir(dir + [sep] + rest)
  {
    SplitJoin(dir, sep, rest);
  }

  /** A GlobalUsings.cs name always ends in .cs: the second test only removes names the first admits. */
  lemma GlobalUsingsEndsInCs(filename: string)
    requires EndsWith(filename, "GlobalUsings.cs")
    ensures EndsWith(filename, ".cs")
  {
    assert filename[|filename| - 3..] == filename[|filename| - 15..][12..];
  }

  /** A name without separators is a single segment. */
  lemma {:induction false} SplitPlain(name: string)
    requires forall k :: 0 <= k < |name| ==> !IsSeparator(name[k])
    ensures Split(name) == [name]
    decreases |name|
  {
    if |name| > 0 {
      var init := name[..|name| - 1];
      SplitPlain(init);
      assert init + [name[|name| - 1]] == name;
    }
  }

  /** The segments of a directory and a plain name joined by a separator. */
  lemma SplitChild(dir: string, sep: char, name: string)
    requires IsSeparator(sep) && forall k :: 0 <= k < |dir| ==> !IsSeparator(dir[k])
    requires forall k :: 0 <= k < |name| ==> !IsSeparator(name[k])
    ensures Split(dir + [sep] + name) == [dir, name]
  {
    SplitJoin(dir, sep, name);
    SplitPlain(dir);
    SplitPlain(name);
  }

  /** Segments are matched whole: `binary` or `objects` are walked, and `.vs` is not excluded. */
  lemma SegmentsMatchWhole()
    ensures IsSourceDir("src/binary") && IsSourceDir("objects") && IsSourceDir("src/.vs")
  {
    SplitChild("src", '/', "binary");
    assert "src/binary" == "src" + ['/'] + "binary";
    SplitPlain("objects");
    SplitChild("src", '/', ".vs");
    assert "src/.vs" == "src" + ['/'] + ".vs";
  }

  /** A `bin` or `obj` segment excludes its directory whichever separator precedes it. */
  lemma BinAndObjSkipped()
    ensures !IsSourceDir("src/bin") && !IsSourceDir("src\\obj")
  {
    SplitChild("src", '/', "bin");
    assert "src/bin" == "src" + ['/'] + "bin";
    SplitChild("src", '\\', "obj");
    assert "src\\obj" == "src" + ['\\'] + "obj";
  }

  /** Only `.cs` names count, and every name ending in GlobalUsings.cs is left out. */
  lemma SourceNames()
    ensures IsSource("Game.cs") && !IsSource("Game.csproj")
    ensures !IsSource("GlobalUsings.cs") && !IsSource("MyGlobalUsings.cs")
  {
    assert "Game.cs"[4..] == ".cs";
    assert "Game.csproj"[8..] != ".cs";
    assert "GlobalUsings.cs"[0..] == "GlobalUsings.cs";
    assert "MyGlobalUsings.cs"[2..] == "GlobalUsings.cs";
  }
}

=== FILE: state_holder.dfy ===
/**
 * StateHolder (src/GameNewt/Utility/StateHolder.cs): owns one game state, the frame it belongs
 * to, a cached checksum and a writer holding the state's serialization.
 *
 * The writer is represented by its written span `written` (the pooled buffer itself is
 * BufferWriter's concern). MemoryPack's serializer and XXHash are not part of this model: they
 * are the parameters `serialize` and `hash`, deterministic but otherwise unknown. The game's own
 * Update is the parameter `gameUpdate`, which yields the state it leaves behind together with
 * its output or the exception it threw; a throwing update may leave a partly updated state.
 */
module StateHolder {
  import opened Wrappers
  import opened IntWidths
  import opened GameTypes

  datatype Holder<S> = Holder(state: S, frame: int, written: seq<uint8>, checksum: Option<int>)

  /** What a state serializes to and what the serialization hashes to; fixed for a run. */
  datatype Codec<!S> = Codec(serialize: S -> seq<uint8>, hash: seq<uint8> -> int)
  {
    /** The checksum the current state ought to have. */
    function ChecksumOf(s: S): int
    {
      hash(serialize(s))
    }
  }

  /**
   * The caches agree with the state: the writer is empty or holds the state's serialization,
   * and a cached checksum is the state's checksum.
   */
  predicate Coherent<S>(h: Holder<S>, codec: Codec<S>)
  {
    (h.written == [] || h.written == codec.serialize(h.state)) &&
    (h.checksum.Some? ==> h.checksum.value == codec.ChecksumOf(h.state))
  }

  /** Neither cache holds anything: the next checksum or serialization is computed afresh. */
  predicate Cleared<S>(h: Holder<S>)
  {
    h.written == [] && h.checksum == None
  }

  /** A cleared holder is coherent whatever its state and whatever the codec. */
  lemma ClearedIsCoherent<S>(h: Holder<S>, codec: Codec<S>)
    requires Cleared(h)
    ensures Coherent(h, codec)
  {
  }

  /** A new holder: the default state at frame -1, nothing serialized and no checksum. */
  function Create<S>(initial: S): (h: Holder<S>)
    ensures h.frame == -1 && h.state == initial && Cleared(h)
  {
    Holder(initial, -1, [], None)
  }

  /**
   * The State setter as written: the cached checksum is dropped but the writer keeps whatever
   * serialization it holds, which may be that of the previous state.
   */
  function SetStateAsWritten<S>(h: Holder<S>, s: S): (r: Holder<S>)
    ensures r.state == s && r.frame == h.frame && r.checksum == None
    ensures r.written == h.written
  {
    h.(state := s, checksum := None)
  }

  /**
   * The State setter with both caches dropped, as the earlier revision's setter does
   * (src/Core/Utility/StateHolder.cs): whatever the holder held before, it is coherent afterwards.
   */
  function SetState<S>(h: Holder<S>, s: S): (r: Holder<S>)
    ensures r.state == s && r.frame == h.frame && Cleared(r)
  {
    h.(state := s, checksum := None, written := [])
  }

  /** The bytes the writer holds after the serialize-if-empty step. */
  function Serialized<S>(h: Holder<S>, codec: Codec<S>): seq<uint8>
  {
    if h.written == [] then codec.serialize(h.state) else h.written
  }

  /**
   * GetSerialized: serializes the state if the writer is empty, caches the checksum if none is
   * cached, and hands out the written bytes, leaving an empty writer behind.
   */
  function GetSerialized<S>(h: Holder<S>, codec: Codec<S>): (r: (Holder<S>, seq<uint8>))
    ensures r.0.state == h.state && r.0.frame == h.frame && r.0.written == []
    ensures r.0.checksum.Some?
    ensures Coherent(h, codec) ==> r.1 == codec.serialize(h.state) && Coherent(r.0, codec)
  {
    var bytes := Serialized(h, codec);
    var checksum := if h.checksum.Some? then h.checksum else Some(codec.hash(bytes));
    (h.(written := [], checksum := checksum), bytes)
  }

  /**
   * GetChecksum: the cached checksum when there is one; otherwise the hash of the writer's
   * bytes, serializing the state first if the writer is empty, which is then cached.
   */
  function GetChecksum<S>(h: Holder<S>, codec: Codec<S>): (r: (Holder<S>, int))
    ensures r.0.state == h.state && r.0.frame == h.frame && r.0.checksum == Some(r.1)
    ensures h.checksum.Some? ==> r == (h, h.checksum.value)
    ensures Coherent(h, codec) ==> r.1 == codec.ChecksumOf(h.state) && Coherent(r.0, codec)
  {
    if h.checksum.Some? then (h, h.checksum.value)
    else
      var bytes := Serialized(h, codec);
      (h.(written := bytes, checksum := Some(codec.hash(bytes))), codec.hash(bytes))
  }

  /**
   * Update: the frame advances and both caches are dropped before the game's update runs, so
   * the frame advances even when the update throws; a throwing update yields UpdateOutput.Empty.
   */
  function Update<S, I>(h: Holder<S>, input: I, gameUpdate: (S, I) -> (S, Outcome<UpdateOutput>)): (r: (Holder<S>, UpdateOutput))
    ensures r.0.frame == h.frame + 1
    ensures r.0.state == gameUpdate(h.state, input).0
    ensures gameUpdate(h.state, input).1.Throws? ==> r.1 == EMPTY_OUTPUT
    ensures gameUpdate(h.state, input).1.Ok? ==> r.1 == gameUpdate(h.state, input).1.value
    ensures Cleared(r.0)
  {
    var (next, outcome) := gameUpdate(h.state, input);
    var output := if outcome.Ok? then outcome.value else EMPTY_OUTPUT;
    (h.(frame := h.frame + 1, state := next, written := [], checksum := None), output)
  }

  /** Asking for the checksum twice gives the same value and leaves the holder as the first call left it. */
  lemma GetChecksumIsStable<S>(h: Holder<S>, codec: Codec<S>)
    ensures var (h1, c1) := GetChecksum(h, codec);
      GetChecksum(h1, codec) == (h1, c1)
  {
  }

  /** Updates applied one after another, with their outputs in order. */
  function Updates<S, I>(h: Holder<S>, inputs: seq<I>, gameUpdate: (S, I) -> (S, Outcome<UpdateOutput>)): (r: (Holder<S>, seq<UpdateOutput>))
    decreases |inputs|
  {
    if inputs == [] then (h, [])
    else
      var (h1, out) := Update(h, inputs[0], gameUpdate);
      var (h2, outs) := Updates(h1, inputs[1..], gameUpdate);
      (h2, [out] + outs)
  }

  /** The holder's frame counts its updates: n updates advance it by n, with one output each. */
  lemma {:induction false} UpdatesAdvanceFrame<S, I>(h: Holder<S>, inputs: seq<I>, gameUpdate: (S, I) -> (S, Outcome<UpdateOutput>))
    ensures var (r, outs) := Updates(h, inputs, gameUpdate);
      r.frame == h.frame + |inputs| && |outs| == |inputs|
    decreases |inputs|
  {
    if inputs != [] {
      var (h1, out) := Update(h, inputs[0], gameUpdate);
      UpdatesAdvanceFrame(h1, inputs[1..], gameUpdate);
    }
  }

  /** After any run of updates the caches agree with the state, so the checksum is that of the state the last update left. */
  lemma {:induction false} UpdatesKeepCoherent<S, I>(h: Holder<S>, inputs: seq<I>, gameUpdate: (S, I) -> (S, Outcome<UpdateOutput>), codec: Codec<S>)
    requires Coherent(h, codec)
    ensures var r := Updates(h, inputs, gameUpdate).0;
      Coherent(r, codec) && GetChecksum(r, codec).1 == codec.ChecksumOf(r.state)
    decreases |inputs|
  {
    if inputs != [] {
      var (h1, out) := Update(h, inputs[0], gameUpdate);
      ClearedIsCoherent(h1, codec);
      UpdatesKeepCoherent(h1, inputs[1..], gameUpdate, codec);
    }
  }

  /**
   * The discrepancy as written: once the checksum of one state has been asked for, assigning
   * another state and asking again yields the hash of the first state's serialization, which the
   * writer still holds, whenever the two states' checksums differ.
   */
  lemma SetStateKeepsStaleChecksum<S>(first: S, second: S, codec: Codec<S>)
    requires codec.serialize(first) != [] && codec.ChecksumOf(first) != codec.ChecksumOf(second)
    ensures var h1 := GetChecksum(Create(first), codec).0;
      var h2 := SetStateAsWritten(h1, second);
      GetChecksum(h2, codec).1 == codec.ChecksumOf(first) &&
      GetChecksum(h2, codec).1 != codec.ChecksumOf(second) &&
      !Coherent(h2, codec)
  {
  }

  /** With the corrected setter the same sequence yields the second state's checksum, and the serialization follows suit. */
  lemma SetStateRefreshesChecksum<S>(h: Holder<S>, second: S, codec: Codec<S>)
    ensures var h1 := GetChecksum(h, codec).0;
      var h2 := SetState(h1, second);
      GetChecksum(h2, codec).1 == codec.ChecksumOf(second) &&
      GetSerialized(h2, codec).1 == codec.serialize(second)
  {
  }
}

=== FILE: stats.dfy ===
/**
 * MinimumWindowed (src/Useful/Stats.cs): the minimum of the last `Length` values of a series.
 * The queue holds the latest values, oldest first; the comparable value type is `int`.
 */
module Stats {
  import opened Wrappers
  import opened IntWidths

  datatype MinimumWindowed = MinimumWindowed(length: int, queue: seq<int>)
  {
    predicate Valid()
    {
      0 < length && |queue| <= length
    }
  }

  /** `m` is at most every element of `s`, stated element by element from the back. */
  predicate AtMost(m: int, s: seq<int>)
    decreases |s|
  {
    |s| == 0 || (m <= s[|s| - 1] && AtMost(m, s[..|s| - 1]))
  }

  /** AtMost means what it says: `m` is at most each element of `s`. */
  lemma {:induction false} AtMostEach(m: int, s: seq<int>)
    ensures AtMost(m, s) <==> forall k :: 0 <= k < |s| ==> m <= s[k]
    decreases |s|
  {
    if |s| > 0 {
      var init := s[..|s| - 1];
      AtMostEach(m, init);
      assert forall k :: 0 <= k < |init| ==> init[k] == s[k];
    }
  }

  /** A bound for every element stays one when it is lowered. */
  lemma {:induction false} AtMostLower(a: int, b: int, s: seq<int>)
    requires AtMost(a, s) && b <= a
    ensures AtMost(b, s)
    decreases |s|
  {
    if |s| > 0 {
      AtMostLower(a, b, s[..|s| - 1]);
    }
  }

  /** The smallest element of a non-empty sequence. */
  function Min(s: seq<int>): (m: int)
    requires |s| > 0
    ensures m in s && AtMost(m, s)
    decreases |s|
  {
    var init := s[..|s| - 1];
    var last := s[|s| - 1];
    assert s == init + [last];
    if |init| == 0 then last
    else
      var rest := Min(init);
      if last < rest then (AtMostLower(rest, last, init); last) else rest
  }

  /** The last `n` elements of `s`, or all of them when there are fewer; built from the back. */
  function Last(s: seq<int>, n: nat): (r: seq<int>)
    ensures |r| == if |s| < n then |s| else n
    decreases |s|
  {
    if n == 0 || |s| == 0 then [] else Last(s[..|s| - 1], n - 1) + [s[|s| - 1]]
  }

  /** A sequence no longer than n is its own last n elements. */
  lemma {:induction false} LastAll(s: seq<int>, n: nat)
    requires |s| <= n
    ensures Last(s, n) == s
    decreases |s|
  {
    if |s| > 0 {
      LastAll(s[..|s| - 1], n - 1);
    }
  }

  /** One element too many: the last n elements are all but the oldest. */
  lemma {:induction false} LastDropsOldest(s: seq<int>, n: nat)
    requires |s| == n + 1
    ensures Last(s, n) == s[1..]
    decreases |s|
  {
    if n > 0 {
      var init := s[..|s| - 1];
      LastDropsOldest(init, n - 1);
      assert init[1..] + [s[|s| - 1]] == s[1..];
    }
  }

  /** Taking the last a and then the last b <= a elements is taking the last b. */
  lemma {:induction false} LastLast(s: seq<int>, a: nat, b: nat)
    requires b <= a
    ensures Last(Last(s, a), b) == Last(s, b)
    decreases |s|
  {
    if b > 0 && |s| > 0 {
      var init := s[..|s| - 1];
      LastLast(init, a - 1, b - 1);
      var r := Last(init, a - 1) + [s[|s| - 1]];
      assert r[..|r| - 1] == Last(init, a - 1);
    }
  }

  /** The constructor: a non-positive length throws ArgumentOutOfRangeException; otherwise the window starts empty. */
  function Create(length: int): (r: Outcome<MinimumWindowed>)
    requires IsInt32(length)
    ensures r.Throws? <==> length <= 0
    ensures r.Throws? ==> r.error == ArgumentOutOfRangeException
    ensures r.Ok? ==> r.value.Valid() && r.value.length == length && r.value.queue == []
  {
    if length <= 0 then Throws(ArgumentOutOfRangeException)
    else Ok(MinimumWindowed(length, []))
  }

  /**
   * Add: the value is enqueued and, if the queue then holds more than Length values, the oldest
   * is dequeued; the minimum of the queue is returned. The window never exceeds Length, and the
   * minimum is one of the windowed values, at most every one of them and the value just added.
   */
  function Add(w: MinimumWindowed, value: int): (r: (MinimumWindowed, int))
    requires w.Valid()
    ensures r.0.Valid() && r.0.length == w.length
    ensures r.0.queue == Last(w.queue + [value], w.length)
    ensures r.1 in r.0.queue && r.1 <= value && AtMost(r.1, r.0.queue)
  {
    var queue := w.queue + [value];
    // Dequeuing the oldest of Length + 1 values keeps the last Length (LastDropsOldest).
    var kept := if |queue| > w.length then Last(queue, w.length) else (LastAll(queue, w.length); queue);
    assert kept[|kept| - 1] == value;
    (w.(queue := kept), Min(kept))
  }

  /** A full window slides: the oldest value leaves and the new one joins at the back. */
  lemma AddDropsOldest(w: MinimumWindowed, value: int)
    requires w.Valid() && |w.queue| == w.length
    ensures Add(w, value).0.queue == w.queue[1..] + [value]
  {
    LastDropsOldest(w.queue + [value], w.length);
    assert (w.queue + [value])[1..] == w.queue[1..] + [value];
  }

  /** Values added one after another; the minimum each Add returned, in order. */
  function Adds(w: MinimumWindowed, values: seq<int>): (r: (MinimumWindowed, seq<int>))
    requires w.Valid()
    ensures r.0.Valid() && r.0.length == w.length && |r.1| == |values|
    decreases |values|
  {
    if |values| == 0 then (w, [])
    else
      var (w1, ms) := Adds(w, values[..|values| - 1]);
      var (w2, m) := Add(w1, values[|values| - 1]);
      (w2, ms + [m])
  }

  /** Whatever the series so far, the window holds its last min(n, Length) values. */
  lemma {:induction false} AddsKeepLatest(w: MinimumWindowed, history: seq<int>, values: seq<int>)
    requires w.Valid() && w.queue == Last(history, w.length)
    ensures Adds(w, values).0.queue == Last(history + values, w.length)
    decreases |values|
  {
    if |values| > 0 {
      var init, v := values[..|values| - 1], values[|values| - 1];
      AddsKeepLatest(w, history, init);
      LastAppend(history + init, v, w.length);
      SplitLast(history, values);
    } else {
      assert history + values == history;
    }
  }

  /** Appending one value to a series moves its last-n window by that value. */
  lemma LastAppend(s: seq<int>, v: int, n: nat)
    requires n > 0
    ensures Last(Last(s, n) + [v], n) == Last(s + [v], n)
  {
    var l := Last(s, n) + [v];
    assert l[..|l| - 1] == Last(s, n);
    assert (s + [v])[..|s|] == s;
    LastLast(s, n, n - 1);
  }

  /** A series is its history, all but its latest value, and its latest value. */
  lemma SplitLast(history: seq<int>, values: seq<int>)
    requires |values| > 0
    ensures history + values[..|values| - 1] + [values[|values| - 1]] == history + values
  {
    assert values[..|values| - 1] + [values[|values| - 1]] == values;
  }

  /**
   * AddsPrefix's step on the inputs: the first j values of the shorter input are the first j
   * values of the whole input. Kept apart so that AddsPrefix's context stays small.
   */
  lemma PrefixOfPrefix(s: seq<int>, a: nat, b: nat)
    requires b <= a <= |s|
    ensures s[..a][..b] == s[..b]
  {
  }

  /**
   * AddsPrefix's step on the outputs: appending the newest minimum leaves the first j minima
   * alone. Kept apart for the same reason.
   */
  lemma PrefixOfAppend(a: seq<int>, b: seq<int>, j: nat)
    requires j <= |a|
    ensures (a + b)[..j] == a[..j]
  {
  }

  /** A value in the sequence that is at most every element is its minimum. */
  lemma MinUnique(s: seq<int>, m: int)
    requires m in s && AtMost(m, s)
    ensures Min(s) == m
  {
    AtMostEach(m, s);
    AtMostEach(Min(s), s);
  }

  /** Adding more values does not change the minima already returned. */
  lemma {:induction false} AddsPrefix(w: MinimumWindowed, values: seq<int>, j: nat)
    requires w.Valid() && j <= |values|
    ensures Adds(w, values[..j]).1 == Adds(w, values).1[..j]
    decreases |values|
  {
    if j < |values| {
      var init := values[..|values| - 1];
      AddsPrefix(w, init, j);
      PrefixOfPrefix(values, |init|, j);
      var (w1, ms) := Adds(w, init);
      var (w2, m) := Add(w1, values[|values| - 1]);
      assert Adds(w, values).1 == ms + [m];
      PrefixOfAppend(ms, [m], j);
    } else {
      assert values[..j] == values;
    }
  }

  /**
   * Whatever the series so far, the latest Add returns the minimum of the window it leaves: the
   * last min(Length, |history| + |values|) values of the series, one of them and at most each.
   */
  lemma AddsReturnLatestMinimum(w: MinimumWindowed, history: seq<int>, values: seq<int>)
    requires w.Valid() && w.queue == Last(history, w.length) && |values| > 0
    ensures var m := Adds(w, values).1[|values| - 1];
      var window := Last(history + values, w.length);
      m in window && AtMost(m, window)
  {
    var init, v := values[..|values| - 1], values[|values| - 1];
    AddsKeepLatest(w, history, init);
    LastAppend(history + init, v, w.length);
    SplitLast(history, values);
  }

  /** The k-th Add returns the minimum of the window it leaves, whatever came after it. */
  lemma AddsReturnMinimum(w: MinimumWindowed, history: seq<int>, values: seq<int>, k: nat)
    requires w.Valid() && w.queue == Last(history, w.length) && k < |values|
    ensures var m := Adds(w, values).1[k];
      var window := Last(history + values[..k + 1], w.length);
      m in window && AtMost(m, window)
  {
    AddsPrefix(w, values, k + 1);
    AddsReturnLatestMinimum(w, history, values[..k + 1]);
  }

  /**
   * From a new window, the k-th Add returns the minimum of the last min(k + 1, Length) values
   * added: one of them, and at most each of them.
   */
  lemma AddsReturnWindowMinimum(length: int, values: seq<int>, k: nat)
    requires IsInt32(length) && length > 0 && k < |values|
    ensures var m := Adds(Create(length).value, values).1[k];
      m in Last(values[..k + 1], length) && AtMost(m, Last(values[..k + 1], length))
  {
    assert [] + values[..k + 1] == values[..k + 1];
    AddsReturnMinimum(Create(length).value, [], values, k);
  }
}

=== FILE: tester_games.dfy ===
/**
 * What the tester games share: how an update's client entries are recorded in the per-client
 * lists of received values (ClientIdToReceivedInputs), and how the frame counter advances and
 * decides whether the server stops. The client inputs of these games carry one `int`, so an
 * entry's input is that value.
 */
module TesterInputs {
  import opened IntWidths
  import opened GameTypes

  /** Which entries a game ignores: those with a negative value, or those still holding int.MinValue. */
  datatype SkipRule = SkipNegative | SkipMinValue

  predicate Skips(rule: SkipRule, v: int)
  {
    match rule
    case SkipNegative => v < 0
    case SkipMinValue => v == INT32_MIN
  }

  /** The list recorded for `id`, empty when there is none yet. */
  function Lookup(received: map<int, seq<int>>, id: int): seq<int>
  {
    if id in received then received[id] else []
  }

  /** Reference definition: the values of the entries of `id` that are not skipped, in order. */
  function ValuesOf(infos: seq<ClientInfo<int>>, id: int, rule: SkipRule): (r: seq<int>)
    ensures |r| <= |infos|
    ensures forall k :: 0 <= k < |r| ==> !Skips(rule, r[k])
    decreases |infos|
  {
    if |infos| == 0 then []
    else
      var last := infos[|infos| - 1];
      var init := ValuesOf(infos[..|infos| - 1], id, rule);
      if last.id == id && !Skips(rule, last.input) then init + [last.input] else init
  }

  /** The values picked from a concatenation are those picked from each part. */
  lemma {:induction false} ValuesOfAppend(a: seq<ClientInfo<int>>, b: seq<ClientInfo<int>>, id: int, rule: SkipRule)
    ensures ValuesOf(a + b, id, rule) == ValuesOf(a, id, rule) + ValuesOf(b, id, rule)
    decreases |b|
  {
    if |b| == 0 {
      assert a + b == a;
    } else {
      var b0, x := b[..|b| - 1], b[|b| - 1];
      assert (a + b)[..|a + b| - 1] == a + b0;
      assert (a + b)[|a + b| - 1] == x;
      ValuesOfAppend(a, b0, id, rule);
      if x.id == id && !Skips(rule, x.input) {
        calc {
          ValuesOf(a + b, id, rule);
          ValuesOf(a + b0, id, rule) + [x.input];
          (ValuesOf(a, id, rule) + ValuesOf(b0, id, rule)) + [x.input];
          ValuesOf(a, id, rule) + (ValuesOf(b0, id, rule) + [x.input]);
        }
      }
    }
  }

  /**
   * The loop over the entries: a skipped entry is passed over; any other has its value appended
   * to its id's list, the list being created on first use. Lists are only ever added.
   */
  function Receive(received: map<int, seq<int>>, infos: seq<ClientInfo<int>>, rule: SkipRule): (r: map<int, seq<int>>)
    ensures received.Keys <= r.Keys
    decreases |infos|
  {
    if |infos| == 0 then received
    else
      var rest := Receive(received, infos[..|infos| - 1], rule);
      var last := infos[|infos| - 1];
      if Skips(rule, last.input) then rest
      else rest[last.id := Lookup(rest, last.id) + [last.input]]
  }

  /**
   * Each id's list grows by exactly its own unskipped values, in order, and an id gains a list
   * only when it has some.
   */
  lemma {:induction false} ReceiveAt(received: map<int, seq<int>>, infos: seq<ClientInfo<int>>, rule: SkipRule, id: int)
    ensures id in Receive(received, infos, rule) <==> id in received || ValuesOf(infos, id, rule) != []
    ensures Lookup(Receive(received, infos, rule), id) == Lookup(received, id) + ValuesOf(infos, id, rule)
    decreases |infos|
  {
    if |infos| > 0 {
      ReceiveAt(received, infos[..|infos| - 1], rule, id);
    }
  }

  /** Two passes, over `a` and then over `b`, build what one pass over `a + b` builds. */
  lemma {:induction false} ReceiveAppend(received: map<int, seq<int>>, a: seq<ClientInfo<int>>, b: seq<ClientInfo<int>>, rule: SkipRule)
    ensures Receive(Receive(received, a, rule), b, rule) == Receive(received, a + b, rule)
    decreases |b|
  {
    if |b| == 0 {
      assert a + b == a;
    } else {
      var b0 := b[..|b| - 1];
      assert (a + b)[..|a + b| - 1] == a + b0;
      assert (a + b)[|a + b| - 1] == b[|b| - 1];
      ReceiveAppend(received, a, b0, rule);
    }
  }

  /** ReceiveAt for every id at once. */
  lemma ReceiveAll(received: map<int, seq<int>>, infos: seq<ClientInfo<int>>, rule: SkipRule)
    ensures forall id :: id in Receive(received, infos, rule) <==> id in received || ValuesOf(infos, id, rule) != []
    ensures forall id :: Lookup(Receive(received, infos, rule), id) == Lookup(received, id) + ValuesOf(infos, id, rule)
  {
    forall id
      ensures id in Receive(received, infos, rule) <==> id in received || ValuesOf(infos, id, rule) != []
      ensures Lookup(Receive(received, infos, rule), id) == Lookup(received, id) + ValuesOf(infos, id, rule)
    {
      ReceiveAt(received, infos, rule, id);
    }
  }

  /**
   * `Frame++` on a `long`, then the verdict: the update stops the game exactly when the new
   * frame equals TotalFrames, and never names clients to disconnect.
   */
  function Tick(frame: int, totalFrames: int): (r: (int, UpdateOutput))
    ensures IsInt64(r.0) && (IsInt64(frame + 1) ==> r.0 == frame + 1)
    ensures r.1.clientsToTerminate.None? && (r.1.shallStop <==> r.0 == totalFrames)
  {
    var next := Wrap64(frame + 1);
    (next, if next == totalFrames then TERMINATE_OUTPUT else EMPTY_OUTPUT)
  }
}

/**
 * The input-propagation tester game (src/Tester/InputPropagation/Game.cs): it records every
 * non-negative client value per client and every non-negative server value, and counts frames
 * from -1.
 */
module InputPropagationGame {
  import opened IntWidths
  import opened GameTypes
  import opened TesterInputs
  import SequenceChecks

  datatype GameState = GameState(received: map<int, seq<int>>, serverInputs: seq<int>, frame: int, totalFrames: int)
  {
    predicate Valid()
    {
      IsInt64(frame) && IsInt64(totalFrames)
    }
  }

  /** A fresh state whose TotalFrames the server's init hook has set to `totalFrames`. */
  function Init(totalFrames: int): (s: GameState)
    requires IsInt64(totalFrames)
    ensures s.Valid() && s.frame == -1 && s.totalFrames == totalFrames
    ensures s.serverInputs == [] && forall id :: Lookup(s.received, id) == []
  {
    GameState(map[], [], -1, totalFrames)
  }

  /**
   * Update: client values below zero are skipped and the rest appended per client; the server
   * value is appended when it is not negative; the frame advances and decides the output.
   */
  function Update(s: GameState, input: UpdateInput<int, int>): (r: (GameState, UpdateOutput))
    requires s.Valid()
    ensures r.0.Valid() && r.0.totalFrames == s.totalFrames
    ensures r.0.frame == Wrap64(s.frame + 1)
    ensures r.1.clientsToTerminate.None? && (r.1.shallStop <==> r.0.frame == s.totalFrames)
    ensures forall id :: Lookup(r.0.received, id) == Lookup(s.received, id) + ValuesOf(input.clientInput, id, SkipNegative)
    ensures SequenceChecks.PrefixOf(s.serverInputs, r.0.serverInputs)
    ensures |r.0.serverInputs| == |s.serverInputs| + (if input.serverInput >= 0 then 1 else 0)
    ensures input.serverInput >= 0 ==> r.0.serverInputs[|s.serverInputs|] == input.serverInput
  {
    ReceiveAll(s.received, input.clientInput, SkipNegative);
    var received := Receive(s.received, input.clientInput, SkipNegative);
    var serverInputs := if input.serverInput >= 0 then s.serverInputs + [input.serverInput] else s.serverInputs;
    var (frame, output) := Tick(s.frame, s.totalFrames);
    (GameState(received, serverInputs, frame, s.totalFrames), output)
  }

  /** The test server's input provider: `(int)state.Frame + 1`, truncating and adding in 32 bits. */
  function Provide(s: GameState): (v: int)
    ensures IsInt32(v)
    ensures IsInt32(s.frame) && s.frame < INT32_MAX ==> v == s.frame + 1
  {
    Wrap32(Wrap32(s.frame) + 1)
  }

  /** The server running one update per element of `steps`, each with the provider's server input. */
  function RunProvided(s: GameState, steps: seq<seq<ClientInfo<int>>>): (r: GameState)
    requires s.Valid()
    ensures r.Valid() && r.totalFrames == s.totalFrames
    decreases |steps|
  {
    if |steps| == 0 then s
    else
      var before := RunProvided(s, steps[..|steps| - 1]);
      Update(before, UpdateInput(steps[|steps| - 1], Provide(before))).0
  }

  /**
   * What the propagation test checks on every authoritative state: with the provider above,
   * after k updates (k within the int range) the frame is k - 1 and the server inputs are exactly
   * 0, 1, ..., k - 1, so they are consecutive, start at zero and number Frame + 1.
   */
  lemma {:induction false} ServerInputsCountFrames(totalFrames: int, steps: seq<seq<ClientInfo<int>>>)
    requires IsInt64(totalFrames) && |steps| <= INT32_MAX
    ensures var r := RunProvided(Init(totalFrames), steps);
      r.frame == |steps| - 1 && |r.serverInputs| == r.frame + 1 &&
      (forall i :: 0 <= i < |r.serverInputs| ==> r.serverInputs[i] == i) &&
      SequenceChecks.Consecutive(r.serverInputs)
    decreases |steps|
  {
    var r := RunProvided(Init(totalFrames), steps);
    if |steps| > 0 {
      var init := steps[..|steps| - 1];
      ServerInputsCountFrames(totalFrames, init);
      var before := RunProvided(Init(totalFrames), init);
      assert Provide(before) == |init|;
      assert r == Update(before, UpdateInput(steps[|steps| - 1], |init|)).0;
      assert r.serverInputs == before.serverInputs + [|init|];
    }
  }

  /** The server running one update per element of `inputs`, collecting the outputs. */
  function Run(s: GameState, inputs: seq<UpdateInput<int, int>>): (r: (GameState, seq<UpdateOutput>))
    requires s.Valid()
    ensures r.0.Valid() && r.0.totalFrames == s.totalFrames && |r.1| == |inputs|
    decreases |inputs|
  {
    if |inputs| == 0 then (s, [])
    else
      var (before, outputs) := Run(s, inputs[..|inputs| - 1]);
      var (after, output) := Update(before, inputs[|inputs| - 1]);
      (after, outputs + [output])
  }

  /**
   * Over a run the frame advances by the number of updates, and update j stops the game exactly
   * when the frame it reaches, Frame + j + 1, is TotalFrames.
   */
  lemma {:induction false} RunCountsFrames(s: GameState, inputs: seq<UpdateInput<int, int>>)
    requires s.Valid() && IsInt64(s.frame + |inputs|)
    ensures var r := Run(s, inputs);
      r.0.frame == s.frame + |inputs| &&
      forall j :: 0 <= j < |inputs| ==> (r.1[j].shallStop <==> s.frame + j + 1 == s.totalFrames)
    decreases |inputs|
  {
    if |inputs| > 0 {
      RunCountsFrames(s, inputs[..|inputs| - 1]);
    }
  }

  /**
   * Over a run the lists are those one pass over all the updates' entries would build, so every
   * client's list grows by its unskipped values of all updates, in order.
   */
  lemma {:induction false} RunReceives(s: GameState, inputs: seq<UpdateInput<int, int>>, id: int)
    requires s.Valid()
    ensures Run(s, inputs).0.received == Receive(s.received, AllEntries(inputs), SkipNegative)
    ensures Lookup(Run(s, inputs).0.received, id) == Lookup(s.received, id) + ValuesOf(AllEntries(inputs), id, SkipNegative)
    decreases |inputs|
  {
    if |inputs| > 0 {
      var init, last := inputs[..|inputs| - 1], inputs[|inputs| - 1];
      RunReceives(s, init, id);
      assert AllEntries(inputs) == AllEntries(init) + last.clientInput;
      ReceiveAppend(s.received, AllEntries(init), last.clientInput, SkipNegative);
    }
    ReceiveAt(s.received, AllEntries(inputs), SkipNegative, id);
  }

  /** The client entries of a run's updates, one after the other. */
  function AllEntries(inputs: seq<UpdateInput<int, int>>): (r: seq<ClientInfo<int>>)
    decreases |inputs|
  {
    if |inputs| == 0 then [] else AllEntries(inputs[..|inputs| - 1]) + inputs[|inputs| - 1].clientInput
  }
}

/**
 * The input-receive tester games (src/Tester/InputReceive/Game.cs and
 * src/Tester/InputReceiveTest/Game.cs). Both update identically: client values still holding
 * int.MinValue are skipped, the rest appended per client, and the frame decides the output
 * (InputReceiveTest builds its stopping output by hand, which is the same ShallStop output).
 * They differ only in where Frame starts: -1 and 0.
 */
module InputReceiveGame {
  import opened IntWidths
  import opened GameTypes
  import opened TesterInputs

  datatype GameState = GameState(received: map<int, seq<int>>, frame: int, totalFrames: int)
  {
    predicate Valid()
    {
      IsInt64(frame) && IsInt64(totalFrames)
    }
  }

  /** A fresh InputReceive state (Frame = -1) with TotalFrames set to `totalFrames`. */
  function InitReceive(totalFrames: int): (s: GameState)
    requires IsInt64(totalFrames)
    ensures s.Valid() && s.frame == -1 && s.totalFrames == totalFrames
    ensures forall id :: Lookup(s.received, id) == []
  {
    GameState(map[], -1, totalFrames)
  }

  /** A fresh InputReceiveTest state (Frame = 0) with TotalFrames set to `totalFrames`. */
  function InitReceiveTest(totalFrames: int): (s: GameState)
    requires IsInt64(totalFrames)
    ensures s.Valid() && s.frame == 0 && s.totalFrames == totalFrames
    ensures forall id :: Lookup(s.received, id) == []
  {
    GameState(map[], 0, totalFrames)
  }

  function Update(s: GameState, input: UpdateInput<int, ()>): (r: (GameState, UpdateOutput))
    requires s.Valid()
    ensures r.0.Valid() && r.0.totalFrames == s.totalFrames
    ensures r.0.frame == Wrap64(s.frame + 1)
    ensures r.1.clientsToTerminate.None? && (r.1.shallStop <==> r.0.frame == s.totalFrames)
    ensures forall id :: id in r.0.received <==> id in s.received || ValuesOf(input.clientInput, id, SkipMinValue) != []
    ensures forall id :: Lookup(r.0.received, id) == Lookup(s.received, id) + ValuesOf(input.clientInput, id, SkipMinValue)
  {
    ReceiveAll(s.received, input.clientInput, SkipMinValue);
    var received := Receive(s.received, input.clientInput, SkipMinValue);
    var (frame, output) := Tick(s.frame, s.totalFrames);
    (GameState(received, frame, s.totalFrames), output)
  }

  /** The server running one update per element of `inputs`, collecting the outputs. */
  function Run(s: GameState, inputs: seq<UpdateInput<int, ()>>): (r: (GameState, seq<UpdateOutput>))
    requires s.Valid()
    ensures r.0.Valid() && r.0.totalFrames == s.totalFrames && |r.1| == |inputs|
    decreases |inputs|
  {
    if |inputs| == 0 then (s, [])
    else
      var (before, outputs) := Run(s, inputs[..|inputs| - 1]);
      var (after, output) := Update(before, inputs[|inputs| - 1]);
      (after, outputs + [output])
  }

  /** Over a run the frame advances by the number of updates; update j stops exactly at Frame + j + 1 == TotalFrames. */
  lemma {:induction false} RunCountsFrames(s: GameState, inputs: seq<UpdateInput<int, ()>>)
    requires s.Valid() && IsInt64(s.frame + |inputs|)
    ensures var r := Run(s, inputs);
      r.0.frame == s.frame + |inputs| &&
      forall j :: 0 <= j < |inputs| ==> (r.1[j].shallStop <==> s.frame + j + 1 == s.totalFrames)
    decreases |inputs|
  {
    if |inputs| > 0 {
      RunCountsFrames(s, inputs[..|inputs| - 1]);
    }
  }

  /**
   * How long each game runs when TotalFrames is T >= 0: from a fresh InputReceive state the
   * first stopping update is the (T + 1)-th, from a fresh InputReceiveTest state the T-th.
   */
  lemma StopsAfter(totalFrames: int, inputs: seq<UpdateInput<int, ()>>, j: int)
    requires 0 <= totalFrames <= INT32_MAX && 0 <= j < |inputs| <= INT32_MAX
    ensures Run(InitReceive(totalFrames), inputs).1[j].shallStop <==> j == totalFrames
    ensures Run(InitReceiveTest(totalFrames), inputs).1[j].shallStop <==> j + 1 == totalFrames
  {
    RunCountsFrames(InitReceive(totalFrames), inputs);
    RunCountsFrames(InitReceiveTest(totalFrames), inputs);
  }
}

/**
 * The prediction tester game (src/Tester/Prediction/Game.cs): it counts frames and remembers
 * the last positive number the first client entry carried. The client input is that number
 * (MyNumber, -1 by default); the server input carries nothing.
 */
module PredictionGame {
  import opened IntWidths
  import opened GameTypes

  datatype GameState = GameState(frame: int, myNumber: int)
  {
    predicate Valid()
    {
      IsInt64(frame) && IsInt32(myNumber)
    }
  }

  /** A fresh state: Frame = -1 and MyNumber = 0. */
  const INIT: GameState := GameState(-1, 0)

  /** Whether an update's first entry sets MyNumber: it exists, is not terminated and is positive. */
  predicate Chooses(infos: seq<ClientInfo<int>>)
  {
    |infos| > 0 && !infos[0].terminated && infos[0].input > 0
  }

  /**
   * Update: the frame always advances, early returns included. Without entries the output is
   * Empty; a terminated first entry stops the game; otherwise a positive first input becomes
   * MyNumber.
   */
  function Update(s: GameState, input: UpdateInput<int, ()>): (r: (GameState, UpdateOutput))
    requires s.Valid() && forall k :: 0 <= k < |input.clientInput| ==> IsInt32(input.clientInput[k].input)
    ensures r.0.Valid() && r.0.frame == Wrap64(s.frame + 1)
    ensures |input.clientInput| == 0 ==> r.1 == EMPTY_OUTPUT
    ensures r.1.clientsToTerminate.None? && (r.1.shallStop <==> |input.clientInput| > 0 && input.clientInput[0].terminated)
    ensures r.0.myNumber == (if Chooses(input.clientInput) then input.clientInput[0].input else s.myNumber)
  {
    var frame := Wrap64(s.frame + 1);
    var infos := input.clientInput;
    if |infos| == 0 then (s.(frame := frame), EMPTY_OUTPUT)
    else if infos[0].terminated then (s.(frame := frame), TERMINATE_OUTPUT)
    else if infos[0].input > 0 then (GameState(frame, infos[0].input), EMPTY_OUTPUT)
    else (s.(frame := frame), EMPTY_OUTPUT)
  }

  predicate InputsValid(inputs: seq<UpdateInput<int, ()>>)
  {
    forall j, k :: 0 <= j < |inputs| && 0 <= k < |inputs[j].clientInput| ==> IsInt32(inputs[j].clientInput[k].input)
  }

  /** The state after one update per element of `inputs`. */
  function Run(s: GameState, inputs: seq<UpdateInput<int, ()>>): (r: GameState)
    requires s.Valid() && InputsValid(inputs)
    ensures r.Valid()
    decreases |inputs|
  {
    if |inputs| == 0 then s
    else
      var init := inputs[..|inputs| - 1];
      assert InputsValid(init) by {
        forall j, k | 0 <= j < |init| && 0 <= k < |init[j].clientInput|
          ensures IsInt32(init[j].clientInput[k].input)
        {
          assert init[j] == inputs[j];
        }
      }
      Update(Run(s, init), inputs[|inputs| - 1]).0
  }

  /**
   * Over a run: the frame advances by the number of updates, and MyNumber is the first input
   * of the last choosing update, or the starting one when no update chooses.
   */
  lemma {:induction false} RunRemembersLastChoice(s: GameState, inputs: seq<UpdateInput<int, ()>>)
    requires s.Valid() && InputsValid(inputs) && IsInt64(s.frame + |inputs|)
    ensures Run(s, inputs).frame == s.frame + |inputs|
    ensures (forall j :: 0 <= j < |inputs| ==> !Chooses(inputs[j].clientInput)) ==> Run(s, inputs).myNumber == s.myNumber
    ensures forall j :: (0 <= j < |inputs| && Chooses(inputs[j].clientInput) &&
                         (forall k :: j < k < |inputs| ==> !Chooses(inputs[k].clientInput))) ==>
                          Run(s, inputs).myNumber == inputs[j].clientInput[0].input
    decreases |inputs|
  {
    if |inputs| > 0 {
      var init := inputs[..|inputs| - 1];
      assert InputsValid(init) by {
        forall j, k | 0 <= j < |init| && 0 <= k < |init[j].clientInput|
          ensures IsInt32(init[j].clientInput[k].input)
        {
          assert init[j] == inputs[j];
        }
      }
      RunRemembersLastChoice(s, init);
      forall j | 0 <= j < |init|
        ensures init[j] == inputs[j]
      {
      }
    }
  }
}

=== FILE: transport_client_dispatcher.dfy ===
/**
 * The later revision of DefaultClientDispatcher (src/DefaultTransport/Dispatcher/DefaultClientDispatcher.cs).
 * The framing is that of ClientDispatcher except in two fields: the initialization message carries
 * an int client id, and the authorize message carries the delay as the bits of a float, read as an
 * int. OnStart is gone; OnInitialize carries the id, and OnSetDelay the frame.
 *
 * The server of this revision is not part of this model, so its header lengths are the sums of the
 * fields the handlers read: [id:int][frame:long], [frame:long][delay:int] and
 * [frame:long][checksum:long?]. Input structs and SendInput are unchanged from the earlier
 * revision and are ClientDispatcher.ConstructInput and ClientDispatcher.SendInput.
 */
module TransportClientDispatcher {
  import opened Wrappers
  import opened IntWidths
  import opened Bits
  import opened Protocol
  import PacketAggregator
  import ClientDispatcher

  /** [id:int][frame:long] */
  const INITIALIZE_HEADER: nat := INT_SIZE + LONG_SIZE
  /** [frame:long][delay as float bits:int] */
  const INPUT_AUTHORED_HEADER: nat := LONG_SIZE + INT_SIZE
  /** [frame:long][checksum:long?] */
  const AUTHORITATIVE_INPUT_HEADER: nat := LONG_SIZE + NULLABLE_LONG_SIZE

  datatype Event =
    | Initialize(id: int, frame: int, state: seq<uint8>)
    | SetDelay(frame: int, differenceBits: int)
    | AuthoritativeInput(frame: int, input: seq<uint8>, checksum: Option<int>)

  const FLOAT_MANTISSA: int := 0x80_0000
  const FLOAT_EXPONENT_ALL_ONES: int := 0xFF

  /**
   * float.IsRealNumber of BitConverter.Int32BitsToSingle(bits): every value but NaN, which is an
   * all-ones exponent with a non-zero mantissa. Infinities count as real numbers.
   */
  predicate IsRealNumber(bits: int)
  {
    var u := bits % TWO_32;
    !((u / FLOAT_MANTISSA) % 0x100 == FLOAT_EXPONENT_ALL_ONES && u % FLOAT_MANTISSA != 0)
  }

  /** The NaNs are exactly the bit patterns whose low 31 bits exceed those of positive infinity. */
  lemma IsRealNumberRange(bits: int)
    requires IsInt32(bits)
    ensures IsRealNumber(bits) <==> (bits % 0x8000_0000) <= 0x7F80_0000
  {
    var u := bits % TWO_32;
    var low := bits % 0x8000_0000;
    var b := bits / 0x8000_0000 % 2;
    DivDiv(bits, 0x8000_0000, 2);
    assert u == low + b * 0x100 * FLOAT_MANTISSA;
    ModAddMultiple(low, b * 0x100, FLOAT_MANTISSA);
    ModAddMultiple(low / FLOAT_MANTISSA, b, 0x100);
    assert (u / FLOAT_MANTISSA) % 0x100 == low / FLOAT_MANTISSA;
  }

  /** HandleServerInitialize: a message shorter than the header is dropped; otherwise OnInitialize(id, frame, state). */
  function HandleServerInitialize(message: seq<uint8>): (r: seq<Event>)
    ensures |message| < INITIALIZE_HEADER ==> r == []
    ensures |message| >= INITIALIZE_HEADER ==>
      r == [Initialize(ReadInt(message).value, ReadLong(message[INT_SIZE..]).value, message[INITIALIZE_HEADER..])]
  {
    if |message| < INITIALIZE_HEADER then []
    else
      var id := ReadInt(message).value;
      var frame := ReadLong(message[INT_SIZE..]).value;
      [Initialize(id, frame, message[INITIALIZE_HEADER..])]
  }

  /**
   * HandleServerAuthorize: a message shorter than the header is dropped; otherwise the delay is
   * forwarded with its frame, and the aggregator popped up to the frame, only when the float is a
   * real number.
   */
  function HandleServerAuthorize(d: ClientDispatcher.Dispatcher, message: seq<uint8>): (r: (ClientDispatcher.Dispatcher, seq<Event>))
    requires d.Valid()
    ensures r.0.Valid()
    ensures |message| < INPUT_AUTHORED_HEADER ==> r == (d, [])
    ensures |message| >= INPUT_AUTHORED_HEADER ==>
      var frame := ReadLong(message).value;
      var bits := ReadInt(message[LONG_SIZE..]).value;
      r == if IsRealNumber(bits) then (ClientDispatcher.Dispatcher(PacketAggregator.Pop(d.aggregator, frame)), [SetDelay(frame, bits)]) else (d, [])
  {
    if |message| < INPUT_AUTHORED_HEADER then (d, [])
    else
      var frame := ReadLong(message).value;
      var bits := ReadInt(message[LONG_SIZE..]).value;
      if IsRealNumber(bits) then (ClientDispatcher.Dispatcher(PacketAggregator.Pop(d.aggregator, frame)), [SetDelay(frame, bits)])
      else (d, [])
  }

  /** HandleServerAuthInput: a message shorter than the header is dropped; otherwise OnAuthoritativeInput, then the aggregator is popped up to the frame. */
  function HandleServerAuthInput(d: ClientDispatcher.Dispatcher, message: seq<uint8>): (r: (ClientDispatcher.Dispatcher, seq<Event>))
    requires d.Valid()
    ensures r.0.Valid()
    ensures |message| < AUTHORITATIVE_INPUT_HEADER ==> r == (d, [])
    ensures |message| >= AUTHORITATIVE_INPUT_HEADER ==>
      var frame := ReadLong(message).value;
      r == (ClientDispatcher.Dispatcher(PacketAggregator.Pop(d.aggregator, frame)),
            [AuthoritativeInput(frame, message[AUTHORITATIVE_INPUT_HEADER..], ReadNullableLong(message[LONG_SIZE..]).value)])
  {
    if |message| < AUTHORITATIVE_INPUT_HEADER then (d, [])
    else
      var frame := ReadLong(message).value;
      var checksum := ReadNullableLong(message[LONG_SIZE..]).value;
      (ClientDispatcher.Dispatcher(PacketAggregator.Pop(d.aggregator, frame)), [AuthoritativeInput(frame, message[AUTHORITATIVE_INPUT_HEADER..], checksum)])
  }

  /** HandleMessage: empty, ClientInput-typed and unknown-typed messages are dropped and raise nothing. */
  function HandleMessage(d: ClientDispatcher.Dispatcher, message: seq<uint8>): (r: (ClientDispatcher.Dispatcher, seq<Event>))
    requires d.Valid()
    ensures r.0.Valid()
    ensures |message| == 0 ==> r == (d, [])
    ensures |message| > 0 && TypeOf(message[0]) !in {Some(ServerInitialize), Some(ServerAuthorize), Some(ServerAuthInput)} ==> r == (d, [])
    ensures |message| > 0 && TypeOf(message[0]) == Some(ServerInitialize) ==> r == (d, HandleServerInitialize(message[1..]))
    ensures |message| > 0 && TypeOf(message[0]) == Some(ServerAuthorize) ==> r == HandleServerAuthorize(d, message[1..])
    ensures |message| > 0 && TypeOf(message[0]) == Some(ServerAuthInput) ==> r == HandleServerAuthInput(d, message[1..])
  {
    if |message| == 0 then (d, [])
    else
      match TypeOf(message[0])
      case Some(ServerInitialize) => (d, HandleServerInitialize(message[1..]))
      case Some(ServerAuthorize) => HandleServerAuthorize(d, message[1..])
      case Some(ServerAuthInput) => HandleServerAuthInput(d, message[1..])
      case _ => (d, [])
  }

  // ---------------------------------------------------------------------------------------
  // The layouts the handlers expect, and that they decode them back.

  /** `[ServerInitialize][id:int][frame:long][state]` */
  function InitializeMessage(id: int, frame: int, state: seq<uint8>): (r: seq<uint8>)
    requires IsInt32(id) && IsInt64(frame)
    ensures |r| == 1 + INITIALIZE_HEADER + |state|
  {
    [Code(ServerInitialize)] + Encode(id, INT_SIZE) + Encode(frame, LONG_SIZE) + state
  }

  /** `[ServerAuthorize][frame:long][delay bits:int]` */
  function AuthorizeMessage(frame: int, differenceBits: int): (r: seq<uint8>)
    requires IsInt64(frame) && IsInt32(differenceBits)
    ensures |r| == 1 + INPUT_AUTHORED_HEADER
  {
    [Code(ServerAuthorize)] + Encode(frame, LONG_SIZE) + Encode(differenceBits, INT_SIZE)
  }

  /** `[ServerAuthInput][frame:long][checksum:long?][input]` */
  function AuthInputMessage(frame: int, checksum: Option<int>, input: seq<uint8>): (r: seq<uint8>)
    requires IsInt64(frame) && (checksum.Some? ==> IsInt64(checksum.value))
    ensures |r| == 1 + AUTHORITATIVE_INPUT_HEADER + |input|
  {
    [Code(ServerAuthInput)] + Encode(frame, LONG_SIZE) + EncodeNullableLong(checksum) + input
  }

  /** An initialization message raises exactly OnInitialize with its id, frame and state, and leaves the aggregator alone. */
  lemma InitializeRoundTrip(d: ClientDispatcher.Dispatcher, id: int, frame: int, state: seq<uint8>)
    requires d.Valid() && IsInt32(id) && IsInt64(frame)
    ensures HandleMessage(d, InitializeMessage(id, frame, state)) == (d, [Initialize(id, frame, state)])
  {
    var body := InitializeMessage(id, frame, state)[1..];
    assert body == Encode(id, INT_SIZE) + (Encode(frame, LONG_SIZE) + state);
    ReadIntPrefix(id, Encode(frame, LONG_SIZE) + state);
    assert body[INT_SIZE..] == Encode(frame, LONG_SIZE) + state;
    ReadLongPrefix(frame, state);
    assert body[INITIALIZE_HEADER..] == state;
    TypeOfCode(ServerInitialize);
  }

  /** An authorize message forwards (frame, delay bits), and pops the aggregator, exactly when the bits are a real float. */
  lemma AuthorizeRoundTrip(d: ClientDispatcher.Dispatcher, frame: int, differenceBits: int)
    requires d.Valid() && IsInt64(frame) && IsInt32(differenceBits)
    ensures HandleMessage(d, AuthorizeMessage(frame, differenceBits)) ==
      if IsRealNumber(differenceBits) then (ClientDispatcher.Dispatcher(PacketAggregator.Pop(d.aggregator, frame)), [SetDelay(frame, differenceBits)])
      else (d, [])
  {
    var body := AuthorizeMessage(frame, differenceBits)[1..];
    assert body == Encode(frame, LONG_SIZE) + Encode(differenceBits, INT_SIZE);
    ReadLongPrefix(frame, Encode(differenceBits, INT_SIZE));
    assert body[LONG_SIZE..] == Encode(differenceBits, INT_SIZE) + [];
    ReadIntPrefix(differenceBits, []);
    TypeOfCode(ServerAuthorize);
  }

  /** An auth-input message yields (frame, input, checksum) and always pops the aggregator up to the frame. */
  lemma AuthInputRoundTrip(d: ClientDispatcher.Dispatcher, frame: int, checksum: Option<int>, input: seq<uint8>)
    requires d.Valid() && IsInt64(frame) && (checksum.Some? ==> IsInt64(checksum.value))
    ensures HandleMessage(d, AuthInputMessage(frame, checksum, input)) ==
      (ClientDispatcher.Dispatcher(PacketAggregator.Pop(d.aggregator, frame)), [AuthoritativeInput(frame, input, checksum)])
  {
    var body := AuthInputMessage(frame, checksum, input)[1..];
    assert body == Encode(frame, LONG_SIZE) + (EncodeNullableLong(checksum) + input);
    ReadLongPrefix(frame, EncodeNullableLong(checksum) + input);
    assert body[LONG_SIZE..] == EncodeNullableLong(checksum) + input;
    ReadNullableLongPrefix(checksum, input);
    assert body[AUTHORITATIVE_INPUT_HEADER..] == input;
    TypeOfCode(ServerAuthInput);
  }
}

=== FILE: update_input_predictor.dfy ===
/**
 * UpdateInputPredictor (src/GameNewt/Rollback/UpdateInputPredictor.cs, and the earlier revision
 * src/Core/Rollback/UpdateInputPredictor.cs): fills an update input with predictions before the
 * prediction simulation runs it. The local client's entries get the local input; every other
 * entry, terminated ones included, is passed once through the game's client-input predictor, and
 * the server input through the server-input predictor. The predictors, which the source takes by
 * `ref`, are functions from the old input to the predicted one.
 */
module UpdateInputPredictor {
  import opened GameTypes

  datatype Predictor<!C, !Sv, !G> = Predictor(predictClient: C -> C, predictServer: (Sv, G) -> Sv, localId: int)

  /** The constructor of the later revision takes the local id. */
  function Create<C, Sv, G>(predictClient: C -> C, predictServer: (Sv, G) -> Sv, localId: int): (p: Predictor<C, Sv, G>)
    ensures p.localId == localId && p.predictClient == predictClient && p.predictServer == predictServer
  {
    Predictor(predictClient, predictServer, localId)
  }

  /** The earlier revision's LocalId setter: changes the local id and nothing else. */
  function SetLocalId<C, Sv, G>(p: Predictor<C, Sv, G>, localId: int): (r: Predictor<C, Sv, G>)
    ensures r.localId == localId && r.predictClient == p.predictClient && r.predictServer == p.predictServer
  {
    p.(localId := localId)
  }

  /** The prediction of one entry: the local input for the local client, the predictor's guess for everyone else. */
  function PredictEntry<C>(info: ClientInfo<C>, localInput: C, localId: int, predictClient: C -> C): ClientInfo<C>
  {
    info.(input := if info.id == localId then localInput else predictClient(info.input))
  }

  /** Every entry predicted in place: same ids, same order, same terminated flags. */
  function PredictAll<C>(inputs: seq<ClientInfo<C>>, localInput: C, localId: int, predictClient: C -> C): (r: seq<ClientInfo<C>>)
    ensures |r| == |inputs| && Ids(r) == Ids(inputs)
    ensures forall k :: 0 <= k < |r| ==> r[k].terminated == inputs[k].terminated
  {
    seq(|inputs|, k requires 0 <= k < |inputs| => PredictEntry(inputs[k], localInput, localId, predictClient))
  }

  /** PredictClientInputs: the loop over the entries, one in-place prediction per index. */
  method PredictClientInputs<C>(inputs: seq<ClientInfo<C>>, localInput: C, localId: int, predictClient: C -> C) returns (r: seq<ClientInfo<C>>)
    ensures r == PredictAll(inputs, localInput, localId, predictClient)
  {
    r := inputs;
    var i := 0;
    while i < |r|
      invariant 0 <= i <= |r| == |inputs|
      invariant forall k :: 0 <= k < i ==> r[k] == PredictEntry(inputs[k], localInput, localId, predictClient)
      invariant forall k :: i <= k < |r| ==> r[k] == inputs[k]
    {
      var info := r[i];
      if info.id == localId {
        r := r[i := info.(input := localInput)];
      } else {
        r := r[i := info.(input := predictClient(info.input))];
      }
      i := i + 1;
    }
  }

  /** Predict: the client entries as PredictClientInputs leaves them, and the server predictor applied to the server input and the state. */
  method Predict<C, Sv, G>(p: Predictor<C, Sv, G>, input: UpdateInput<C, Sv>, localInput: C, state: G) returns (r: UpdateInput<C, Sv>)
    ensures r.clientInput == PredictAll(input.clientInput, localInput, p.localId, p.predictClient)
    ensures r.serverInput == p.predictServer(input.serverInput, state)
  {
    var clients := PredictClientInputs(input.clientInput, localInput, p.localId, p.predictClient);
    r := UpdateInput(clients, p.predictServer(input.serverInput, state));
  }

  /**
   * Entry by entry: the local client's entries hold the local input, every other entry holds the
   * predictor applied exactly once to its old input; ids and flags never change.
   */
  lemma PredictAllEntries<C>(inputs: seq<ClientInfo<C>>, localInput: C, localId: int, predictClient: C -> C)
    ensures var r := PredictAll(inputs, localInput, localId, predictClient);
      forall k :: 0 <= k < |inputs| ==>
        r[k].id == inputs[k].id &&
        (inputs[k].id == localId ==> r[k].input == localInput) &&
        (inputs[k].id != localId ==> r[k].input == predictClient(inputs[k].input))
  {
    var r := PredictAll(inputs, localInput, localId, predictClient);
    forall k | 0 <= k < |inputs|
      ensures r[k].id == inputs[k].id
    {
      assert Ids(r)[k] == Ids(inputs)[k];
    }
  }

  /** The client's default predictors keep inputs as they are. */
  function KeepClientInput<C>(input: C): C { input }

  function KeepServerInput<Sv, G>(input: Sv, state: G): Sv { input }

  /**
   * With the default predictors only the local client's entries change, and the server input is
   * left alone.
   */
  lemma DefaultPredictionChangesOnlyLocal<C, Sv, G>(localId: int, input: UpdateInput<C, Sv>, localInput: C, state: G)
    ensures var p := Create(KeepClientInput, KeepServerInput, localId);
      var clients := PredictAll(input.clientInput, localInput, p.localId, p.predictClient);
      p.predictServer(input.serverInput, state) == input.serverInput &&
      forall k :: 0 <= k < |clients| && input.clientInput[k].id != localId ==> clients[k] == input.clientInput[k]
  {
  }

  /**
   * With the default client predictor, predicting an already predicted input again changes
   * nothing, whatever the local input was.
   */
  lemma DefaultPredictionIdempotent<C>(inputs: seq<ClientInfo<C>>, localInput: C, localId: int)
    ensures var once := PredictAll(inputs, localInput, localId, KeepClientInput);
      PredictAll(once, localInput, localId, KeepClientInput) == once
  {
  }
}

=== FILE: update_input_queue.dfy ===
/**
 * UpdateInputQueue<TInput> (src/Core/DataStructures/UpdateInputQueue.cs): reorders the
 * authoritative inputs arriving from the server so that the client consumes frames
 * currentFrame, currentFrame + 1, ... without skipping one.
 *
 * `inputs` is the priority queue keyed by frame and `heldFrames` the set guarding it against
 * duplicates. GetNextInputAsync is split into its synchronous part, TryTake, and the
 * continuation after the await, Resume. `waiting` is the flag of the same name and
 * `signalled` records that the pending wait's completion source has been completed.
 */
module UpdateInputQueue {
  import opened Wrappers

  datatype Queue<I> = Queue(
    currentFrame: int,
    inputs: map<int, I>,
    heldFrames: set<int>,
    stopped: bool,
    waiting: bool,
    signalled: bool)
  {
    /** The guard set mirrors the queue, and nothing older than the current frame is held. */
    ghost predicate Valid()
    {
      heldFrames == inputs.Keys && forall f :: f in inputs ==> f >= currentFrame
    }

    /** A new queue: CurrentFrame = 0, nothing held, neither stopped nor waiting. */
    static function Create(): (q: Queue<I>)
      ensures q.Valid() && q.currentFrame == 0 && q.inputs == map[] && !q.stopped && !q.waiting
    {
      Queue(0, map[], {}, false, false, false)
    }
  }

  /** The smallest element of a non-empty set. */
  function MinOf(s: set<int>): (m: int)
    requires s != {}
    ensures m in s && forall y :: y in s ==> m <= y
  {
    MinExists(s);
    var m :| m in s && forall y :: y in s ==> m <= y;
    m
  }

  /** A non-empty set has an element. */
  lemma NonEmptyHasElement(s: set<int>)
    requires s != {}
    ensures exists x :: x in s
  {
    if forall x :: x !in s {
      assert false;
    }
  }

  lemma {:induction false} MinExists(s: set<int>)
    requires s != {}
    ensures exists m :: m in s && forall y :: y in s ==> m <= y
    decreases |s|
  {
    NonEmptyHasElement(s);
    var x :| x in s;
    if s != {x} {
      MinExists(s - {x});
      var m' :| m' in s - {x} && forall y :: y in s - {x} ==> m' <= y;
      var m := if x < m' then x else m';
      forall y | y in s ensures m <= y {
        if y != x { assert y in s - {x}; }
      }
    } else {
      assert forall y :: y in s ==> x <= y;
    }
  }

  /** Peeking the smallest held frame finds the current frame exactly when it is held. */
  lemma PeekIsCurrent<I>(q: Queue<I>)
    requires q.Valid()
    ensures q.currentFrame in q.inputs <==> q.inputs != map[] && MinOf(q.inputs.Keys) == q.currentFrame
  {
  }

  /** TrySetResult on the pending completion source: only a wait in progress is woken. */
  function Wake<I>(q: Queue<I>): (r: Queue<I>)
    ensures r == q.(signalled := q.signalled || q.waiting)
  {
    if q.waiting then q.(signalled := true) else q
  }

  /** The frames left after discarding those below `value`. */
  function Discard<I>(inputs: map<int, I>, value: int): (r: map<int, I>)
    ensures forall f :: f in r <==> f in inputs && f >= value
    ensures forall f :: f in r ==> r[f] == inputs[f]
  {
    map f | f in inputs && f >= value :: inputs[f]
  }

  /**
   * The CurrentFrame setter as written: after discarding older frames, the waiter is woken when
   * the peeked frame equals the new value. An empty queue leaves the peeked frame at its default, 0.
   */
  function SetCurrentFrameAsWritten<I>(q: Queue<I>, value: int): (r: Queue<I>)
    requires q.Valid()
    ensures r.Valid() && r.currentFrame == value
    ensures forall f :: f in r.inputs <==> f in q.inputs && f >= value
    ensures forall f :: f in r.inputs ==> r.inputs[f] == q.inputs[f]
    ensures r.stopped == q.stopped && r.waiting == q.waiting
    ensures r.signalled <==>
      q.signalled || (q.waiting && (value in q.inputs || (value == 0 && forall f :: f in q.inputs ==> f < 0)))
  {
    var kept := Discard(q.inputs, value);
    var q1 := q.(currentFrame := value, inputs := kept, heldFrames := kept.Keys);
    var peeked := if kept != map[] then MinOf(kept.Keys) else 0;
    if peeked == value then Wake(q1) else q1
  }

  /** The CurrentFrame setter waking the waiter only when the input for the new current frame is held. */
  function SetCurrentFrame<I>(q: Queue<I>, value: int): (r: Queue<I>)
    requires q.Valid()
    ensures r.Valid() && r.currentFrame == value
    ensures forall f :: f in r.inputs <==> f in q.inputs && f >= value
    ensures forall f :: f in r.inputs ==> r.inputs[f] == q.inputs[f]
    ensures r.signalled <==> q.signalled || (q.waiting && value in q.inputs)
    ensures r.stopped == q.stopped && r.waiting == q.waiting
  {
    var kept := Discard(q.inputs, value);
    var q1 := q.(currentFrame := value, inputs := kept, heldFrames := kept.Keys);
    if value in kept then Wake(q1) else q1
  }

  /**
   * The two setters differ in exactly one situation: a waiter is pending, the new value is 0 and
   * no input at or after frame 0 is held, so the as-written peek's default 0 matches the value.
   */
  lemma {:induction false} SettersDifferOnlyOnEmptyZero<I>(q: Queue<I>, value: int)
    requires q.Valid()
    ensures SetCurrentFrameAsWritten(q, value) != SetCurrentFrame(q, value) <==>
      value == 0 && q.waiting && !q.signalled && forall f :: f in q.inputs ==> f < 0
  {
    var w := SetCurrentFrameAsWritten(q, value);
    var c := SetCurrentFrame(q, value);
    assert w.inputs == c.inputs;
    assert w == c.(signalled := w.signalled);
  }

  /** AddInput: ignored after Stop, below the current frame and for frames already held. */
  function AddInput<I>(q: Queue<I>, frame: int, input: I): (r: Queue<I>)
    requires q.Valid()
    ensures r.Valid() && r.currentFrame == q.currentFrame && r.stopped == q.stopped && r.waiting == q.waiting
    ensures q.stopped || frame < q.currentFrame ==> r == q
    ensures !q.stopped && frame >= q.currentFrame ==>
      r.inputs == (if frame in q.inputs then q.inputs else q.inputs[frame := input])
    ensures r.signalled && !q.signalled ==> frame == q.currentFrame && frame in r.inputs
  {
    if q.stopped then q
    else if frame < q.currentFrame then q
    else
      var q1 := if frame !in q.heldFrames then q.(inputs := q.inputs[frame := input], heldFrames := q.heldFrames + {frame}) else q;
      if frame == q.currentFrame then Wake(q1) else q1
  }

  /** Stop: no further inputs are accepted and a pending wait is cancelled. */
  function Stop<I>(q: Queue<I>): (r: Queue<I>)
    ensures r.stopped && r.inputs == q.inputs && r.currentFrame == q.currentFrame
    ensures q.Valid() ==> r.Valid()
  {
    Wake(q.(stopped := true))
  }

  /**
   * The synchronous part of GetNextInputAsync: throws after Stop or while another wait is
   * pending; yields the input of exactly the current frame and moves to the next frame; otherwise
   * begins to wait (None).
   */
  function TryTake<I>(q: Queue<I>): (r: (Queue<I>, Outcome<Option<I>>))
    requires q.Valid()
    ensures r.0.Valid()
    ensures q.stopped ==> r.1 == Throws(OperationCanceledException) && r.0 == q
    ensures !q.stopped && q.waiting ==> r.1 == Throws(InvalidOperationException) && r.0 == q
    ensures r.1 == Ok(None) <==> !q.stopped && !q.waiting && q.currentFrame !in q.inputs
    ensures r.1 == Ok(None) ==> r.0 == q.(waiting := true, signalled := false)
    ensures r.1.Ok? && r.1.value.Some? ==>
      q.currentFrame in q.inputs && r.1.value.value == q.inputs[q.currentFrame] &&
      r.0.currentFrame == q.currentFrame + 1 && r.0.inputs == q.inputs - {q.currentFrame}
  {
    if q.stopped then (q, Throws(OperationCanceledException))
    else if q.waiting then (q, Throws(InvalidOperationException))
    else
      PeekIsCurrent(q);
      if q.inputs != map[] && MinOf(q.inputs.Keys) == q.currentFrame then
        var f := q.currentFrame;
        (q.(inputs := q.inputs - {f}, heldFrames := q.heldFrames - {f}, currentFrame := f + 1), Ok(Some(q.inputs[f])))
      else
        (q.(waiting := true, signalled := false), Ok(None))
  }

  /**
   * The continuation after the await: throws if stopped; otherwise forgets the current frame,
   * moves to the next one and dequeues the smallest held frame, which throws on an empty queue.
   */
  function Resume<I>(q: Queue<I>): (r: (Queue<I>, Outcome<I>))
    requires q.waiting && q.signalled
    ensures q.stopped ==> r.1 == Throws(OperationCanceledException)
    ensures !q.stopped && q.inputs == map[] ==> r.1 == Throws(InvalidOperationException)
    ensures q.Valid() && !q.stopped && q.currentFrame in q.inputs ==>
      r.0.Valid() && r.1 == Ok(q.inputs[q.currentFrame]) && !r.0.waiting &&
      r.0.currentFrame == q.currentFrame + 1 && r.0.inputs == q.inputs - {q.currentFrame}
  {
    if q.stopped then (q, Throws(OperationCanceledException))
    else
      var q1 := q.(waiting := false, heldFrames := q.heldFrames - {q.currentFrame}, currentFrame := q.currentFrame + 1);
      if q.inputs == map[] then (q1, Throws(InvalidOperationException))
      else
        var f := MinOf(q.inputs.Keys);
        (q1.(inputs := q.inputs - {f}), Ok(q.inputs[f]))
  }

  /**
   * The discrepancy as written: a client waiting on an empty queue is woken by setting the
   * current frame to 0, and its continuation then dequeues from the empty queue and throws.
   */
  lemma SetCurrentFrameZeroWakesOnEmptyQueue()
    ensures var waiting := TryTake<int>(Queue(5, map[], {}, false, false, false)).0;
      var woken := SetCurrentFrameAsWritten(waiting, 0);
      woken.waiting && woken.signalled && Resume(woken).1 == Throws(InvalidOperationException)
  {
    var q: Queue<int> := Queue(5, map[], {}, false, false, false);
    assert TryTake(q).0 == q.(waiting := true, signalled := false);
  }

  /** With the corrected setter, a wake-up it causes always finds the input for the current frame. */
  lemma SetCurrentFrameWakeFindsInput<I>(q: Queue<I>, value: int)
    requires q.Valid() && q.waiting && !q.signalled && !q.stopped
    requires SetCurrentFrame(q, value).signalled
    ensures Resume(SetCurrentFrame(q, value)).1 == Ok(q.inputs[value])
    ensures Resume(SetCurrentFrame(q, value)).0.currentFrame == value + 1
  {
  }

  /** An AddInput that wakes a waiter supplies exactly the input the continuation returns. */
  lemma AddInputWakeDeliversInput<I>(q: Queue<I>, input: I)
    requires q.Valid() && q.waiting && !q.signalled && !q.stopped && q.currentFrame !in q.inputs
    ensures AddInput(q, q.currentFrame, input).signalled
    ensures Resume(AddInput(q, q.currentFrame, input)).1 == Ok(input)
  {
  }

  /** Inputs are consumed in frame order with no gap: two takes in a row yield frames c and c + 1. */
  lemma TakesAreConsecutive<I>(q: Queue<I>)
    requires q.Valid() && !q.stopped && !q.waiting
    requires q.currentFrame in q.inputs && q.currentFrame + 1 in q.inputs
    ensures var (q1, a) := TryTake(q);
      var (q2, b) := TryTake(q1);
      a == Ok(Some(q.inputs[q.currentFrame])) && b == Ok(Some(q.inputs[q.currentFrame + 1])) &&
      q2.currentFrame == q.currentFrame + 2
  {
  }
}

=== FILE: vec2.dfy ===
/**
 * Vec2 (src/Useful/Vec2.cs) over Fixed, the only field the modelled code instantiates it with
 * (the TopDownShooter players). Every operator works component by component through the
 * corresponding Fixed operator, so it inherits Fixed's wrap-around and, for products, the
 * operator * as written (FixedPoint.MulAsWritten), one unit short when the low halves' product
 * reaches 2^63.
 */
module Vec2 {
  import opened Wrappers
  import opened FixedPoint

  datatype Vec = Vec(x: Fixed, y: Fixed)
  {
    predicate Valid() { x.Valid() && y.Valid() }
  }

  const ZERO: Vec := Vec(ADDITIVE_IDENTITY, ADDITIVE_IDENTITY)

  function Add(a: Vec, b: Vec): (r: Vec)
    ensures r.Valid() && r.x == FixedPoint.Add(a.x, b.x) && r.y == FixedPoint.Add(a.y, b.y)
  {
    Vec(FixedPoint.Add(a.x, b.x), FixedPoint.Add(a.y, b.y))
  }

  function Sub(a: Vec, b: Vec): (r: Vec)
    ensures r.Valid() && r.x == FixedPoint.Sub(a.x, b.x) && r.y == FixedPoint.Sub(a.y, b.y)
  {
    Vec(FixedPoint.Sub(a.x, b.x), FixedPoint.Sub(a.y, b.y))
  }

  function Neg(a: Vec): (r: Vec)
    requires a.Valid()
    ensures r.Valid() && r.x == FixedPoint.Neg(a.x) && r.y == FixedPoint.Neg(a.y)
  {
    Vec(FixedPoint.Neg(a.x), FixedPoint.Neg(a.y))
  }

  /** Unary plus applies Fixed's unary plus to each component, which is the identity. */
  function Plus(a: Vec): (r: Vec)
    ensures r == a
  {
    Vec(FixedPoint.Plus(a.x), FixedPoint.Plus(a.y))
  }

  /** v * s: each component times the scalar. */
  function Scale(v: Vec, s: Fixed): (r: Vec)
    ensures r.Valid() && r.x == MulAsWritten(v.x, s) && r.y == MulAsWritten(v.y, s)
  {
    Vec(MulAsWritten(v.x, s), MulAsWritten(v.y, s))
  }

  /** s * v is defined as v * s. */
  function ScaleLeft(s: Fixed, v: Vec): (r: Vec)
    ensures r == Scale(v, s)
  {
    Scale(v, s)
  }

  /** v / s divides each component, and Fixed division always throws. */
  function DivScalar(v: Vec, s: Fixed): (r: Outcome<Vec>)
    ensures r == Throws(NotImplementedException)
  {
    match (FixedPoint.Div(v.x, s), FixedPoint.Div(v.y, s))
    case (Throws(e), _) => Throws(e)
    case (_, Throws(e)) => Throws(e)
    case (Ok(x), Ok(y)) => Ok(Vec(x, y))
  }

  function Dot(a: Vec, b: Vec): (r: Fixed)
    ensures r.Valid()
  {
    FixedPoint.Add(MulAsWritten(a.x, b.x), MulAsWritten(a.y, b.y))
  }

  function SquaredMagnitude(v: Vec): (r: Fixed)
    ensures r.Valid()
  {
    FixedPoint.Add(MulAsWritten(v.x, v.x), MulAsWritten(v.y, v.y))
  }

  /**
   * Project: Dot(subspace) / subspace.SquaredMagnitude * subspace. The division comes first,
   * so over Fixed it throws for every subspace, zero or not.
   */
  function Project(v: Vec, subspace: Vec): (r: Outcome<Vec>)
    ensures r == Throws(NotImplementedException)
  {
    match FixedPoint.Div(Dot(v, subspace), SquaredMagnitude(subspace))
    case Throws(e) => Throws(e)
    case Ok(scale) => Ok(ScaleLeft(scale, subspace))
  }

  /** The squared magnitude is the dot product of a vector with itself. */
  lemma SquaredMagnitudeIsDot(v: Vec)
    ensures SquaredMagnitude(v) == Dot(v, v)
  {
  }

  /** The dot product is symmetric, and scalar multiplication is the same from either side and on each component. */
  lemma DotCommutes(a: Vec, b: Vec, s: Fixed)
    ensures Dot(a, b) == Dot(b, a)
    ensures ScaleLeft(s, a) == Vec(MulAsWritten(s, a.x), MulAsWritten(s, a.y))
  {
    MulAsWrittenCommutes(a.x, b.x);
    MulAsWrittenCommutes(a.y, b.y);
    MulAsWrittenCommutes(a.x, s);
    MulAsWrittenCommutes(a.y, s);
  }

  /** Subtraction undoes addition componentwise, and the zero vector is neutral. */
  lemma AddThenSub(a: Vec, b: Vec)
    requires a.Valid()
    ensures Sub(Add(a, b), b) == a
    ensures Add(a, ZERO) == a
  {
    FixedPoint.AddThenSub(a.x, b.x);
    FixedPoint.AddThenSub(a.y, b.y);
    FixedPoint.AdditiveIdentity(a.x);
    FixedPoint.AdditiveIdentity(a.y);
  }

  /** Negation is an involution and a + (-a) is the zero vector. */
  lemma NegInverse(a: Vec)
    requires a.Valid()
    ensures Neg(Neg(a)) == a && Add(a, Neg(a)) == ZERO
  {
    FixedPoint.NegNeg(a.x);
    FixedPoint.NegNeg(a.y);
    FixedPoint.AdditiveIdentity(a.x);
    FixedPoint.AdditiveIdentity(a.y);
  }

  /** Scaling by one changes nothing. */
  lemma ScaleByOne(v: Vec)
    requires v.Valid()
    ensures Scale(v, MULTIPLICATIVE_IDENTITY) == v
  {
    MulAsWrittenIdentity(v.x);
    MulAsWrittenIdentity(v.y);
  }

  /** Scaling inherits the operator as written: (0.75, 0.75) * 0.75 is (-0.4375, -0.4375). */
  lemma ScaleThreeQuarters()
    ensures var q := Fixed(3 * 0x4000_0000);
      Scale(Vec(q, q), q) == Vec(Fixed(-7 * 0x1000_0000), Fixed(-7 * 0x1000_0000))
  {
    MulAsWrittenThreeQuarters();
  }
}

=== FILE: wrappers.dfy ===
/**
 * Option and Outcome: the two ways the modelled operations report absence and failure.
 * `Outcome` stands for a .NET call that either returns a value or throws one of the
 * exception types the modelled classes raise.
 */
module Wrappers {

  /** A value that may be missing (a C# `null` or a `Try*` that returned false). */
  datatype Option<T> = None | Some(value: T)
  {
    function UnwrapOr(default: T): (r: T)
      ensures Some? ==> r == value
      ensures None? ==> r == default
    {
      match this
      case Some(v) => v
      case None => default
    }
  }

  /** The exception types thrown by the modelled source. */
  datatype Exception =
    | ArgumentException
    | ArgumentOutOfRangeException
    | IndexOutOfRangeException
    | InvalidOperationException
    | OperationCanceledException
    | NotImplementedException
    | KeyNotFoundException
    | OverflowException

  /** The result of a call that returns `value` or throws `error`. */
  datatype Outcome<T> = Ok(value: T) | Throws(error: Exception)
  {
    predicate IsFailure() { Throws? }

    function PropagateFailure<U>(): Outcome<U>
      requires Throws?
    {
      Throws(error)
    }

    function Extract(): T
      requires Ok?
    {
      value
    }
  }
}

=== FILE: writer_extensions.dfy ===
/**
 * The byte-writer extensions of src/Core/Utility/PooledBufferWriterExtensions.cs: each one asks
 * the writer for a span, encodes into it with Bits and advances past the encoding.
 */
module WriterExtensions {
  import opened Wrappers
  import opened IntWidths
  import opened Bits
  import opened BufferWriter

  /** Append the little-endian encoding of an `int`. */
  function WriteInt(w: Writer, v: int): (r: Outcome<Writer>)
    requires IsInt32(v) && w.index <= INT32_MAX
    ensures w.index + INT_SIZE > INT32_MAX && INT_SIZE > w.Free() ==> r == Throws(ArgumentOutOfRangeException)
    ensures w.index + INT_SIZE < POOL_THRESHOLD ==> r.Ok?
    ensures r.Ok? && w.Valid() ==> (
      r.value.Valid() &&
      r.value.Written() == w.Written() + Encode(v, INT_SIZE) &&
      ReadInt(r.value.Written()[w.index..]) == Ok(v))
  {
    var got :- GetSpan(w, INT_SIZE);
    var filled := Bits.WriteInt(v, got.1).value;
    var r := Advance(FillSpan(got.0, filled), INT_SIZE);
    if w.Valid() then
      WriteThenAdvanceAppends(got.0, filled, INT_SIZE);
      ReadIntWriteInt(v, got.1);
      assert filled[..INT_SIZE] == r.value.Written()[w.index..];
      assert filled[..INT_SIZE][..INT_SIZE] == filled[..INT_SIZE];
      r
    else r
  }

  /** Append the little-endian encoding of a `long`. */
  function WriteLong(w: Writer, v: int): (r: Outcome<Writer>)
    requires IsInt64(v) && w.index <= INT32_MAX
    ensures w.index + LONG_SIZE > INT32_MAX && LONG_SIZE > w.Free() ==> r == Throws(ArgumentOutOfRangeException)
    ensures w.index + LONG_SIZE < POOL_THRESHOLD ==> r.Ok?
    ensures r.Ok? && w.Valid() ==> (
      r.value.Valid() &&
      r.value.Written() == w.Written() + Encode(v, LONG_SIZE) &&
      ReadLong(r.value.Written()[w.index..]) == Ok(v))
  {
    var got :- GetSpan(w, LONG_SIZE);
    var filled := Bits.WriteLong(v, got.1).value;
    var r := Advance(FillSpan(got.0, filled), LONG_SIZE);
    if w.Valid() then
      WriteThenAdvanceAppends(got.0, filled, LONG_SIZE);
      ReadLongWriteLong(v, got.1);
      assert filled[..LONG_SIZE] == r.value.Written()[w.index..];
      assert filled[..LONG_SIZE][..LONG_SIZE] == filled[..LONG_SIZE];
      r
    else r
  }

  /** Append a nullable `long`: always NullableLongSize bytes. */
  function WriteNullableLong(w: Writer, v: Option<int>): (r: Outcome<Writer>)
    requires (v.Some? ==> IsInt64(v.value)) && w.index <= INT32_MAX
    ensures w.index + NULLABLE_LONG_SIZE > INT32_MAX && NULLABLE_LONG_SIZE > w.Free() ==> r == Throws(ArgumentOutOfRangeException)
    ensures w.index + NULLABLE_LONG_SIZE < POOL_THRESHOLD ==> r.Ok?
    ensures r.Ok? && w.Valid() ==> (
      r.value.Valid() &&
      |r.value.Written()| == |w.Written()| + NULLABLE_LONG_SIZE &&
      r.value.Written()[..w.index] == w.Written() &&
      ReadNullableLong(r.value.Written()[w.index..]) == Ok(v))
  {
    var got :- GetSpan(w, NULLABLE_LONG_SIZE);
    var filled := Bits.WriteNullableLong(v, got.1).value;
    var r := Advance(FillSpan(got.0, filled), NULLABLE_LONG_SIZE);
    if w.Valid() then
      WriteThenAdvanceAppends(got.0, filled, NULLABLE_LONG_SIZE);
      ReadNullableLongWrite(v, got.1);
      assert filled[..NULLABLE_LONG_SIZE] == r.value.Written()[w.index..];
      ReadNullableLongHead(filled);
      r
    else r
  }

  /** Reading a nullable long looks at its first nine bytes only. */
  lemma ReadNullableLongHead(span: seq<uint8>)
    requires |span| >= NULLABLE_LONG_SIZE
    ensures ReadNullableLong(span[..NULLABLE_LONG_SIZE]) == ReadNullableLong(span)
  {
    assert span[..NULLABLE_LONG_SIZE][1..] == span[1..][..LONG_SIZE];
    assert span[1..][..LONG_SIZE][..LONG_SIZE] == span[1..][..LONG_SIZE];
  }

  /** Ignore(n): reserve n bytes without writing them, leaving whatever the array held there. */
  function Ignore(w: Writer, amount: int): (r: Outcome<Writer>)
    requires w.index <= INT32_MAX && IsInt32(amount)
    ensures amount > 0 && w.index + amount > INT32_MAX && amount > w.Free() ==> r == Throws(ArgumentOutOfRangeException)
    ensures amount < 0 ==> r == Throws(ArgumentOutOfRangeException)
    ensures amount >= 0 && w.index + amount < POOL_THRESHOLD ==> r.Ok?
    ensures r.Ok? && w.Valid() ==> (
      r.value.Valid() &&
      |r.value.Written()| == |w.Written()| + amount && r.value.Written()[..w.index] == w.Written())
  {
    var got :- GetSpan(w, amount);
    Advance(got.0, amount)
  }
}
